=== FILE: README.md ===
# cotter core, modelled in Dafny

cotter is the MWA preprocessing pipeline: it reads the correlator's GPU-box
FITS files and a metafits file, flags and averages the visibilities, and
writes a MeasurementSet or UVFITS file, optionally compressed with the
Offringa storage manager. Around that I/O sit many small, exact pieces of
integer, string and index logic. This project models those pieces as pure
Dafny functions and small methods, and proves what the code promises about
them:

- the bit packers: `BytePacker` (4/6/8/12-bit symbols into bytes) and
  `FlagWriter::pack` (booleans into bytes), with their round trips;
- the parsers: GPU-box file names and the grouping of files into time and
  box slots, metafits keyword values (quoted strings, dates, integer lists,
  booleans, band suffixes), the MWA header fields, polarization names and
  polarization lists;
- the index maps: contiguous sub-band ranges, sub-band order, the PFB
  input mapping, the FFT unwrap, solution-file indexing, the UVFITS
  baseline index and row layout, the GPU correlation shuffle;
- the flag-mask rules: edge, centre, quack, missing-scan and sub-band
  flagging, and baseline selection with its row count;
- small data structures: `uvector`, the RMS table, the Gaussian encoder's
  dictionary search, the averaging writer's bookkeeping, the Offringa
  storage manager's column and row bookkeeping, the plot tick sets and the
  integer colour map;
- the Python author-list script: author and institute parsing, the
  first-appearance numbering of institutes and the output.

One Dafny file per component, one module per file. `results.dfy` holds the
`Result`/`Option` wrappers that model thrown exceptions; `text.dfy` holds
the character and arithmetic helpers shared by the parsers. Bytes are `bv8`
and C `unsigned` symbols `bv32`, so masks, shifts and truncations are
those of the source. Floating-point quantities are `real`; where the source
only moves them around, the model does the same.

## Model

| member | source | states |
|---|---|---|
| BytePacker.Pack4 | compress/bytepacker.h:158-171 | pack4 writes ceil(n/2) bytes |
| BytePacker.Unpack4 | compress/bytepacker.h:173-186 | unpack4 yields n symbols, each below 16 |
| BytePacker.Pair4RoundTrip | compress/bytepacker.h:161-167 | the low and high nibble of a packed byte give back the two symbols |
| BytePacker.Byte4RoundTrip | compress/bytepacker.h:176-182 | re-packing the two nibbles of any byte gives the byte |
| BytePacker.Unpack4Pack4 | compress/bytepacker.h:158-186 | unpack4 reverses pack4 for every sequence of symbols below 16, odd tail included |
| BytePacker.Pack4Unpack4 | compress/bytepacker.h:158-186 | pack4 of the 2n nibbles of n bytes reproduces the bytes |
| BytePacker.Unpack4Prefix | compress/bytepacker.h:173-186 | unpack4 of n symbols reads only the first ceil(n/2) bytes |
| BytePacker.Pack6Group | compress/bytepacker.h:60-77 | a full group of four 6-bit symbols takes three bytes |
| BytePacker.Pack6Tail | compress/bytepacker.h:79-106 | a tail of one to three symbols takes one byte per symbol |
| BytePacker.Pack6 | compress/bytepacker.h:57-107 | pack6 writes ceil(6n/8) bytes |
| BytePacker.Unpack6 | compress/bytepacker.h:109-156 | unpack6 yields n symbols, each below 64 |
| BytePacker.Group6RoundTrip | compress/bytepacker.h:60-77 | unpacking the three bytes of a packed group gives its four symbols |
| BytePacker.Group6Bytes | compress/bytepacker.h:112-128 | re-packing the four symbols of any three bytes gives the bytes |
| BytePacker.Tail6RoundTrip | compress/bytepacker.h:79-106 | unpack6 reverses pack6 on tails of one, two and three symbols |
| BytePacker.Unpack6Pack6 | compress/bytepacker.h:19-21 | unpack6 reverses pack6 for every sequence of symbols below 64 |
| BytePacker.Pack6Unpack6 | compress/bytepacker.h:57-156 | on whole groups, pack6 of unpack6 reproduces every byte |
| BytePacker.Unpack6Prefix | compress/bytepacker.h:109-156 | unpack6 of n symbols reads only the first ceil(6n/8) bytes |
| BytePacker.Pack8 | compress/bytepacker.h:188-192 | pack8 writes one byte per symbol, the symbol's low eight bits |
| BytePacker.Unpack8 | compress/bytepacker.h:194-198 | unpack8 symbol i is byte i |
| BytePacker.Unpack8Pack8 | compress/bytepacker.h:188-198 | unpack8 reverses pack8 for symbols below 256 |
| BytePacker.Pack8Unpack8 | compress/bytepacker.h:188-198 | pack8 reverses unpack8 on every byte sequence |
| BytePacker.Pack12 | compress/bytepacker.h:200-224 | pack12 writes three bytes per pair and two for an odd tail, ceil(12n/8) in all |
| BytePacker.Unpack12 | compress/bytepacker.h:226-248 | unpack12 yields n symbols, each below 4096 |
| BytePacker.Pair12RoundTrip | compress/bytepacker.h:203-216 | unpacking the three bytes of a packed pair gives the pair |
| BytePacker.Pair12Bytes | compress/bytepacker.h:229-241 | re-packing the pair read from any three bytes gives the bytes |
| BytePacker.Tail12RoundTrip | compress/bytepacker.h:217-223 | the two bytes of an odd tail give back the symbol |
| BytePacker.Unpack12Pack12 | compress/bytepacker.h:200-248 | unpack12 reverses pack12 for every sequence of symbols below 4096 |
| BytePacker.Pack12Unpack12 | compress/bytepacker.h:200-248 | on whole pairs, pack12 of unpack12 reproduces every byte |
| BytePacker.Unpack12Prefix | compress/bytepacker.h:226-248 | unpack12 of n symbols reads only the first ceil(12n/8) bytes |
| BytePacker.PackBytes | compress/bytepacker.h:33-43 | pack writes ceil(bits*n/8) bytes for 4, 6, 8 and 12 bits and nothing otherwise |
| BytePacker.Pack | compress/bytepacker.h:33-43 | pack leaves the destination past the packed bytes unchanged, and all of it for an unsupported bit count |
| BytePacker.UnpackSymbols | compress/bytepacker.h:45-55 | unpack yields n symbols that fit the bit count, and nothing for an unsupported one |
| BytePacker.Unpack | compress/bytepacker.h:45-55 | unpack writes only the first n symbols of the destination, and nothing for an unsupported bit count |
| BytePacker.PackThenUnpack | compress/bytepacker.h:33-55 | for every supported bit count, unpack after pack gives the symbols back |
| FlagWriter.Pack | cotter/flagwriter.cpp:155-213 | pack writes ceil(count/8) bytes |
| FlagWriter.PackByteBits | cotter/flagwriter.cpp:179-212 | bit k of a byte packed from up to eight 0/1 inputs is input k, and the bits above the inputs are zero |
| FlagWriter.PackBits | cotter/flagwriter.cpp:155-213 | for 0/1 inputs, bit k of output byte i is input 8i+k, and zero past the last input |
| FlagWriter.UnpackPack | cotter/flagwriter.cpp:155-213 | reading the bits of the packed bytes back in order gives the 0/1 inputs |
| FlagWriter.FileNames | cotter/flagwriter.cpp:26-37 | the constructor throws on zero GPU boxes or a name without "%%"; otherwise file i is the name with "%%" replaced by the two digits of its box number plus one |
| FlagWriter.FileNamesDistinct | cotter/flagwriter.cpp:32-37 | different box numbers below 99 give different file names |
| FlagWriter.SetStride | cotter/flagwriter.cpp:101-106 | setStride throws unless the channel count divides by the box count, and then gives the channels per box |
| FlagWriter.SetOffsetsPerGPUBox | cotter/flagwriter.cpp:114-119 | the offsets are stored unless rows were already added, which throws; nothing else changes |
| FlagWriter.AnyFlag | cotter/flagwriter.cpp:128-138 | a channel is flagged iff one of its polarizations is |
| FlagWriter.ChannelFlag | cotter/flagwriter.cpp:128-138 | the flag of a channel is the OR of its polarization flags in the input row |
| FlagWriter.SubbandFlags | cotter/flagwriter.cpp:126-139 | the flags of one box are, channel by channel, the OR of the polarization flags |
| FlagWriter.AsWrittenSkipsFirstRow | cotter/flagwriter.cpp:141-148 | as written, the gate never writes row 1 of a box file |
| FlagWriter.WriteGateCoversEveryRow | cotter/flagwriter.cpp:141-148 | with the intended gate, every row from 1 on is written exactly once, by the call that brings the count to that row plus the offset |
| FlagWriter.WriteGateAsWritten | cotter/flagwriter.cpp:141-148 | as written, a box file receives a row only when the row count exceeds its start by more than one, and then at row count minus start, which is at least 2 |
| FlagWriter.WriteGate | cotter/flagwriter.cpp:141-148 | with the intended gate, a box file receives a row exactly when the row count exceeds its start, at row count minus start, which is at least 1 |
| FlagWriter.SubbandWrite | cotter/flagwriter.cpp:124-148 | as written, a box file is written only once the row count exceeds offset times baseline count by more than one, at a row of at least 2, with the polarization-OR-ed flags of that box |
| FlagWriter.SubbandWriteIntended | cotter/flagwriter.cpp:124-148 | with the intended gate, a box file is written exactly once the row count passes offset times baseline count, at row count minus that start, with the OR-ed flags |
| FlagWriter.AsWrittenDropsOnlyRowOne | cotter/flagwriter.cpp:141-148 | the as-written box write equals the intended one except that the write to row 1 is dropped |
| FlagWriter.WriteRow | cotter/flagwriter.cpp:121-150 | as written, writeRow counts one more row and writes every box whose start the new count exceeds by more than one, with that box's flags; nothing else in the writer changes |
| FlagWriter.WriteRowIntended | cotter/flagwriter.cpp:121-150 | with the intended gate, writeRow counts one more row and writes every box whose start the new count exceeds, with that box's flags |
| FlagWriter.FirstWriteRowSkipped | cotter/flagwriter.cpp:121-150 | with all offsets zero, the first writeRow as written writes no box file, while the intended one writes row 1 of every box |
| Polarization.AllPolsComplete | ps/polarizationenum.h:93-111 | the twelve polarizations are all listed |
| Polarization.TypeToIndex | ps/polarizationenum.h:27-54 | a set of one accepts only Stokes I, of two only XX and YY, of four only the linear ones; other sizes throw; the index is below the set size |
| Polarization.TypeToIndexInjective | ps/polarizationenum.h:27-54 | within one set size, different polarizations get different indices |
| Polarization.TypeToIndexFourIsFourPol | ps/polarizationenum.h:43-51 | in a set of four the index is the four-polarization index |
| Polarization.StokesToIndex | ps/polarizationenum.h:56-66 | the Stokes index is below 4 and 0 for anything that is not Stokes |
| Polarization.IndexToStokes | ps/polarizationenum.h:68-72 | index i names a Stokes polarization whose index is i |
| Polarization.StokesIndexRoundTrip | ps/polarizationenum.h:56-72 | IndexToStokes reverses StokesToIndex on Stokes polarizations |
| Polarization.TypeTo4PolIndex | ps/polarizationenum.h:81-91 | XX, XY, YX, YY map to 0..3 in that order; every other polarization throws |
| Polarization.TypeToShortString | ps/polarizationenum.h:93-111 | short names have two letters, one for the Stokes polarizations |
| Polarization.Has4Polarizations | ps/polarizationenum.h:113-124 | a complete basis means at least four polarizations |
| Polarization.ParseString | ps/polarizationenum.h:131-146 | a parsed string is the short name of its result |
| Polarization.ParseShortString | ps/polarizationenum.h:93-146 | ParseString reverses TypeToShortString for all twelve polarizations |
| Polarization.ParseStringThrows | ps/polarizationenum.h:145 | every string that is no short name throws |
| Polarization.Step | ps/polarizationenum.h:152-219 | one character of the list parser never removes a polarization |
| Polarization.Run | ps/polarizationenum.h:152-219 | running the parser over a string, when it does not throw, never drops a polarization gathered before it |
| Polarization.RunEndsAfterSeparator | ps/polarizationenum.h:213-218 | a run whose last character is a separator ends, when it does not throw, waiting for the next name |
| Polarization.ParseList | ps/polarizationenum.h:148-223 | the empty list is the empty set; a list is accepted only when its run ends ready for a new name, with exactly the polarizations the run gathered; a list ending in a separator throws |
| Polarization.RunCaseInsensitive | ps/polarizationenum.h:153-155 | the list parser treats lower case letters as upper case, from any state |
| Polarization.ParseListCaseInsensitive | ps/polarizationenum.h:148-223 | ParseList gives the same result for a list and its upper-case spelling |
| Polarization.ParseListTrailingSeparator | ps/polarizationenum.h:213-221 | a list ending in a separator throws |
| Polarization.ParseListDoubledSeparator | ps/polarizationenum.h:213-218 | two separators in a row throw, whatever surrounds them |
| Polarization.RunTwoSeparators | ps/polarizationenum.h:213-218 | from any parser state, two separators in a row throw |
| Polarization.ParseListUnfinishedPair | ps/polarizationenum.h:157-221 | a list ending after the first letter of a pair throws |
| Polarization.RunShortString | ps/polarizationenum.h:157-211 | from a ready state, the short name of a polarization adds exactly that polarization |
| Polarization.RunEntryAndSeparator | ps/polarizationenum.h:157-218 | a short name followed by a separator adds the polarization and waits for the next name |
| Polarization.RunFormat | ps/polarizationenum.h:148-219 | parsing names joined by a separator adds exactly the listed polarizations |
| Polarization.ParseListFormat | ps/polarizationenum.h:148-223 | ParseList of the names joined by a separator is the set of the listed polarizations |
| Polarization.ParseListExample | ps/polarizationenum.h:148-223 | "xx,YY" parses to {XX, YY} |
| UVector.Default | uvector/uvector.h:29-32 | the default vector is empty with no storage |
| UVector.WithSize | uvector/uvector.h:34-39 | uvector(n) has n elements and capacity n |
| UVector.Filled | uvector/uvector.h:41-48 | uvector(n, val) has n elements, all equal to val |
| UVector.FromSeq | uvector/uvector.h:50-55 | a vector built from a range or an initializer list holds exactly those elements |
| UVector.Copy | uvector/uvector.h:57-64 | a copy holds the same elements, with capacity equal to its size |
| UVector.Enlarge | uvector/uvector.h:288-301 | enlarge keeps the contents and sets the capacity to 2 * size + 16, above the size |
| UVector.PushBack | uvector/uvector.h:197-203 | push_back adds the item at the end, keeps every earlier element and enlarges only when full |
| UVector.PopBack | uvector/uvector.h:213-216 | pop_back drops the last element and keeps the rest and the capacity |
| UVector.Set | uvector/uvector.h:160 | writing through operator[] changes that element only |
| UVector.Insert | uvector/uvector.h:227-240 | insert keeps the prefix, puts the item at pos, shifts the tail right by one and returns pos |
| UVector.Resize | uvector/uvector.h:164-172 | resize(n) gives n elements and capacity n, and keeps the first min(n, size) elements |
| UVector.Reserve | uvector/uvector.h:174-183 | reserve(n) gives capacity n and keeps the first min(n, size) elements |
| UVector.PopBackPushBack | uvector/uvector.h:197-216 | pop_back undoes push_back |
| UVector.InsertAtEnd | uvector/uvector.h:197-240 | insert at the end is push_back |
| UVector.PushAllAppends | uvector/uvector.h:197-203 | pushing a sequence appends it and never shrinks the capacity |
| UVector.ResizeKeepsPrefix | uvector/uvector.h:164-172 | shrinking then growing keeps the elements below the smaller size |
| UVector.FillBytesAsWrittenWrong | uvector/uvector.h:303-313 | as written, uvector(3, 1) of bytes sets one byte to 3 instead of three bytes to 1 |
| UVector.FillBytesAsWrittenOverflows | uvector/uvector.h:303-313 | as written, a byte fill whose value exceeds the size writes past the storage |
| UVector.FillBytes | uvector/uvector.h:303-313 | the intended byte fill sets every element to the value, as uvector(n, val) promises |
| UVector.FillBytesAsWritten | uvector/uvector.h:303-313 | as written, the byte fill succeeds only when the value is at most the size, sets the first value-many bytes to the size and leaves the rest as they were |
| GpuBoxFiles.CheckInputFilenameExactly | main.cpp:18-28 | a raw GPU file name is accepted exactly when it ends in two digits, an underscore, two digits and ".fits" |
| GpuBoxFiles.CheckInputFilename | main.cpp:18-28 | an accepted name has at least ten characters, ends in ".fits" with digits at the four places around the underscore; a wrong extension throws its message |
| GpuBoxFiles.TimeStepNumber | main.cpp:30-33 | the time step is the two-digit number after the underscore |
| GpuBoxFiles.GpuBoxNumber | main.cpp:35-41 | the box number is one below the two digits before the underscore, and "00" is rejected |
| GpuBoxFiles.IsFitsFile | main.cpp:43-50 | a name is a UVFITS output exactly when it is longer than its ".uvfits" extension, in any letter case |
| GpuBoxFiles.IsMWAFlagFile | main.cpp:52-59 | a name is a flag file exactly when it is longer than its ".mwaf" extension, in any letter case |
| GpuBoxFiles.IsFitsFileAnyCase | main.cpp:43-50 | any capitalisation of ".uvfits" after a non-empty stem is recognised, and the bare extension is not |
| GpuBoxFiles.IsMWAFlagFileAnyCase | main.cpp:52-59 | any capitalisation of ".mwaf" after a non-empty stem is recognised, and the bare extension is not |
| GpuBoxFiles.Slot | main.cpp:427-437 | a file gets a (time, box) slot only after its name passes the filename check |
| GpuBoxFiles.Grow | main.cpp:438-441 | resizing a time step's list keeps its entries and pads with empty names |
| GpuBoxFiles.Place | main.cpp:436-450 | storing a file changes exactly one (time, box) cell and grows the time list to cover it |
| GpuBoxFiles.PlacedStep | main.cpp:436-450 | placing the next file into an empty cell keeps the grouping consistent with every file placed so far |
| GpuBoxFiles.PlacedAll | main.cpp:425-451 | after the last file every file sits in its own slot |
| GpuBoxFiles.PlacedClash | main.cpp:442-448 | a file landing on an occupied cell means two files share a slot, the duplicate error |
| GpuBoxFiles.PlaceNext | main.cpp:427-450 | one loop pass either places the file or fails exactly on a bad name, a low box number or a duplicate |
| GpuBoxFiles.PlaceAll | main.cpp:425-451 | placing succeeds exactly when every name parses and no two files share a slot |
| GpuBoxFiles.GroupFiles | main.cpp:425-475 | grouping succeeds exactly when every name parses, slots are distinct, no slot is missing unless allowed, and every box is below the subband count; the box count is one above the highest box |
| GpuBoxFiles.GroupedFacts | main.cpp:450-475 | the missing-file scan over the grid agrees with missing slots among the files, and the box count bounds every box |
| GpuBoxFiles.PlaceStep | main.cpp:449 | storing a file in an empty cell keeps every earlier file where it was |
| GpuBoxFiles.MissingMatches | main.cpp:453-464 | a hole in the grid of time steps by subbands is exactly a (time, box) pair no file names |
| Metafits.TrimEnd | cotter/metafitsfile.cpp:316-318 | trimming keeps a prefix, drops only spaces, and leaves no trailing space |
| Metafits.ParseFitsString | cotter/metafitsfile.cpp:309-319 | a FITS string value is accepted exactly when quoted at both ends; the result is the text between the quotes without its trailing spaces |
| Metafits.ParseFitsStringQuoted | cotter/metafitsfile.cpp:309-319 | quoting a string and padding it with spaces parses back to the string |
| Metafits.TrimEndPadded | cotter/metafitsfile.cpp:316-318 | trimming undoes padding with spaces |
| Metafits.ParseFitsDate | cotter/metafitsfile.cpp:321-325 | a date is accepted exactly when it is a quoted string of 19 characters |
| Metafits.FormatFitsDate | cotter/metafitsfile.cpp:321-334 | the reference YYYY-MM-DDThh:mm:ss layout of a date is 19 characters |
| Metafits.ParseFitsDateFields | cotter/metafitsfile.cpp:326-333 | the year is read from digits 0-3 and month, day, hour, minute and second from the pairs at 5, 8, 11, 14 and 17 |
| Metafits.FourDigits | cotter/metafitsfile.cpp:326-327 | four decimal digits recombine to the year they came from |
| Metafits.ParseFitsDateFormat | cotter/metafitsfile.cpp:321-334 | a formatted in-range date parses back to itself |
| Metafits.ParseFitsDateIgnoresSeparators | cotter/metafitsfile.cpp:326-333 | the separator characters at 4, 7, 10, 13 and 16 are never read |
| Metafits.Split | cotter/metafitsfile.cpp:348-357 | a comma list splits into at least one field |
| Metafits.SplitNoComma | cotter/metafitsfile.cpp:348-357 | a string without commas is a single field |
| Metafits.SplitFirstComma | cotter/metafitsfile.cpp:350-355 | the first field ends at the first comma and the rest is split on |
| Metafits.SplitJoin | cotter/metafitsfile.cpp:344-358 | splitting a comma-joined list of comma-free fields gives the fields back |
| Metafits.FieldAt | cotter/metafitsfile.cpp:350-355 | the search for the next comma delimits exactly the next field, or finds the last one |
| Metafits.LastField | cotter/metafitsfile.cpp:357 | the tail after the last comma read is the field at that index |
| Metafits.ReadFields | cotter/metafitsfile.cpp:346-358 | reading count integers succeeds exactly when the list has at least count fields, and value i is atoi of field i |
| Metafits.AtoisStep | cotter/metafitsfile.cpp:353-354 | converting one more field extends the converted prefix by that field |
| Metafits.ReadStep | cotter/metafitsfile.cpp:350-355 | one loop pass reads the next field and moves past its comma |
| Metafits.ReadLast | cotter/metafitsfile.cpp:357 | the final read completes the values of the first fields |
| Metafits.ParseIntArray | cotter/metafitsfile.cpp:344-358 | an integer array is read exactly when the value is a quoted list of at least count fields, and holds their atoi values |
| Metafits.DecimalListReadsBack | cotter/metafitsfile.cpp:344-358 | a list of decimals joined by commas reads back to the numbers |
| Metafits.ParseBool | cotter/metafitsfile.cpp:360-365 | a boolean is accepted exactly when it starts with T or F, and is true exactly for T |
| Metafits.ParseBoolFormat | cotter/metafitsfile.cpp:360-365 | the letter of a boolean parses back to it |
| Metafits.DigitRunStart | cotter/metafitsfile.cpp:371-375 | the backward scan stops at position 0 or on the first non-digit, with only digits after it |
| Metafits.StripBand | cotter/metafitsfile.cpp:367-385 | the name changes only by dropping a suffix of an underscore and a band number from 1 to 256 |
| Metafits.StripBandOfBand | cotter/metafitsfile.cpp:367-385 | a non-empty name with a band suffix from 1 to 256 loses exactly that suffix |
| Metafits.CheckPointing | cotter/metafitsfile.cpp:83-91 | a header without a tile pointing is rejected; one with a pointing keeps it, and a missing phase centre is filled from the pointing |
| Metafits.CheckPointingIdempotent | cotter/metafitsfile.cpp:83-91 | checking a checked header again changes nothing |
| MwaConfig.PolCharToIndex | cotter/mwaconfig.cpp:231-245 | X, R and I in either case give 0, Y and L give 1, anything else is an error |
| MwaConfig.PolCharCaseInsensitive | cotter/mwaconfig.cpp:231-245 | a letter and its capital map to the same index |
| MwaConfig.ParseDate | cotter/mwaconfig.cpp:95-99 | the day is the number from position 6 on |
| MwaConfig.FormatDate | cotter/mwaconfig.cpp:95-99 | the reference YYYYMMDD layout of a date is eight characters |
| MwaConfig.ParseDateFormat | cotter/mwaconfig.cpp:95-99 | a YYYYMMDD date reads back to its year, month and day |
| MwaConfig.ParseTime | cotter/mwaconfig.cpp:100-104 | the second is the atof value (a real number) of the text from position 4 on |
| MwaConfig.FormatTime | cotter/mwaconfig.cpp:100-104 | the reference hhmmss layout of a time is six characters, plus a dot and the fraction digits when the second has a fraction |
| MwaConfig.SecondsRead | cotter/mwaconfig.cpp:101 | atof of the seconds part of a formatted time gives the whole second plus the value of the fraction digits |
| MwaConfig.ParseTimeFormat | cotter/mwaconfig.cpp:100-104 | an hhmmss[.f] time reads back to its hour, minute and its second including the fraction |
| MwaConfig.ParseTimeKeepsFraction | cotter/mwaconfig.cpp:101 | the time 123045.5 reads back with second 45.5, so the fraction is not lost |
| MwaConfig.ParseCorrType | cotter/mwaconfig.cpp:76-82 | CORRTYPE is accepted exactly when it starts with c, a or b in either case, and gives cross, auto or both respectively |
| MwaConfig.ParseCorrTypeLetter | cotter/mwaconfig.cpp:76-82 | the letter of each correlation type parses back to it |
| MwaConfig.CheckHeader | cotter/mwaconfig.cpp:108-135 | a header passes exactly when every required keyword is set; the only changes are the default field name and correlation type, each only when unset |
| MwaConfig.CheckHeaderIdempotent | cotter/mwaconfig.cpp:108-135 | checking a checked header again changes nothing |
| MwaConfig.CheckSetup | cotter/mwaconfig.cpp:225-229 | the setup is accepted exactly when the X and Y input counts both equal the tile count |
| Cotter.ScannedStep | cotter.cpp:157-166 | one subband step either extends the current run or, on a break in numbering, closes it and starts a new one |
| Cotter.ScannedEnd | cotter.cpp:167 | closing the last run tiles all subbands with runs of consecutive numbers, each later one starting at a break |
| Cotter.ContiguousRanges | cotter.cpp:152-167 | the ranges tile the subbands, each holds consecutive coarse-channel numbers, each after the first starts at a break, and there is one range exactly when the whole band is consecutive |
| Cotter.PlanBands | cotter.cpp:169-200 | a contiguous band writes one output under the given or default name; a split band succeeds exactly when that name has a dot, and with the flags format every range reuses the name |
| Cotter.PlanBandsNames | cotter.cpp:193-228 | for a split band outside the flags format, name k is the stem before the first dot, the range's first and last coarse channel as three digits joined by a dash, then the rest of the name |
| Cotter.FillBandName | cotter.cpp:220-228 | filling in channel numbers changes only the six digit places around the dash after the dot |
| Cotter.ThreeDigits | cotter.cpp:222-227 | the three digits written are hundreds, tens and units |
| Cotter.BandNameLayout | cotter.cpp:196-228 | a split-band name is the stem, the first and last coarse channel as three digits joined by a dash, then the extension |
| Cotter.LowCount | cotter.cpp:1351-1359 | the low run is the longest prefix of coarse channels at most 128 |
| Cotter.InitializeSbOrder | cotter.cpp:1348-1366 | the subband order is a permutation that keeps channels up to 128 in place and reverses the rest |
| Cotter.OnHDUOffsetsChange | cotter.cpp:1483-1504 | only unknown offsets of the current subbands are filled in, known ones never change, and the writer hears of a change exactly when one was filled, receiving the offsets or zeros when not aligning |
| Cotter.MaxScansPerPart | cotter.cpp:294-305 | at least one scan goes in a part, and more than one only when they fit in the buffer |
| Cotter.PartCount | cotter.cpp:306 | there is at least one part and the parts cover more than all scans |
| Cotter.ChunkEnds | cotter.cpp:339-340 | the first chunk starts at scan 0 and the last one ends at the last scan |
| Cotter.ChunkFits | cotter.cpp:339-340 | chunks are in order and none holds more scans than a part allows |
| Cotter.CheckEdgeFlagCount | cotter.cpp:141-142 | the edge-flag count is accepted exactly when it is at most the channels per subband over two |
| Cotter.EdgeChannelsFit | cotter.cpp:141-142 | an accepted edge-flag count leaves both subband edges inside the subband |
| CotterRows.TriClosed | cotter.h:181-191 | the pair count 0 + 1 + ... + n is n (n + 1) / 2 |
| CotterRows.RowsPerTimescan | cotter.h:181-191 | the rows per timescan are the antenna pairs, with or without autocorrelations, over the antennas kept |
| CotterRows.PairsFormula | cotter.h:181-191 | the closed forms n (n + 1) / 2 and n (n - 1) / 2 equal the pair counts with and without autocorrelations |
| CotterRows.OutputBaseline | cotter.h:192-200 | without options every baseline is output; a baseline with a flagged antenna is dropped when flagged antennas are removed, an auto-correlation when auto-correlations are removed; a cross-correlation of two unflagged antennas is always output |
| CotterRows.WrittenAntennaPosition | cotter.cpp:1041-1057 | a writer that takes local positions gets the metafits position unchanged; any other gets the rotated position moved by the array's geocentric location |
| CotterRows.UnflaggedCount | cotter.cpp:1032-1065 | the unflagged antennas among the first hi number at most hi |
| CotterRows.KeptInFront | cotter.h:192-200 | the kept antennas of a range are the first one, if kept, plus those of the rest |
| CotterRows.RowCount | cotter.h:192-200 | the baselines written for a first antenna are the kept antennas from it on, less its autocorrelation when removed, and none when it is not kept |
| CotterRows.TotalFormula | cotter.h:181-200 | the baselines the output loop writes are the pair count of the kept antennas |
| CotterRows.KeptInAll | cotter.h:192-200 | the antennas kept are the unflagged ones when flagged antennas are removed, and all otherwise |
| CotterRows.CountWrittenBaselines | cotter.cpp:656-663 | the baselines the loop over antenna pairs writes equal the rows added up front for the timescan |
| CotterRows.IsGPUBoxMissing | cotter.h:201-210 | a box is missing exactly when some time range lacks it or has an empty name for it |
| CotterRows.MulDiv | cotter.h:211-214 | multiplying then dividing by the same positive number is the identity |
| CotterRows.ChannelsPerSubbandInRange | cotter.h:211-214 | a range of subbands holds the channels per subband times its length |
| CotterRows.NChannelsInCurSBRange | cotter.h:211-214 | the channels in the current subband range never exceed the total and equal it for the full range |
| CotterRows.TwoDigits | cotter.h:215-221 | two-digit formatting gives two characters |
| CotterRows.TwoDigitsPadded | cotter.h:215-221 | for values below 100 the two characters are the zero-padded decimal and read back to the value |
| FlagMask.SetRect | cotter.cpp:1262-1266 | setting a rectangle of flags raises exactly the flags inside it and keeps every other flag |
| FlagMask.InSubband | cotter.cpp:1257-1259 | a channel inside subband sb has subband index sb and the offset from that subband's first channel |
| FlagMask.FlagEdges | cotter.cpp:1250-1284 | a flag is raised exactly when it was already set or lies on an edge channel or, when asked, the centre channel of a subband in the current range |
| FlagMask.FlagSubbands | cotter.cpp:1286-1301 | a flag is raised exactly when it was set or its channel belongs to a subband the user flagged within the current range |
| FlagMask.FlagBadCorrelatorSamples | cotter.cpp:1250-1328 | the mask afterwards is the old mask plus exactly the edge, centre, flagged-subband, initial-quack and missing-end samples |
| FlagMask.FlagTwice | cotter.cpp:1250-1328 | flagging a second time changes nothing |
| GpuFileReader.MinCount | gpufilereader.cpp:297-313 | the running minimum is a lower bound of the HDU counts of the files present and is one of them unless none was seen |
| GpuFileReader.FindStopHDU | gpufilereader.cpp:295-323 | the stop HDU is 0 when the minimum is 0, the size maximum, or no file is present, and otherwise the minimum HDU count over the present files |
| GpuFileReader.StopHDUAttained | gpufilereader.cpp:297-313 | the minimum is the HDU count of some present file |
| GpuFileReader.HduOffsets | gpufilereader.cpp:75-82 | a missing file has offset 0 and a present one its measured start-time offset |
| GpuFileReader.AlignStart | gpufilereader.cpp:147-160 | without alignment a file starts at the shared position; with it, the file's offset is taken from its buffer position or added to its HDU |
| GpuFileReader.AlignFirstRead | gpufilereader.cpp:152-160 | on the first read the file's HDU minus its buffer position is the current HDU plus its offset |
| GpuFileReader.HdusRead | gpufilereader.cpp:166-218 | the read stops exactly at the file's last HDU or the end of the buffer, whichever comes first |
| GpuFileReader.ReadLoop | gpufilereader.cpp:166-220 | the loop reads consecutive HDUs into consecutive buffer positions, and more remains exactly when the file's last HDU was not reached |
| GpuFileReader.ReadFile | gpufilereader.cpp:145-221 | reading one file gives the buffer position it stops at and whether it has HDUs left |
| GpuFileReader.ReadFiles | gpufilereader.cpp:142-221 | the loop over the files gives the smallest end position and the OR of their more-available flags |
| GpuFileReader.EndingPos | gpufilereader.cpp:162-164 | the common end position never exceeds the buffer length |
| GpuFileReader.EndingPosIsMin | gpufilereader.cpp:162-164 | the common end position is at most every present file's end, and is the buffer length or one of those ends |
| GpuFileReader.AnyMoreIsExists | gpufilereader.cpp:219-220 | more is available exactly when some present file has HDUs left |
| GpuFileReader.HasMoreWithoutAlignment | gpufilereader.cpp:166-220 | without alignment a file has more exactly when its HDU count is at least the current HDU plus the free buffer space |
| GpuFileReader.AnyMoreWithoutAlignment | gpufilereader.cpp:142-221 | without alignment more is available exactly when some present file has at least the current HDU plus the free buffer space HDUs |
| GpuFileReader.FileEndWithoutAlignment | gpufilereader.cpp:161-164 | without alignment a file ends after its remaining HDUs past the shared buffer position |
| GpuFileReader.EndingPosWithoutAlignment | gpufilereader.cpp:142-164 | without alignment the end position is the smaller of the buffer length and the position after the shortest file's remaining HDUs |
| GpuFileReader.Advance | gpufilereader.cpp:228 | the current HDU moves on by the buffer positions filled, unless it wraps |
| GpuFileReader.ReadAdvanceWithoutAlignment | gpufilereader.cpp:162-229 | without alignment the next current HDU is the smaller of the stop HDU plus one and the current HDU plus the free buffer space |
| GpuFileReader.Read | gpufilereader.cpp:111-233 | past the stop HDU nothing changes; otherwise the end position is the minimum file end, the current HDU advances by the positions filled, more is available exactly when some file has HDUs left, the files stay open exactly then, and a fresh open sets the stop HDU |
| GpuFileReader.SinglePfbRule | gpufilereader.cpp:384-449 | the 64-entry polyphase filterbank table sends output i to input 16 (i mod 4) + i / 4 |
| GpuFileReader.RuleInverse | gpufilereader.cpp:384-449 | the table entry of i maps back to i |
| GpuFileReader.RuleInverseBack | gpufilereader.cpp:384-449 | every input comes from exactly one output |
| GpuFileReader.SinglePfbPermutation | gpufilereader.cpp:384-449 | the table is a permutation of 0 .. 63 |
| GpuFileReader.InitializePfbMapping | gpufilereader.cpp:371-382 | each of the four filterbanks repeats the table offset by 64 times its index |
| GpuFileReader.PfbMappingPermutation | gpufilereader.cpp:371-382 | the full mapping is a permutation that keeps every input in its own filterbank |
| GpuFileReader.ShuffleWalk | gpufilereader.cpp:246-292 | the correlation index visits every pair antenna2 <= antenna1 once, at a position given by the triangle numbers |
| GpuFileReader.TriMonotone | gpufilereader.cpp:246-292 | triangle numbers grow with their argument |
| GpuFileReader.RowBounds | gpufilereader.cpp:251-256 | the pairs of first antenna a1 occupy the indices from Tri(a1) below Tri(a1 + 1) |
| GpuFileReader.CorrelationIndexInjective | gpufilereader.cpp:246-292 | two pairs never share a correlation index |
| GpuFileReader.ShuffleReadInBounds | gpufilereader.cpp:257-283 | every sample read lies inside the file's matrix of channels by baselines by four polarisations |
| GausEncoder.LowerBoundUnique | compress/gausencoder.h:151-161 | the lower-bound position of a value is unique |
| GausEncoder.LowerBound | compress/gausencoder.h:151-161 | the bisection returns the first position whose boundary is not below the value, or the end |
| GausEncoder.Encode | compress/gausencoder.h:62-65 | a value encodes to the symbol of the first boundary not below it, a valid symbol |
| GausEncoder.Decode | compress/gausencoder.h:108-111 | a symbol decodes to its centroid |
| GausEncoder.RightBoundary | compress/gausencoder.h:73-79 | the right boundary of a symbol is its boundary value, or 0 for the last symbol |
| GausEncoder.EncodeInterval | compress/gausencoder.h:62-79 | an encoded value lies above the previous symbol's right boundary and at most its own |
| GausEncoder.EncodeMonotone | compress/gausencoder.h:62-65 | encoding preserves order |
| GausEncoder.Nearest | compress/gausencoder.h:187-201 | the nearest search returns the end entry outside the range and the closer neighbour inside, which is at least as close as any entry |
| RmsTable.SetValue | compress/rmstable.h:27-30 | setting one cell changes that cell and no other |
| RmsTable.SetAll | compress/rmstable.h:36-46 | every cell in the table holds the value set |
| RmsTable.Create | compress/rmstable.h:17-22 | a new table has the requested shape and every cell holds the initial value |
| RmsTable.SizeInBytes | compress/rmstable.h:55-78 | the byte size is a multiple of four and is zero exactly when the table is empty |
| RmsTable.Copy | compress/rmstable.h:48-66 | a copy has the source's shape and values |
| AveragingWriter.AddRows | averagingwriter.h:102-109 | rows are passed on to the wrapped writer exactly when the counter is at zero, and the counter steps round modulo the averaging factor |
| AveragingWriter.AddRowsCycle | averagingwriter.h:102-109 | after k calls the counter is k mod the factor, so the wrapped writer gets rows on every factor-th call |
| AveragingWriter.ModNext | averagingwriter.h:106-108 | the counter's increment-and-reset is the step of k mod the factor |
| AveragingWriter.GroupFits | averagingwriter.h:41-50 | every channel of an averaged group lies inside the input band |
| AveragingWriter.AverageGroup | averagingwriter.h:43-57 | an averaged channel sums the widths, bandwidths and resolutions of its group and averages its frequencies |
| AveragingWriter.GroupCount | averagingwriter.h:37 | the averaged channels cover the input up to fewer than one group of leftover channels |
| AveragingWriter.AverageChannels | averagingwriter.h:30-62 | there are channels / factor averaged channels, leftover channels are dropped, and each averages its own group |
| AveragingWriter.InitZero | averagingwriter.h:153-165 | a reset buffer has no timesteps, zero counts and no flags in every slot |
| AveragingWriter.WriteCurrentTimestep | averagingwriter.h:177-203 | a slot is flagged exactly when nothing unflagged was accumulated in it, and the buffer is reset afterwards |
| AveragingWriter.InitBuffers | averagingwriter.h:215-230 | a buffer exists for each pair antenna1 <= antenna2 and none for the others |
| AveragingWriter.FreshBuffersAligned | averagingwriter.h:215-230 | every buffer of a pair in order starts empty |
| OffringaStMan.RecalculateStride | offringastman/offringastman.cpp:397-408 | each column's row offset is the sum of the strides before it, the row stride is their total and the header size counts the fixed header, the RMS table and every column header |
| OffringaStMan.LaidStep | offringastman/offringastman.cpp:401-406 | one loop pass places the next column after the previous ones and adds its stride and header |
| OffringaStMan.StridesKept | offringastman/offringastman.cpp:401-406 | setting row offsets never changes a stride |
| OffringaStMan.StridePrefix | offringastman/offringastman.cpp:401-406 | strides summed over the laid columns equal those over the originals |
| OffringaStMan.StrideSumMonotone | offringastman/offringastman.cpp:401-406 | offsets grow along the column list |
| OffringaStMan.ColumnsDisjoint | offringastman/offringastman.cpp:397-408 | two columns' byte ranges within a row never overlap and all lie within the row stride |
| OffringaStMan.StridesInOrder | offringastman/offringastman.cpp:401-406 | a column ends no later than any later column starts, and the last one ends within the row |
| OffringaStMan.StrideSumNext | offringastman/offringastman.cpp:404 | the stride sum over one more column adds its stride |
| OffringaStMan.Relayout | offringastman/offringastman.cpp:397-408 | re-laying keeps every column (id, kind, symbols per cell, bits per symbol, and so its stride), in order, and sets the offsets, row stride and header size of the recalculated layout; nothing else changes |
| OffringaStMan.AddRow | offringastman/offringastman.cpp:323-326 | adding rows raises the row count by that many and changes nothing else |
| OffringaStMan.RemoveRow | offringastman/offringastman.cpp:328-333 | only the last row can be removed, which lowers the count by one |
| OffringaStMan.AddThenRemoveRow | offringastman/offringastman.cpp:323-333 | adding one row and removing it restores the manager |
| OffringaStMan.AddColumn | offringastman/offringastman.cpp:335-352 | a column can be added exactly when no rows are in the file; the new column (at position k of the list that already holds it) takes the manager's complex or weight bit count, so its stride holds its symbols at that width to the byte, the other columns keep their strides, and all are re-laid in order with the row stride as the total of the new strides and the header size recomputed |
| OffringaStMan.FindColumn | offringastman/offringastman.cpp:356-358 | the search finds the first column with the id, or reports there is none |
| OffringaStMan.RemoveColumn | offringastman/offringastman.cpp:354-369 | removal succeeds exactly when the column is present; it takes out the first column with that id and keeps the others in order, and re-lays them only while the file holds no rows |
| OffringaStMan.ReadPosition | offringastman/offringastman.cpp:371-376 | a read succeeds exactly below the rows in the file and lands after the header |
| OffringaStMan.WritePosition | offringastman/offringastman.cpp:384-389 | a write past the end extends the rows in the file to include it, and changes nothing else |
| OffringaStMan.ReadAfterWrite | offringastman/offringastman.cpp:371-389 | after writing row i, rows up to i can be read and row i is read where it was written |
| OffringaStMan.DataPosition | offringastman/offringastman.cpp:371-389 | the data of a row and column lies after the header and the previous rows, and a column that fits its row offset ends inside its row |
| OffringaStMan.Create | offringastman/offringastman.cpp:143-151 | a new file has the requested rows and none stored |
| OffringaStMan.Open | offringastman/offringastman.cpp:218-246 | opening fails exactly when the header's column count differs from the manager's or the row stride is zero in a non-empty file; otherwise the stride, header size and parameters come from the header and the rows are those that fit |
| OffringaStMan.ReadHeader | offringastman/offringastman.cpp:184-216 | reading a header fails exactly when its column count differs from the manager's; otherwise the row stride, header size, bit counts, dither method, RMS table and every column offset come from the header, and column ids, strides and row counts are kept |
| OffringaStMan.WriteHeader | offringastman/offringastman.cpp:153-181 | the written header counts the manager's columns and stores each column's row offset in order |
| OffringaStMan.HeaderRoundTrip | offringastman/offringastman.cpp:153-216 | reading a written header into a manager with the same columns restores the writer's manager, apart from the reader's own row counts |
| OffringaStMan.OpenRowsFit | offringastman/offringastman.cpp:241-242 | the rows counted in the file are the whole rows that fit after the header |
| OffringaStMan.Prepare | offringastman/offringastman.cpp:290-317 | preparing fails exactly when the RMS table is empty or a bit count is unset; otherwise every column takes the manager's bit count for its kind, so each stride holds its symbols at that width to the byte; while the file holds no rows the columns are re-laid with the row stride as the total of the new strides, and otherwise the old offsets and row stride stay |
| OffringaStMan.PlaneIndexBound | offringastman/offringastman.cpp:99-109 | the flattened position of a pair lies inside its field's plane |
| OffringaStMan.FlatIndexBound | offringastman/offringastman.cpp:64-109 | the flattened position of a (field, antenna1, antenna2) entry lies inside the array |
| OffringaStMan.FlattenField | offringastman/offringastman.cpp:99-109 | a field is flattened with antenna1 as the slow and antenna2 as the fast index |
| OffringaStMan.InitializeSpec | offringastman/offringastman.cpp:92-115 | the specification holds the RMS table flattened field by field and the three parameters |
| OffringaStMan.Unflatten | offringastman/offringastman.cpp:64-84 | reading the flattened array back fills each cell from its flattened position |
| OffringaStMan.SetFromSpec | offringastman/offringastman.cpp:64-90 | a specification without an RMS table changes nothing; one with it sets the three parameters and a table of its shape whose every cell is the flat array's entry for that field and antenna pair, and nothing else |
| OffringaStMan.TableExtensional | offringastman/offringastman.cpp:64-115 | two tables of one shape with the same cells are equal |
| OffringaStMan.SpecRoundTrip | offringastman/offringastman.cpp:64-115 | any manager that reads back the specification `initializeSpec` writes for another (the flattened table with its shape and the three parameters) takes on exactly that manager's RMS table and parameters |
| SolutionFile.NewHeader | solutionfile.h:50-56 | a new header reads "MWAOCAL" with a terminating zero, file and structure type 0 and one interval |
| SolutionFile.DigitStep | solutionfile.h:159-161 | one more mixed-radix digit keeps the index below the product of the counts |
| SolutionFile.IndexRoundTrip | solutionfile.h:159-161 | the solution index of an in-range (interval, antenna, channel, polarisation) is below the solution count and decomposes back to it |
| SolutionFile.IndexBelowCount | solutionfile.h:159-161 | every in-range index is below the solution count |
| SolutionFile.IndexInjective | solutionfile.h:159-161 | two in-range tuples never share an index |
| SolutionFile.FilePosition | solutionfile.h:166-168 | a solution is written after the header and the two times, at its index times sixteen bytes |
| SolutionFile.Resize | solutionfile.h:115 | the in-memory store keeps its old values and pads with zeros |
| SolutionFile.OpenInMemory | solutionfile.h:110-117 | the store holds one value per solution and reading starts at the first |
| SolutionFile.WriteSolution | solutionfile.h:159-165 | writing sets exactly the value at the tuple's index |
| SolutionFile.ReadNextSolution | solutionfile.h:142-148 | a read returns the value under the read pointer and advances it by one |
| SolutionFile.ReadsInIndexOrder | solutionfile.h:142-148 | k reads return the next k stored values in index order |
| SolutionFile.ReadBackWritten | solutionfile.h:110-165 | after writing a tuple, reading the store from the start returns the value at that tuple's index |
| FitsWriter.BaselineRoundTrip | cotter4/fitswriter.h:76-80 | for antennas b1 <= b2 below 2048 the baseline code reads back as the same pair |
| FitsWriter.CompactBaseline | cotter4/fitswriter.h:76-80 | antennas up to 255 get the compact code 256 b1 + b2, below 65536 |
| FitsWriter.AreAntennaPositionsLocal | cotter4/fitswriter.h:35 | the UVFITS writer declares its antenna positions local, where the base writer declares them not local |
| FitsWriter.AntennaPositionsUnrotated | cotter4/fitswriter.h:35 | so a UVFITS antenna table holds the metafits positions neither rotated nor moved, whatever the array location |
| FitsWriter.BaselineIndex | cotter4/fitswriter.h:76-80 | antennas below 256 give a code below 65536, and a second antenna above 255 gives a code above 65536 |
| FitsWriter.SignedWeight | cotter/fitswriter.cpp:221-224 | a flagged sample's weight is negated, an unflagged one's kept, so the sign carries the flag |
| FitsWriter.InputPolarization | cotter/fitswriter.cpp:226-252 | each output slot reads one of the four input polarisations |
| FitsWriter.InputPolarizationPermutation | cotter/fitswriter.cpp:226-252 | the XX, YY, XY, YX output order is a permutation of the XX, XY, YX, YY input |
| FitsWriter.ChannelValues | cotter/fitswriter.cpp:216-252 | a channel contributes twelve values: real, imaginary and signed weight for each polarisation in output order |
| FitsWriter.GroupValues | cotter/fitswriter.cpp:215-253 | the values of every channel sit at their position in the group |
| FitsWriter.WriteRowGroup | cotter/fitswriter.cpp:194-259 | a group holds u, v, w in light seconds, the baseline code of the one-based antennas, the date relative to the zero level, then every channel's values |
| FitsWriter.NewWriter | cotter/fitswriter.cpp:9 | a new writer has no group header and no rows |
| FitsWriter.InitialGroupCount | cotter/fitswriter.cpp:59 | the initial group count is the pair count with autocorrelations, in 32-bit unsigned arithmetic |
| FitsWriter.AddRows | cotter/fitswriter.cpp:188-192 | the group header is written on the first call only and rows are unaffected |
| FitsWriter.WriteRow | cotter/fitswriter.cpp:255-258 | writing a row appends it after the earlier ones |
| FitsWriter.GCountCountsRows | cotter/fitswriter.cpp:255-258 | the GCOUNT written at close equals the number of rows written, which are kept in order |
| FitsWriter.WriteAllAppends | cotter/fitswriter.cpp:255-258 | writing several rows appends them in order |
| FitsWriter.SetArrayLocation | cotter4/fitswriter.h:26-31 | the array location is stored and the rows are untouched |
| FitsWriter.DateOffByOneDay | cotter/fitswriter.cpp:87 | as written, a reader adding PZERO5 to a row's DATE gets the Julian date one day early |
| FitsWriter.DateOffByOneDayAtZero | cotter/fitswriter.cpp:87 | as written, at start time 0 the recovered date is 2399999.5 instead of 2400000.5 |
| FitsWriter.DateRecovered | cotter/fitswriter.cpp:208-209 | with PZERO5 set to the zero level the rows subtract, DATE + PZERO5 is the Julian date |
| Fft2d.DestOf | ps/fft2d.cpp:58-68 | the destination index stays inside the axis |
| Fft2d.DestIsShift | ps/fft2d.cpp:58-68 | the destination is the cyclic shift by half the size |
| Fft2d.SourceOfDest | ps/fft2d.cpp:58-68 | the index that lands on a destination lies inside the axis |
| Fft2d.ShiftBijection | ps/fft2d.cpp:58-68 | the shift and its inverse undo each other |
| Fft2d.ShiftInjective | ps/fft2d.cpp:58-68 | two indices never share a destination |
| Fft2d.SourceOf | ps/fft2d.cpp:55-66 | the source is the index itself up to the middle and its mirror beyond, never past the middle |
| Fft2d.PosBound | ps/fft2d.cpp:60-61 | a row-major position inside the grid is below its size |
| Fft2d.UnwrapRow | ps/fft2d.cpp:62-70 | each destination column of a row takes the value of its mirrored source column |
| Fft2d.InputRow | ps/fft2d.cpp:60 | the row read is the slice of the half-plane input for that source row |
| Fft2d.RowKept | ps/fft2d.cpp:53-71 | writing a later row leaves earlier rows as they were |
| Fft2d.RowAppended | ps/fft2d.cpp:58-70 | the row just written holds the mirrored source values |
| Fft2d.AllRowsWritten | ps/fft2d.cpp:53-71 | once every destination row is written, every (y, x) has its value |
| Fft2d.UnwrapStep | ps/fft2d.cpp:53-71 | one pass of the row loop keeps the earlier rows and adds the next |
| Fft2d.Unwrap | ps/fft2d.cpp:50-71 | every read stays in the half-plane and out[destY][destX] is uvIn[sourceY][sourceX] for every (y, x) |
| TickSet.CeilDiv | ps/plot/tickset.h:492-493 | the ceiling quotient is the least multiple count covering the dividend |
| TickSet.TextStep | ps/plot/tickset.h:488-493 | the step between text ticks is at least one |
| TickSet.StepAppended | ps/plot/tickset.h:495-496 | appending the next multiple of the step below the label count keeps the ticks stepped |
| TickSet.TextSet | ps/plot/tickset.h:488-497 | with no labels there are no ticks; otherwise a tick goes on every step-th label from 0, at least one and no more than the clamped request |
| TickSet.TicksBelowRequest | ps/plot/tickset.h:488-497 | a tick below the label count still fits within the request |
| TickSet.SetText | ps/plot/tickset.h:482-486 | setting a text axis keeps its labels and gives at most the requested ticks |
| TickSet.DecreaseText | ps/plot/tickset.h:24-30 | a text axis of more than one tick shrinks, one of at most one tick is left alone |
| TickSet.Truncate | ps/plot/tickset.h:105-106 | popping down to the request keeps a prefix of at most the request |
| TickSet.NumericSet | ps/plot/tickset.h:70-108 | a non-finite range has no ticks, an empty range its single value, a zero request none, otherwise a prefix of the candidates of at most the request |
| TickSet.TimeSet | ps/plot/tickset.h:340-361 | an empty range has its single value, a zero request none, otherwise a prefix of the candidates of at most the request |
| TickSet.DecreaseNumeric | ps/plot/tickset.h:24-30 | decreasing a numeric axis of more than one tick makes it smaller, whatever candidate positions the recomputed tick width gives for the smaller request |
| TickSet.DecreaseTime | ps/plot/tickset.h:24-30 | decreasing a time axis of more than one tick makes it smaller, whatever candidate positions the recomputed tick width gives for the smaller request |
| ColorMap.R | ps/plot/colormap.h:354-370 | the red channel is 0, 127 or 255 |
| ColorMap.G | ps/plot/colormap.h:371-387 | the green channel is 0, 127 or 255 |
| ColorMap.B | ps/plot/colormap.h:388-404 | the blue channel is 0, 127 or 255 |
| ColorMap.A | ps/plot/colormap.h:405 | every colour is opaque |
| ColorMap.MatchesPalette | ps/plot/colormap.h:354-404 | for non-negative values the colour is the palette at the remainder mod 16: primaries, mixes, white, black, full intensity below 8 and half above |
| ColorMap.NegativeIsBlack | ps/plot/colormap.h:354-404 | a negative value not a multiple of 16 has a negative C remainder and is black |
| ColorMap.Periodic | ps/plot/colormap.h:354-404 | colours repeat every 16 values |
| ColorMap.ColoursDistinct | ps/plot/colormap.h:354-404 | different remainders get different colours except the two blacks, 7 and 15 |
| AuthorList.StripEnd | articles/Article-RFI-distribution/authorlist/authorlist-arxiv.py:8-11 | text without the suffix is kept; with it, the suffix is removed; an empty suffix leaves nothing |
| AuthorList.StripEndOnce | articles/Article-RFI-distribution/authorlist/authorlist-arxiv.py:8-11 | stripping a non-empty suffix from text ending in it gives the text |
| AuthorList.SplitOn | articles/Article-RFI-distribution/authorlist/authorlist-arxiv.py:15 | splitting on a character gives at least one piece and no piece holds the character |
| AuthorList.SplitJoin | articles/Article-RFI-distribution/authorlist/authorlist-arxiv.py:15 | joining the pieces with the character gives the line back |
| AuthorList.StripCharNone | articles/Article-RFI-distribution/authorlist/authorlist-arxiv.py:16 | stripping quotes from a piece without quotes changes nothing |
| AuthorList.TakeWord | articles/Article-RFI-distribution/authorlist/authorlist-arxiv.py:17 | a word is non-empty when the text starts with a non-space |
| AuthorList.TakeWordSpec | articles/Article-RFI-distribution/authorlist/authorlist-arxiv.py:17 | a word is the longest non-space prefix |
| AuthorList.WordsAreWords | articles/Article-RFI-distribution/authorlist/authorlist-arxiv.py:17 | whitespace splitting gives non-empty words without spaces |
| AuthorList.NonSpaceAppend | articles/Article-RFI-distribution/authorlist/authorlist-arxiv.py:17 | the non-space characters of a concatenation are those of its parts |
| AuthorList.NonSpaceOfWord | articles/Article-RFI-distribution/authorlist/authorlist-arxiv.py:17 | a word is its own non-space characters |
| AuthorList.WordsCoverText | articles/Article-RFI-distribution/authorlist/authorlist-arxiv.py:17 | the words together hold exactly the non-space characters of the text, in order |
| AuthorList.RStrip | articles/Article-RFI-distribution/authorlist/authorlist-arxiv.py:45 | stripping trailing whitespace never lengthens the line |
| AuthorList.RStripSpec | articles/Article-RFI-distribution/authorlist/authorlist-arxiv.py:45 | the stripped line is a prefix ending in a non-space, and only whitespace was removed |
| AuthorList.DropLast | articles/Article-RFI-distribution/authorlist/authorlist-arxiv.py:17 | dropping the last element keeps the rest, and an empty list stays empty |
| AuthorList.ParseAuthor | articles/Article-RFI-distribution/authorlist/authorlist-arxiv.py:14-18 | a line gives an author exactly when it has a quote; the name is the text after the first quote and the institutes are the words after the last quote but the final one |
| AuthorList.Selected | articles/Article-RFI-distribution/authorlist/authorlist-arxiv.py:39 | a line has a last word exactly when it is not blank, and it is selected exactly when its last word is "yes" |
| AuthorList.ReadableTail | articles/Article-RFI-distribution/authorlist/authorlist-arxiv.py:38-40 | the author file is readable exactly when its first line and the rest are |
| AuthorList.SelectedLines | articles/Article-RFI-distribution/authorlist/authorlist-arxiv.py:38-40 | only selected lines of the file are kept |
| AuthorList.ReadAuthors | articles/Article-RFI-distribution/authorlist/authorlist-arxiv.py:37-40 | reading the authors succeeds exactly when every line has a word and every selected line parses |
| AuthorList.ReadAuthorsSelected | articles/Article-RFI-distribution/authorlist/authorlist-arxiv.py:37-40 | the authors read are the selected lines parsed, in file order |
| AuthorList.ReadableFront | articles/Article-RFI-distribution/authorlist/authorlist-arxiv.py:43-45 | the institute file is readable exactly when its earlier lines are and its last line has a key |
| AuthorList.InstituteMap | articles/Article-RFI-distribution/authorlist/authorlist-arxiv.py:42-45 | the institute map is built exactly when every line has a nickname |
| AuthorList.InstituteKeys | articles/Article-RFI-distribution/authorlist/authorlist-arxiv.py:42-45 | the map's keys are exactly the nicknames of the lines |
| AuthorList.InstituteLastWins | articles/Article-RFI-distribution/authorlist/authorlist-arxiv.py:45 | a nickname maps to the address of its last line |
| AuthorList.FirstAppearances | articles/Article-RFI-distribution/authorlist/authorlist-arxiv.py:51-57 | the order so far is kept as a prefix |
| AuthorList.FirstAppearancesSpec | articles/Article-RFI-distribution/authorlist/authorlist-arxiv.py:51-57 | the order has no duplicates and holds exactly the institutes seen |
| AuthorList.FirstAppearancesAppend | articles/Article-RFI-distribution/authorlist/authorlist-arxiv.py:51-57 | scanning two lists in turn is scanning their concatenation |
| AuthorList.AllInstitutesAppend | articles/Article-RFI-distribution/authorlist/authorlist-arxiv.py:51-52 | the institutes of one more author follow those before |
| AuthorList.FirstAppearancesOne | articles/Article-RFI-distribution/authorlist/authorlist-arxiv.py:53-57 | one institute is appended exactly when it is new |
| AuthorList.NumberedAppend | articles/Article-RFI-distribution/authorlist/authorlist-arxiv.py:53-57 | a new institute gets the next number and the numbering stays consistent |
| AuthorList.NumberInstitutes | articles/Article-RFI-distribution/authorlist/authorlist-arxiv.py:52-57 | one author's institutes extend the first-appearance order and number each new one |
| AuthorList.IndexInstitutes | articles/Article-RFI-distribution/authorlist/authorlist-arxiv.py:48-57 | institutes are numbered from 1 in order of first appearance, each once, and the counter ends one past the last |
| AuthorList.Untilde | articles/Article-RFI-distribution/authorlist/authorlist-arxiv.py:73 | every tilde becomes a space and nothing else changes |
| AuthorList.AuthorItem | articles/Article-RFI-distribution/authorlist/authorlist-arxiv.py:63-73 | an author prints as the name without tildes followed by a comma |
| AuthorList.Output | articles/Article-RFI-distribution/authorlist/authorlist-arxiv.py:59-76 | the non-windows output is the placeholder line; the windows output starts with the authors header |
| AuthorList.OutputIgnoresInstitutes | articles/Article-RFI-distribution/authorlist/authorlist-arxiv.py:59-76 | the output depends only on the names, since the institute numbers are commented out |
| AuthorList.ItemsIgnoreInstitutes | articles/Article-RFI-distribution/authorlist/authorlist-arxiv.py:63-73 | the printed items depend only on the names |
| AuthorList.ItemsNoTilde | articles/Article-RFI-distribution/authorlist/authorlist-arxiv.py:73 | no tilde reaches the output |
| BytePacker.Nibble4RoundTrip | compress/bytepacker.h:161-182 | a symbol below 16 survives being stored in and read from the low nibble |
| BytePacker.UnpackPair4 | compress/bytepacker.h:173-186 | unpack4 of a packed pair followed by more bytes gives the pair, then the rest |
| BytePacker.Unpack4Byte | compress/bytepacker.h:176-182 | a byte unpacks to two symbols below 16 |
| BytePacker.Unpack6Group | compress/bytepacker.h:112-128 | three bytes unpack to four symbols below 64 |
| BytePacker.Unpack6Tail | compress/bytepacker.h:129-155 | a tail of one to three bytes unpacks to that many symbols below 64 |
| BytePacker.UnpackGroup6 | compress/bytepacker.h:109-156 | unpack6 of a packed group followed by more bytes gives the group, then the rest |
| BytePacker.RepackGroup6 | compress/bytepacker.h:57-128 | pack6 of an unpacked group followed by more symbols gives the three bytes, then the rest |
| BytePacker.Unpack6Step | compress/bytepacker.h:112-128 | unpack6 of four or more symbols reads one group of three bytes and goes on after it |
| BytePacker.Unpack12Pair | compress/bytepacker.h:229-241 | three bytes unpack to two symbols below 4096 |
| BytePacker.Unpack12Single | compress/bytepacker.h:242-247 | the two bytes of an odd tail unpack to one symbol below 4096 |
| BytePacker.UnpackPair12 | compress/bytepacker.h:226-248 | unpack12 of a packed pair followed by more bytes gives the pair, then the rest |
| BytePacker.RepackPair12 | compress/bytepacker.h:200-241 | pack12 of an unpacked pair followed by more symbols gives the three bytes, then the rest |
| BytePacker.Unpack12Step | compress/bytepacker.h:229-241 | unpack12 of two or more symbols reads one pair of three bytes and goes on after it |
| FlagWriter.Unpack | cotter/flagwriter.cpp:155-213 | reading back count bits of packed bytes gives count flags |
| FlagWriter.BitOfShiftedOr | cotter/flagwriter.cpp:159-176 | or-ing a flag in at bit j sets that bit and keeps the lower ones |
| GpuBoxFiles.SlotsOf | main.cpp:427-437 | every file has one slot |
| SolutionFile.ReadMany | solutionfile.h:142-148 | k reads give k values |
| UVector.PushAll | uvector/uvector.h:197-203 | pushing a sequence element by element appends it and never shrinks the capacity |
| Text.CDiv | cotter.h:215-221 | C's truncating division agrees with the mathematical one on non-negative operands |
| Text.CMod | ps/plot/colormap.h:359 | C's remainder satisfies a == (a / b) * b + a % b and agrees with the mathematical one on non-negative operands |
| Text.AtofFromDigit | cotter/mwaconfig.cpp:101 | atof of text starting with a digit is the value of its leading unsigned decimal |
| Text.AtofOfDecimal | cotter/mwaconfig.cpp:101 | atof of digits, a dot and digits is the whole part plus the fraction digits read as tenths, hundredths and so on |
| Text.AtofOfWhole | cotter/mwaconfig.cpp:84-94 | atof of a run of digits is their decimal value |
| Text.AtofOfDigits | cotter/mwaconfig.cpp:84-94 | atof and atoi agree on a run of digits |
| Text.AtoiOfDigits | cotter/mwaconfig.cpp:72-74 | atoi of a run of digits is their decimal value |
| Text.AtoiLeadingSpace | cotter/mwaconfig.cpp:72-74 | atoi skips a leading white-space character |
| Text.AtoiSigned | cotter/mwaconfig.cpp:72-74 | a leading minus negates the number and a leading plus keeps it |
| Text.AtoiNoNumber | cotter/mwaconfig.cpp:72-74 | text that starts with anything but white space, a sign or a digit reads as 0 |
| Text.AtoiBeforeComma | cotter/metafitsfile.cpp:353 | atoi stops at a comma, so whatever follows it is ignored |
| Text.AtoiOfTwoDigits | cotter/mwaconfig.cpp:102-103 | two digits read as ten times the first plus the second |
| Text.AtoiOfFourDigits | cotter/mwaconfig.cpp:98 | four digits read as their decimal value |

## Where comments and code differ

- The doc comment of `pack6` (compress/bytepacker.h:12-14) says it writes
  ceil(symbolCount / 4) bytes. The code writes 3 bytes for every group of
  4 symbols and 1 to 3 bytes for the tail, that is ceil(6 * symbolCount / 8).
  `BytePacker.Pack6` follows the code.
- `averagingwriter.h` only warns when the channel count is not a multiple
  of the frequency averaging factor. The leftover channels are dropped, and
  `AveragingWriter.AverageChannels` drops them too.
- Only `offringastman/offringastman.cpp` is modelled. `compress/offringastman.cpp`
  is an older copy of the same class.

## Left out

- I/O through CFITSIO, casacore and file streams is not modelled. Writes
  are returned as values: FITS rows, flag rows, solution positions, HDU
  counts and file sizes. Progress output, usage text and exceptions'
  message texts are not part of the contracts. Only whether a call throws
  is modelled.
- Threads are not modelled: the writer threads, the GPU-file reader's
  thread pool and the baseline worker threads. Every operation is
  modelled as its sequential effect.
- Floating point is modelled as exact `real` arithmetic. This covers the
  averaged channel frequencies and widths, the UVFITS group values, the
  DATE level, the Gaussian dictionary values and the RMS table values.
  Single-precision rounding, FFTW, geometric and cable corrections, and
  Julian-date conversion are not modelled.
- GausEncoder: building the dictionary is not modelled. It uses
  `invCumulative` of a Gaussian in floating point. The dictionary is a
  parameter, required to be non-empty and strictly increasing.
- GausEncoder.Nearest requires a non-empty dictionary. The source never
  builds an empty one.
- TickSet: the nice-number rounding that produces the numeric and time
  candidate positions is floating point. Those positions are a parameter.
  `LogarithmicTickSet` is not modelled.
- TickSet.TextSet and TickSet.SetText exclude a zero request when labels
  are present. The source divides by zero there.
- ColorMap: only `IntMap` is modelled. The other colour maps are
  floating-point gradients.
- AveragingWriter: the accumulation of visibilities, weights and UVW in
  `WriteRow` is not modelled. Only the flag outcome per output sample and
  the buffer reset are modelled.
- UVector: `operator=` is not modelled. When the new size fits the
  capacity it leaves the size stale. `erase`, `shrink_to_fit`, `at` and the
  comparisons are not modelled either, because `uvector/uvector.h` has no
  such methods. Uninitialised storage is a `garbage` parameter.
- UVector.PopBack requires a non-empty vector. `pop_back` on an empty
  vector is undefined behaviour.
- OffringaStMan.RecalculateStride does not model the wrap-around of the
  32-bit unsigned row stride and header size stored in the file header.
  The sums are exact.
- OffringaStMan.ReadHeader and OffringaStMan.Open take a header value with
  one column offset per counted column. The byte stream is not modelled, so
  a short file is not an input.
- OffringaStMan.Column: a weight column's stride, its packed symbols plus
  a 4-byte float scale, follows compress/offringaweightcol.h:77, because
  the weight column header of offringastman/ is not part of this model.
  The symbols per cell, which `setShapeColumn` derives from the cell
  shape, are a field. Each column's own `Prepare()` only rebuilds its
  encoder and is not modelled.
- OffringaStMan.AddColumn names the new column by its position in the
  manager's list. The source passes a column pointer and does not check
  that the manager holds it. A position past the list sets no bits.
- CotterRows.WrittenAntennaPosition takes the rotated x and y as
  parameters, because `Geometry::Rotate` is floating-point trigonometry.
- SolutionFile.OpenInMemory sizes the store by the exact product of the
  four header counts. The source multiplies four `uint32_t` fields, so the
  product wraps modulo 2^32, and `SetIntervalCount` truncates its `size_t`
  argument to 32 bits. Neither wrap is modelled: the counts are unbounded.
- OffringaStMan.AddRow does not model the wrap-around of the 64-bit row
  counter.
- Text.Atof reads plain decimal notation: white space, a sign, digits, a
  dot and digits. Exponents, hexadecimal and inf/nan forms, the locale's
  decimal separator and rounding to `double` are not modelled.
- Text.Atoi reads an unbounded integer. It does not model overflow of C's
  `int` for long digit runs.
- Metafits.ReadFields and Metafits.ParseIntArray require count >= 1. With
  count 0 the reader's loop bound `count - 1` wraps, and no caller passes 0.
- Metafits.ParseFitsString rejects a value that is a single quote. In the
  source that input dereferences the last character of an empty string.
- Cotter.ContiguousRanges requires at least one sub-band. The source reads
  `subbandNumbers[0]` unconditionally.
- MwaConfig.ParseDate requires at least 6 characters and
  MwaConfig.ParseTime at least 4. Shorter values make the source index
  past the end of the string.
- GpuBoxFiles.TimeStepNumber and GpuBoxFiles.GpuBoxNumber require digits at
  the positions they read. The source calls them only on names that
  `checkInputFilename` accepted.
- FlagMask.FlagBadCorrelatorSamples requires edgeCount <= channels per
  subband and missingEndScans <= the scan count. `cotter.cpp:141-142`
  throws on larger edge counts before the mask is built.
- FlagMask.FlagEdges, FlagMask.FlagSubbands and
  FlagMask.FlagBadCorrelatorSamples require at least one channel per
  sub-band (`cotter.cpp:1200`). A real observation has at least as many
  channels as sub-bands. With fewer, every sub-band's pointer in the source
  lands on row 0, and the model does not follow that.
- Cotter.MaxScansPerPart requires a positive number of bytes per scan. It
  is positive for any real observation.
- Cotter.OnHDUOffsetsChange requires the sub-band order to be a
  permutation. `initializeSbOrder` builds it that way.
- GpuFileReader.Read takes the current and stop HDU as state. Before the
  first open the source leaves them unset, and the first open overwrites
  them. The start HDU of an aligned file is computed exactly, and only the
  later sums wrap at the size maximum.
- GpuFileReader.ReadAdvanceWithoutAlignment covers only reads without
  alignment whose HDU counts stay below the size maximum. With alignment,
  the advance is stated only by GpuFileReader.Read in terms of the end
  position.
- `cotter/numberlist.h` is not part of this model. It does not compile:
  it pushes an undeclared `num`.
- AuthorList: reading the command line and files is not modelled. The
  input is given as a list of lines. Python 2's trailing soft-space
  newline after the last `print x,` is not modelled.

## Findings

| source | as written | input that shows it | evidently intended | confidence | as-written member | corrected member |
|---|---|---|---|---|---|---|
| uvector/uvector.h:303-313 | `fill` for one-byte types calls `memset(begin, (end-begin)*sizeof(Tp), val)`. This swaps the fill value and the length. | `uvector<unsigned char>(3, 1)` writes one byte of value 3 and leaves two bytes uninitialised. `uvector<unsigned char>(2, 5)` writes 5 bytes into a 2-byte allocation. | `memset(begin, val, end-begin)`: every byte equals val | not executed | UVector.FillBytesAsWrittenWrong | UVector.FillBytes |
| cotter/flagwriter.cpp:141-148 | A row is written only when `_rowsWritten > offset * baselineCount + 1`. | With offset 0, the first row (`_rowsWritten` 1) would go to FITS row 1 but fails the gate. So FITS row 1 is never written. | A gate of `_rowsWritten > offset * baselineCount`, so every row from 1 on is written | not executed | FlagWriter.FirstWriteRowSkipped | FlagWriter.WriteGateCoversEveryRow |
| cotter/fitswriter.cpp:87 | PZERO5 is floor(JD0) - 0.5, but each row's DATE is stored relative to floor(JD0) + 0.5 (lines 208-209). | Start time 0 and row time 0: the Julian date is 2400000.5, but the stored DATE plus PZERO5 gives 2399999.5. | PZERO5 equal to the zero level floor(JD0) + 0.5 used for the rows | not executed | FitsWriter.DateOffByOneDayAtZero | FitsWriter.DateRecovered |

=== FILE: authorlist.dfy ===
/** The author-list script of the RFI-distribution article: it keeps the
    authors whose line ends in "yes", reads the institute list, numbers the
    institutes densely from 1 in order of first appearance, and prints the
    author names. Python's `IndexError` on a malformed line is a `Throw`;
    reading the files and printing are modelled as lists of lines and the
    printed text. */
module AuthorList {

  import opened Results
  import opened Text

  // ------------------------------------------------------------ strings

  /** `strip_end`: the text without the suffix when it ends with it. For an
      empty suffix Python's `text[:-0]` is `text[:0]`, the empty string. */
  function StripEnd(text: string, suffix: string): (r: string)
    ensures !EndsWith(text, suffix) ==> r == text
    ensures EndsWith(text, suffix) && suffix != [] ==> r + suffix == text
    ensures suffix == [] ==> r == []
  {
    if !EndsWith(text, suffix) then text
    else if suffix == [] then []
    else text[..|text| - |suffix|]
  }

  /** With a non-empty suffix exactly one copy is removed, and appending
      the suffix to a text and stripping it gives the text back. */
  lemma StripEndOnce(text: string, suffix: string)
    requires suffix != []
    ensures StripEnd(text + suffix, suffix) == text
  {
    assert (text + suffix)[|text|..] == suffix;
    assert (text + suffix)[..|text|] == text;
  }

  /** `str.split(c)`: the pieces between the occurrences of c, empty pieces
      kept. */
  function SplitOn(s: string, c: char): (pieces: seq<string>)
    ensures |pieces| >= 1
    ensures forall i :: 0 <= i < |pieces| ==> c !in pieces[i]
    decreases |s|
  {
    match FindChar(s, c, 0)
    case None => [s]
    case Some(p) =>
      var head := s[..p];
      assert forall i :: 0 <= i < |head| ==> head[i] == s[i];
      [head] + SplitOn(s[p + 1..], c)
  }

  /** The pieces joined back with c between them. */
  function JoinWith(pieces: seq<string>, c: char): string
    requires |pieces| >= 1
  {
    if |pieces| == 1 then pieces[0] else pieces[0] + [c] + JoinWith(pieces[1..], c)
  }

  /** Splitting loses nothing: joining the pieces gives the line back. */
  lemma {:induction false} SplitJoin(s: string, c: char)
    ensures JoinWith(SplitOn(s, c), c) == s
    decreases |s|
  {
    match FindChar(s, c, 0)
    case None =>
    case Some(p) =>
      var rest := s[p + 1..];
      SplitJoin(rest, c);
      var pieces := SplitOn(s, c);
      assert pieces == [s[..p]] + SplitOn(rest, c);
      assert pieces[1..] == SplitOn(rest, c);
      assert JoinWith(pieces, c) == s[..p] + [c] + rest;
      assert s == s[..p] + [c] + rest;
  }

  /** `str.strip(c)`: the leading and trailing copies of c removed. */
  function StripChar(s: string, c: char): (r: string)
    decreases |s|
  {
    if |s| > 0 && s[0] == c then StripChar(s[1..], c)
    else if |s| > 0 && s[|s| - 1] == c then StripChar(s[..|s| - 1], c)
    else s
  }

  /** A piece of a split on c holds no c, so stripping c leaves it alone. */
  lemma StripCharNone(s: string, c: char)
    requires c !in s
    ensures StripChar(s, c) == s
  {
  }

  /** The longest prefix without whitespace. */
  function TakeWord(s: string): (w: string)
    ensures |w| <= |s|
    ensures |s| > 0 && !IsSpace(s[0]) ==> |w| > 0
  {
    if |s| > 0 && !IsSpace(s[0]) then [s[0]] + TakeWord(s[1..]) else []
  }

  /** The word is a prefix without whitespace that stops at whitespace or
      the end. */
  lemma {:induction false} TakeWordSpec(s: string)
    ensures TakeWord(s) == s[..|TakeWord(s)|]
    ensures forall i :: 0 <= i < |TakeWord(s)| ==> !IsSpace(TakeWord(s)[i])
    ensures |TakeWord(s)| < |s| ==> IsSpace(s[|TakeWord(s)|])
    decreases |s|
  {
    if |s| > 0 && !IsSpace(s[0]) {
      TakeWordSpec(s[1..]);
    }
  }

  /** `str.split()`: the maximal runs of non-whitespace, in order. */
  function Words(s: string): seq<string>
    decreases |s|
  {
    if s == [] then []
    else if IsSpace(s[0]) then Words(s[1..])
    else
      var w := TakeWord(s);
      [w] + Words(s[|w|..])
  }

  /** Every word is non-empty and holds no whitespace. */
  lemma {:induction false} WordsAreWords(s: string)
    ensures forall i :: 0 <= i < |Words(s)| ==> Words(s)[i] != [] && forall j :: 0 <= j < |Words(s)[i]| ==> !IsSpace(Words(s)[i][j])
    decreases |s|
  {
    if s == [] {
    } else if IsSpace(s[0]) {
      WordsAreWords(s[1..]);
    } else {
      var w := TakeWord(s);
      TakeWordSpec(s);
      WordsAreWords(s[|w|..]);
      assert Words(s) == [w] + Words(s[|w|..]);
    }
  }

  /** The characters of s that are not whitespace. */
  function NonSpace(s: string): string {
    if s == [] then [] else (if IsSpace(s[0]) then [] else [s[0]]) + NonSpace(s[1..])
  }

  function Concat(ws: seq<string>): string {
    if ws == [] then [] else ws[0] + Concat(ws[1..])
  }

  lemma {:induction false} NonSpaceAppend(a: string, b: string)
    ensures NonSpace(a + b) == NonSpace(a) + NonSpace(b)
    decreases |a|
  {
    if a == [] {
      assert a + b == b;
    } else {
      NonSpaceAppend(a[1..], b);
      assert (a + b)[1..] == a[1..] + b;
    }
  }

  lemma {:induction false} NonSpaceOfWord(a: string)
    requires forall i :: 0 <= i < |a| ==> !IsSpace(a[i])
    ensures NonSpace(a) == a
    decreases |a|
  {
    if a != [] {
      NonSpaceOfWord(a[1..]);
    }
  }

  /** The words are exactly the non-whitespace characters, cut at the
      whitespace. */
  lemma {:induction false} WordsCoverText(s: string)
    ensures Concat(Words(s)) == NonSpace(s)
    decreases |s|
  {
    if s == [] {
    } else if IsSpace(s[0]) {
      WordsCoverText(s[1..]);
    } else {
      var w := TakeWord(s);
      TakeWordSpec(s);
      var rest := s[|w|..];
      assert s == w + rest;
      var ws := Words(s);
      assert ws == [w] + Words(rest);
      assert ws[0] == w && ws[1..] == Words(rest);
      NonSpaceAppend(w, rest);
      NonSpaceOfWord(w);
      WordsCoverText(rest);
    }
  }

  /** `str.rstrip()`: trailing whitespace removed. */
  function RStrip(s: string): (r: string)
    ensures |r| <= |s|
  {
    if |s| > 0 && IsSpace(s[|s| - 1]) then RStrip(s[..|s| - 1]) else s
  }

  /** The stripped line is a prefix that ends in a non-space, and all that
      was removed is whitespace. */
  lemma {:induction false} RStripSpec(s: string)
    ensures RStrip(s) == s[..|RStrip(s)|]
    ensures |RStrip(s)| > 0 ==> !IsSpace(RStrip(s)[|RStrip(s)| - 1])
    ensures forall i :: |RStrip(s)| <= i < |s| ==> IsSpace(s[i])
    decreases |s|
  {
    if |s| > 0 && IsSpace(s[|s| - 1]) {
      var front := s[..|s| - 1];
      RStripSpec(front);
      assert front[..|RStrip(front)|] == s[..|RStrip(front)|];
    }
  }

  function Last<T>(s: seq<T>): T
    requires |s| > 0
  {
    s[|s| - 1]
  }

  function DropLast<T>(s: seq<T>): (r: seq<T>)
    ensures |s| > 0 ==> r == s[..|s| - 1]
    ensures |s| == 0 ==> r == []
  {
    if |s| == 0 then [] else s[..|s| - 1]
  }

  // ------------------------------------------------------------ authors

  datatype Author = Author(name: string, institutes: seq<string>)

  /** `author(line)`: the name is the text after the first quote, up to
      the next; the institutes are the words after the last quote, less
      the final "yes". A line without a quote has no second piece. */
  function ParseAuthor(line: string): (r: Result<Author>)
    ensures r.Ok? <==> |SplitOn(line, '\'')| >= 2
    ensures r.Ok? ==> r.value.name == SplitOn(line, '\'')[1]
    ensures r.Ok? ==> r.value.institutes == DropLast(Words(Last(SplitOn(line, '\''))))
  {
    var pieces := SplitOn(line, '\'');
    if |pieces| < 2 then Throw("IndexError: list index out of range")
    else
      StripCharNone(pieces[1], '\'');
      Ok(Author(StripChar(pieces[1], '\''), DropLast(Words(Last(pieces)))))
  }

  /** Whether a line's last word is "yes"; a blank line has no last word. */
  function Selected(line: string): (r: Result<bool>)
    ensures r.Ok? <==> Words(line) != []
    ensures r.Ok? ==> (r.value <==> Last(Words(line)) == "yes")
  {
    var ws := Words(line);
    if ws == [] then Throw("IndexError: list index out of range") else Ok(Last(ws) == "yes")
  }

  /** A line that neither stops the script: it has a word, and parses when
      it is selected. */
  predicate LineReadable(line: string) {
    Selected(line).Ok? && (Selected(line).value ==> ParseAuthor(line).Ok?)
  }

  predicate AuthorsReadable(lines: seq<string>) {
    forall i :: 0 <= i < |lines| ==> LineReadable(lines[i])
  }

  lemma ReadableTail(lines: seq<string>)
    requires |lines| > 0
    ensures AuthorsReadable(lines) <==> LineReadable(lines[0]) && AuthorsReadable(lines[1..])
  {
    assert forall i :: 0 < i < |lines| ==> lines[i] == lines[1..][i - 1];
  }

  /** The selected lines, in file order. */
  function SelectedLines(lines: seq<string>): (r: seq<string>)
    requires AuthorsReadable(lines)
    ensures forall i :: 0 <= i < |r| ==> r[i] in lines && Selected(r[i]).value
  {
    if lines == [] then []
    else (if Selected(lines[0]).value then [lines[0]] else []) + SelectedLines(lines[1..])
  }

  /** The author list (lines 36-40): the authors of the selected lines,
      in file order; the first blank line or unparsable selected line
      stops the script. */
  function ReadAuthors(lines: seq<string>): (r: Result<seq<Author>>)
    ensures r.Ok? <==> AuthorsReadable(lines)
  {
    if lines == [] then Ok([])
    else
      var line := lines[0];
      ReadableTail(lines);
      var selected :- Selected(line);
      var head: seq<Author> :- if selected then (var a :- ParseAuthor(line); Ok([a])) else Ok([]);
      var rest :- ReadAuthors(lines[1..]);
      Ok(head + rest)
  }

  /** The authors read are those of the selected lines, one for one and in
      order. */
  lemma {:induction false} ReadAuthorsSelected(lines: seq<string>)
    requires AuthorsReadable(lines)
    ensures ReadAuthors(lines).Ok?
    ensures |ReadAuthors(lines).value| == |SelectedLines(lines)|
    ensures forall i :: 0 <= i < |SelectedLines(lines)| ==>
      ParseAuthor(SelectedLines(lines)[i]) == Ok(ReadAuthors(lines).value[i])
    decreases |lines|
  {
    if lines != [] {
      var line := lines[0];
      ReadableTail(lines);
      ReadAuthorsSelected(lines[1..]);
      var rest := ReadAuthors(lines[1..]).value;
      var restLines := SelectedLines(lines[1..]);
      if Selected(line).value {
        var a := ParseAuthor(line).value;
        assert ReadAuthors(lines).value == [a] + rest;
        assert SelectedLines(lines) == [line] + restLines;
        forall i | 0 <= i < |SelectedLines(lines)|
          ensures ParseAuthor(SelectedLines(lines)[i]) == Ok(ReadAuthors(lines).value[i])
        {
          if i > 0 {
            assert SelectedLines(lines)[i] == restLines[i - 1];
            assert ReadAuthors(lines).value[i] == rest[i - 1];
          }
        }
      } else {
        assert ReadAuthors(lines).value == rest;
        assert SelectedLines(lines) == restLines;
      }
    }
  }

  // --------------------------------------------------------- institutes

  /** An institute line has a word to serve as its key. */
  predicate HasKey(line: string) {
    Words(RStrip(line)) != []
  }

  /** The institute list's key for a line: its last word. */
  function InstituteKey(line: string): string
    requires HasKey(line)
  {
    Last(Words(RStrip(line)))
  }

  /** The address kept for a line: the line without its key. */
  function InstituteValue(line: string): string
    requires HasKey(line)
  {
    StripEnd(RStrip(line), InstituteKey(line))
  }

  /** Every institute line has a word. */
  predicate InstitutesReadable(lines: seq<string>) {
    forall i :: 0 <= i < |lines| ==> HasKey(lines[i])
  }

  lemma ReadableFront(lines: seq<string>)
    requires |lines| > 0
    ensures InstitutesReadable(lines) <==>
      InstitutesReadable(DropLast(lines)) && HasKey(Last(lines))
  {
    assert forall i :: 0 <= i < |lines| - 1 ==> DropLast(lines)[i] == lines[i];
  }

  /** The institute map (lines 42-45): each line sets its key to its
      address, a later line overriding an earlier one with the same key; a
      blank line stops the script. */
  function InstituteMap(lines: seq<string>): (r: Result<map<string, string>>)
    ensures r.Ok? <==> InstitutesReadable(lines)
  {
    if lines == [] then Ok(map[])
    else
      ReadableFront(lines);
      var m :- InstituteMap(DropLast(lines));
      var line := Last(lines);
      if !HasKey(line) then Throw("IndexError: list index out of range")
      else Ok(m[InstituteKey(line) := InstituteValue(line)])
  }

  /** The keys of the map are the keys of the lines. */
  lemma {:induction false} InstituteKeys(lines: seq<string>)
    requires InstitutesReadable(lines)
    ensures InstituteMap(lines).Ok?
    ensures forall k :: k in InstituteMap(lines).value <==>
      exists i :: 0 <= i < |lines| && InstituteKey(lines[i]) == k
    decreases |lines|
  {
    if lines != [] {
      var front := DropLast(lines);
      var last := Last(lines);
      ReadableFront(lines);
      InstituteKeys(front);
      var m := InstituteMap(front).value;
      var full := InstituteMap(lines).value;
      assert full == m[InstituteKey(last) := InstituteValue(last)];
      forall k
        ensures k in full <==> exists i :: 0 <= i < |lines| && InstituteKey(lines[i]) == k
      {
        if k == InstituteKey(last) {
          assert InstituteKey(lines[|lines| - 1]) == k;
        } else if k in m {
          var i :| 0 <= i < |front| && InstituteKey(front[i]) == k;
          assert lines[i] == front[i];
        } else {
          forall i | 0 <= i < |lines|
            ensures InstituteKey(lines[i]) != k
          {
            if i < |front| {
              assert lines[i] == front[i];
            }
          }
        }
      }
    }
  }

  /** The address of a key comes from the last line with that key. */
  lemma {:induction false} InstituteLastWins(lines: seq<string>, j: nat)
    requires InstitutesReadable(lines) && j < |lines|
    requires forall i :: j < i < |lines| ==> InstituteKey(lines[i]) != InstituteKey(lines[j])
    ensures InstituteMap(lines).Ok?
    ensures InstituteKey(lines[j]) in InstituteMap(lines).value
    ensures InstituteMap(lines).value[InstituteKey(lines[j])] == InstituteValue(lines[j])
    decreases |lines|
  {
    var front := DropLast(lines);
    ReadableFront(lines);
    var last := Last(lines);
    var m := InstituteMap(front).value;
    assert InstituteMap(lines) == Ok(m[InstituteKey(last) := InstituteValue(last)]);
    if j < |lines| - 1 {
      assert front[j] == lines[j];
      assert InstituteKey(last) != InstituteKey(lines[j]);
      InstituteLastWins(front, j);
    }
  }

  // ----------------------------------------------------------- indexing

  /** Every institute of the kept authors, author by author. */
  function AllInstitutes(authors: seq<Author>): seq<string> {
    if authors == [] then [] else authors[0].institutes + AllInstitutes(authors[1..])
  }

  /** The distinct elements of s in order of first appearance, after
      those already in seen. */
  function FirstAppearances(seen: seq<string>, s: seq<string>): (r: seq<string>)
    ensures |seen| <= |r| && r[..|seen|] == seen
    decreases |s|
  {
    if s == [] then seen
    else FirstAppearances(if s[0] in seen then seen else seen + [s[0]], s[1..])
  }

  predicate NoDuplicates(s: seq<string>) {
    forall i, j :: 0 <= i < j < |s| ==> s[i] != s[j]
  }

  /** The first appearances have no repeat and hold exactly the elements
      met so far. */
  lemma {:induction false} FirstAppearancesSpec(seen: seq<string>, s: seq<string>)
    requires NoDuplicates(seen)
    ensures NoDuplicates(FirstAppearances(seen, s))
    ensures forall x :: x in FirstAppearances(seen, s) <==> x in seen || x in s
    decreases |s|
  {
    if s != [] {
      var next := if s[0] in seen then seen else seen + [s[0]];
      FirstAppearancesSpec(next, s[1..]);
      var r := FirstAppearances(next, s[1..]);
      forall x
        ensures x in r <==> x in seen || x in s
      {
        assert x in s <==> x == s[0] || x in s[1..];
      }
    }
  }

  lemma FirstAppearancesAppend(seen: seq<string>, a: seq<string>, b: seq<string>)
    ensures FirstAppearances(seen, a + b) == FirstAppearances(FirstAppearances(seen, a), b)
    decreases |a|
  {
    if a == [] {
      assert a + b == b;
    } else {
      assert (a + b)[1..] == a[1..] + b;
      FirstAppearancesAppend(if a[0] in seen then seen else seen + [a[0]], a[1..], b);
    }
  }

  lemma {:induction false} AllInstitutesAppend(authors: seq<Author>, a: Author)
    ensures AllInstitutes(authors + [a]) == AllInstitutes(authors) + a.institutes
    decreases |authors|
  {
    if authors != [] {
      assert (authors + [a])[1..] == authors[1..] + [a];
      AllInstitutesAppend(authors[1..], a);
    } else {
      assert authors + [a] == [a];
    }
  }

  /** The numbering: institute order[i] gets number i + 1. */
  ghost predicate Numbered(order: seq<string>, number: map<string, nat>) {
    (forall x :: x in number <==> x in order) &&
    forall i :: 0 <= i < |order| ==> number[order[i]] == i + 1
  }

  lemma FirstAppearancesOne(seen: seq<string>, x: string)
    ensures FirstAppearances(seen, [x]) == if x in seen then seen else seen + [x]
  {
    assert [x][1..] == [];
  }

  /** Numbering a new institute with the next number keeps the numbering
      dense and without repeats. */
  lemma NumberedAppend(order: seq<string>, number: map<string, nat>, x: string)
    requires NoDuplicates(order) && Numbered(order, number) && x !in order
    ensures NoDuplicates(order + [x]) && Numbered(order + [x], number[x := |order| + 1])
  {
    var o := order + [x];
    assert forall i :: 0 <= i < |order| ==> o[i] == order[i];
    forall y
      ensures y in number[x := |order| + 1] <==> y in o
    {
      assert y in o <==> y in order || y == x;
    }
  }

  /** One author's institutes: an institute not numbered yet gets the next
      number. */
  method NumberInstitutes(order: seq<string>, number: map<string, nat>, count: nat, institutes: seq<string>)
    returns (order': seq<string>, number': map<string, nat>, count': nat)
    requires NoDuplicates(order) && Numbered(order, number) && count == |order| + 1
    ensures order' == FirstAppearances(order, institutes)
    ensures NoDuplicates(order') && Numbered(order', number') && count' == |order'| + 1
  {
    order', number', count' := order, number, count;
    for k := 0 to |institutes|
      invariant order' == FirstAppearances(order, institutes[..k])
      invariant NoDuplicates(order') && Numbered(order', number') && count' == |order'| + 1
    {
      var inst := institutes[k];
      assert institutes[..k + 1] == institutes[..k] + [inst];
      FirstAppearancesAppend(order, institutes[..k], [inst]);
      FirstAppearancesOne(order', inst);
      if inst !in order' {
        NumberedAppend(order', number', inst);
        number' := number'[inst := count'];
        order' := order' + [inst];
        count' := count' + 1;
      }
    }
    assert institutes[..|institutes|] == institutes;
  }

  /** The institute indexer (lines 48-57): institutes numbered densely
      from 1 in order of first appearance over the kept authors. */
  method IndexInstitutes(authors: seq<Author>) returns (order: seq<string>, number: map<string, nat>, count: nat)
    ensures order == FirstAppearances([], AllInstitutes(authors))
    ensures NoDuplicates(order) && Numbered(order, number)
    ensures count == |order| + 1
    ensures forall x :: x in number <==> x in AllInstitutes(authors)
  {
    order, number, count := [], map[], 1;
    for a := 0 to |authors|
      invariant order == FirstAppearances([], AllInstitutes(authors[..a]))
      invariant NoDuplicates(order) && Numbered(order, number) && count == |order| + 1
    {
      assert authors[..a + 1] == authors[..a] + [authors[a]];
      AllInstitutesAppend(authors[..a], authors[a]);
      FirstAppearancesAppend([], AllInstitutes(authors[..a]), authors[a].institutes);
      order, number, count := NumberInstitutes(order, number, count, authors[a].institutes);
    }
    assert authors[..|authors|] == authors;
    FirstAppearancesSpec([], AllInstitutes(authors));
  }

  // ------------------------------------------------------------- output

  /** `str.replace('~', ' ')`. */
  function Untilde(s: string): (r: string)
    ensures |r| == |s|
    ensures forall i :: 0 <= i < |s| ==> r[i] == if s[i] == '~' then ' ' else s[i]
  {
    if s == [] then [] else [if s[0] == '~' then ' ' else s[0]] + Untilde(s[1..])
  }

  const AuthorsHeader: string := "----------------- Authors ---------------"
  const OtherFormat: string := "The other format still needs to be written!"

  /** One printed author: the name with tildes as spaces, then a comma. */
  function AuthorItem(a: Author): (item: string)
    ensures |item| == |a.name| + 1 && item[|a.name|] == ','
    ensures forall i :: 0 <= i < |a.name| ==> item[i] != '~'
  {
    Untilde(a.name) + ","
  }

  /** The items after the header, each printed with a trailing comma and
      separated by Python 2's soft space. */
  function Items(authors: seq<Author>): string {
    if authors == [] then []
    else if |authors| == 1 then AuthorItem(authors[0])
    else AuthorItem(authors[0]) + " " + Items(authors[1..])
  }

  /** The printed text: in windows mode the header line and the items, and
      otherwise only the placeholder line. */
  function Output(windows: bool, authors: seq<Author>): (out: string)
    ensures !windows ==> out == OtherFormat + "\n"
    ensures windows ==> |out| > |AuthorsHeader| && out[..|AuthorsHeader| + 1] == AuthorsHeader + "\n"
  {
    if windows then AuthorsHeader + "\n" + Items(authors) else OtherFormat + "\n"
  }

  /** The institutes are not printed: authors with the same names give the
      same output whatever their institutes. */
  lemma {:induction false} OutputIgnoresInstitutes(windows: bool, a: seq<Author>, b: seq<Author>)
    requires |a| == |b| && forall i :: 0 <= i < |a| ==> a[i].name == b[i].name
    ensures Output(windows, a) == Output(windows, b)
  {
    ItemsIgnoreInstitutes(a, b);
  }

  lemma {:induction false} ItemsIgnoreInstitutes(a: seq<Author>, b: seq<Author>)
    requires |a| == |b| && forall i :: 0 <= i < |a| ==> a[i].name == b[i].name
    ensures Items(a) == Items(b)
    decreases |a|
  {
    if |a| > 1 {
      ItemsIgnoreInstitutes(a[1..], b[1..]);
    }
  }

  /** Every tilde of a name is printed as a space. */
  lemma {:induction false} ItemsNoTilde(authors: seq<Author>)
    ensures forall i :: 0 <= i < |Items(authors)| ==> Items(authors)[i] != '~'
    decreases |authors|
  {
    if |authors| > 1 {
      ItemsNoTilde(authors[1..]);
      var item := AuthorItem(authors[0]);
      var rest := Items(authors[1..]);
      assert Items(authors) == item + " " + rest;
      forall i | 0 <= i < |Items(authors)|
        ensures Items(authors)[i] != '~'
      {
        if i > |item| {
          assert Items(authors)[i] == rest[i - |item| - 1];
        }
      }
    }
  }
}

=== FILE: averagingwriter.dfy ===
/** The bookkeeping of the writer that averages in time and frequency
    before passing rows on: the row-addition cycle, the averaged channel
    table, the per-baseline buffers and the flags of an averaged sample.
    Channel frequencies and widths are modelled as exact reals; the
    visibility arithmetic of averaging is not modelled. */
module AveragingWriter {

  import opened Text
  import opened Results

  // --------------------------------------------------------------- AddRows

  /** `AddRows`: the rows are passed on only when the counter is zero; the
      counter then steps and wraps to zero on reaching the time factor. */
  function AddRows(rowsAdded: nat, timeAvgFactor: nat): (r: (nat, bool))
    ensures r.1 <==> rowsAdded == 0
    ensures rowsAdded < timeAvgFactor ==> r.0 == (rowsAdded + 1) % timeAvgFactor
  {
    var next := rowsAdded + 1;
    (if next == timeAvgFactor then 0 else next, rowsAdded == 0)
  }

  /** The counter after k calls from a fresh writer. */
  function CounterAfter(k: nat, timeAvgFactor: nat): nat {
    if k == 0 then 0 else AddRows(CounterAfter(k - 1, timeAvgFactor), timeAvgFactor).0
  }

  /** With a time factor of at least one the counter runs through 0 ..
      factor - 1 in a cycle, so call k passes its rows on exactly when k is
      a multiple of the factor. */
  lemma {:induction false} AddRowsCycle(k: nat, timeAvgFactor: nat)
    requires timeAvgFactor >= 1
    ensures CounterAfter(k, timeAvgFactor) == k % timeAvgFactor
    ensures AddRows(CounterAfter(k, timeAvgFactor), timeAvgFactor).1 <==> k % timeAvgFactor == 0
  {
    if k > 0 {
      AddRowsCycle(k - 1, timeAvgFactor);
      ModNext(k, timeAvgFactor);
    }
  }

  /** k % m follows (k - 1) % m round the cycle 0 .. m - 1. */
  lemma ModNext(k: nat, m: nat)
    requires k >= 1 && m >= 1
    ensures k % m == if (k - 1) % m + 1 == m then 0 else (k - 1) % m + 1
  {
    var q, c := (k - 1) / m, (k - 1) % m;
    assert k == q * m + c + 1;
    if c + 1 == m {
      DivModUnique(q + 1, 0, m);
    } else {
      DivModUnique(q, c + 1, m);
    }
  }

  // ---------------------------------------------------------- band info

  datatype ChannelInfo = ChannelInfo(chanFreq: real, chanWidth: real, effectiveBW: real, resolution: real)

  /** The sum of count consecutive channels' values from start, added in
      order. */
  function SumFrom(values: seq<real>, start: nat, count: nat): real
    requires start + count <= |values|
  {
    if count == 0 then 0.0 else SumFrom(values, start, count - 1) + values[start + count - 1]
  }

  function Freqs(channels: seq<ChannelInfo>): seq<real> {
    seq(|channels|, i requires 0 <= i < |channels| => channels[i].chanFreq)
  }
  function Widths(channels: seq<ChannelInfo>): seq<real> {
    seq(|channels|, i requires 0 <= i < |channels| => channels[i].chanWidth)
  }
  function EffectiveBWs(channels: seq<ChannelInfo>): seq<real> {
    seq(|channels|, i requires 0 <= i < |channels| => channels[i].effectiveBW)
  }
  function Resolutions(channels: seq<ChannelInfo>): seq<real> {
    seq(|channels|, i requires 0 <= i < |channels| => channels[i].resolution)
  }

  /** Every group of freqAvgFactor channels fits inside the input. */
  lemma GroupFits(n: nat, factor: nat, ch: nat)
    requires factor >= 1 && ch < n / factor
    ensures ch * factor + factor <= n
  {
    MulLe(ch + 1, n / factor, factor);
  }

  /** One averaged channel: the sums of the group's widths, bandwidths and
      resolutions, and the mean of its frequencies. */
  method AverageGroup(channels: seq<ChannelInfo>, start: nat, factor: nat) returns (c: ChannelInfo)
    requires factor >= 1 && start + factor <= |channels|
    ensures c.chanWidth == SumFrom(Widths(channels), start, factor)
    ensures c.effectiveBW == SumFrom(EffectiveBWs(channels), start, factor)
    ensures c.resolution == SumFrom(Resolutions(channels), start, factor)
    ensures c.chanFreq == SumFrom(Freqs(channels), start, factor) / (factor as real)
  {
    c := ChannelInfo(0.0, 0.0, 0.0, 0.0);
    for i := 0 to factor
      invariant c.chanFreq == SumFrom(Freqs(channels), start, i)
      invariant c.chanWidth == SumFrom(Widths(channels), start, i)
      invariant c.effectiveBW == SumFrom(EffectiveBWs(channels), start, i)
      invariant c.resolution == SumFrom(Resolutions(channels), start, i)
    {
      var cur := channels[start + i];
      c := ChannelInfo(c.chanFreq + cur.chanFreq, c.chanWidth + cur.chanWidth,
                       c.effectiveBW + cur.effectiveBW, c.resolution + cur.resolution);
    }
    c := c.(chanFreq := c.chanFreq / (factor as real));
  }

  /** Averaged channel ch is built from inputs ch * factor .. ch * factor
      + factor - 1: the sums of their widths, bandwidths and resolutions,
      and the mean of their frequencies. */
  predicate GroupAveraged(channels: seq<ChannelInfo>, factor: nat, ch: nat, c: ChannelInfo) {
    factor >= 1 && ch * factor + factor <= |channels| &&
    c.chanWidth == SumFrom(Widths(channels), ch * factor, factor) &&
    c.effectiveBW == SumFrom(EffectiveBWs(channels), ch * factor, factor) &&
    c.resolution == SumFrom(Resolutions(channels), ch * factor, factor) &&
    c.chanFreq == SumFrom(Freqs(channels), ch * factor, factor) / (factor as real)
  }

  /** floor(n / factor) whole groups fit, and one more would not. */
  lemma GroupCount(n: nat, factor: nat)
    requires factor >= 1
    ensures (n / factor) * factor <= n < (n / factor + 1) * factor
  {
    var q, r := n / factor, n % factor;
    assert n == q * factor + r;
  }

  /** `WriteBandInfo`: floor(n / factor) averaged channels, each made from
      its own group of consecutive inputs; the channels left over at the
      end are dropped. */
  method AverageChannels(channels: seq<ChannelInfo>, freqAvgFactor: nat) returns (avg: seq<ChannelInfo>)
    requires freqAvgFactor >= 1
    ensures |avg| == |channels| / freqAvgFactor
    ensures |avg| * freqAvgFactor <= |channels| < (|avg| + 1) * freqAvgFactor
    ensures forall ch :: 0 <= ch < |avg| ==> GroupAveraged(channels, freqAvgFactor, ch, avg[ch])
  {
    var avgChannelCount := |channels| / freqAvgFactor;
    avg := [];
    for ch := 0 to avgChannelCount
      invariant |avg| == ch
      invariant forall c :: 0 <= c < ch ==> GroupAveraged(channels, freqAvgFactor, c, avg[c])
    {
      GroupFits(|channels|, freqAvgFactor, ch);
      var channel := AverageGroup(channels, ch * freqAvgFactor, freqAvgFactor);
      assert GroupAveraged(channels, freqAvgFactor, ch, channel);
      avg := avg + [channel];
    }
    GroupCount(|channels|, freqAvgFactor);
  }

  // ------------------------------------------------------------ buffers

  /** The part of a baseline buffer this model tracks: the timesteps summed
      so far and, per averaged channel and polarization, how many unflagged
      samples were accumulated (the accumulation itself is done by
      `WriteRow`, which averagingwriter.cpp holds and which is not part of
      this model). */
  datatype Buffer = Buffer(rowTimestepCount: nat, rowCounts: seq<nat>, rowFlags: seq<bool>)

  /** `initZero`: no timestep, no count, no flag. */
  function InitZero(avgChannelCount: nat): (b: Buffer)
    ensures |b.rowCounts| == avgChannelCount * 4 && |b.rowFlags| == avgChannelCount * 4
    ensures b.rowTimestepCount == 0
    ensures forall i :: 0 <= i < avgChannelCount * 4 ==> b.rowCounts[i] == 0 && !b.rowFlags[i]
  {
    Buffer(0, seq(avgChannelCount * 4, _ => 0), seq(avgChannelCount * 4, _ => false))
  }

  /** `IsTimeAligned`: the buffer holds no timestep. */
  predicate IsTimeAligned(b: Buffer) {
    b.rowTimestepCount == 0
  }

  /** `writeCurrentTimestep`: the flags written with the averaged row, and
      the buffer afterwards. A sample is flagged iff no unflagged input was
      accumulated into it; afterwards the buffer is zeroed, so it is time
      aligned again. */
  function WriteCurrentTimestep(b: Buffer, avgChannelCount: nat): (r: (seq<bool>, Buffer))
    requires |b.rowCounts| == avgChannelCount * 4
    ensures |r.0| == avgChannelCount * 4
    ensures forall i :: 0 <= i < avgChannelCount * 4 ==> (r.0[i] <==> b.rowCounts[i] == 0)
    ensures IsTimeAligned(r.1)
    ensures r.1 == InitZero(avgChannelCount)
  {
    (seq(avgChannelCount * 4, i requires 0 <= i < avgChannelCount * 4 => b.rowCounts[i] == 0),
     InitZero(avgChannelCount))
  }

  /** Where the buffer of (antenna1, antenna2) sits in the buffer table. */
  function BufferIndex(antennaCount: nat, antenna1: nat, antenna2: nat): nat {
    antenna1 * antennaCount + antenna2
  }

  /** `initBuffers`: an antennaCount x antennaCount table with a fresh
      buffer for every antenna1 <= antenna2 and none below the diagonal. */
  method InitBuffers(antennaCount: nat, avgChannelCount: nat) returns (buffers: seq<Option<Buffer>>)
    ensures |buffers| == antennaCount * antennaCount
    ensures forall a1, a2 :: 0 <= a1 < antennaCount && 0 <= a2 < antennaCount ==>
      BufferIndex(antennaCount, a1, a2) < |buffers| &&
      buffers[BufferIndex(antennaCount, a1, a2)] ==
        (if a1 <= a2 then Some(InitZero(avgChannelCount)) else None)
  {
    buffers := [];
    for antenna1 := 0 to antennaCount
      invariant |buffers| == antenna1 * antennaCount
      invariant forall a1, a2 :: 0 <= a1 < antenna1 && 0 <= a2 < antennaCount ==>
        BufferIndex(antennaCount, a1, a2) < |buffers| &&
        buffers[BufferIndex(antennaCount, a1, a2)] ==
          (if a1 <= a2 then Some(InitZero(avgChannelCount)) else None)
    {
      var row := seq(antennaCount, a2 requires 0 <= a2 < antennaCount =>
        if antenna1 <= a2 then Some(InitZero(avgChannelCount)) else None);
      var next := buffers + row;
      forall a1, a2 | 0 <= a1 < antenna1 + 1 && 0 <= a2 < antennaCount
        ensures BufferIndex(antennaCount, a1, a2) < |next|
        ensures next[BufferIndex(antennaCount, a1, a2)] ==
          (if a1 <= a2 then Some(InitZero(avgChannelCount)) else None)
      {
        if a1 < antenna1 {
          MulLe(a1 + 1, antenna1, antennaCount);
        }
      }
      buffers := next;
    }
  }

  /** Every buffer that exists starts time aligned. */
  lemma FreshBuffersAligned(antennaCount: nat, avgChannelCount: nat, buffers: seq<Option<Buffer>>, a1: nat, a2: nat)
    requires forall b1, b2 :: 0 <= b1 < antennaCount && 0 <= b2 < antennaCount ==>
      BufferIndex(antennaCount, b1, b2) < |buffers| &&
      buffers[BufferIndex(antennaCount, b1, b2)] == (if b1 <= b2 then Some(InitZero(avgChannelCount)) else None)
    requires a1 <= a2 < antennaCount
    ensures buffers[BufferIndex(antennaCount, a1, a2)].Some?
    ensures IsTimeAligned(buffers[BufferIndex(antennaCount, a1, a2)].value)
  {
  }
}

=== FILE: bytepacker.dfy ===
/** The byte packer of the compressed storage manager: symbols of 4, 6, 8
    or 12 bits are packed least-significant bit first into bytes and
    unpacked again. Symbols are C `unsigned` (bv32) and bytes `unsigned
    char` (bv8); every C assignment of an `unsigned` to a byte keeps only
    the low eight bits, which `Byte` makes explicit. */
module BytePacker {

  type Symbol = bv32
  type Byte8 = bv8

  /** Assigning an `unsigned` to an `unsigned char`. */
  function Byte(x: Symbol): Byte8 {
    (x & 0xFF) as Byte8
  }

  /** Promoting an `unsigned char` to `unsigned`. */
  function Sym(b: Byte8): Symbol {
    b as Symbol
  }

  /** An unsigned comparison, named so that quantifiers over it stay cheap. */
  predicate Below(x: Symbol, bound: Symbol) {
    x < bound
  }

  /** Every symbol is below `bound` (2 to the power of the bit count). */
  predicate Fits(s: seq<Symbol>, bound: Symbol) {
    forall i :: 0 <= i < |s| ==> Below(s[i], bound)
  }

  lemma FitsConcat(a: seq<Symbol>, b: seq<Symbol>, bound: Symbol)
    requires Fits(a, bound) && Fits(b, bound)
    ensures Fits(a + b, bound)
  {
    forall i | 0 <= i < |a + b|
      ensures Below((a + b)[i], bound)
    {
      if i >= |a| {
        assert (a + b)[i] == b[i - |a|];
      }
    }
  }

  /** Number of bytes needed for n symbols of w bits: ceil(w*n/8). */
  function PackedSize(w: nat, n: nat): nat {
    (w * n + 7) / 8
  }

  /** A full group of k symbols of w bits fills exactly g bytes. */
  lemma SizeStep(w: nat, n: nat, k: nat, g: nat)
    requires w * k == 8 * g
    ensures PackedSize(w, n + k) == PackedSize(w, n) + g
  {
    assert w * (n + k) + 7 == (w * n + 7) + 8 * g;
  }

  // ---------------------------------------------------------------- 4 bits

  function Pack4(s: seq<Symbol>): (r: seq<Byte8>)
    ensures |r| == PackedSize(4, |s|)
    decreases |s|
  {
    if |s| >= 2 then
      [Byte(s[0] | (s[1] << 4))] + Pack4(s[2..])
    else if |s| == 1 then
      [Byte(s[0])]
    else
      []
  }

  /** The low and the high nibble of a byte. */
  function Unpack4Byte(b: Byte8): (r: seq<Symbol>)
    ensures |r| == 2 && Fits(r, 16)
  {
    [Sym(b & 0x0F), Sym((b & 0xF0) >> 4)]
  }

  function Unpack4(b: seq<Byte8>, n: nat): (r: seq<Symbol>)
    requires |b| >= PackedSize(4, n)
    ensures |r| == n && Fits(r, 16)
    decreases n
  {
    if n >= 2 then
      var pair := Unpack4Byte(b[0]);
      var rest := Unpack4(b[1..], n - 2);
      FitsConcat(pair, rest, 16);
      pair + rest
    else if n == 1 then
      [Unpack4Byte(b[0])[0]]
    else
      []
  }

  lemma Pair4RoundTrip(s0: Symbol, s1: Symbol)
    requires s0 < 16 && s1 < 16
    ensures Sym(Byte(s0 | (s1 << 4)) & 0x0F) == s0
    ensures Sym((Byte(s0 | (s1 << 4)) & 0xF0) >> 4) == s1
  {
  }

  lemma Nibble4RoundTrip(s0: Symbol)
    requires s0 < 16
    ensures Sym(Byte(s0) & 0x0F) == s0
  {
  }

  lemma Byte4RoundTrip(b: Byte8)
    ensures Byte(Sym(b & 0x0F) | (Sym((b & 0xF0) >> 4) << 4)) == b
  {
  }

  lemma SplitTwo<T>(s: seq<T>)
    requires |s| >= 2
    ensures s == [s[0], s[1]] + s[2..]
  {
  }

  /** Unpacking the byte of a packed pair gives the pair back, whatever
      follows. */
  lemma UnpackPair4(s0: Symbol, s1: Symbol, rest: seq<Byte8>, n: nat)
    requires s0 < 16 && s1 < 16 && |rest| >= PackedSize(4, n)
    ensures |[Byte(s0 | (s1 << 4))] + rest| >= PackedSize(4, n + 2)
    ensures Unpack4([Byte(s0 | (s1 << 4))] + rest, n + 2) == [s0, s1] + Unpack4(rest, n)
  {
    var b := [Byte(s0 | (s1 << 4))] + rest;
    assert b[1..] == rest;
    Pair4RoundTrip(s0, s1);
  }

  lemma {:induction false} Unpack4Pack4(s: seq<Symbol>)
    requires Fits(s, 16)
    ensures Unpack4(Pack4(s), |s|) == s
    decreases |s|
  {
    if |s| >= 2 {
      assert s[0] < 16 && s[1] < 16;
      UnpackPair4(s[0], s[1], Pack4(s[2..]), |s| - 2);
      assert Fits(s[2..], 16);
      Unpack4Pack4(s[2..]);
      SplitTwo(s);
    } else if |s| == 1 {
      Nibble4RoundTrip(s[0]);
    }
  }

  /** On an even number of symbols every byte is reproduced: pack4 and
      unpack4 are inverse bijections between byte strings and nibble pairs. */
  lemma {:induction false} Pack4Unpack4(b: seq<Byte8>)
    ensures Pack4(Unpack4(b, 2 * |b|)) == b
    decreases |b|
  {
    if |b| > 0 {
      var u := Unpack4(b, 2 * |b|);
      assert u[2..] == Unpack4(b[1..], 2 * |b[1..]|);
      Pack4Unpack4(b[1..]);
      Byte4RoundTrip(b[0]);
      assert b == [b[0]] + b[1..];
    }
  }

  // ---------------------------------------------------------------- 6 bits

  /** Three bytes for a full group of four 6-bit symbols. */
  function Pack6Group(s0: Symbol, s1: Symbol, s2: Symbol, s3: Symbol): (r: seq<Byte8>)
    ensures |r| == 3
  {
    [Byte(s0 | ((s1 & 3) << 6)),
     Byte(((s1 & 60) >> 2) | ((s2 & 15) << 4)),
     Byte(((s2 & 48) >> 4) | (s3 << 2))]
  }

  /** The one to three bytes written for a tail of one to three symbols. */
  function Pack6Tail(s: seq<Symbol>): (r: seq<Byte8>)
    requires 1 <= |s| <= 3
    ensures |r| == |s| == PackedSize(6, |s|)
  {
    if |s| == 1 then
      [Byte(s[0])]
    else if |s| == 2 then
      [Byte(s[0] | ((s[1] & 3) << 6)), Byte((s[1] & 60) >> 2)]
    else
      [Byte(s[0] | ((s[1] & 3) << 6)),
       Byte(((s[1] & 60) >> 2) | ((s[2] & 15) << 4)),
       Byte((s[2] & 48) >> 4)]
  }

  function Pack6(s: seq<Symbol>): (r: seq<Byte8>)
    ensures |r| == PackedSize(6, |s|)
    decreases |s|
  {
    if |s| >= 4 then
      SizeStep(6, |s| - 4, 4, 3);
      Pack6Group(s[0], s[1], s[2], s[3]) + Pack6(s[4..])
    else if |s| > 0 then
      Pack6Tail(s)
    else
      []
  }

  function Unpack6Group(b0: Byte8, b1: Byte8, b2: Byte8): (r: seq<Symbol>)
    ensures |r| == 4 && Fits(r, 64)
  {
    [Sym(b0 & 63),
     Sym((b0 & 192) >> 6) | (Sym(b1 & 15) << 2),
     Sym((b1 & 240) >> 4) | (Sym(b2 & 3) << 4),
     Sym((b2 & 252) >> 2)]
  }

  /** The last one to three symbols, from the bytes that hold them (a byte
      past the end is passed as zero and never read). */
  function Unpack6Tail(b0: Byte8, b1: Byte8, b2: Byte8, n: nat): (r: seq<Symbol>)
    requires 1 <= n <= 3
    ensures |r| == n && Fits(r, 64)
  {
    if n == 1 then
      [Sym(b0 & 63)]
    else if n == 2 then
      [Sym(b0 & 63), Sym((b0 & 192) >> 6) | (Sym(b1 & 15) << 2)]
    else
      [Sym(b0 & 63),
       Sym((b0 & 192) >> 6) | (Sym(b1 & 15) << 2),
       Sym((b1 & 240) >> 4) | (Sym(b2 & 3) << 4)]
  }

  /** Byte k of the n bytes of a partial group, zero past them. */
  function TailByte(b: seq<Byte8>, n: nat, k: nat): Byte8
    requires n <= |b|
  {
    if k < n then b[k] else 0
  }

  function Unpack6(b: seq<Byte8>, n: nat): (r: seq<Symbol>)
    requires |b| >= PackedSize(6, n)
    ensures |r| == n && Fits(r, 64)
    decreases n
  {
    if n >= 4 then
      SizeStep(6, n - 4, 4, 3);
      var group := Unpack6Group(b[0], b[1], b[2]);
      var rest := Unpack6(b[3..], n - 4);
      FitsConcat(group, rest, 64);
      group + rest
    else if n > 0 then
      Tail6Size(n);
      Unpack6Tail(TailByte(b, n, 0), TailByte(b, n, 1), TailByte(b, n, 2), n)
    else
      []
  }

  lemma Group6RoundTrip(s0: Symbol, s1: Symbol, s2: Symbol, s3: Symbol)
    requires s0 < 64 && s1 < 64 && s2 < 64 && s3 < 64
    ensures var g := Pack6Group(s0, s1, s2, s3);
      Unpack6Group(g[0], g[1], g[2]) == [s0, s1, s2, s3]
  {
  }

  lemma Tail6RoundTrip(s: seq<Symbol>)
    requires 1 <= |s| <= 3 && Fits(s, 64)
    ensures |Pack6Tail(s)| >= PackedSize(6, |s|)
    ensures Unpack6(Pack6Tail(s), |s|) == s
  {
    Tail6Size(|s|);
    assert s[0] < 64;
    if |s| == 1 {
      Tail6One(s[0]);
      assert s == [s[0]];
    } else if |s| == 2 {
      assert s[1] < 64;
      Tail6Two(s[0], s[1]);
      assert s == [s[0], s[1]];
    } else {
      assert s[1] < 64 && s[2] < 64;
      Tail6Three(s[0], s[1], s[2]);
      assert s == [s[0], s[1], s[2]];
    }
  }

  lemma Tail6One(s0: Symbol)
    requires s0 < 64
    ensures Unpack6Tail(Pack6Tail([s0])[0], 0, 0, 1) == [s0]
  {
  }

  lemma Tail6Two(s0: Symbol, s1: Symbol)
    requires s0 < 64 && s1 < 64
    ensures var p := Pack6Tail([s0, s1]); Unpack6Tail(p[0], p[1], 0, 2) == [s0, s1]
  {
  }

  lemma Tail6Three(s0: Symbol, s1: Symbol, s2: Symbol)
    requires s0 < 64 && s1 < 64 && s2 < 64
    ensures var p := Pack6Tail([s0, s1, s2]); Unpack6Tail(p[0], p[1], p[2], 3) == [s0, s1, s2]
  {
  }

  lemma SplitFour<T>(s: seq<T>)
    requires |s| >= 4
    ensures s == [s[0], s[1], s[2], s[3]] + s[4..]
  {
  }

  /** Unpacking the bytes of a packed group gives the group back, whatever
      follows. */
  lemma UnpackGroup6(s0: Symbol, s1: Symbol, s2: Symbol, s3: Symbol, rest: seq<Byte8>, n: nat)
    requires s0 < 64 && s1 < 64 && s2 < 64 && s3 < 64 && |rest| >= PackedSize(6, n)
    ensures |Pack6Group(s0, s1, s2, s3) + rest| >= PackedSize(6, n + 4)
    ensures Unpack6(Pack6Group(s0, s1, s2, s3) + rest, n + 4) == [s0, s1, s2, s3] + Unpack6(rest, n)
  {
    var g := Pack6Group(s0, s1, s2, s3);
    var b := g + rest;
    SizeStep(6, n, 4, 3);
    assert b[0] == g[0] && b[1] == g[1] && b[2] == g[2] && b[3..] == rest;
    Group6RoundTrip(s0, s1, s2, s3);
  }

  lemma {:induction false} Unpack6Pack6(s: seq<Symbol>)
    requires Fits(s, 64)
    ensures Unpack6(Pack6(s), |s|) == s
    decreases |s|
  {
    if |s| >= 4 {
      assert s[0] < 64 && s[1] < 64 && s[2] < 64 && s[3] < 64;
      UnpackGroup6(s[0], s[1], s[2], s[3], Pack6(s[4..]), |s| - 4);
      assert Fits(s[4..], 64);
      Unpack6Pack6(s[4..]);
      SplitFour(s);
    } else if |s| > 0 {
      Tail6RoundTrip(s);
    }
  }

  lemma Group6Bytes(b0: Byte8, b1: Byte8, b2: Byte8)
    ensures var u := Unpack6Group(b0, b1, b2);
      Pack6Group(u[0], u[1], u[2], u[3]) == [b0, b1, b2]
  {
  }

  /** Packing an unpacked group gives its three bytes back, whatever
      follows. */
  lemma RepackGroup6(b0: Byte8, b1: Byte8, b2: Byte8, tail: seq<Symbol>)
    ensures Pack6(Unpack6Group(b0, b1, b2) + tail) == [b0, b1, b2] + Pack6(tail)
  {
    var g := Unpack6Group(b0, b1, b2);
    var u := g + tail;
    assert u[0] == g[0] && u[1] == g[1] && u[2] == g[2] && u[3] == g[3] && u[4..] == tail;
    Group6Bytes(b0, b1, b2);
  }

  lemma Unpack6Step(b: seq<Byte8>, n: nat)
    requires n >= 4 && |b| >= PackedSize(6, n)
    ensures |b| >= 3 && |b[3..]| >= PackedSize(6, n - 4)
    ensures Unpack6(b, n) == Unpack6Group(b[0], b[1], b[2]) + Unpack6(b[3..], n - 4)
  {
    SizeStep(6, n - 4, 4, 3);
  }

  lemma SplitThree<T>(b: seq<T>)
    requires |b| >= 3
    ensures b == [b[0], b[1], b[2]] + b[3..]
  {
  }

  /** On whole groups (four symbols in three bytes) every byte is
      reproduced. */
  lemma {:induction false} Pack6Unpack6(b: seq<Byte8>, groups: nat)
    requires |b| == 3 * groups
    ensures Pack6(Unpack6(b, 4 * groups)) == b
    decreases groups
  {
    if groups > 0 {
      var rest := b[3..];
      SizeStep(6, 4 * (groups - 1), 4, 3);
      var tail := Unpack6(rest, 4 * (groups - 1));
      Unpack6Step(b, 4 * groups);
      RepackGroup6(b[0], b[1], b[2], tail);
      Pack6Unpack6(rest, groups - 1);
      SplitThree(b);
    }
  }

  // ---------------------------------------------------------------- 8 bits

  function Pack8(s: seq<Symbol>): (r: seq<Byte8>)
    ensures |r| == PackedSize(8, |s|) == |s|
    ensures forall i :: 0 <= i < |s| ==> r[i] as Symbol == s[i] % 256
  {
    seq(|s|, i requires 0 <= i < |s| => Byte(s[i]))
  }

  function Unpack8(b: seq<Byte8>, n: nat): (r: seq<Symbol>)
    requires |b| >= PackedSize(8, n)
    ensures |r| == n && Fits(r, 256)
    ensures forall i :: 0 <= i < n ==> r[i] as Byte8 == b[i]
  {
    seq(n, i requires 0 <= i < n => Sym(b[i]))
  }

  lemma Unpack8Pack8(s: seq<Symbol>)
    requires Fits(s, 256)
    ensures Unpack8(Pack8(s), |s|) == s
  {
    forall i | 0 <= i < |s|
      ensures Unpack8(Pack8(s), |s|)[i] == s[i]
    {
      assert s[i] < 256;
    }
  }

  lemma Pack8Unpack8(b: seq<Byte8>)
    ensures Pack8(Unpack8(b, |b|)) == b
  {
  }

  // --------------------------------------------------------------- 12 bits

  function Pack12Pair(s0: Symbol, s1: Symbol): seq<Byte8> {
    [Byte(s0 & 0x0FF),
     Byte(((s0 & 0xF00) >> 8) | ((s1 & 0x00F) << 4)),
     Byte((s1 & 0xFF0) >> 4)]
  }

  function Pack12(s: seq<Symbol>): (r: seq<Byte8>)
    ensures |r| == PackedSize(12, |s|)
    decreases |s|
  {
    if |s| >= 2 then
      SizeStep(12, |s| - 2, 2, 3);
      Pack12Pair(s[0], s[1]) + Pack12(s[2..])
    else if |s| == 1 then
      [Byte(s[0] & 0x0FF), Byte((s[0] & 0xF00) >> 8)]
    else
      []
  }

  function Unpack12Pair(b0: Byte8, b1: Byte8, b2: Byte8): (r: seq<Symbol>)
    ensures |r| == 2 && Fits(r, 4096)
  {
    [Sym(b0) | (Sym(b1 & 0x0F) << 8),
     Sym((b1 & 0xF0) >> 4) | (Sym(b2 & 0xFF) << 4)]
  }

  /** A lone last symbol: the first byte and the low nibble of the next. */
  function Unpack12Single(b0: Byte8, b1: Byte8): (r: Symbol)
    ensures r < 4096
  {
    Sym(b0) | (Sym(b1 & 0x0F) << 8)
  }

  function Unpack12(b: seq<Byte8>, n: nat): (r: seq<Symbol>)
    requires |b| >= PackedSize(12, n)
    ensures |r| == n && Fits(r, 4096)
    decreases n
  {
    if n >= 2 then
      SizeStep(12, n - 2, 2, 3);
      var pair := Unpack12Pair(b[0], b[1], b[2]);
      var rest := Unpack12(b[3..], n - 2);
      FitsConcat(pair, rest, 4096);
      pair + rest
    else if n == 1 then
      assert PackedSize(12, 1) == 19 / 8;
      [Unpack12Single(b[0], b[1])]
    else
      []
  }

  lemma Pair12RoundTrip(s0: Symbol, s1: Symbol)
    requires s0 < 4096 && s1 < 4096
    ensures var g := Pack12Pair(s0, s1);
      Unpack12Pair(g[0], g[1], g[2]) == [s0, s1]
  {
  }

  lemma Tail12RoundTrip(s0: Symbol)
    requires s0 < 4096
    ensures Sym(Byte(s0 & 0x0FF)) | (Sym(Byte((s0 & 0xF00) >> 8) & 0x0F) << 8) == s0
  {
  }

  lemma Pair12Bytes(b0: Byte8, b1: Byte8, b2: Byte8)
    ensures var u := Unpack12Pair(b0, b1, b2);
      Pack12Pair(u[0], u[1]) == [b0, b1, b2]
  {
  }

  /** Unpacking the bytes of a packed pair gives the pair back, whatever
      follows. */
  lemma UnpackPair12(s0: Symbol, s1: Symbol, rest: seq<Byte8>, n: nat)
    requires s0 < 4096 && s1 < 4096 && |rest| >= PackedSize(12, n)
    ensures |Pack12Pair(s0, s1) + rest| >= PackedSize(12, n + 2)
    ensures Unpack12(Pack12Pair(s0, s1) + rest, n + 2) == [s0, s1] + Unpack12(rest, n)
  {
    var g := Pack12Pair(s0, s1);
    var b := g + rest;
    SizeStep(12, n, 2, 3);
    assert b[0] == g[0] && b[1] == g[1] && b[2] == g[2] && b[3..] == rest;
    Pair12RoundTrip(s0, s1);
  }

  lemma {:induction false} Unpack12Pack12(s: seq<Symbol>)
    requires Fits(s, 4096)
    ensures Unpack12(Pack12(s), |s|) == s
    decreases |s|
  {
    if |s| >= 2 {
      assert s[0] < 4096 && s[1] < 4096;
      UnpackPair12(s[0], s[1], Pack12(s[2..]), |s| - 2);
      assert Fits(s[2..], 4096);
      Unpack12Pack12(s[2..]);
      SplitTwo(s);
    } else if |s| == 1 {
      assert s[0] < 4096;
      Tail12RoundTrip(s[0]);
    }
  }

  /** Packing an unpacked pair gives its three bytes back, whatever
      follows. */
  lemma RepackPair12(b0: Byte8, b1: Byte8, b2: Byte8, tail: seq<Symbol>)
    ensures Pack12(Unpack12Pair(b0, b1, b2) + tail) == [b0, b1, b2] + Pack12(tail)
  {
    var g := Unpack12Pair(b0, b1, b2);
    var u := g + tail;
    assert u[0] == g[0] && u[1] == g[1] && u[2..] == tail;
    Pair12Bytes(b0, b1, b2);
  }

  /** On whole pairs (two symbols in three bytes) every byte is
      reproduced. */
  lemma {:induction false} Pack12Unpack12(b: seq<Byte8>, groups: nat)
    requires |b| == 3 * groups
    ensures Pack12(Unpack12(b, 2 * groups)) == b
    decreases groups
  {
    if groups > 0 {
      var rest := b[3..];
      SizeStep(12, 2 * (groups - 1), 2, 3);
      var tail := Unpack12(rest, 2 * (groups - 1));
      assert Unpack12(b, 2 * groups) == Unpack12Pair(b[0], b[1], b[2]) + tail;
      RepackPair12(b[0], b[1], b[2], tail);
      Pack12Unpack12(rest, groups - 1);
      SplitThree(b);
    }
  }

  // -------------------------------------------------------------- dispatch

  predicate Supported(bitCount: nat) {
    bitCount == 4 || bitCount == 6 || bitCount == 8 || bitCount == 12
  }

  /** 2 to the power of a supported bit count: the bound of its symbols. */
  function Limit(bitCount: nat): Symbol {
    if bitCount == 4 then 16
    else if bitCount == 6 then 64
    else if bitCount == 8 then 256
    else 4096
  }

  /** Bytes that `pack` writes: none for an unsupported bit count. */
  function PackBytes(bitCount: nat, s: seq<Symbol>): (r: seq<Byte8>)
    ensures |r| == (if Supported(bitCount) then PackedSize(bitCount, |s|) else 0)
  {
    if bitCount == 4 then Pack4(s)
    else if bitCount == 6 then Pack6(s)
    else if bitCount == 8 then Pack8(s)
    else if bitCount == 12 then Pack12(s)
    else []
  }

  /** `pack`: the packed bytes overwrite the front of dest; the rest of dest,
      and all of it for an unsupported bit count, is left as it was. */
  function Pack(bitCount: nat, dest: seq<Byte8>, s: seq<Symbol>): (r: seq<Byte8>)
    requires Supported(bitCount) ==> |dest| >= PackedSize(bitCount, |s|)
    ensures |r| == |dest|
    ensures !Supported(bitCount) ==> r == dest
    ensures Supported(bitCount) ==>
      r[PackedSize(bitCount, |s|)..] == dest[PackedSize(bitCount, |s|)..]
  {
    var p := PackBytes(bitCount, s);
    p + dest[|p|..]
  }

  function UnpackSymbols(bitCount: nat, b: seq<Byte8>, n: nat): (r: seq<Symbol>)
    requires Supported(bitCount) ==> |b| >= PackedSize(bitCount, n)
    ensures Supported(bitCount) ==> |r| == n && Fits(r, Limit(bitCount))
    ensures !Supported(bitCount) ==> r == []
  {
    if bitCount == 4 then Unpack4(b, n)
    else if bitCount == 6 then Unpack6(b, n)
    else if bitCount == 8 then Unpack8(b, n)
    else if bitCount == 12 then Unpack12(b, n)
    else []
  }

  /** `unpack`: the first n entries of dest receive the symbols; for an
      unsupported bit count dest is left as it was. */
  function Unpack(bitCount: nat, dest: seq<Symbol>, b: seq<Byte8>, n: nat): (r: seq<Symbol>)
    requires |dest| >= n
    requires Supported(bitCount) ==> |b| >= PackedSize(bitCount, n)
    ensures |r| == |dest|
    ensures !Supported(bitCount) ==> r == dest
    ensures Supported(bitCount) ==> r[n..] == dest[n..] && Fits(r[..n], Limit(bitCount))
  {
    var u := UnpackSymbols(bitCount, b, n);
    u + dest[|u|..]
  }

  /** Unpacking what was packed with the same supported bit count gives
      back the symbols, whatever the buffers held before. */
  lemma PackThenUnpack(bitCount: nat, bytes: seq<Byte8>, dest: seq<Symbol>, s: seq<Symbol>)
    requires Supported(bitCount) && Fits(s, Limit(bitCount))
    requires |bytes| >= PackedSize(bitCount, |s|) && |dest| >= |s|
    ensures Unpack(bitCount, dest, Pack(bitCount, bytes, s), |s|)[..|s|] == s
  {
    var p := Pack(bitCount, bytes, s);
    assert p[..PackedSize(bitCount, |s|)] == PackBytes(bitCount, s);
    if bitCount == 4 {
      Unpack4Pack4(s);
      assert Unpack4(p, |s|) == Unpack4(Pack4(s), |s|) by { Unpack4Prefix(Pack4(s), p, |s|); }
    } else if bitCount == 6 {
      Unpack6Pack6(s);
      Unpack6Prefix(Pack6(s), p, |s|);
    } else if bitCount == 8 {
      Unpack8Pack8(s);
    } else {
      Unpack12Pack12(s);
      Unpack12Prefix(Pack12(s), p, |s|);
    }
  }

  /** Unpacking reads only the bytes it needs. */
  lemma {:induction false} Unpack4Prefix(a: seq<Byte8>, b: seq<Byte8>, n: nat)
    requires |a| >= PackedSize(4, n) && |b| >= PackedSize(4, n)
    requires a[..PackedSize(4, n)] == b[..PackedSize(4, n)]
    ensures Unpack4(a, n) == Unpack4(b, n)
    decreases n
  {
    if n >= 2 {
      assert a[0] == a[..PackedSize(4, n)][0];
      assert a[1..][..PackedSize(4, n - 2)] == a[..PackedSize(4, n)][1..];
      assert b[1..][..PackedSize(4, n - 2)] == b[..PackedSize(4, n)][1..];
      Unpack4Prefix(a[1..], b[1..], n - 2);
    } else if n == 1 {
      assert a[0] == a[..PackedSize(4, n)][0];
    }
  }

  /** Sequences with a common prefix agree on every index of it. */
  lemma PrefixAgrees<T>(a: seq<T>, b: seq<T>, k: nat)
    requires |a| >= k && |b| >= k && a[..k] == b[..k]
    ensures forall i :: 0 <= i < k ==> a[i] == b[i]
  {
    assert forall i :: 0 <= i < k ==> a[i] == a[..k][i] && b[i] == b[..k][i];
  }

  /** Dropping d elements of a common prefix of length k leaves a common
      prefix of length m whenever d + m <= k. */
  lemma PrefixOfSuffix<T>(a: seq<T>, b: seq<T>, k: nat, d: nat, m: nat)
    requires |a| >= k && |b| >= k && a[..k] == b[..k] && d + m <= k
    ensures a[d..][..m] == b[d..][..m]
  {
    assert a[d..][..m] == a[..k][d..d + m];
    assert b[d..][..m] == b[..k][d..d + m];
  }

  lemma {:induction false} Unpack6Prefix(a: seq<Byte8>, b: seq<Byte8>, n: nat)
    requires |a| >= PackedSize(6, n) && |b| >= PackedSize(6, n)
    requires a[..PackedSize(6, n)] == b[..PackedSize(6, n)]
    ensures Unpack6(a, n) == Unpack6(b, n)
    decreases n
  {
    var k := PackedSize(6, n);
    PrefixAgrees(a, b, k);
    if n >= 4 {
      Unpack6Step(a, n);
      Unpack6Step(b, n);
      SizeStep(6, n - 4, 4, 3);
      PrefixOfSuffix(a, b, k, 3, PackedSize(6, n - 4));
      Unpack6Prefix(a[3..], b[3..], n - 4);
    } else if n > 0 {
      Tail6Size(n);
      Tail6Agree(a, b, n);
    }
  }

  lemma Tail6Agree(a: seq<Byte8>, b: seq<Byte8>, n: nat)
    requires 1 <= n <= 3 && |a| >= n && |b| >= n
    requires forall i :: 0 <= i < n ==> a[i] == b[i]
    ensures TailByte(a, n, 0) == TailByte(b, n, 0)
    ensures TailByte(a, n, 1) == TailByte(b, n, 1)
    ensures TailByte(a, n, 2) == TailByte(b, n, 2)
  {
  }

  /** A partial group of one to three 6-bit symbols takes one byte each. */
  lemma Tail6Size(n: nat)
    requires 1 <= n <= 3
    ensures PackedSize(6, n) == n
  {
    if n == 1 {
      assert PackedSize(6, 1) == 13 / 8;
    } else if n == 2 {
      assert PackedSize(6, 2) == 19 / 8;
    } else {
      assert PackedSize(6, 3) == 25 / 8;
    }
  }

  lemma Unpack12Step(b: seq<Byte8>, n: nat)
    requires n >= 2 && |b| >= PackedSize(12, n)
    ensures |b| >= 3 && |b[3..]| >= PackedSize(12, n - 2)
    ensures Unpack12(b, n) == Unpack12Pair(b[0], b[1], b[2]) + Unpack12(b[3..], n - 2)
  {
    SizeStep(12, n - 2, 2, 3);
  }

  lemma {:induction false} Unpack12Prefix(a: seq<Byte8>, b: seq<Byte8>, n: nat)
    requires |a| >= PackedSize(12, n) && |b| >= PackedSize(12, n)
    requires a[..PackedSize(12, n)] == b[..PackedSize(12, n)]
    ensures Unpack12(a, n) == Unpack12(b, n)
    decreases n
  {
    var k := PackedSize(12, n);
    PrefixAgrees(a, b, k);
    if n >= 2 {
      Unpack12Step(a, n);
      Unpack12Step(b, n);
      SizeStep(12, n - 2, 2, 3);
      PrefixOfSuffix(a, b, k, 3, PackedSize(12, n - 2));
      Unpack12Prefix(a[3..], b[3..], n - 2);
    } else if n == 1 {
      assert k == 2;
    }
  }
}

=== FILE: colormap.dfy ===
/** `IntMap`: the colour map that gives each integer one of sixteen
    colours by its remainder modulo 16 (C's truncating `%`). Remainders
    0 .. 7 are red, green, blue, yellow, cyan, magenta, white and black at
    full intensity, 8 .. 15 the same at half intensity. */
module ColorMap {

  import opened Text

  function R(value: int): (c: nat)
    ensures c == 0 || c == 127 || c == 255
  {
    var r := CMod(value, 16);
    if r == 0 || r == 3 || r == 5 || r == 6 then 255
    else if r == 8 || r == 11 || r == 13 || r == 14 then 127
    else 0
  }

  function G(value: int): (c: nat)
    ensures c == 0 || c == 127 || c == 255
  {
    var r := CMod(value, 16);
    if r == 1 || r == 3 || r == 4 || r == 6 then 255
    else if r == 9 || r == 11 || r == 12 || r == 14 then 127
    else 0
  }

  function B(value: int): (c: nat)
    ensures c == 0 || c == 127 || c == 255
  {
    var r := CMod(value, 16);
    if r == 2 || r == 4 || r == 5 || r == 6 then 255
    else if r == 10 || r == 12 || r == 13 || r == 14 then 127
    else 0
  }

  /** Every colour is opaque. */
  function A(value: int): (c: nat)
    ensures c == 255
  {
    255
  }

  // ------------------------------------------------- reference palette

  /** The three colour channels. */
  datatype Channel = Red | Green | Blue

  /** The channels lit in palette entry k of 0 .. 7: the primaries, then
      the mixes of two, then all three, then none. */
  predicate Lit(k: nat, ch: Channel) {
    match ch
    case Red => k == 0 || k == 3 || k == 5 || k == 6
    case Green => k == 1 || k == 3 || k == 4 || k == 6
    case Blue => k == 2 || k == 4 || k == 5 || k == 6
  }

  /** The intensity of a remainder: full for 0 .. 7, half for 8 .. 15. */
  function Level(r: nat): nat {
    if r < 8 then 255 else 127
  }

  /** The reference colour of a non-negative remainder. */
  function Reference(r: nat, ch: Channel): nat {
    if Lit(r % 8, ch) then Level(r) else 0
  }

  /** The channel of a value as the map computes it. */
  function Component(value: int, ch: Channel): nat {
    match ch
    case Red => R(value)
    case Green => G(value)
    case Blue => B(value)
  }

  /** For a non-negative value the map is the reference palette at its
      remainder. */
  lemma MatchesPalette(value: int, ch: Channel)
    requires value >= 0
    ensures Component(value, ch) == Reference(value % 16, ch)
  {
  }

  /** A negative value that is not a multiple of 16 has a negative
      remainder in C and falls to the default: black. */
  lemma NegativeIsBlack(value: int)
    requires value < 0 && value % 16 != 0
    ensures R(value) == 0 && G(value) == 0 && B(value) == 0
  {
    assert CMod(value, 16) < 0;
  }

  /** The colours repeat every 16 values. */
  lemma Periodic(value: int)
    requires value >= 0
    ensures R(value + 16) == R(value) && G(value + 16) == G(value) && B(value + 16) == B(value)
  {
  }

  /** The colour of a remainder. */
  function Rgb(r: nat): (nat, nat, nat) {
    (Reference(r, Red), Reference(r, Green), Reference(r, Blue))
  }

  /** Different remainders get different colours, except that 7 and 15
      are both black. */
  lemma ColoursDistinct(r1: nat, r2: nat)
    requires r1 < 16 && r2 < 16 && r1 != r2
    requires !(r1 % 8 == 7 && r2 % 8 == 7)
    ensures Rgb(r1) != Rgb(r2)
  {
  }
}

=== FILE: cotter.dfy ===
/** Band and chunk bookkeeping of the Cotter pipeline: splitting the
    sub-bands into contiguous ranges, naming the output of each range,
    the order in which sub-bands map to GPU boxes, the HDU offsets learnt
    from the reader, the memory chunks of the scans and the edge-channel
    count check. */
module Cotter {

  import opened Results
  import opened Text

  // ----------------------------------------------------- contiguous ranges

  /** Sub-bands [start, end) of the observation. */
  datatype Range = Range(start: nat, end: nat)

  /** Sub-band j does not continue the coarse channel numbering of j-1. */
  predicate Break(numbers: seq<int>, j: int) {
    0 < j < |numbers| && numbers[j] != numbers[j - 1] + 1
  }

  /** Inside r the coarse channel numbers go up by one. */
  predicate RunOf(numbers: seq<int>, r: Range) {
    r.end <= |numbers| &&
    forall j :: r.start < j < r.end ==> !Break(numbers, j)
  }

  predicate Consecutive(numbers: seq<int>) {
    forall j :: 0 < j < |numbers| ==> !Break(numbers, j)
  }

  /** The ranges tile [0, n) in order, without gaps or empty ranges. */
  predicate Tiles(ranges: seq<Range>, n: nat) {
    |ranges| >= 1 && ranges[0].start == 0 && ranges[|ranges| - 1].end == n &&
    (forall k :: 0 <= k < |ranges| ==> ranges[k].start < ranges[k].end <= n) &&
    (forall k :: 0 <= k < |ranges| - 1 ==> ranges[k].end == ranges[k + 1].start)
  }

  /** What holds once sub-bands [0, sb) have been scanned: the closed
      ranges tile [0, rangeStart), the open range [rangeStart, sb) has no
      break, and every range but the first starts at a break. */
  predicate Scanned(numbers: seq<int>, sb: nat, ranges: seq<Range>, rangeStart: nat) {
    rangeStart < sb <= |numbers| &&
    (|ranges| == 0 ==> rangeStart == 0) &&
    (|ranges| > 0 ==> ranges[0].start == 0 && ranges[|ranges| - 1].end == rangeStart) &&
    (forall k :: 0 <= k < |ranges| ==> ranges[k].start < ranges[k].end <= rangeStart) &&
    (forall k :: 0 <= k < |ranges| - 1 ==> ranges[k].end == ranges[k + 1].start) &&
    (forall k :: 0 <= k < |ranges| ==> RunOf(numbers, ranges[k])) &&
    RunOf(numbers, Range(rangeStart, sb)) &&
    (forall k :: 0 < k < |ranges| ==> Break(numbers, ranges[k].start)) &&
    (rangeStart > 0 ==> Break(numbers, rangeStart)) &&
    (|ranges| == 0 <==> forall j :: 0 < j < sb ==> !Break(numbers, j))
  }

  lemma ScannedStep(numbers: seq<int>, sb: nat, ranges: seq<Range>, rangeStart: nat)
    requires Scanned(numbers, sb, ranges, rangeStart) && sb < |numbers|
    ensures !Break(numbers, sb) ==> Scanned(numbers, sb + 1, ranges, rangeStart)
    ensures Break(numbers, sb) ==> Scanned(numbers, sb + 1, ranges + [Range(rangeStart, sb)], sb)
  {
    if Break(numbers, sb) {
      var ranges' := ranges + [Range(rangeStart, sb)];
      assert forall k :: 0 <= k < |ranges| ==> ranges'[k] == ranges[k];
    }
  }

  lemma ScannedEnd(numbers: seq<int>, ranges: seq<Range>, rangeStart: nat)
    requires Scanned(numbers, |numbers|, ranges, rangeStart)
    ensures Tiles(ranges + [Range(rangeStart, |numbers|)], |numbers|)
    ensures forall k :: 0 <= k < |ranges| + 1 ==> RunOf(numbers, (ranges + [Range(rangeStart, |numbers|)])[k])
    ensures forall k :: 0 < k < |ranges| + 1 ==> Break(numbers, (ranges + [Range(rangeStart, |numbers|)])[k].start)
    ensures |ranges| + 1 == 1 <==> Consecutive(numbers)
  {
    var ranges' := ranges + [Range(rangeStart, |numbers|)];
    assert forall k :: 0 <= k < |ranges| ==> ranges'[k] == ranges[k];
  }

  /** `processAllContiguousBands`, first part: a new range starts wherever
      the coarse channel number is not one more than the previous one. The
      list of sub-bands is never empty (its first number is read
      unconditionally). */
  method ContiguousRanges(numbers: seq<int>) returns (ranges: seq<Range>)
    requires |numbers| >= 1
    ensures Tiles(ranges, |numbers|)
    ensures forall k :: 0 <= k < |ranges| ==> RunOf(numbers, ranges[k])
    ensures forall k :: 0 < k < |ranges| ==> Break(numbers, ranges[k].start)
    ensures |ranges| == 1 <==> Consecutive(numbers)
  {
    var subbandNumber := numbers[0];
    var rangeStart: nat := 0;
    ranges := [];
    for sb := 1 to |numbers|
      invariant subbandNumber == numbers[sb - 1]
      invariant Scanned(numbers, sb, ranges, rangeStart)
    {
      ScannedStep(numbers, sb, ranges, rangeStart);
      var curNumber := numbers[sb];
      if curNumber != subbandNumber + 1 {
        ranges := ranges + [Range(rangeStart, sb)];
        rangeStart := sb;
      }
      subbandNumber := curNumber;
    }
    ScannedEnd(numbers, ranges, rangeStart);
    ranges := ranges + [Range(rangeStart, |numbers|)];
  }

  // ------------------------------------------------------ band file names

  /** What the pipeline writes: one band under one name, or one name per
      range. */
  datatype BandPlan = WholeBand(name: string) | PerRange(names: seq<string>)

  const DefaultName: string := "preprocessed.ms"

  /** The name the bands share: the output name, or the default one. */
  function BandBaseName(outputName: string, isDefaultName: bool): string {
    if isDefaultName then DefaultName else outputName
  }

  /** dot is the first '.' of name. */
  predicate FirstDot(name: string, dot: nat) {
    dot < |name| && name[dot] == '.' && forall i :: 0 <= i < dot ==> name[i] != '.'
  }

  /** A contiguous observation is written whole; otherwise "???-???" goes
      before the first dot of the name (except for flag files, whose name
      keeps its "%%") and is filled per range with the three-digit first and
      last coarse channel. A name without a dot throws. */
  function PlanBands(outputName: string, isDefaultName: bool, isFlagsFormat: bool,
                     numbers: seq<int>, ranges: seq<Range>): (r: Result<BandPlan>)
    requires Tiles(ranges, |numbers|)
    ensures |ranges| == 1 ==> r.Ok? && r.value.WholeBand?
    ensures |ranges| > 1 ==> (r.Ok? <==> '.' in BandBaseName(outputName, isDefaultName))
    ensures r.Ok? && |ranges| > 1 ==> r.value.PerRange? && |r.value.names| == |ranges|
    ensures r.Ok? && |ranges| > 1 && isFlagsFormat ==>
      forall k :: 0 <= k < |r.value.names| ==> r.value.names[k] == BandBaseName(outputName, isDefaultName)
    ensures r.Ok? && |ranges| == 1 ==> r.value.name == BandBaseName(outputName, isDefaultName)
  {
    var name := BandBaseName(outputName, isDefaultName);
    if |ranges| == 1 then
      Ok(WholeBand(name))
    else
      match FindChar(name, '.', 0)
      case None =>
        assert forall i :: 0 <= i < |name| ==> name[i] != '.';
        Throw("Something is wrong with the output filename.")
      case Some(dot) =>
        if isFlagsFormat then
          Ok(PerRange(seq(|ranges|, _ => name)))
        else
          var template := name[..dot] + "???-???" + name[dot..];
          Ok(PerRange(seq(|ranges|, k requires 0 <= k < |ranges| =>
            FillBandName(template, dot, numbers[ranges[k].start], numbers[ranges[k].end - 1]))))
  }

  /** The six characters written into the template at the dot. */
  function FillBandName(template: string, dot: nat, chStart: int, chEnd: int): (r: string)
    requires dot + 7 <= |template|
    ensures |r| == |template|
    ensures forall i :: 0 <= i < |r| && !(dot <= i < dot + 7 && i != dot + 3) ==> r[i] == template[i]
  {
    template[dot := DigitOf(CDiv(chStart, 100))]
            [dot + 1 := DigitOf(CMod(CDiv(chStart, 10), 10))]
            [dot + 2 := DigitOf(CMod(chStart, 10))]
            [dot + 4 := DigitOf(CDiv(chEnd, 100))]
            [dot + 5 := DigitOf(CMod(CDiv(chEnd, 10), 10))]
            [dot + 6 := DigitOf(CMod(chEnd, 10))]
  }

  lemma ThreeDigits(n: nat)
    requires n < 1000
    ensures Padded(n, 3) == [DigitOf(n / 100), DigitOf(n / 10 % 10), DigitOf(n % 10)]
  {
    var a, b, c := n / 100, n / 10 % 10, n % 10;
    assert n / 10 / 10 == a && a / 10 == 0 && a % 10 == a;
    calc {
      Padded(n, 3);
      Padded(n / 10, 2) + [DigitChar(c)];
      Padded(a, 1) + [DigitChar(b)] + [DigitChar(c)];
      Padded(0, 0) + [DigitChar(a)] + [DigitChar(b)] + [DigitChar(c)];
    }
  }

  /** For coarse channels below 1000 the band name is the output name with
      "SSS-EEE" before its first dot. */
  lemma BandNameLayout(name: string, dot: nat, chStart: nat, chEnd: nat)
    requires dot < |name| && name[dot] == '.' && chStart < 1000 && chEnd < 1000
    ensures FillBandName(name[..dot] + "???-???" + name[dot..], dot, chStart, chEnd) ==
      name[..dot] + Padded(chStart, 3) + "-" + Padded(chEnd, 3) + name[dot..]
  {
    ThreeDigits(chStart);
    ThreeDigits(chEnd);
    var template := name[..dot] + "???-???" + name[dot..];
    var r := FillBandName(template, dot, chStart, chEnd);
    var want := name[..dot] + Padded(chStart, 3) + "-" + Padded(chEnd, 3) + name[dot..];
    assert |r| == |want|;
    forall i | 0 <= i < |r|
      ensures r[i] == want[i]
    {
      if i < dot {
        assert r[i] == template[i] == name[i];
      } else if i >= dot + 7 {
        assert r[i] == template[i] == name[i - 7];
      } else if i == dot + 3 {
        assert r[i] == template[i];
      }
    }
  }

  /** Every other format names range k by the coarse channels of its first
      and last sub-band, three digits each, before the first dot. */
  lemma PlanBandsNames(outputName: string, isDefaultName: bool,
                       numbers: seq<int>, ranges: seq<Range>, dot: nat, k: nat)
    requires Tiles(ranges, |numbers|) && |ranges| > 1 && k < |ranges|
    requires FirstDot(BandBaseName(outputName, isDefaultName), dot)
    requires 0 <= numbers[ranges[k].start] < 1000 && 0 <= numbers[ranges[k].end - 1] < 1000
    ensures PlanBands(outputName, isDefaultName, false, numbers, ranges).Ok?
    ensures PlanBands(outputName, isDefaultName, false, numbers, ranges).value.PerRange?
    ensures PlanBands(outputName, isDefaultName, false, numbers, ranges).value.names[k] ==
      var name := BandBaseName(outputName, isDefaultName);
      name[..dot] + Padded(numbers[ranges[k].start], 3) + "-" +
        Padded(numbers[ranges[k].end - 1], 3) + name[dot..]
  {
    var name := BandBaseName(outputName, isDefaultName);
    var first, last := numbers[ranges[k].start], numbers[ranges[k].end - 1];
    assert FindChar(name, '.', 0) == Some(dot);
    assert PlanBands(outputName, isDefaultName, false, numbers, ranges).value.names[k] ==
      FillBandName(name[..dot] + "???-???" + name[dot..], dot, first, last);
    BandNameLayout(name, dot, first, last);
  }

  // ------------------------------------------------------- sub-band order

  /** The number of leading sub-bands whose coarse channel is at most 128;
      a negative number reads as a huge size_t and ends the run too. */
  function LowCount(numbers: seq<int>): (n: nat)
    ensures n <= |numbers|
    ensures forall i :: 0 <= i < n ==> 0 <= numbers[i] <= 128
    ensures n < |numbers| ==> !(0 <= numbers[n] <= 128)
  {
    if |numbers| == 0 || !(0 <= numbers[0] <= 128) then 0
    else 1 + LowCount(numbers[1..])
  }

  predicate IsPermutation(order: seq<nat>) {
    (forall i :: 0 <= i < |order| ==> order[i] < |order|) &&
    (forall i, j :: 0 <= i < j < |order| ==> order[i] != order[j])
  }

  /** `initializeSbOrder`: sub-bands up to coarse channel 128 keep their
      place; the rest are numbered in reverse, because the receiver flips
      the order of the channels above 128. */
  method InitializeSbOrder(numbers: seq<int>) returns (order: seq<nat>)
    ensures |order| == |numbers| && IsPermutation(order)
    ensures forall i :: 0 <= i < LowCount(numbers) ==> order[i] == i
    ensures forall i :: LowCount(numbers) <= i < |order| ==>
      order[i] == LowCount(numbers) + (|order| - 1 - i)
  {
    var n := |numbers|;
    order := seq(n, _ => 0);
    var sb := 0;
    while sb != n && 0 <= numbers[sb] <= 128
      invariant sb <= LowCount(numbers) && |order| == n
      invariant forall i :: 0 <= i < sb ==> order[i] == i
      decreases n - sb
    {
      order := order[sb := sb];
      sb := sb + 1;
    }
    var stopPoint := sb;
    var rightSB := n;
    while rightSB != stopPoint
      invariant stopPoint <= rightSB <= n && |order| == n
      invariant sb == stopPoint + (n - rightSB)
      invariant forall i :: 0 <= i < stopPoint ==> order[i] == i
      invariant forall i :: rightSB <= i < n ==> order[i] == stopPoint + (n - 1 - i)
      decreases rightSB
    {
      rightSB := rightSB - 1;
      order := order[rightSB := sb];
      sb := sb + 1;
    }
  }

  // ------------------------------------------------------------ HDU offsets

  /** The value an offset has before the reader reports it. */
  const Unknown: int := 9999

  /** `onHDUOffsetsChange`: the reader reports one offset per sub-band of
      the current range; a GPU box whose offset is still unknown takes it,
      a known one is kept (a differing report only warns). When anything
      changed, the writer gets the offsets, or zeros when alignment is
      off. The sub-band order is a permutation (see InitializeSbOrder). */
  method OnHDUOffsetsChange(offsets: seq<int>, order: seq<nat>, sbStart: nat, sbEnd: nat,
                            newOffsets: seq<int>, doAlign: bool)
    returns (result: seq<int>, toWriter: Option<seq<int>>)
    requires sbStart <= sbEnd <= |order| && |newOffsets| >= sbEnd - sbStart
    requires forall sb :: sbStart <= sb < sbEnd ==> order[sb] < |offsets|
    requires forall i, j :: 0 <= i < j < |order| ==> order[i] != order[j]
    ensures |result| == |offsets|
    ensures forall g :: 0 <= g < |offsets| && offsets[g] != Unknown ==> result[g] == offsets[g]
    ensures forall sb :: sbStart <= sb < sbEnd && offsets[order[sb]] == Unknown ==>
      result[order[sb]] == newOffsets[sb - sbStart]
    ensures forall g :: 0 <= g < |offsets| && (forall sb :: sbStart <= sb < sbEnd ==> order[sb] != g) ==>
      result[g] == offsets[g]
    ensures toWriter.Some? <==> exists sb :: sbStart <= sb < sbEnd && offsets[order[sb]] == Unknown
    ensures toWriter.Some? ==> toWriter.value == if doAlign then result else seq(|newOffsets|, _ => 0)
  {
    result := offsets;
    var isChanged := false;
    for sb := sbStart to sbEnd
      invariant |result| == |offsets|
      invariant forall g :: 0 <= g < |offsets| && offsets[g] != Unknown ==> result[g] == offsets[g]
      invariant forall s :: sbStart <= s < sb && offsets[order[s]] == Unknown ==>
        result[order[s]] == newOffsets[s - sbStart]
      invariant forall s :: sb <= s < sbEnd ==> result[order[s]] == offsets[order[s]]
      invariant forall g :: 0 <= g < |offsets| && (forall s :: sbStart <= s < sb ==> order[s] != g) ==>
        result[g] == offsets[g]
      invariant isChanged <==> exists s :: sbStart <= s < sb && offsets[order[s]] == Unknown
    {
      var gpuboxIndex := order[sb];
      if result[gpuboxIndex] == Unknown {
        result := result[gpuboxIndex := newOffsets[sb - sbStart]];
        isChanged := true;
      }
    }
    if isChanged {
      toWriter := Some(if doAlign then result else seq(|newOffsets|, _ => 0));
    } else {
      toWriter := None;
    }
  }

  // ------------------------------------------------------------------ chunks

  /** How many scans fit in the buffer; never less than one, so a buffer
      that is too small still makes progress. */
  function MaxScansPerPart(maxBufferSize: nat, nChannels: nat, antennaCount: nat): (m: nat)
    requires nChannels * (antennaCount + 1) * antennaCount * 2 > 0
    ensures m >= 1
    ensures m == 1 || m * (nChannels * (antennaCount + 1) * antennaCount * 2) <= maxBufferSize
  {
    var perScan := nChannels * (antennaCount + 1) * antennaCount * 2;
    var m := maxBufferSize / perScan;
    if m < 1 then 1 else m
  }

  function PartCount(nScans: nat, maxScansPerPart: nat): (p: nat)
    requires maxScansPerPart >= 1
    ensures p >= 1 && p * maxScansPerPart > nScans
  {
    1 + nScans / maxScansPerPart
  }

  /** The first scan of chunk i of p. */
  function ChunkStart(nScans: nat, i: nat, p: nat): nat
    requires p >= 1
  {
    nScans * i / p
  }

  lemma DivMonotone(a: nat, b: nat, p: nat)
    requires p >= 1 && a <= b
    ensures a / p <= b / p
  {
    var qa, qb := a / p, b / p;
    assert qa * p <= a;
    assert b < (qb + 1) * p;
    MulCancel(qa, qb + 1, p);
  }

  lemma DivSum(a: nat, n: nat, p: nat)
    requires p >= 1
    ensures (a + n) / p <= a / p + n / p + 1
  {
    var qa, qn, q := a / p, n / p, (a + n) / p;
    assert a < (qa + 1) * p;
    assert n < (qn + 1) * p;
    assert q * p <= a + n;
    assert (qa + 1) * p + (qn + 1) * p == (qa + qn + 2) * p;
    MulCancel(q, qa + qn + 2, p);
  }

  /** The first chunk starts at scan 0 and the last ends at nScans. */
  lemma ChunkEnds(nScans: nat, p: nat)
    requires p >= 1
    ensures ChunkStart(nScans, 0, p) == 0 && ChunkStart(nScans, p, p) == nScans
  {
    var q := nScans * p / p;
    assert q * p <= nScans * p < (q + 1) * p;
    MulCancel(q, nScans + 1, p);
    MulCancel(nScans, q + 1, p);
  }

  /** Chunk i of the partition [nScans*i/P, nScans*(i+1)/P) is not
      reversed and holds at most maxScansPerPart scans, so the chunks cover
      the scans in order and each fits in memory. */
  lemma ChunkFits(nScans: nat, maxScansPerPart: nat, i: nat)
    requires maxScansPerPart >= 1 && i < PartCount(nScans, maxScansPerPart)
    ensures ChunkStart(nScans, i, PartCount(nScans, maxScansPerPart)) <=
            ChunkStart(nScans, i + 1, PartCount(nScans, maxScansPerPart))
    ensures ChunkStart(nScans, i + 1, PartCount(nScans, maxScansPerPart)) -
            ChunkStart(nScans, i, PartCount(nScans, maxScansPerPart)) <= maxScansPerPart
  {
    var p := PartCount(nScans, maxScansPerPart);
    var a := nScans * i;
    assert nScans * (i + 1) == a + nScans;
    DivMonotone(a, a + nScans, p);
    DivSum(a, nScans, p);
    assert nScans / p < maxScansPerPart by {
      assert (nScans / p) * p <= nScans < maxScansPerPart * p;
      MulCancel(nScans / p, maxScansPerPart, p);
    }
  }

  // ------------------------------------------------------------ edge check

  /** More than nChannels/(2*subbandCount) edge channels per side is
      refused. */
  function CheckEdgeFlagCount(edgeCount: nat, nChannels: nat, subbandCount: nat): (r: Result<()>)
    requires subbandCount >= 1
    ensures r.Ok? <==> edgeCount <= nChannels / (subbandCount * 2)
  {
    if edgeCount > nChannels / (subbandCount * 2) then
      Throw("Tried to flag more edge channels than available")
    else
      Ok(())
  }

  /** After the check the edge channels at both ends of a sub-band fit in
      it without overlapping. */
  lemma EdgeChannelsFit(edgeCount: nat, nChannels: nat, subbandCount: nat)
    requires subbandCount >= 1 && CheckEdgeFlagCount(edgeCount, nChannels, subbandCount).Ok?
    ensures 2 * edgeCount <= nChannels / subbandCount
  {
    var s := subbandCount;
    var q := nChannels / (s * 2);
    var q2 := nChannels / s;
    assert q * (s * 2) <= nChannels;
    assert (2 * q) * s <= nChannels;
    assert nChannels < (q2 + 1) * s;
    MulCancel(2 * q, q2 + 1, s);
  }
}

=== FILE: cotterrows.dfy ===
/** The small helpers of the Cotter class that decide which baselines are
    written and how many rows each timescan adds, whether a GPU box is
    missing, the channel count of the current sub-band range, and the
    two-digit rendering used in file names. */
module CotterRows {

  import opened Text

  /** The antenna options: drop flagged antennas, drop auto-correlations. */
  datatype Options = Options(removeFlaggedAntennae: bool, removeAutoCorrelations: bool)

  /** 1 + 2 + ... + n, the number of pairs a1 <= a2 among n antennas. */
  function Tri(n: nat): nat {
    if n == 0 then 0 else n + Tri(n - 1)
  }

  lemma {:induction false} TriClosed(n: nat)
    ensures 2 * Tri(n) == n * (n + 1)
  {
    if n > 0 {
      TriClosed(n - 1);
      assert (n - 1) * n + 2 * n == n * (n + 1);
    }
  }

  /** The pairs a1 <= a2 among n antennas, without a1 == a2 when
      auto-correlations are removed. */
  function Pairs(n: nat, removeAutoCorrelations: bool): nat {
    if !removeAutoCorrelations then Tri(n) else if n == 0 then 0 else Tri(n - 1)
  }

  /** `rowsPerTimescan`: the number of antenna pairs written per timescan,
      over the unflagged antennas when those are removed and over all of
      them otherwise. With no antenna and autos removed, C's unsigned
      n - 1 wraps but is multiplied by zero. */
  function RowsPerTimescan(opt: Options, unflaggedAntennaCount: nat, antennaCount: nat): (rows: nat)
    ensures rows == Pairs(if opt.removeFlaggedAntennae then unflaggedAntennaCount else antennaCount,
                          opt.removeAutoCorrelations)
  {
    var n := if opt.removeFlaggedAntennae then unflaggedAntennaCount else antennaCount;
    PairsFormula(n);
    if opt.removeAutoCorrelations then
      if n == 0 then 0 else n * (n - 1) / 2
    else
      n * (n + 1) / 2
  }

  /** The closed forms the writer uses: n (n + 1) / 2 pairs with
      auto-correlations, n (n - 1) / 2 without. */
  lemma PairsFormula(n: nat)
    ensures n * (n + 1) / 2 == Tri(n)
    ensures n > 0 ==> n * (n - 1) / 2 == Tri(n - 1)
  {
    TriClosed(n);
    DivModUnique(Tri(n), 0, 2);
    if n > 0 {
      TriClosed(n - 1);
      assert (n - 1) * n == n * (n - 1);
      DivModUnique(Tri(n - 1), 0, 2);
    }
  }

  /** Antenna a survives the antenna options. */
  predicate Kept(opt: Options, isAntennaFlagged: seq<bool>, a: nat)
    requires a < |isAntennaFlagged|
  {
    !opt.removeFlaggedAntennae || !isAntennaFlagged[a]
  }

  /** `outputBaseline`: both antennas survive and, when auto-correlations
      are removed, they differ. */
  predicate OutputBaseline(opt: Options, isAntennaFlagged: seq<bool>, antenna1: nat, antenna2: nat): (b: bool)
    requires antenna1 < |isAntennaFlagged| && antenna2 < |isAntennaFlagged|
    ensures !opt.removeFlaggedAntennae && !opt.removeAutoCorrelations ==> b
    ensures opt.removeFlaggedAntennae && (isAntennaFlagged[antenna1] || isAntennaFlagged[antenna2]) ==> !b
    ensures opt.removeAutoCorrelations && antenna1 == antenna2 ==> !b
    ensures !isAntennaFlagged[antenna1] && !isAntennaFlagged[antenna2] && antenna1 != antenna2 ==> b
  {
    Kept(opt, isAntennaFlagged, antenna1) && Kept(opt, isAntennaFlagged, antenna2) &&
    (!opt.removeAutoCorrelations || antenna1 != antenna2)
  }

  /** The unflagged antenna count kept while the antenna table is written:
      one for every antenna below hi that is not flagged. */
  function UnflaggedCount(isAntennaFlagged: seq<bool>, hi: nat): (n: nat)
    requires hi <= |isAntennaFlagged|
    ensures n <= hi
  {
    if hi == 0 then 0
    else UnflaggedCount(isAntennaFlagged, hi - 1) + (if isAntennaFlagged[hi - 1] then 0 else 1)
  }

  /** An antenna position as `writeAntennae` hands it to the writer: as
      given when the writer takes positions in the local meridian frame;
      otherwise x and y rotated by the array longitude (the rotated pair is
      a parameter, the trigonometry is not modelled) and the whole moved
      by the array's geocentric location. */
  function WrittenAntennaPosition(local: bool, x: real, y: real, z: real, rotatedX: real, rotatedY: real,
                                  arrayX: real, arrayY: real, arrayZ: real): (p: (real, real, real))
    ensures local ==> p == (x, y, z)
    ensures !local ==> p.0 - arrayX == rotatedX && p.1 - arrayY == rotatedY && p.2 - arrayZ == z
  {
    if local then (x, y, z) else (rotatedX + arrayX, rotatedY + arrayY, z + arrayZ)
  }

  // ------------------------------------------------ counting the baselines

  /** The antennas in [lo, hi) that survive the options. */
  function KeptIn(opt: Options, f: seq<bool>, lo: nat, hi: nat): nat
    requires lo <= hi <= |f|
    decreases hi - lo
  {
    if lo == hi then 0
    else KeptIn(opt, f, lo, hi - 1) + (if Kept(opt, f, hi - 1) then 1 else 0)
  }

  /** The pairs (a1, a2) with a1 <= a2 < hi that are written. */
  function RowUpTo(opt: Options, f: seq<bool>, a1: nat, hi: nat): nat
    requires a1 <= hi <= |f|
    decreases hi - a1
  {
    if hi == a1 then 0
    else RowUpTo(opt, f, a1, hi - 1) + (if OutputBaseline(opt, f, a1, hi - 1) then 1 else 0)
  }

  /** The pairs with lo <= a1 <= a2 < |f| that are written. */
  function TotalFrom(opt: Options, f: seq<bool>, lo: nat): nat
    requires lo <= |f|
    decreases |f| - lo
  {
    if lo == |f| then 0 else RowUpTo(opt, f, lo, |f|) + TotalFrom(opt, f, lo + 1)
  }

  lemma {:induction false} KeptInFront(opt: Options, f: seq<bool>, lo: nat, hi: nat)
    requires lo < hi <= |f|
    ensures KeptIn(opt, f, lo, hi) == (if Kept(opt, f, lo) then 1 else 0) + KeptIn(opt, f, lo + 1, hi)
    decreases hi - lo
  {
    if hi > lo + 1 {
      KeptInFront(opt, f, lo, hi - 1);
    }
  }

  /** The row of antenna a1 holds every kept antenna from a1 on, less a1
      itself when auto-correlations are removed, and nothing when a1 is
      dropped. */
  lemma {:induction false} RowCount(opt: Options, f: seq<bool>, a1: nat, hi: nat)
    requires a1 < hi <= |f|
    ensures RowUpTo(opt, f, a1, hi) ==
      if !Kept(opt, f, a1) then 0
      else KeptIn(opt, f, a1, hi) - (if opt.removeAutoCorrelations then 1 else 0)
    decreases hi - a1
  {
    if hi > a1 + 1 {
      RowCount(opt, f, a1, hi - 1);
    }
  }

  lemma {:induction false} TotalFormula(opt: Options, f: seq<bool>, lo: nat)
    requires lo <= |f|
    ensures TotalFrom(opt, f, lo) == Pairs(KeptIn(opt, f, lo, |f|), opt.removeAutoCorrelations)
    decreases |f| - lo
  {
    if lo < |f| {
      TotalFormula(opt, f, lo + 1);
      RowCount(opt, f, lo, |f|);
      KeptInFront(opt, f, lo, |f|);
    }
  }

  lemma {:induction false} KeptInAll(opt: Options, f: seq<bool>, hi: nat)
    requires hi <= |f|
    ensures KeptIn(opt, f, 0, hi) == if opt.removeFlaggedAntennae then UnflaggedCount(f, hi) else hi
  {
    if hi > 0 {
      KeptInAll(opt, f, hi - 1);
    }
  }

  /** The nested antenna loop of the timescan writer, counting the
      baselines it writes: always exactly the rows the timescan added. */
  method CountWrittenBaselines(opt: Options, isAntennaFlagged: seq<bool>) returns (count: nat)
    ensures count == RowsPerTimescan(opt, UnflaggedCount(isAntennaFlagged, |isAntennaFlagged|), |isAntennaFlagged|)
  {
    var antennaCount := |isAntennaFlagged|;
    count := 0;
    for antenna1 := 0 to antennaCount
      invariant count + TotalFrom(opt, isAntennaFlagged, antenna1) == TotalFrom(opt, isAntennaFlagged, 0)
    {
      var row := 0;
      for antenna2 := antenna1 to antennaCount
        invariant row == RowUpTo(opt, isAntennaFlagged, antenna1, antenna2)
      {
        if OutputBaseline(opt, isAntennaFlagged, antenna1, antenna2) {
          row := row + 1;
        }
      }
      count := count + row;
    }
    TotalFormula(opt, isAntennaFlagged, 0);
    KeptInAll(opt, isAntennaFlagged, antennaCount);
  }

  // ------------------------------------------------------- GPU box files

  /** `isGPUBoxMissing`: some time range lacks the box, by being too short
      or by holding an empty name in its slot. */
  method IsGPUBoxMissing(fileSets: seq<seq<string>>, gpuBoxIndex: nat) returns (missing: bool)
    ensures missing <==> (exists i :: 0 <= i < |fileSets| &&
                           (gpuBoxIndex >= |fileSets[i]| || fileSets[i][gpuBoxIndex] == []))
  {
    for i := 0 to |fileSets|
      invariant forall j :: 0 <= j < i ==> gpuBoxIndex < |fileSets[j]| && fileSets[j][gpuBoxIndex] != []
    {
      if gpuBoxIndex >= |fileSets[i]| || fileSets[i][gpuBoxIndex] == [] {
        return true;
      }
    }
    return false;
  }

  // ---------------------------------------------- channels of the range

  /** `nChannelsInCurSBRange`: the channels of sub-bands [start, end). */
  function NChannelsInCurSBRange(nChannels: nat, curSbStart: nat, curSbEnd: nat, subbandCount: nat): (n: nat)
    requires curSbStart <= curSbEnd && subbandCount > 0
    ensures curSbEnd <= subbandCount ==> n <= nChannels
    ensures curSbStart == 0 && curSbEnd == subbandCount ==> n == nChannels
  {
    var total: nat := nChannels * (curSbEnd - curSbStart);
    RangeWithinBand(nChannels, curSbEnd - curSbStart, subbandCount);
    total / subbandCount
  }

  lemma RangeWithinBand(nChannels: nat, k: nat, subbandCount: nat)
    requires subbandCount > 0
    ensures k <= subbandCount ==> nChannels * k / subbandCount <= nChannels
    ensures k == subbandCount ==> nChannels * k / subbandCount == nChannels
  {
    MulDiv(nChannels, subbandCount);
    if k <= subbandCount {
      MulLe(k, subbandCount, nChannels);
      assert nChannels * k <= nChannels * subbandCount;
      DivMonotone(nChannels * k, nChannels * subbandCount, subbandCount);
    }
  }

  lemma DivMonotone(a: nat, b: nat, d: nat)
    requires a <= b && d > 0
    ensures a / d <= b / d
  {
    if a / d > b / d {
      assert a == a / d * d + a % d;
      assert b == b / d * d + b % d;
      MulLe(b / d + 1, a / d, d);
    }
  }

  lemma MulDiv(a: nat, b: nat)
    requires b > 0
    ensures a * b / b == a
  {
    var q := a * b / b;
    assert a * b == q * b + a * b % b;
    MulCancel(a, q + 1, b);
    MulCancel(q, a + 1, b);
  }

  /** When the sub-bands have equal channel counts, the range holds that
      many channels per sub-band, so a mask of the range's height splits
      back into whole sub-bands of the same width. */
  lemma ChannelsPerSubbandInRange(nChannels: nat, curSbStart: nat, curSbEnd: nat, subbandCount: nat)
    requires curSbStart < curSbEnd && subbandCount > 0 && nChannels % subbandCount == 0
    ensures NChannelsInCurSBRange(nChannels, curSbStart, curSbEnd, subbandCount) ==
      (nChannels / subbandCount) * (curSbEnd - curSbStart)
    ensures NChannelsInCurSBRange(nChannels, curSbStart, curSbEnd, subbandCount) / (curSbEnd - curSbStart) ==
      nChannels / subbandCount
  {
    var c, k := nChannels / subbandCount, curSbEnd - curSbStart;
    assert nChannels * k == (c * k) * subbandCount;
    MulDiv(c * k, subbandCount);
    MulDiv(c, k);
  }

  // ------------------------------------------------------------ two digits

  /** `twoDigits`: the tens and the units of value as characters. */
  function TwoDigits(value: int): (s: string)
    ensures |s| == 2
  {
    [DigitOf(CDiv(value, 10)), DigitOf(CMod(value, 10))]
  }

  /** For 0..99 these are the value's zero-padded decimal digits, and they
      read back as the value. */
  lemma TwoDigitsPadded(value: nat)
    requires value < 100
    ensures TwoDigits(value) == Padded(value, 2)
    ensures Atoi(TwoDigits(value)) == value
  {
    var a, b := value / 10, value % 10;
    assert TwoDigits(value) == [DigitChar(a), DigitChar(b)];
    assert Padded(a, 1) == [DigitChar(a)] by {
      assert a / 10 == 0 && a % 10 == a;
    }
    assert Padded(value, 2) == Padded(a, 1) + [DigitChar(b)];
    AtoiOfTwoDigits(DigitChar(a), DigitChar(b));
  }
}

=== FILE: fft2d.dfy ===
/** `FFT2D::Unwrap`: turning the half-plane output of a real-to-complex
    2-D transform (height rows of width / 2 + 1 values) into a full
    width x height image with the zero frequency moved to the centre.
    Row and column are handled the same way: the destination is shifted by
    half the size, cyclically, and the source is mirrored for indices
    beyond the middle. */
module Fft2d {

  import opened Text

  /** The destination of index i: i + n / 2, wrapped once. */
  function DestOf(i: nat, n: nat): (d: nat)
    requires i < n
    ensures d < n
  {
    var d := i + n / 2;
    if d >= n then d - n else d
  }

  /** The destination is the cyclic shift (i + n / 2) mod n. */
  lemma DestIsShift(i: nat, n: nat)
    requires i < n
    ensures DestOf(i, n) == (i + n / 2) % n
  {
    var d := i + n / 2;
    if d >= n {
      DivModUnique(1, d - n, n);
    } else {
      DivModUnique(0, d, n);
    }
  }

  /** The index whose destination is d. */
  function SourceOfDest(d: nat, n: nat): (i: nat)
    requires d < n
    ensures i < n
  {
    if d >= n / 2 then d - n / 2 else d + n - n / 2
  }

  /** The shift is a bijection on 0 .. n - 1: each way round undoes the
      other. */
  lemma ShiftBijection(i: nat, d: nat, n: nat)
    requires i < n && d < n
    ensures SourceOfDest(DestOf(i, n), n) == i
    ensures DestOf(SourceOfDest(d, n), n) == d
  {
  }

  /** Two indices never share a destination. */
  lemma ShiftInjective(i: nat, j: nat, n: nat)
    requires i < n && j < n && DestOf(i, n) == DestOf(j, n)
    ensures i == j
  {
    ShiftBijection(i, 0, n);
    ShiftBijection(j, 0, n);
  }

  /** The index read for i: i itself up to the middle, mirrored beyond it.
      It never passes the middle, so it stays inside the half-plane. */
  function SourceOf(i: nat, n: nat): (s: nat)
    requires i < n
    ensures s <= n / 2 && s < n
    ensures i <= n / 2 ==> s == i
    ensures i > n / 2 ==> s + i == n
  {
    if i > n / 2 then n - i else i
  }

  /** The position of (row, column) in a row-major array of the given row
      length. */
  function Pos(row: nat, column: nat, rowLength: nat): nat {
    row * rowLength + column
  }

  lemma PosBound(row: nat, column: nat, rows: nat, rowLength: nat)
    requires row < rows && column < rowLength
    ensures Pos(row, column, rowLength) < rows * rowLength
  {
    MulLe(row + 1, rows, rowLength);
  }

  /** One unwrapped row: rowOut[DestOf(x)] takes rowIn[SourceOf(x)]. */
  function UnwrapRow<T>(rowIn: seq<T>, width: nat): (rowOut: seq<T>)
    requires |rowIn| == width / 2 + 1
    ensures |rowOut| == width
    ensures forall x :: 0 <= x < width ==> rowOut[DestOf(x, width)] == rowIn[SourceOf(x, width)]
  {
    var rowOut := seq(width, d requires 0 <= d < width => rowIn[SourceOf(SourceOfDest(d, width), width)]);
    assert forall x :: 0 <= x < width ==> SourceOfDest(DestOf(x, width), width) == x;
    rowOut
  }

  /** The input row y of the half-plane. */
  function InputRow<T>(uvIn: seq<T>, width: nat, height: nat, y: nat): (row: seq<T>)
    requires |uvIn| == height * (width / 2 + 1) && y < height
    ensures |row| == width / 2 + 1
    ensures forall x :: 0 <= x <= width / 2 ==>
      Pos(y, x, width / 2 + 1) < |uvIn| && row[x] == uvIn[Pos(y, x, width / 2 + 1)]
  {
    var len := width / 2 + 1;
    MulLe(y + 1, height, len);
    var row := uvIn[y * len..(y + 1) * len];
    forall x | 0 <= x <= width / 2
      ensures Pos(y, x, len) < |uvIn| && row[x] == uvIn[Pos(y, x, len)]
    {
      PosBound(y, x, height, len);
    }
    row
  }

  /** Destination row dY holds, at DestOf(x), the input value of the
      row and column its source indices select. */
  ghost predicate RowWritten<T>(out: seq<T>, uvIn: seq<T>, width: nat, height: nat, dY: nat)
    requires dY < height
  {
    var sY := SourceOf(SourceOfDest(dY, height), height);
    forall x :: 0 <= x < width ==>
      Pos(dY, DestOf(x, width), width) < |out| &&
      Pos(sY, SourceOf(x, width), width / 2 + 1) < |uvIn| &&
      out[Pos(dY, DestOf(x, width), width)] == uvIn[Pos(sY, SourceOf(x, width), width / 2 + 1)]
  }

  /** Appending a row keeps the rows before it. */
  lemma RowKept<T>(out: seq<T>, row: seq<T>, uvIn: seq<T>, width: nat, height: nat, rows: nat, dY: nat)
    requires |out| == rows * width && dY < rows && dY < height
    requires RowWritten(out, uvIn, width, height, dY)
    ensures RowWritten(out + row, uvIn, width, height, dY)
  {
    forall x | 0 <= x < width
      ensures Pos(dY, DestOf(x, width), width) < |out|
    {
      PosBound(dY, DestOf(x, width), rows, width);
    }
  }

  /** The appended row is written. */
  lemma RowAppended<T>(out: seq<T>, uvIn: seq<T>, width: nat, height: nat, dY: nat)
    requires |uvIn| == height * (width / 2 + 1) && dY < height && |out| == dY * width
    ensures RowWritten(out + UnwrapRow(InputRow(uvIn, width, height, SourceOf(SourceOfDest(dY, height), height)), width),
                       uvIn, width, height, dY)
  {
    var sY := SourceOf(SourceOfDest(dY, height), height);
    var rowIn := InputRow(uvIn, width, height, sY);
    var rowOut := UnwrapRow(rowIn, width);
    var next := out + rowOut;
    forall x | 0 <= x < width
      ensures Pos(dY, DestOf(x, width), width) < |next|
      ensures Pos(sY, SourceOf(x, width), width / 2 + 1) < |uvIn|
      ensures next[Pos(dY, DestOf(x, width), width)] == uvIn[Pos(sY, SourceOf(x, width), width / 2 + 1)]
    {
      var d := DestOf(x, width);
      assert Pos(dY, d, width) == |out| + d;
      assert next[Pos(dY, d, width)] == rowOut[d];
    }
  }

  /** Once every destination row is written, every (y, x) has its value. */
  lemma AllRowsWritten<T>(out: seq<T>, uvIn: seq<T>, width: nat, height: nat)
    requires forall dY :: 0 <= dY < height ==> RowWritten(out, uvIn, width, height, dY)
    ensures forall y, x :: 0 <= y < height && 0 <= x < width ==>
      Pos(DestOf(y, height), DestOf(x, width), width) < |out| &&
      Pos(SourceOf(y, height), SourceOf(x, width), width / 2 + 1) < |uvIn| &&
      out[Pos(DestOf(y, height), DestOf(x, width), width)] ==
        uvIn[Pos(SourceOf(y, height), SourceOf(x, width), width / 2 + 1)]
  {
    forall y, x | 0 <= y < height && 0 <= x < width
      ensures Pos(DestOf(y, height), DestOf(x, width), width) < |out|
      ensures Pos(SourceOf(y, height), SourceOf(x, width), width / 2 + 1) < |uvIn|
      ensures out[Pos(DestOf(y, height), DestOf(x, width), width)] ==
        uvIn[Pos(SourceOf(y, height), SourceOf(x, width), width / 2 + 1)]
    {
      ShiftBijection(y, 0, height);
      assert RowWritten(out, uvIn, width, height, DestOf(y, height));
    }
  }

  /** One pass of the row loop keeps the rows written so far and adds
      the next. */
  lemma UnwrapStep<T>(out: seq<T>, uvIn: seq<T>, width: nat, height: nat, destY: nat)
    requires |uvIn| == height * (width / 2 + 1) && destY < height && |out| == destY * width
    requires forall dY :: 0 <= dY < destY ==> RowWritten(out, uvIn, width, height, dY)
    ensures var next := out + UnwrapRow(InputRow(uvIn, width, height, SourceOf(SourceOfDest(destY, height), height)), width);
      |next| == (destY + 1) * width &&
      forall dY :: 0 <= dY < destY + 1 ==> RowWritten(next, uvIn, width, height, dY)
  {
    var rowOut := UnwrapRow(InputRow(uvIn, width, height, SourceOf(SourceOfDest(destY, height), height)), width);
    var next := out + rowOut;
    assert |next| == (destY + 1) * width by {
      assert (destY + 1) * width == destY * width + width;
    }
    forall dY | 0 <= dY < destY
      ensures RowWritten(next, uvIn, width, height, dY)
    {
      RowKept(out, rowOut, uvIn, width, height, destY, dY);
    }
    RowAppended(out, uvIn, width, height, destY);
    forall dY | 0 <= dY < destY + 1
      ensures RowWritten(next, uvIn, width, height, dY)
    {
      if dY == destY {
        assert RowWritten(next, uvIn, width, height, destY);
      }
    }
  }

  /** `Unwrap`: every input position read is inside the half-plane, and
      out[destY][destX] == uvIn[sourceY][sourceX] for every (y, x). */
  method Unwrap<T>(uvIn: seq<T>, width: nat, height: nat) returns (out: seq<T>)
    requires |uvIn| == height * (width / 2 + 1)
    ensures |out| == height * width
    ensures forall y, x :: 0 <= y < height && 0 <= x < width ==>
      Pos(DestOf(y, height), DestOf(x, width), width) < |out| &&
      Pos(SourceOf(y, height), SourceOf(x, width), width / 2 + 1) < |uvIn| &&
      out[Pos(DestOf(y, height), DestOf(x, width), width)] ==
        uvIn[Pos(SourceOf(y, height), SourceOf(x, width), width / 2 + 1)]
  {
    out := [];
    for destY := 0 to height
      invariant |out| == destY * width
      invariant forall dY :: 0 <= dY < destY ==> RowWritten(out, uvIn, width, height, dY)
    {
      var sY := SourceOf(SourceOfDest(destY, height), height);
      var rowOut := UnwrapRow(InputRow(uvIn, width, height, sY), width);
      UnwrapStep(out, uvIn, width, height, destY);
      out := out + rowOut;
    }
    AllRowsWritten(out, uvIn, width, height);
  }
}

=== FILE: fitswriter.dfy ===
/** The UVFITS random-groups writer: the baseline code, the layout of one
    group (five group parameters, then real, imaginary and weight for four
    polarizations per channel), the row count that ends up in GCOUNT, and
    the DATE parameter against its PZERO5 zero level. Values are modelled
    as exact reals; the single-precision rounding is not modelled. */
module FitsWriter {

  import opened Text
  import CotterRows

  // -------------------------------------------------------- baseline code

  /** `baselineIndex`: the AIPS baseline code of two 1-based antennas, the
      compact form when the second antenna is at most 255 and the extended
      form above 65536 otherwise. */
  function BaselineIndex(b1: int, b2: int): (idx: int)
    ensures 0 <= b1 < 256 && 0 <= b2 <= 255 ==> 0 <= idx < 65536
    ensures 0 <= b1 && 255 < b2 ==> idx > 65536
  {
    if b2 > 255 then b1 * 2048 + b2 + 65536 else b1 * 256 + b2
  }

  /** Reading a code back: codes below 65536 are compact, the others
      extended. */
  function DecodeBaseline(idx: nat): (nat, nat) {
    if idx < 65536 then (idx / 256, idx % 256)
    else ((idx - 65536) / 2048, (idx - 65536) % 2048)
  }

  /** For antennas b1 <= b2 below 2048 the code reads back as the same
      pair, so distinct baselines get distinct codes. */
  lemma BaselineRoundTrip(b1: nat, b2: nat)
    requires b1 <= b2 < 2048
    ensures BaselineIndex(b1, b2) >= 0
    ensures DecodeBaseline(BaselineIndex(b1, b2) as nat) == (b1, b2)
  {
    if b2 > 255 {
      DivModUnique(b1, b2, 2048);
    } else {
      MulLe(b1, 255, 256);
      DivModUnique(b1, b2, 256);
    }
  }

  /** The compact codes of antennas up to 255 split as b1 = idx / 256 and
      b2 = idx % 256. */
  lemma CompactBaseline(b1: nat, b2: nat)
    requires b1 <= 255 && b2 <= 255
    ensures BaselineIndex(b1, b2) < 65536
    ensures BaselineIndex(b1, b2) / 256 == b1 && BaselineIndex(b1, b2) % 256 == b2
  {
    MulLe(b1, 255, 256);
    DivModUnique(b1, b2, 256);
  }

  // ------------------------------------------------------- group layout

  datatype Complex = Complex(re: real, im: real)

  /** The group parameters: u, v, w, the baseline code and the date. */
  const GroupParameterCount: nat := 5

  /** A flagged sample's weight is stored negated. */
  function SignedWeight(weight: real, flagged: bool): (w: real)
    ensures w == weight || w == -weight
    ensures weight > 0.0 ==> (w < 0.0 <==> flagged)
    ensures weight > 0.0 ==> Abs(w) == weight
  {
    if flagged then -weight else weight
  }

  function Abs(x: real): real {
    if x < 0.0 then -x else x
  }

  /** The input order of each channel's four polarizations is XX, XY, YX,
      YY; a group stores them as XX, YY, XY, YX. This is the input slot of
      output polarization k. */
  function InputPolarization(k: nat): (p: nat)
    requires k < 4
    ensures p < 4
  {
    if k == 0 then 0 else if k == 1 then 3 else if k == 2 then 1 else 2
  }

  /** The output order is a permutation of the input slots. */
  lemma InputPolarizationPermutation(k1: nat, k2: nat)
    requires k1 < 4 && k2 < 4 && k1 != k2
    ensures InputPolarization(k1) != InputPolarization(k2)
  {
  }

  /** Where value j (real, imaginary, weight) of output polarization k of
      channel ch sits among the group's values. */
  function ValuePos(ch: nat, k: nat, j: nat): nat {
    12 * ch + 3 * k + j
  }

  /** Value j of output polarization k of channel ch, from the inputs. */
  function Expected(data: seq<Complex>, flags: seq<bool>, weights: seq<real>, ch: nat, k: nat, j: nat): real
    requires k < 4 && j < 3 && 4 * ch + 4 <= |data| && |flags| == |data| && |weights| == |data|
  {
    var slot := 4 * ch + InputPolarization(k);
    if j == 0 then data[slot].re
    else if j == 1 then data[slot].im
    else SignedWeight(weights[slot], flags[slot])
  }

  /** The twelve values of one channel. */
  function ChannelValues(data: seq<Complex>, flags: seq<bool>, weights: seq<real>, ch: nat): (r: seq<real>)
    requires 4 * ch + 4 <= |data| && |flags| == |data| && |weights| == |data|
    ensures |r| == 12
    ensures forall k, j :: 0 <= k < 4 && 0 <= j < 3 ==> r[3 * k + j] == Expected(data, flags, weights, ch, k, j)
  {
    var xx, xy, yx, yy := data[4 * ch], data[4 * ch + 1], data[4 * ch + 2], data[4 * ch + 3];
    [xx.re, xx.im, SignedWeight(weights[4 * ch], flags[4 * ch]),
     yy.re, yy.im, SignedWeight(weights[4 * ch + 3], flags[4 * ch + 3]),
     xy.re, xy.im, SignedWeight(weights[4 * ch + 1], flags[4 * ch + 1]),
     yx.re, yx.im, SignedWeight(weights[4 * ch + 2], flags[4 * ch + 2])]
  }

  /** The visibility part of `WriteRow`: channel after channel, twelve
      values each, in the order XX, YY, XY, YX with each as (real,
      imaginary, weight). */
  method GroupValues(data: seq<Complex>, flags: seq<bool>, weights: seq<real>, channelCount: nat)
    returns (values: seq<real>)
    requires |data| == 4 * channelCount && |flags| == |data| && |weights| == |data|
    ensures |values| == 12 * channelCount
    ensures forall ch, k, j :: 0 <= ch < channelCount && 0 <= k < 4 && 0 <= j < 3 ==>
      ValuePos(ch, k, j) < |values| &&
      values[ValuePos(ch, k, j)] == Expected(data, flags, weights, ch, k, j)
  {
    values := [];
    for ch := 0 to channelCount
      invariant |values| == 12 * ch
      invariant forall c, k, j :: 0 <= c < ch && 0 <= k < 4 && 0 <= j < 3 ==>
        ValuePos(c, k, j) < |values| &&
        values[ValuePos(c, k, j)] == Expected(data, flags, weights, c, k, j)
    {
      var block := ChannelValues(data, flags, weights, ch);
      var next := values + block;
      forall c, k, j | 0 <= c < ch + 1 && 0 <= k < 4 && 0 <= j < 3
        ensures ValuePos(c, k, j) < |next|
        ensures next[ValuePos(c, k, j)] == Expected(data, flags, weights, c, k, j)
      {
        if c == ch {
          assert next[ValuePos(c, k, j)] == block[3 * k + j];
        }
      }
      values := next;
    }
  }

  /** The seconds of a day and the offset of the Julian date from the
      modified Julian date. */
  const SecondsPerDay: real := 60.0 * 60.0 * 24.0
  const JulianOffset: real := 2400000.5
  const SpeedOfLight: real := 299792458.0

  /** The Julian date of a time in seconds. */
  function JulianDate(time: real): real {
    time / SecondsPerDay + JulianOffset
  }

  /** The zero level `WriteRow` subtracts from every DATE: noon of the
      start's Julian day. */
  function ZeroTimeLevel(startTime: real): real {
    JulianDate(startTime).Floor as real + 0.5
  }

  /** The group of one row: the five parameters, then the values. */
  method WriteRowGroup(startTime: real, time: real, antenna1: nat, antenna2: nat, u: real, v: real, w: real,
                       data: seq<Complex>, flags: seq<bool>, weights: seq<real>, channelCount: nat)
    returns (group: seq<real>)
    requires |data| == 4 * channelCount && |flags| == |data| && |weights| == |data|
    ensures |group| == GroupParameterCount + 12 * channelCount
    ensures group[0] == u / SpeedOfLight && group[1] == v / SpeedOfLight && group[2] == w / SpeedOfLight
    ensures group[3] == BaselineIndex(antenna1 + 1, antenna2 + 1) as real
    ensures group[4] == JulianDate(time) - ZeroTimeLevel(startTime)
    ensures forall ch, k, j :: 0 <= ch < channelCount && 0 <= k < 4 && 0 <= j < 3 ==>
      GroupParameterCount + ValuePos(ch, k, j) < |group| &&
      group[GroupParameterCount + ValuePos(ch, k, j)] == Expected(data, flags, weights, ch, k, j)
  {
    var values := GroupValues(data, flags, weights, channelCount);
    var params := [u / SpeedOfLight, v / SpeedOfLight, w / SpeedOfLight,
                   BaselineIndex(antenna1 + 1, antenna2 + 1) as real,
                   JulianDate(time) - ZeroTimeLevel(startTime)];
    group := params + values;
  }

  // ------------------------------------------------------------ the file

  /** The part of the writer this model tracks: whether the group header
      is written, its initial group count, the groups written and the
      array location. */
  datatype Writer = Writer(
    groupHeadersInitialized: bool,
    initialGroupCount: nat,
    groups: seq<seq<real>>,
    arrayX: real, arrayY: real, arrayZ: real)

  /** A writer as constructed: no header, no group. */
  function NewWriter(): (w: Writer)
    ensures !w.groupHeadersInitialized && w.groups == []
  {
    Writer(false, 0, [], 0.0, 0.0, 0.0)
  }

  /** The group count the header starts with: one timestep of every pair
      a1 <= a2, computed in 64 bits and stored in an unsigned 32-bit
      integer. */
  function InitialGroupCount(antennaCount: nat): (n: nat)
    ensures n < 0x1_0000_0000
    ensures CotterRows.Tri(antennaCount) < 0x1_0000_0000 ==> n == CotterRows.Tri(antennaCount)
  {
    CotterRows.TriClosed(antennaCount);
    (antennaCount * (antennaCount + 1) / 2) % 0x1_0000_0000
  }

  /** `AddRows`: the group header is written on the first call only. */
  function AddRows(wr: Writer, antennaCount: nat): (r: Writer)
    ensures r.groupHeadersInitialized && r.groups == wr.groups
    ensures !wr.groupHeadersInitialized ==> r.initialGroupCount == InitialGroupCount(antennaCount)
    ensures wr.groupHeadersInitialized ==> r == wr
  {
    if wr.groupHeadersInitialized then wr
    else wr.(groupHeadersInitialized := true, initialGroupCount := InitialGroupCount(antennaCount))
  }

  /** `WriteRow`: the row becomes group number |groups| + 1 (1-based). */
  function WriteRow(wr: Writer, group: seq<real>): (r: Writer)
    ensures |r.groups| == |wr.groups| + 1 && r.groups[|wr.groups|] == group
    ensures r.groups[..|wr.groups|] == wr.groups
  {
    wr.(groups := wr.groups + [group])
  }

  /** Writing k rows to a fresh writer leaves the row counter, which the
      destructor writes as GCOUNT, at k, with row i as group i + 1. */
  lemma {:induction false} GCountCountsRows(rows: seq<seq<real>>)
    ensures |WriteAll(NewWriter(), rows).groups| == |rows|
    ensures WriteAll(NewWriter(), rows).groups == rows
  {
    WriteAllAppends(NewWriter(), rows);
  }

  function WriteAll(wr: Writer, rows: seq<seq<real>>): Writer
    decreases |rows|
  {
    if rows == [] then wr else WriteAll(WriteRow(wr, rows[0]), rows[1..])
  }

  lemma {:induction false} WriteAllAppends(wr: Writer, rows: seq<seq<real>>)
    ensures WriteAll(wr, rows).groups == wr.groups + rows
    decreases |rows|
  {
    if rows != [] {
      WriteAllAppends(WriteRow(wr, rows[0]), rows[1..]);
      assert wr.groups + [rows[0]] + rows[1..] == wr.groups + rows;
    }
  }

  /** `SetArrayLocation` keeps the three coordinates as given. */
  function SetArrayLocation(wr: Writer, x: real, y: real, z: real): (r: Writer)
    ensures r.arrayX == x && r.arrayY == y && r.arrayZ == z
    ensures r.groups == wr.groups && r.groupHeadersInitialized == wr.groupHeadersInitialized
  {
    wr.(arrayX := x, arrayY := y, arrayZ := z)
  }

  /** The UVFITS writer takes antenna positions in the local meridian
      frame (the base writer's answer is the opposite). */
  predicate AreAntennaPositionsLocal(): (local: bool)
    ensures local
  {
    true
  }

  /** So the antenna table of a UVFITS file holds the positions as the
      metafits gives them: neither rotated nor moved to the array's
      location, whatever those are. */
  lemma AntennaPositionsUnrotated(x: real, y: real, z: real, rotatedX: real, rotatedY: real,
                                  arrayX: real, arrayY: real, arrayZ: real)
    ensures CotterRows.WrittenAntennaPosition(AreAntennaPositionsLocal(), x, y, z, rotatedX, rotatedY,
                                              arrayX, arrayY, arrayZ) == (x, y, z)
  {
  }

  // ----------------------------------------------------------- DATE level

  /** The PZERO5 keyword as written: half a day before the start's Julian
      day. */
  function PZero5AsWritten(startTime: real): real {
    JulianDate(startTime).Floor as real - 0.5
  }

  /** A reader adds PZERO5 to the stored DATE. With the level as written,
      it recovers a date one day early. */
  lemma DateOffByOneDay(startTime: real, time: real)
    ensures (JulianDate(time) - ZeroTimeLevel(startTime)) + PZero5AsWritten(startTime) == JulianDate(time) - 1.0
  {
  }

  /** The concrete case of a start and a row at time 0. */
  lemma DateOffByOneDayAtZero()
    ensures JulianDate(0.0) == 2400000.5
    ensures (JulianDate(0.0) - ZeroTimeLevel(0.0)) + PZero5AsWritten(0.0) == 2399999.5
  {
    assert JulianDate(0.0).Floor == 2400000;
  }

  /** PZERO5 equal to the zero level the rows are stored against. */
  function PZero5(startTime: real): real {
    ZeroTimeLevel(startTime)
  }

  /** With that level a reader recovers every row's Julian date. */
  lemma DateRecovered(startTime: real, time: real)
    ensures (JulianDate(time) - ZeroTimeLevel(startTime)) + PZero5(startTime) == JulianDate(time)
  {
  }
}

=== FILE: flagmask.dfy ===
/** The flags Cotter sets before RFI detection (`flagBadCorrelatorSamples`):
    the edge channels and optionally the centre channel of every sub-band,
    whole sub-bands the user asked to flag, the first scans of the
    observation (the "quack" time) and scans missing at the end. A mask
    row is a channel and a column a scan of the current chunk. */
module FlagMask {

  import opened Text

  type Mask = seq<seq<bool>>

  predicate Shaped(mask: Mask, height: nat, width: nat) {
    |mask| == height && forall ch :: 0 <= ch < height ==> |mask[ch]| == width
  }

  /** The state the flagging reads: the current sub-band range and chunk,
      the edge-channel count, whether the centre (DC) channel is flagged,
      the sub-bands to flag, the quack sample count and the number of
      missing scans at the end. */
  datatype Config = Config(
    curSbStart: nat, curSbEnd: nat,
    edgeCount: nat, flagDCChannels: bool, flaggedSubbands: set<nat>,
    quackInitSampleCount: nat, curChunkStart: nat, missingEndScans: nat)

  /** Set every cell of rows [chLo, chHi) and columns [tLo, tHi). */
  function SetRect(mask: Mask, chLo: nat, chHi: nat, tLo: nat, tHi: nat): (r: Mask)
    ensures |r| == |mask|
    ensures forall ch :: 0 <= ch < |r| ==> |r[ch]| == |mask[ch]|
    ensures forall ch, t :: 0 <= ch < |r| && 0 <= t < |r[ch]| ==>
      (r[ch][t] <==> mask[ch][t] || (chLo <= ch < chHi && tLo <= t < tHi))
  {
    seq(|mask|, ch requires 0 <= ch < |mask| =>
      seq(|mask[ch]|, t requires 0 <= t < |mask[ch]| =>
        mask[ch][t] || (chLo <= ch < chHi && tLo <= t < tHi)))
  }

  // ------------------------------------------------- the reference rules

  /** Channel c of a sub-band of chPerSb channels is an edge channel or,
      when enabled, the centre one. */
  predicate EdgeOrCentre(cfg: Config, chPerSb: nat, c: nat) {
    c < cfg.edgeCount || c + cfg.edgeCount >= chPerSb || (cfg.flagDCChannels && c == chPerSb / 2)
  }

  /** Whether cell (ch, t) must be flagged, stated per cell: ch lies in
      sub-band ch / chPerSb of the range at channel ch % chPerSb. */
  predicate ShouldFlag(cfg: Config, chPerSb: nat, width: nat, ch: nat, t: nat)
    requires chPerSb >= 1 && cfg.curSbStart < cfg.curSbEnd
  {
    var sbCount := cfg.curSbEnd - cfg.curSbStart;
    (ch < sbCount * chPerSb && EdgeOrCentre(cfg, chPerSb, ch % chPerSb)) ||
    (ch < sbCount * chPerSb && cfg.curSbStart + ch / chPerSb in cfg.flaggedSubbands) ||
    (cfg.quackInitSampleCount >= cfg.curChunkStart && t < cfg.quackInitSampleCount - cfg.curChunkStart) ||
    t + cfg.missingEndScans >= width
  }

  // ---------------------------------------------------------- the stages

  lemma InSubband(ch: nat, sb: nat, chPerSb: nat)
    requires chPerSb >= 1 && sb * chPerSb <= ch < (sb + 1) * chPerSb
    ensures ch / chPerSb == sb && ch % chPerSb == ch - sb * chPerSb
  {
    var q, r := ch / chPerSb, ch % chPerSb;
    assert ch == q * chPerSb + r;
    assert q * chPerSb <= ch < (sb + 1) * chPerSb;
    MulCancel(q, sb + 1, chPerSb);
    assert sb * chPerSb <= ch < (q + 1) * chPerSb;
    MulCancel(sb, q + 1, chPerSb);
  }

  /** The edge and centre channels of every sub-band, for all scans. */
  method FlagEdges(mask: Mask, cfg: Config, chPerSb: nat, width: nat) returns (r: Mask)
    requires chPerSb >= 1 && cfg.edgeCount <= chPerSb && cfg.curSbStart < cfg.curSbEnd
    requires Shaped(mask, |mask|, width) && (cfg.curSbEnd - cfg.curSbStart) * chPerSb <= |mask|
    ensures Shaped(r, |mask|, width)
    ensures forall ch, t :: 0 <= ch < |mask| && 0 <= t < width ==>
      (r[ch][t] <==> (mask[ch][t] ||
        (ch < (cfg.curSbEnd - cfg.curSbStart) * chPerSb && EdgeOrCentre(cfg, chPerSb, ch % chPerSb))))
  {
    var sbCount := cfg.curSbEnd - cfg.curSbStart;
    r := mask;
    for sb := 0 to sbCount
      invariant Shaped(r, |mask|, width)
      invariant sb * chPerSb <= |mask|
      invariant forall ch, t :: 0 <= ch < |mask| && 0 <= t < width ==>
        (r[ch][t] <==> mask[ch][t] || (ch < sb * chPerSb && EdgeOrCentre(cfg, chPerSb, ch % chPerSb)))
    {
      var base := sb * chPerSb;
      assert (sb + 1) * chPerSb == base + chPerSb <= sbCount * chPerSb by {
        assert sb + 1 <= sbCount;
      }
      var r' := SetRect(r, base, base + cfg.edgeCount, 0, width);
      if cfg.flagDCChannels {
        r' := SetRect(r', base + chPerSb / 2, base + chPerSb / 2 + 1, 0, width);
      }
      r' := SetRect(r', base + chPerSb - cfg.edgeCount, base + chPerSb, 0, width);
      forall ch, t | 0 <= ch < |mask| && 0 <= t < width
        ensures r'[ch][t] <==> mask[ch][t] || (ch < (sb + 1) * chPerSb && EdgeOrCentre(cfg, chPerSb, ch % chPerSb))
      {
        if base <= ch < base + chPerSb {
          InSubband(ch, sb, chPerSb);
        }
      }
      r := r';
    }
  }

  /** Every channel of each sub-band of the range that the user flagged. */
  method FlagSubbands(mask: Mask, cfg: Config, chPerSb: nat, width: nat) returns (r: Mask)
    requires chPerSb >= 1 && cfg.curSbStart < cfg.curSbEnd
    requires Shaped(mask, |mask|, width) && (cfg.curSbEnd - cfg.curSbStart) * chPerSb <= |mask|
    ensures Shaped(r, |mask|, width)
    ensures forall ch, t :: 0 <= ch < |mask| && 0 <= t < width ==>
      (r[ch][t] <==> (mask[ch][t] ||
        (ch < (cfg.curSbEnd - cfg.curSbStart) * chPerSb && cfg.curSbStart + ch / chPerSb in cfg.flaggedSubbands)))
  {
    var sbCount := cfg.curSbEnd - cfg.curSbStart;
    r := mask;
    for sb := 0 to sbCount
      invariant Shaped(r, |mask|, width)
      invariant sb * chPerSb <= |mask|
      invariant forall ch, t :: 0 <= ch < |mask| && 0 <= t < width ==>
        (r[ch][t] <==> mask[ch][t] || (ch < sb * chPerSb && cfg.curSbStart + ch / chPerSb in cfg.flaggedSubbands))
    {
      var base := sb * chPerSb;
      assert (sb + 1) * chPerSb == base + chPerSb <= sbCount * chPerSb by {
        assert sb + 1 <= sbCount;
      }
      var r' := r;
      if cfg.curSbStart + sb in cfg.flaggedSubbands {
        r' := SetRect(r, base, base + chPerSb, 0, width);
      }
      forall ch, t | 0 <= ch < |mask| && 0 <= t < width
        ensures r'[ch][t] <==> (mask[ch][t] ||
          (ch < (sb + 1) * chPerSb && cfg.curSbStart + ch / chPerSb in cfg.flaggedSubbands))
      {
        if base <= ch < base + chPerSb {
          InSubband(ch, sb, chPerSb);
        }
      }
      r := r';
    }
  }

  /** `flagBadCorrelatorSamples`: the four stages in the order of the
      source. Every cell ends up flagged iff it was flagged before or the
      rules ask for it; nothing is ever cleared. The chunk's scans are the
      mask columns; every sub-band has at least one channel, at least as
      many as the edge count, and the missing scans fit in the chunk. */
  method FlagBadCorrelatorSamples(mask: Mask, cfg: Config, width: nat) returns (r: Mask)
    requires cfg.curSbStart < cfg.curSbEnd
    requires Shaped(mask, |mask|, width)
    requires |mask| / (cfg.curSbEnd - cfg.curSbStart) >= 1
    requires cfg.edgeCount <= |mask| / (cfg.curSbEnd - cfg.curSbStart)
    requires cfg.missingEndScans <= width
    ensures Shaped(r, |mask|, width)
    ensures forall ch, t :: 0 <= ch < |mask| && 0 <= t < width ==>
      (r[ch][t] <==> (mask[ch][t] ||
        ShouldFlag(cfg, |mask| / (cfg.curSbEnd - cfg.curSbStart), width, ch, t)))
  {
    var sbCount := cfg.curSbEnd - cfg.curSbStart;
    var chPerSb := |mask| / sbCount;
    assert sbCount * chPerSb <= |mask|;
    var m1 := FlagEdges(mask, cfg, chPerSb, width);
    var m2 := FlagSubbands(m1, cfg, chPerSb, width);
    var m3 := m2;
    if cfg.quackInitSampleCount >= cfg.curChunkStart {
      var count := cfg.quackInitSampleCount - cfg.curChunkStart;
      if count > width {
        count := width;
      }
      m3 := SetRect(m2, 0, |mask|, 0, count);
    }
    r := SetRect(m3, 0, |mask|, width - cfg.missingEndScans, width);
  }

  /** Flagging twice flags nothing more. */
  lemma FlagTwice(mask: Mask, cfg: Config, width: nat, once: Mask, twice: Mask)
    requires cfg.curSbStart < cfg.curSbEnd && Shaped(mask, |mask|, width)
    requires |mask| / (cfg.curSbEnd - cfg.curSbStart) >= 1
    requires Shaped(once, |mask|, width) && Shaped(twice, |mask|, width)
    requires forall ch, t :: 0 <= ch < |mask| && 0 <= t < width ==>
      (once[ch][t] <==> mask[ch][t] || ShouldFlag(cfg, |mask| / (cfg.curSbEnd - cfg.curSbStart), width, ch, t))
    requires forall ch, t :: 0 <= ch < |mask| && 0 <= t < width ==>
      (twice[ch][t] <==> once[ch][t] || ShouldFlag(cfg, |mask| / (cfg.curSbEnd - cfg.curSbStart), width, ch, t))
    ensures twice == once
  {
    assert forall ch :: 0 <= ch < |mask| ==> twice[ch] == once[ch];
  }
}

=== FILE: flagwriter.dfy ===
/** The flag writer of cotter: one flag file per GPU box, one row per
    baseline and time step, one flag per channel (the OR over the
    polarizations). File creation and the CFITSIO calls are replaced by
    returned values: the file names and, per row, the row number written
    in each file. */
module FlagWriter {

  import opened Results
  import Text

  // ------------------------------------------------------------ bit packing

  type Byte8 = bv8

  predicate IsBit(x: Byte8) {
    x == 0 || x == 1
  }

  /** Bit k (0 = least significant) of a byte. */
  function Bit(b: Byte8, k: nat): Byte8
    requires k < 8
  {
    (b >> k) & 1
  }

  /** One output byte: input j shifted left by j and OR-ed in. */
  function PackByte(g: seq<Byte8>): (b: Byte8)
    requires |g| <= 8
    decreases |g|
  {
    if |g| == 0 then 0 else PackByte(g[..|g| - 1]) | (g[|g| - 1] << (|g| - 1))
  }

  /** `pack`: full groups of eight inputs, then a tail of fewer than eight
      in the low bits of a final byte. */
  function Pack(input: seq<Byte8>): (r: seq<Byte8>)
    ensures |r| == (|input| + 7) / 8
    decreases |input|
  {
    if |input| >= 8 then [PackByte(input[..8])] + Pack(input[8..])
    else if |input| > 0 then [PackByte(input)]
    else []
  }

  lemma BitOfShiftedOr(a: Byte8, x: Byte8, j: nat, k: nat)
    requires j < 8 && k < 8 && IsBit(x)
    requires a >> j == 0
    ensures Bit(a | (x << j), k) == if k < j then Bit(a, k) else if k == j then x else 0
    ensures (a | (x << j)) >> (j + 1) == 0
  {
  }

  /** For 0/1 inputs, bit k of PackByte(g) is g[k], and 0 past the end. */
  lemma {:induction false} PackByteBits(g: seq<Byte8>, k: nat)
    requires |g| <= 8 && k < 8
    requires forall i :: 0 <= i < |g| ==> IsBit(g[i])
    ensures Bit(PackByte(g), k) == if k < |g| then g[k] else 0
    ensures PackByte(g) >> |g| == 0
    decreases |g|
  {
    if |g| > 0 {
      var h := g[..|g| - 1];
      var a, x := PackByte(h), g[|g| - 1];
      assert PackByte(g) == a | (x << |h|);
      PackByteBits(h, k);
      BitOfShiftedOr(a, x, |h|, k);
      if k < |h| {
        assert h[k] == g[k];
      }
    }
  }

  /** For 0/1 inputs, bit k of output byte i is input 8i+k; bits past the
      last input are 0. */
  lemma {:induction false} PackBits(input: seq<Byte8>, i: nat, k: nat)
    requires forall j :: 0 <= j < |input| ==> IsBit(input[j])
    requires i < |Pack(input)| && k < 8
    ensures Bit(Pack(input)[i], k) == if 8 * i + k < |input| then input[8 * i + k] else 0
    decreases |input|
  {
    if |input| >= 8 {
      if i == 0 {
        PackByteBits(input[..8], k);
      } else {
        PackBits(input[8..], i - 1, k);
        assert Pack(input)[i] == Pack(input[8..])[i - 1];
      }
    } else {
      PackByteBits(input, k);
    }
  }

  /** Reading the packed bits back in order. */
  function Unpack(packed: seq<Byte8>, count: nat): (r: seq<Byte8>)
    requires count <= 8 * |packed|
    ensures |r| == count
  {
    seq(count, j requires 0 <= j < count => Bit(packed[j / 8], j % 8))
  }

  lemma ByteCountBounds(n: nat, j: nat)
    requires j < n
    ensures n <= 8 * ((n + 7) / 8)
    ensures j / 8 < (n + 7) / 8 && 8 * (j / 8) + j % 8 == j
  {
  }

  lemma UnpackPack(input: seq<Byte8>)
    requires forall j :: 0 <= j < |input| ==> IsBit(input[j])
    ensures |input| <= 8 * |Pack(input)|
    ensures Unpack(Pack(input), |input|) == input
  {
    var p := Pack(input);
    if |input| > 0 {
      ByteCountBounds(|input|, 0);
    }
    forall j | 0 <= j < |input|
      ensures Bit(p[j / 8], j % 8) == input[j]
    {
      ByteCountBounds(|input|, j);
      PackBits(input, j / 8, j % 8);
    }
  }

  // ------------------------------------------------------------- the writer

  datatype Writer = Writer(
    antennaCount: nat,
    channelsPerGPUBox: nat,
    polarizationCount: nat,
    gpuBoxCount: nat,
    rowsAdded: nat,
    rowsWritten: nat,
    hduOffsets: seq<nat>,
    subbandToGPUBoxFileIndex: seq<nat>)
  {
    /** What writeRow relies on: a box index for every subband, an offset
        for every box index, and at least one polarization. */
    predicate Valid() {
      gpuBoxCount <= |subbandToGPUBoxFileIndex| &&
      (forall i :: 0 <= i < gpuBoxCount ==> subbandToGPUBoxFileIndex[i] < |hduOffsets|) &&
      polarizationCount >= 1
    }

    function BaselineCount(): nat {
      antennaCount * (antennaCount + 1) / 2
    }
  }

  /** The constructor's file names: the first "%%" of the template becomes
      the two-digit, one-based GPU box number of each subband. */
  function FileNames(template: string, gpuBoxCount: nat, subbandToGPUBoxFileIndex: seq<nat>): (r: Result<seq<string>>)
    requires gpuBoxCount <= |subbandToGPUBoxFileIndex|
    ensures gpuBoxCount == 0 ==> r.Throw?
    ensures r.Ok? <==> gpuBoxCount > 0 && Text.Find(template, "%%").Some?
    ensures r.Ok? ==> |r.value| == gpuBoxCount && forall i :: 0 <= i < gpuBoxCount ==>
      var pos := Text.Find(template, "%%").value;
      |r.value[i]| == |template| &&
      r.value[i][..pos] == template[..pos] && r.value[i][pos + 2..] == template[pos + 2..] &&
      (subbandToGPUBoxFileIndex[i] < 99 ==>
        Text.IsDigit(r.value[i][pos]) && Text.IsDigit(r.value[i][pos + 1]) &&
        Text.DigitValue(r.value[i][pos]) * 10 + Text.DigitValue(r.value[i][pos + 1]) == subbandToGPUBoxFileIndex[i] + 1)
  {
    if gpuBoxCount == 0 then Throw("Flagwriter was initialized with zero gpuboxes")
    else
      match Text.Find(template, "%%")
      case None => Throw("the name of the flagfile should contain two percent symbols")
      case Some(pos) =>
        Ok(seq(gpuBoxCount, i requires 0 <= i < gpuBoxCount =>
          NumberedName(template, pos, subbandToGPUBoxFileIndex[i] + 1)))
  }

  function NumberedName(name: string, pos: nat, gpuBoxIndex: nat): (r: string)
    requires pos + 2 <= |name|
  {
    name[..pos] + [Text.CharOf('0' as int + gpuBoxIndex / 10), Text.CharOf('0' as int + gpuBoxIndex % 10)] + name[pos + 2..]
  }

  /** Different subbands with box numbers below 99 get different file names. */
  lemma FileNamesDistinct(template: string, gpuBoxCount: nat, m: seq<nat>, i: nat, j: nat)
    requires gpuBoxCount <= |m| && i < gpuBoxCount && j < gpuBoxCount
    requires m[i] < 99 && m[j] < 99 && m[i] != m[j]
    requires FileNames(template, gpuBoxCount, m).Ok?
    ensures FileNames(template, gpuBoxCount, m).value[i] != FileNames(template, gpuBoxCount, m).value[j]
  {
    var names := FileNames(template, gpuBoxCount, m).value;
    var pos := Text.Find(template, "%%").value;
    assert names[i][pos] != names[j][pos] || names[i][pos + 1] != names[j][pos + 1];
  }

  /** `setStride`: the channels must split evenly over the GPU boxes. */
  function SetStride(channelCount: nat, gpuBoxCount: nat): (r: Result<nat>)
    requires gpuBoxCount > 0
    ensures r.Ok? <==> channelCount % gpuBoxCount == 0
    ensures r.Ok? ==> r.value * gpuBoxCount == channelCount
  {
    if channelCount % gpuBoxCount != 0 then
      Result<nat>.Throw("number of channels is not divisable by the gpubox count")
    else
      Ok(channelCount / gpuBoxCount)
  }

  /** `SetOffsetsPerGPUBox`: only allowed before any row was added. */
  function SetOffsetsPerGPUBox(w: Writer, offsets: seq<nat>): (r: Result<Writer>)
    ensures r.Ok? <==> w.rowsAdded == 0
    ensures r.Ok? ==> r.value.hduOffsets == offsets && r.value == w.(hduOffsets := offsets)
  {
    if w.rowsAdded != 0 then Throw("SetOffsetsPerGPUBox() called after rows were added")
    else Ok(w.(hduOffsets := offsets))
  }

  /** Any flag set among the polarizations of one channel. */
  function AnyFlag(f: seq<bool>): (r: bool)
    ensures r <==> exists p :: 0 <= p < |f| && f[p]
  {
    if |f| == 0 then false else f[0] || AnyFlag(f[1..])
  }

  /** The single-polarization row of one subband: channel ch is flagged iff
      any of its polarizations is; the input is subband, then channel, then
      polarization major. */
  function SubbandFlags(flags: seq<bool>, boxes: nat, sb: nat, channels: nat, pols: nat): (r: seq<bool>)
    requires sb < boxes && boxes * channels * pols <= |flags|
    ensures |r| == channels
    ensures forall ch :: 0 <= ch < channels ==>
      (r[ch] <==> exists p :: 0 <= p < pols && InputFlag(flags, boxes, sb, channels, pols, ch, p))
  {
    seq(channels, ch requires 0 <= ch < channels => ChannelFlag(flags, boxes, sb, channels, pols, ch))
  }

  /** The input flag of polarization p of channel ch of subband sb. */
  function InputFlag(flags: seq<bool>, boxes: nat, sb: nat, channels: nat, pols: nat, ch: nat, p: nat): bool
    requires sb < boxes && boxes * channels * pols <= |flags| && ch < channels && p < pols
  {
    SubbandBound(sb, boxes, channels, pols);
    ChannelBound(sb, channels, pols, ch);
    flags[(sb * channels + ch) * pols + p]
  }

  function ChannelFlag(flags: seq<bool>, boxes: nat, sb: nat, channels: nat, pols: nat, ch: nat): (r: bool)
    requires sb < boxes && boxes * channels * pols <= |flags| && ch < channels
    ensures r <==> exists p :: 0 <= p < pols && InputFlag(flags, boxes, sb, channels, pols, ch, p)
  {
    SubbandBound(sb, boxes, channels, pols);
    ChannelBound(sb, channels, pols, ch);
    var a := (sb * channels + ch) * pols;
    var f := flags[a..a + pols];
    assert forall p :: 0 <= p < pols ==> f[p] == InputFlag(flags, boxes, sb, channels, pols, ch, p);
    AnyFlag(f)
  }

  lemma ChannelBound(sb: nat, channels: nat, pols: nat, ch: nat)
    requires ch < channels
    ensures (sb * channels + ch) * pols + pols <= (sb + 1) * channels * pols
  {
    assert sb * channels + ch + 1 <= (sb + 1) * channels;
    assert (sb * channels + ch + 1) * pols <= ((sb + 1) * channels) * pols;
  }

  /** The row gate as written, for a subband whose rows start after
      start = offset*baselineCount: a row is written only when rowsWritten
      exceeds start + 1, at row rowsWritten - start. */
  function WriteGateAsWritten(rowsWritten: nat, start: nat): (r: Option<nat>)
    ensures r.Some? <==> rowsWritten > start + 1
    ensures r.Some? ==> r.value + start == rowsWritten && r.value >= 2
  {
    if rowsWritten > start + 1 then Some(rowsWritten - start)
    else None
  }

  /** As written, FITS row 1 (the first row, which the flag reader reads
      for the first baseline of the first time step) is never written. */
  lemma AsWrittenSkipsFirstRow(rowsWritten: nat, start: nat)
    ensures WriteGateAsWritten(rowsWritten, start) != Some(1)
    ensures WriteGateAsWritten(1, 0) == None
  {
  }

  /** The intended gate: write whenever the row number is at least 1. */
  function WriteGate(rowsWritten: nat, start: nat): (r: Option<nat>)
    ensures r.Some? <==> rowsWritten > start
    ensures r.Some? ==> r.value + start == rowsWritten && r.value >= 1
  {
    if rowsWritten > start then Some(rowsWritten - start)
    else None
  }

  /** With the intended gate every row from 1 on is written exactly once,
      by the call that brings rowsWritten to row + start. */
  lemma WriteGateCoversEveryRow(rowsWritten: nat, start: nat, row: nat)
    requires row >= 1
    ensures WriteGate(row + start, start) == Some(row)
    ensures WriteGate(rowsWritten, start) == Some(row) <==> rowsWritten == row + start
    ensures WriteGate(rowsWritten, start).Some? ==> WriteGate(rowsWritten, start).value >= 1
  {
  }

  datatype RowWrite = RowWrite(row: nat, flags: seq<bool>)

  /** The first row of subband sb's file: its HDU offset times the
      baseline count. */
  function RowStart(w: Writer, sb: nat): nat
    requires w.Valid() && sb < w.gpuBoxCount
  {
    w.hduOffsets[w.subbandToGPUBoxFileIndex[sb]] * w.BaselineCount()
  }

  /** What `writeRow` writes for subband sb once the row count is rows:
      the subband's OR-ed flags at the offset-corrected row, if the gate as
      written opens (rows beyond start + 1). */
  function SubbandWrite(w: Writer, flags: seq<bool>, rows: nat, sb: nat): (o: Option<RowWrite>)
    requires w.Valid() && sb < w.gpuBoxCount
    requires w.gpuBoxCount * w.channelsPerGPUBox * w.polarizationCount <= |flags|
    ensures (o.Some? <==> rows > RowStart(w, sb) + 1) &&
      (o.Some? ==> o.value.row + RowStart(w, sb) == rows &&
                   o.value.row >= 2 &&
                   o.value.flags == SubbandFlags(flags, w.gpuBoxCount, sb, w.channelsPerGPUBox, w.polarizationCount))
  {
    match WriteGateAsWritten(rows, RowStart(w, sb))
    case None => None
    case Some(row) => Some(RowWrite(row, SubbandFlags(flags, w.gpuBoxCount, sb, w.channelsPerGPUBox, w.polarizationCount)))
  }

  /** The same with the intended gate: written from row 1 on. */
  function SubbandWriteIntended(w: Writer, flags: seq<bool>, rows: nat, sb: nat): (o: Option<RowWrite>)
    requires w.Valid() && sb < w.gpuBoxCount
    requires w.gpuBoxCount * w.channelsPerGPUBox * w.polarizationCount <= |flags|
    ensures (o.Some? <==> rows > RowStart(w, sb)) &&
      (o.Some? ==> o.value.row + RowStart(w, sb) == rows &&
                   o.value.row >= 1 &&
                   o.value.flags == SubbandFlags(flags, w.gpuBoxCount, sb, w.channelsPerGPUBox, w.polarizationCount))
  {
    match WriteGate(rows, RowStart(w, sb))
    case None => None
    case Some(row) => Some(RowWrite(row, SubbandFlags(flags, w.gpuBoxCount, sb, w.channelsPerGPUBox, w.polarizationCount)))
  }

  /** The write as written is the intended write, except that the write to
      row 1 is dropped. */
  lemma AsWrittenDropsOnlyRowOne(w: Writer, flags: seq<bool>, rows: nat, sb: nat)
    requires w.Valid() && sb < w.gpuBoxCount
    requires w.gpuBoxCount * w.channelsPerGPUBox * w.polarizationCount <= |flags|
    ensures var intended := SubbandWriteIntended(w, flags, rows, sb);
      SubbandWrite(w, flags, rows, sb) ==
        if intended.Some? && intended.value.row == 1 then None else intended
  {
  }

  /** `writeRow`: one more row is counted, and every subband gets its
      OR-ed flags, written at the offset-corrected row if the gate as
      written opens. */
  function WriteRow(w: Writer, flags: seq<bool>): (r: (Writer, seq<Option<RowWrite>>))
    requires w.Valid()
    requires w.gpuBoxCount * w.channelsPerGPUBox * w.polarizationCount <= |flags|
    ensures r.0 == w.(rowsWritten := w.rowsWritten + 1)
    ensures |r.1| == w.gpuBoxCount
    ensures forall sb :: 0 <= sb < w.gpuBoxCount ==>
      (r.1[sb].Some? <==> w.rowsWritten + 1 > RowStart(w, sb) + 1) &&
      (r.1[sb].Some? ==> r.1[sb].value.row + RowStart(w, sb) == w.rowsWritten + 1 &&
                         r.1[sb].value.row >= 2 &&
                         r.1[sb].value.flags == SubbandFlags(flags, w.gpuBoxCount, sb, w.channelsPerGPUBox, w.polarizationCount))
  {
    var rows := w.rowsWritten + 1;
    var writes := seq(w.gpuBoxCount, sb requires 0 <= sb < w.gpuBoxCount => SubbandWrite(w, flags, rows, sb));
    assert forall sb :: 0 <= sb < w.gpuBoxCount ==> writes[sb] == SubbandWrite(w, flags, rows, sb);
    (w.(rowsWritten := rows), writes)
  }

  /** `writeRow` with the intended gate. */
  function WriteRowIntended(w: Writer, flags: seq<bool>): (r: (Writer, seq<Option<RowWrite>>))
    requires w.Valid()
    requires w.gpuBoxCount * w.channelsPerGPUBox * w.polarizationCount <= |flags|
    ensures r.0 == w.(rowsWritten := w.rowsWritten + 1)
    ensures |r.1| == w.gpuBoxCount
    ensures forall sb :: 0 <= sb < w.gpuBoxCount ==>
      (r.1[sb].Some? <==> w.rowsWritten + 1 > RowStart(w, sb)) &&
      (r.1[sb].Some? ==> r.1[sb].value.row + RowStart(w, sb) == w.rowsWritten + 1 &&
                         r.1[sb].value.row >= 1 &&
                         r.1[sb].value.flags == SubbandFlags(flags, w.gpuBoxCount, sb, w.channelsPerGPUBox, w.polarizationCount))
  {
    var rows := w.rowsWritten + 1;
    var writes := seq(w.gpuBoxCount, sb requires 0 <= sb < w.gpuBoxCount => SubbandWriteIntended(w, flags, rows, sb));
    assert forall sb :: 0 <= sb < w.gpuBoxCount ==> writes[sb] == SubbandWriteIntended(w, flags, rows, sb);
    (w.(rowsWritten := rows), writes)
  }

  /** The first `writeRow` of a writer whose offsets are all zero writes
      nothing as written, while the intended one writes row 1 of every
      file. */
  lemma FirstWriteRowSkipped(w: Writer, flags: seq<bool>)
    requires w.Valid() && w.rowsWritten == 0 && w.gpuBoxCount > 0
    requires forall i :: 0 <= i < |w.hduOffsets| ==> w.hduOffsets[i] == 0
    requires w.gpuBoxCount * w.channelsPerGPUBox * w.polarizationCount <= |flags|
    ensures forall sb :: 0 <= sb < w.gpuBoxCount ==> WriteRow(w, flags).1[sb].None?
    ensures forall sb :: 0 <= sb < w.gpuBoxCount ==>
      WriteRowIntended(w, flags).1[sb].Some? && WriteRowIntended(w, flags).1[sb].value.row == 1
  {
    forall sb | 0 <= sb < w.gpuBoxCount
      ensures RowStart(w, sb) == 0
    {
      assert w.hduOffsets[w.subbandToGPUBoxFileIndex[sb]] == 0;
    }
  }

  lemma SubbandBound(sb: nat, boxes: nat, channels: nat, pols: nat)
    requires sb < boxes
    ensures (sb + 1) * channels * pols <= boxes * channels * pols
  {
    assert (sb + 1) * channels <= boxes * channels;
    assert ((sb + 1) * channels) * pols <= (boxes * channels) * pols;
  }
}

=== FILE: gausencoder.dfy ===
/** The search part of the Gaussian quantiser used by the compressing
    storage manager: a value is encoded as the index of the first boundary
    of the encoding dictionary that is not below it, and a symbol decodes
    to its entry of the decoding dictionary. The dictionary contents come
    from the inverse Gaussian distribution, so they are given, not
    computed; values are modelled as exact reals. */
module GausEncoder {

  /** The dictionary is sorted with no repeated value. */
  predicate StrictlyIncreasing(v: seq<real>) {
    forall i, j :: 0 <= i < j < |v| ==> v[i] < v[j]
  }

  /** The index `lower_bound` is meant to find: the first entry not below
      val, or the size when every entry is below it. */
  predicate IsLowerBound(v: seq<real>, val: real, r: nat) {
    r <= |v| &&
    (forall i :: 0 <= i < r ==> v[i] < val) &&
    (r < |v| ==> val <= v[r])
  }

  /** The lower bound is unique. */
  lemma LowerBoundUnique(v: seq<real>, val: real, r: nat, s: nat)
    requires IsLowerBound(v, val, r) && IsLowerBound(v, val, s)
    ensures r == s
  {
  }

  /** `Dictionary::lower_bound`: a bisection that keeps p on an entry not
      above val (or at 0) and q on an entry above it (or at the end), then
      picks p or the entry after it. It reads entry 0, so the dictionary
      must not be empty. */
  method LowerBound(v: seq<real>, val: real) returns (r: nat)
    requires |v| > 0 && StrictlyIncreasing(v)
    ensures IsLowerBound(v, val, r)
  {
    var p, q := 0, |v|;
    while p + 1 != q
      invariant p < q <= |v|
      invariant p == 0 || v[p] <= val
      invariant q == |v| || val < v[q]
      decreases q - p
    {
      var m := (p + q) / 2;
      if v[m] <= val {
        p := m;
      } else {
        q := m;
      }
    }
    r := if v[p] < val then q else p;
  }

  /** An encoder: the encoding boundaries and the decoding centroids, one
      more centroid than boundaries, so quantCount >= 2 symbols. */
  datatype Encoder = Encoder(enc: seq<real>, dec: seq<real>)

  predicate Valid(e: Encoder) {
    |e.enc| >= 1 && |e.dec| == |e.enc| + 1 && StrictlyIncreasing(e.enc)
  }

  /** `Encode`: the lower bound among the boundaries. The symbol is below
      quantCount, so it can always be decoded. */
  method Encode(e: Encoder, value: real) returns (symbol: nat)
    requires Valid(e)
    ensures symbol < |e.dec|
    ensures IsLowerBound(e.enc, value, symbol)
  {
    symbol := LowerBound(e.enc, value);
  }

  /** `Decode`: the centroid of the symbol. */
  function Decode(e: Encoder, symbol: nat): (value: real)
    requires symbol < |e.dec|
    ensures value in e.dec
  {
    e.dec[symbol]
  }

  /** `RightBoundary`: the boundary that closes a symbol's interval, and 0
      for the last symbol, which has none. */
  function RightBoundary(e: Encoder, symbol: nat): (b: real)
    requires symbol <= |e.enc|
    ensures symbol < |e.enc| ==> b == e.enc[symbol]
    ensures symbol == |e.enc| ==> b == 0.0
  {
    if symbol != |e.enc| then e.enc[symbol] else 0.0
  }

  /** A value's symbol is the one whose interval holds it: above the
      previous symbol's right boundary and not above its own. */
  lemma EncodeInterval(e: Encoder, value: real, symbol: nat)
    requires Valid(e) && IsLowerBound(e.enc, value, symbol)
    ensures symbol > 0 ==> RightBoundary(e, symbol - 1) < value
    ensures symbol < |e.enc| ==> value <= RightBoundary(e, symbol)
  {
  }

  /** Encoding is monotone: a larger value never gets a smaller symbol. */
  lemma EncodeMonotone(e: Encoder, x: real, y: real, sx: nat, sy: nat)
    requires Valid(e) && x <= y
    requires IsLowerBound(e.enc, x, sx) && IsLowerBound(e.enc, y, sy)
    ensures sx <= sy
  {
  }

  function Abs(x: real): real {
    if x < 0.0 then 0.0 - x else x
  }

  /** `Dictionary::nearest`: the first entry for values at or below it,
      the last for values at or above it, and otherwise the closer of the
      two entries around the value, the upper one on a tie. */
  method Nearest(v: seq<real>, val: real) returns (r: nat)
    requires |v| > 0 && StrictlyIncreasing(v)
    ensures r < |v|
    ensures val <= v[0] ==> r == 0
    ensures v[0] < val && v[|v| - 1] <= val ==> r == |v| - 1
    ensures v[0] < val < v[|v| - 1] ==>
      exists p :: 0 <= p < |v| - 1 && v[p] <= val < v[p + 1] &&
        r == (if val - v[p] < v[p + 1] - val then p else p + 1)
    ensures forall i :: 0 <= i < |v| ==> Abs(v[r] - val) <= Abs(v[i] - val)
  {
    if val <= v[0] {
      return 0;
    }
    var p, q := 0, |v| - 1;
    if val >= v[q] {
      return q;
    }
    while p + 1 != q
      invariant p < q < |v|
      invariant v[p] <= val < v[q]
      decreases q - p
    {
      var m := (p + q) / 2;
      if v[m] <= val {
        p := m;
      } else {
        q := m;
      }
    }
    r := if val - v[p] < v[q] - val then p else q;
    forall i | 0 <= i < |v|
      ensures Abs(v[r] - val) <= Abs(v[i] - val)
    {
      if i < p {
        assert v[i] < v[p];
      } else if i > q {
        assert v[q] < v[i];
      }
    }
  }
}

=== FILE: gpuboxfiles.dfy ===
/** Command-line handling of the raw correlator files: names of the form
    "..._gpuboxNN_TT.fits" are checked, their GPU box number NN and time
    range TT are read, and the files are grouped per time range and GPU
    box. */
module GpuBoxFiles {

  import opened Results
  import opened Text

  /** The four checks of `checkInputFilename`, in order. */
  function CheckInputFilename(f: string): (r: Result<()>)
    ensures r.Ok? ==> |f| >= 10 && f[|f| - 5..] == ".fits" && f[|f| - 8] == '_'
    ensures r.Ok? ==> IsDigit(f[|f| - 10]) && IsDigit(f[|f| - 9]) && IsDigit(f[|f| - 7]) && IsDigit(f[|f| - 6])
    ensures (|f| < 5 || f[|f| - 5..] != ".fits") ==>
      r == Throw("The raw GPU input files should have a .fits extension")
  {
    if |f| < 5 || f[|f| - 5..] != ".fits" then
      Throw("The raw GPU input files should have a .fits extension")
    else if |f| < 10 || f[|f| - 8] != '_' then
      Throw("The raw GPU input filenames should end in '...nn_nn.fits'")
    else if !IsDigit(f[|f| - 9]) || !IsDigit(f[|f| - 10]) then
      Throw("Could not parse gpu box number")
    else if !IsDigit(f[|f| - 6]) || !IsDigit(f[|f| - 7]) then
      Throw("Could not parse time step number")
    else
      Ok(())
  }

  /** Names ending in two digits, '_', two digits and ".fits". */
  ghost predicate BoxFileName(f: string) {
    exists p: string, a: char, b: char, c: char, d: char ::
      IsDigit(a) && IsDigit(b) && IsDigit(c) && IsDigit(d) &&
      f == p + [a, b, '_', c, d] + ".fits"
  }

  /** checkInputFilename accepts exactly the names of that form. */
  lemma CheckInputFilenameExactly(f: string)
    ensures CheckInputFilename(f).Ok? <==> BoxFileName(f)
  {
    if CheckInputFilename(f).Ok? {
      var n := |f|;
      var p := f[..n - 10];
      assert f == p + [f[n - 10], f[n - 9], '_', f[n - 7], f[n - 6]] + ".fits";
    }
    if BoxFileName(f) {
      var p: string, a: char, b: char, c: char, d: char :|
        IsDigit(a) && IsDigit(b) && IsDigit(c) && IsDigit(d) &&
        f == p + [a, b, '_', c, d] + ".fits";
      var n := |f|;
      assert f[n - 5..] == ".fits";
      assert f[n - 10] == a && f[n - 9] == b && f[n - 8] == '_' && f[n - 7] == c && f[n - 6] == d;
    }
  }

  /** `timeStepNumberFromFilename`: the two digits before ".fits". */
  function TimeStepNumber(f: string): (r: nat)
    requires |f| >= 7 && IsDigit(f[|f| - 7]) && IsDigit(f[|f| - 6])
    ensures forall p: string, a: char, b: char, c: char, d: char ::
      f == p + [a, b, '_', c, d] + ".fits" ==> r == DigitValue(c) * 10 + DigitValue(d)
  {
    DigitValue(f[|f| - 7]) * 10 + DigitValue(f[|f| - 6])
  }

  /** `gpuBoxNumberFromFilename`: the first two digits, minus one; box
      number zero throws. */
  function GpuBoxNumber(f: string): (r: Result<nat>)
    requires |f| >= 10 && IsDigit(f[|f| - 10]) && IsDigit(f[|f| - 9])
    ensures r.Ok? <==> !(f[|f| - 10] == '0' && f[|f| - 9] == '0')
    ensures forall p: string, a: char, b: char, c: char, d: char ::
      f == p + [a, b, '_', c, d] + ".fits" && r.Ok? ==> r.value + 1 == DigitValue(a) * 10 + DigitValue(b)
  {
    var num := DigitValue(f[|f| - 10]) * 10 + DigitValue(f[|f| - 9]);
    if num == 0 then Result<nat>.Throw("Could not parse gpu box number in filename (it was zero)")
    else Ok(num - 1)
  }

  /** Upper-cased suffix comparison on a strictly longer name. */
  function IsFitsFile(f: string): (r: bool)
    ensures r <==> |f| > 7 && UpperString(f[|f| - 7..]) == ".UVFITS"
  {
    if |f| > 7 then UpperString(f[|f| - 7..]) == ".UVFITS" else false
  }

  function IsMWAFlagFile(f: string): (r: bool)
    ensures r <==> |f| > 5 && UpperString(f[|f| - 5..]) == ".MWAF"
  {
    if |f| > 5 then UpperString(f[|f| - 5..]) == ".MWAF" else false
  }

  /** Any spelling of the extension is accepted once something precedes it;
      the bare extension is not. */
  lemma IsFitsFileAnyCase(p: string, ext: string)
    requires |ext| == 7 && UpperString(ext) == ".UVFITS"
    ensures IsFitsFile(p + ext) <==> |p| > 0
  {
    if |p| > 0 {
      assert (p + ext)[|p + ext| - 7..] == ext;
    }
  }

  lemma IsMWAFlagFileAnyCase(p: string, ext: string)
    requires |ext| == 5 && UpperString(ext) == ".MWAF"
    ensures IsMWAFlagFile(p + ext) <==> |p| > 0
  {
    if |p| > 0 {
      assert (p + ext)[|p + ext| - 5..] == ext;
    }
  }

  // --------------------------------------------------------------- grouping

  datatype SlotPos = SlotPos(time: nat, gpu: nat)

  /** Where a file goes: its time range and its GPU box counted from
      sbStart. sbStart is a size_t, so sbStart = 0 makes sbStart-1 the
      largest value and every file is refused. */
  function Slot(f: string, sbStart: nat): (r: Result<SlotPos>)
    ensures r.Ok? ==> CheckInputFilename(f).Ok? && |f| >= 10
  {
    var _ :- CheckInputFilename(f);
    var gpuFilenameNumber :- GpuBoxNumber(f);
    if sbStart == 0 || gpuFilenameNumber < sbStart - 1 then
      Throw("A GPU box file was specified with a number lower than the expected start number")
    else
      Ok(SlotPos(TimeStepNumber(f), gpuFilenameNumber - sbStart + 1))
  }

  predicate AllSlotsOk(files: seq<string>, sbStart: nat) {
    forall k :: 0 <= k < |files| ==> Slot(files[k], sbStart).Ok?
  }

  function SlotsOf(files: seq<string>, sbStart: nat): (slots: seq<SlotPos>)
    requires AllSlotsOk(files, sbStart)
    ensures |slots| == |files|
  {
    seq(|files|, k requires 0 <= k < |files| => Slot(files[k], sbStart).value)
  }

  predicate Distinct(slots: seq<SlotPos>) {
    forall i, j :: 0 <= i < j < |slots| ==> slots[i] != slots[j]
  }

  /** Some file occupies slot (t, g). */
  ghost predicate Occupied(slots: seq<SlotPos>, t: int, g: int) {
    exists k :: 0 <= k < |slots| && slots[k].time == t && slots[k].gpu == g
  }

  /** A slot with time range up to the latest one and a GPU box below the
      subband count that no file occupies. */
  ghost predicate Missing(slots: seq<SlotPos>, subbandCount: nat) {
    exists k, t, g :: 0 <= k < |slots| && 0 <= t <= slots[k].time && 0 <= g < subbandCount &&
      !Occupied(slots, t, g)
  }

  datatype Grouping = Grouping(fileSets: seq<seq<string>>, gpuBoxCount: nat)

  /** The name in slot (t, g), or "" where the vectors do not reach. */
  function Get(sets: seq<seq<string>>, t: int, g: int): string {
    if 0 <= t < |sets| && 0 <= g < |sets[t]| then sets[t][g] else ""
  }

  function Grow(s: seq<string>, n: nat): (r: seq<string>)
    ensures |r| == if |s| < n then n else |s|
    ensures forall i :: 0 <= i < |r| ==> r[i] == if i < |s| then s[i] else ""
  {
    if |s| < n then s + seq(n - |s|, _ => "") else s
  }

  /** Slot (t, i) of an existing time range is beyond its vector or empty. */
  predicate Hole(sets: seq<seq<string>>, t: int, i: int) {
    0 <= t < |sets| && (i >= |sets[t]| || (i >= 0 && sets[t][i] == ""))
  }

  /** Some existing time range has a hole below box n: the test for a
      missing file. */
  predicate HasHole(sets: seq<seq<string>>, n: nat) {
    exists t, i :: 0 <= t < |sets| && 0 <= i < n && Hole(sets, t, i)
  }

  /** Resize the outer and inner vectors as needed and store f at (t, g). */
  function Place(sets: seq<seq<string>>, t: nat, g: nat, f: string): (r: seq<seq<string>>)
    ensures |r| == if |sets| <= t then t + 1 else |sets|
    ensures forall t', g' :: Get(r, t', g') == if t' == t && g' == g then f else Get(sets, t', g')
  {
    var outer := if |sets| <= t then sets + seq(t + 1 - |sets|, _ => []) else sets;
    assert forall t' :: 0 <= t' < |outer| ==> outer[t'] == if t' < |sets| then sets[t'] else [];
    outer[t := Grow(outer[t], g + 1)[g := f]]
  }

  /** What the slots and the file sets agree on after some files. */
  ghost predicate Stored(names: seq<string>, slots: seq<SlotPos>, sets: seq<seq<string>>)
    requires |names| == |slots|
  {
    (forall j :: 0 <= j < |slots| ==> Get(sets, slots[j].time, slots[j].gpu) == names[j]) &&
    (forall t, g :: Get(sets, t, g) != "" ==> Occupied(slots, t, g))
  }

  /** What holds after the first k files have been placed. */
  ghost predicate Placed(files: seq<string>, sbStart: nat, k: nat, slots: seq<SlotPos>,
                         sets: seq<seq<string>>, count: nat)
  {
    k <= |files| && |slots| == k &&
    (forall j :: 0 <= j < k ==> Slot(files[j], sbStart) == Ok(slots[j])) &&
    (forall j :: 0 <= j < k ==> files[j] != "") &&
    Distinct(slots) &&
    Stored(files[..k], slots, sets) &&
    (|sets| > 0 ==> exists j :: 0 <= j < k && slots[j].time == |sets| - 1) &&
    (forall j :: 0 <= j < k ==> slots[j].time < |sets|) &&
    (forall j :: 0 <= j < k ==> slots[j].gpu < count) &&
    (count > 0 ==> exists j :: 0 <= j < k && slots[j].gpu == count - 1)
  }

  lemma {:induction false} PlacedStep(files: seq<string>, sbStart: nat, k: nat, slots: seq<SlotPos>,
                                      sets: seq<seq<string>>, count: nat, s: SlotPos)
    requires Placed(files, sbStart, k, slots, sets, count) && k < |files|
    requires Slot(files[k], sbStart) == Ok(s)
    requires Get(sets, s.time, s.gpu) == ""
    ensures Placed(files, sbStart, k + 1, slots + [s], Place(sets, s.time, s.gpu, files[k]),
                   if s.gpu + 1 > count then s.gpu + 1 else count)
  {
    var slots' := slots + [s];
    var sets' := Place(sets, s.time, s.gpu, files[k]);
    var count' := if s.gpu + 1 > count then s.gpu + 1 else count;
    assert files[k] != "" by {
      assert CheckInputFilename(files[k]).Ok?;
    }
    PlaceStep(files[..k], slots, sets, files[k], s);
    assert files[..k + 1] == files[..k] + [files[k]];
    forall j | 0 <= j < k + 1
      ensures Slot(files[j], sbStart) == Ok(slots'[j])
      ensures slots'[j].time < |sets'| && slots'[j].gpu < count'
    {
      if j < k {
        assert slots'[j] == slots[j];
      }
    }
    if |sets'| > 0 {
      if s.time + 1 >= |sets| {
        assert slots'[k].time == |sets'| - 1;
      } else {
        var j :| 0 <= j < k && slots[j].time == |sets| - 1;
        assert slots'[j].time == |sets'| - 1;
      }
    }
    if count' > 0 {
      if s.gpu + 1 >= count {
        assert slots'[k].gpu == count' - 1;
      } else {
        var j :| 0 <= j < k && slots[j].gpu == count - 1;
        assert slots'[j].gpu == count' - 1;
      }
    }
  }

  lemma PlacedAll(files: seq<string>, sbStart: nat, slots: seq<SlotPos>, sets: seq<seq<string>>, count: nat)
    requires Placed(files, sbStart, |files|, slots, sets, count)
    ensures AllSlotsOk(files, sbStart) && SlotsOf(files, sbStart) == slots
    ensures Stored(files, slots, sets)
  {
    assert files[..|files|] == files;
  }

  /** A slot already taken by an earlier file makes the slots not distinct. */
  lemma PlacedClash(files: seq<string>, sbStart: nat, k: nat, slots: seq<SlotPos>,
                    sets: seq<seq<string>>, count: nat, s: SlotPos)
    requires Placed(files, sbStart, k, slots, sets, count) && k < |files|
    requires Slot(files[k], sbStart) == Ok(s)
    requires Get(sets, s.time, s.gpu) != ""
    ensures !(AllSlotsOk(files, sbStart) && Distinct(SlotsOf(files, sbStart)))
  {
    var j :| 0 <= j < k && slots[j].time == s.time && slots[j].gpu == s.gpu;
    if AllSlotsOk(files, sbStart) {
      assert SlotsOf(files, sbStart)[j] == SlotsOf(files, sbStart)[k];
    }
  }

  /** One step of the grouping loop: place file k, or say why the list
      cannot be grouped. */
  method PlaceNext(files: seq<string>, sbStart: nat, k: nat, sets: seq<seq<string>>, count: nat,
                   ghost slots: seq<SlotPos>)
    returns (r: Result<(seq<seq<string>>, nat)>, ghost slots': seq<SlotPos>)
    requires Placed(files, sbStart, k, slots, sets, count) && k < |files|
    ensures r.Ok? ==> Placed(files, sbStart, k + 1, slots', r.value.0, r.value.1)
    ensures r.Throw? ==> !(AllSlotsOk(files, sbStart) && Distinct(SlotsOf(files, sbStart)))
  {
    var slot := Slot(files[k], sbStart);
    if slot.Throw? {
      return Throw(slot.message), slots;
    }
    var s := slot.value;
    if Get(sets, s.time, s.gpu) != "" {
      PlacedClash(files, sbStart, k, slots, sets, count, s);
      return Throw("Two files in the list describe the same raw gpu box file"), slots;
    }
    var sets' := Place(sets, s.time, s.gpu, files[k]);
    var count' := if s.gpu + 1 > count then s.gpu + 1 else count;
    slots' := slots + [s];
    PlacedStep(files, sbStart, k, slots, sets, count, s);
    r := Ok((sets', count'));
  }

  /** The loop of the grouping: place every file in its slot, refusing a
      bad name, a box below sbStart or a second file for a slot. */
  method PlaceAll(files: seq<string>, sbStart: nat)
    returns (r: Result<(seq<seq<string>>, nat)>)
    ensures r.Ok? <==> AllSlotsOk(files, sbStart) && Distinct(SlotsOf(files, sbStart))
    ensures r.Ok? ==> AllSlotsOk(files, sbStart)
    ensures r.Ok? ==> Placed(files, sbStart, |files|, SlotsOf(files, sbStart), r.value.0, r.value.1)
  {
    var sets: seq<seq<string>> := [];
    var count := 0;
    ghost var slots: seq<SlotPos> := [];
    for k := 0 to |files|
      invariant Placed(files, sbStart, k, slots, sets, count)
    {
      var next;
      next, slots := PlaceNext(files, sbStart, k, sets, count, slots);
      if next.Throw? {
        return Throw(next.message);
      }
      sets, count := next.value.0, next.value.1;
    }
    PlacedAll(files, sbStart, slots, sets, count);
    r := Ok((sets, count));
  }

  /** The grouping of `cotterMain`: every file lands in the slot of its time
      range and box; a bad name, a box below sbStart or a second file for a
      slot throws; an empty slot below the subband count throws unless
      missing files are allowed; a box at or above the subband count
      throws. */
  method GroupFiles(files: seq<string>, sbStart: nat, subbandCount: nat, allowMissing: bool)
    returns (r: Result<Grouping>)
    ensures r.Ok? <==>
      AllSlotsOk(files, sbStart) && Distinct(SlotsOf(files, sbStart)) &&
      (allowMissing || !Missing(SlotsOf(files, sbStart), subbandCount)) &&
      (forall k :: 0 <= k < |files| ==> SlotsOf(files, sbStart)[k].gpu < subbandCount)
    ensures r.Ok? ==> Stored(files, SlotsOf(files, sbStart), r.value.fileSets)
    ensures r.Ok? ==> r.value.gpuBoxCount <= subbandCount
    ensures r.Ok? ==> forall k :: 0 <= k < |files| ==> SlotsOf(files, sbStart)[k].gpu < r.value.gpuBoxCount
    ensures r.Ok? && r.value.gpuBoxCount > 0 ==>
      exists k :: 0 <= k < |files| && SlotsOf(files, sbStart)[k].gpu == r.value.gpuBoxCount - 1
  {
    var placed := PlaceAll(files, sbStart);
    if placed.Throw? {
      return Throw(placed.message);
    }
    var (sets, count) := placed.value;
    ghost var slots := SlotsOf(files, sbStart);
    var missing := HasHole(sets, subbandCount);
    GroupedFacts(files, sbStart, sets, count, subbandCount);
    if missing && !allowMissing {
      assert Missing(slots, subbandCount);
      return Throw("Because at least one input file is missing, I will refuse to continue");
    }
    if count > subbandCount {
      ghost var j :| 0 <= j < |files| && slots[j].gpu == count - 1;
      assert slots[j].gpu >= subbandCount;
      return Throw("The highest GPU box number is higher than the number of subbands");
    }
    r := Ok(Grouping(sets, count));
  }

  /** What the grouping reads off the placed files: the names are stored
      in their slots, a hole is a missing file, and the box count is one
      past the highest box. */
  lemma GroupedFacts(files: seq<string>, sbStart: nat, sets: seq<seq<string>>, count: nat, subbandCount: nat)
    requires AllSlotsOk(files, sbStart)
    requires Placed(files, sbStart, |files|, SlotsOf(files, sbStart), sets, count)
    ensures Stored(files, SlotsOf(files, sbStart), sets)
    ensures Missing(SlotsOf(files, sbStart), subbandCount) <==>
      HasHole(sets, subbandCount)
    ensures forall k :: 0 <= k < |files| ==> SlotsOf(files, sbStart)[k].gpu < count
    ensures count > 0 ==> exists k :: 0 <= k < |files| && SlotsOf(files, sbStart)[k].gpu == count - 1
  {
    var slots := SlotsOf(files, sbStart);
    PlacedAll(files, sbStart, slots, sets, count);
    MissingMatches(files, slots, subbandCount, sets);
  }

  /** Storing a non-empty name in a free slot keeps the slots distinct and
      the file sets in step with them. */
  lemma PlaceStep(names: seq<string>, slots: seq<SlotPos>, sets: seq<seq<string>>, f: string, s: SlotPos)
    requires |names| == |slots| && f != ""
    requires forall j :: 0 <= j < |names| ==> names[j] != ""
    requires Distinct(slots) && Stored(names, slots, sets)
    requires Get(sets, s.time, s.gpu) == ""
    ensures Distinct(slots + [s])
    ensures Stored(names + [f], slots + [s], Place(sets, s.time, s.gpu, f))
  {
    var slots' := slots + [s];
    var r := Place(sets, s.time, s.gpu, f);
    forall j | 0 <= j < |slots|
      ensures slots[j] != s
    {
      assert Get(sets, slots[j].time, slots[j].gpu) == names[j];
    }
    forall t, g | Get(r, t, g) != ""
      ensures Occupied(slots', t, g)
    {
      if t == s.time && g == s.gpu {
        assert slots'[|slots|] == s;
      } else {
        assert Occupied(slots, t, g);
        var j :| 0 <= j < |slots| && slots[j].time == t && slots[j].gpu == g;
        assert slots'[j] == slots[j];
      }
    }
    forall j | 0 <= j < |slots'|
      ensures Get(r, slots'[j].time, slots'[j].gpu) == (names + [f])[j]
    {
      if j < |slots| {
        assert slots'[j] == slots[j];
      }
    }
  }

  lemma MissingMatches(names: seq<string>, slots: seq<SlotPos>, subbandCount: nat, sets: seq<seq<string>>)
    requires |names| == |slots| && Stored(names, slots, sets)
    requires forall j :: 0 <= j < |names| ==> names[j] != ""
    requires |sets| > 0 ==> exists j :: 0 <= j < |slots| && slots[j].time == |sets| - 1
    requires forall j :: 0 <= j < |slots| ==> slots[j].time < |sets|
    ensures Missing(slots, subbandCount) <==>
      HasHole(sets, subbandCount)
  {
    if Missing(slots, subbandCount) {
      var k, t, g :| 0 <= k < |slots| && 0 <= t <= slots[k].time && 0 <= g < subbandCount &&
        !Occupied(slots, t, g);
      assert Get(sets, t, g) == "";
      assert Hole(sets, t, g);
    }
    assert Missing(slots, subbandCount) ==>
      HasHole(sets, subbandCount);
    if HasHole(sets, subbandCount) {
      var t, i :| 0 <= t < |sets| && 0 <= i < subbandCount && Hole(sets, t, i);
      assert Get(sets, t, i) == "";
      var k :| 0 <= k < |slots| && slots[k].time == |sets| - 1;
      forall j | 0 <= j < |slots|
        ensures slots[j].time != t || slots[j].gpu != i
      {
        assert Get(sets, slots[j].time, slots[j].gpu) != "";
      }
      assert !Occupied(slots, t, i);
      assert 0 <= k < |slots| && 0 <= t <= slots[k].time && 0 <= i < subbandCount;
    }
  }
}

=== FILE: gpufilereader.dfy ===
/** The index bookkeeping of the GPU box file reader: the last HDU every
    file can supply, the per-file time alignment, the polyphase filter bank
    (PFB) output-to-input tables, and the walk over the lower-triangle
    correlation matrix that the reader shuffles into baseline buffers. */
module GpuFileReader {

  import opened Text
  import CotterRows

  /** `std::numeric_limits<size_t>::max()`, the "no file seen" mark. */
  const SizeMax: nat := 0xFFFF_FFFF_FFFF_FFFF

  // --------------------------------------------------------- stop HDU

  /** File `index` takes part: its name is not empty. */
  predicate Present(filenames: seq<string>, index: nat) {
    index < |filenames| && filenames[index] != []
  }

  /** The smallest HDU count over files [0, k) that take part, or SizeMax. */
  function MinCount(filenames: seq<string>, hduCounts: seq<nat>, k: nat): (m: nat)
    requires k <= |hduCounts| <= |filenames|
    requires forall i :: 0 <= i < |hduCounts| ==> hduCounts[i] <= SizeMax
    ensures m <= SizeMax
    ensures forall i :: 0 <= i < k && Present(filenames, i) ==> m <= hduCounts[i]
    ensures m == SizeMax || exists i :: 0 <= i < k && Present(filenames, i) && hduCounts[i] == m
  {
    if k == 0 then SizeMax
    else
      var m := MinCount(filenames, hduCounts, k - 1);
      if Present(filenames, k - 1) && hduCounts[k - 1] < m then hduCounts[k - 1] else m
  }

  /** `findStopHDU`: with no file counts the stop HDU is left as it was;
      otherwise it is the smallest HDU count among the files with a name,
      and zero, the "something is wrong" value, when there is no such file
      or the smallest count is zero. */
  method FindStopHDU(filenames: seq<string>, hduCounts: seq<nat>, stopHDU: nat) returns (r: nat)
    requires |hduCounts| <= |filenames|
    requires forall i :: 0 <= i < |hduCounts| ==> hduCounts[i] <= SizeMax
    ensures |hduCounts| == 0 ==> r == stopHDU
    ensures |hduCounts| > 0 ==> r < SizeMax
    ensures |hduCounts| > 0 ==> forall i :: 0 <= i < |hduCounts| && Present(filenames, i) ==> r <= hduCounts[i]
    ensures |hduCounts| > 0 && r != 0 ==> exists i :: 0 <= i < |hduCounts| && Present(filenames, i) && hduCounts[i] == r
    ensures |hduCounts| > 0 ==>
      (r == 0 <==> MinCount(filenames, hduCounts, |hduCounts|) in {0, SizeMax})
    ensures |hduCounts| > 0 && r != 0 ==> r == MinCount(filenames, hduCounts, |hduCounts|)
  {
    if |hduCounts| == 0 {
      return stopHDU;
    }
    r := SizeMax;
    for index := 0 to |hduCounts|
      invariant r == MinCount(filenames, hduCounts, index)
    {
      if filenames[index] != [] {
        var thisStopHDU := hduCounts[index];
        if thisStopHDU < r {
          r := thisStopHDU;
        }
      }
    }
    if r == SizeMax || r == 0 {
      r := 0;
    }
  }

  /** As soon as one file takes part, the minimum is attained: some file
      that takes part has exactly that many HDUs, so the stop HDU is the
      last HDU of a real file and not the "no file seen" mark alone. */
  lemma {:induction false} StopHDUAttained(filenames: seq<string>, hduCounts: seq<nat>, k: nat, i: nat)
    requires k <= |hduCounts| <= |filenames| && i < k && Present(filenames, i)
    requires forall j :: 0 <= j < |hduCounts| ==> hduCounts[j] <= SizeMax
    ensures exists j :: 0 <= j < k && Present(filenames, j) && hduCounts[j] == MinCount(filenames, hduCounts, k)
  {
    var m := MinCount(filenames, hduCounts, k);
    if m == SizeMax {
      assert m <= hduCounts[i];
      assert hduCounts[i] == m;
    }
  }

  // -------------------------------------------------------- alignment

  /** The HDU offset of each file: zero for a missing file, otherwise the
      rounded difference of the start times in integration times, which is
      computed in floating point and so given here as `measured`. */
  function HduOffsets(filenames: seq<string>, measured: seq<int>): (offsets: seq<int>)
    requires |measured| == |filenames|
    ensures |offsets| == |filenames|
    ensures forall i :: 0 <= i < |filenames| ==>
      offsets[i] == (if filenames[i] == [] then 0 else measured[i])
  {
    seq(|filenames|, i requires 0 <= i < |filenames| => if filenames[i] == [] then 0 else measured[i])
  }

  datatype Start = Start(fileBufferPos: nat, fileHDU: nat)

  /** Where a file starts reading in `Read`: without alignment at the
      current buffer position and HDU; with alignment a file whose offset
      does not exceed the buffer position writes that many positions
      earlier, and one whose offset does skips HDUs instead. */
  function AlignStart(doAlign: bool, offset: int, bufferPos: nat, currentHDU: nat): (s: Start)
    ensures !doAlign ==> s == Start(bufferPos, currentHDU)
    ensures doAlign && offset <= bufferPos ==>
      s.fileHDU == currentHDU && s.fileBufferPos + offset == bufferPos
    ensures doAlign && offset > bufferPos ==>
      s.fileBufferPos == bufferPos && s.fileHDU == currentHDU + (offset - bufferPos)
  {
    if !doAlign then Start(bufferPos, currentHDU)
    else if offset <= bufferPos then Start(bufferPos - offset, currentHDU)
    else Start(bufferPos, currentHDU + (offset - bufferPos))
  }

  /** On the first read of a file set, alignment keeps every file on the
      common time axis: the HDU read first minus the position it lands at
      is the current HDU plus the file's offset, whichever branch applies. */
  lemma AlignFirstRead(offset: int, currentHDU: nat)
    requires offset >= 0 - currentHDU
    ensures var s := AlignStart(true, offset, 0, currentHDU);
      s.fileHDU - s.fileBufferPos == currentHDU + offset
  {
  }

  /** The number of HDUs the read loop of one file takes: it runs while the
      HDU does not pass the file's last HDU and the position stays inside
      the buffer. */
  function HdusRead(s: Start, fileStopHDU: nat, bufferLength: nat): (n: nat)
    ensures s.fileHDU + n <= fileStopHDU + 1 || n == 0
    ensures s.fileBufferPos + n <= bufferLength || n == 0
    ensures n == 0 <==> s.fileHDU > fileStopHDU || s.fileBufferPos >= bufferLength
    ensures n > 0 ==> s.fileHDU + n == fileStopHDU + 1 || s.fileBufferPos + n == bufferLength
  {
    if s.fileHDU > fileStopHDU || s.fileBufferPos >= bufferLength then 0
    else if fileStopHDU + 1 - s.fileHDU <= bufferLength - s.fileBufferPos then fileStopHDU + 1 - s.fileHDU
    else bufferLength - s.fileBufferPos
  }

  /** The read loop of one file as a loop: the HDUs it reads and the buffer
      position each lands at, in order. */
  method ReadLoop(s: Start, fileStopHDU: nat, bufferLength: nat)
    returns (taken: seq<(nat, nat)>, moreAvailable: bool)
    ensures |taken| == HdusRead(s, fileStopHDU, bufferLength)
    ensures forall k :: 0 <= k < |taken| ==> taken[k] == (s.fileHDU + k, s.fileBufferPos + k)
    ensures moreAvailable <==> s.fileHDU + |taken| <= fileStopHDU
  {
    var fileHDU, fileBufferPos := s.fileHDU, s.fileBufferPos;
    taken := [];
    while fileHDU <= fileStopHDU && fileBufferPos < bufferLength
      invariant fileHDU == s.fileHDU + |taken| && fileBufferPos == s.fileBufferPos + |taken|
      invariant |taken| <= HdusRead(s, fileStopHDU, bufferLength)
      invariant forall k :: 0 <= k < |taken| ==> taken[k] == (s.fileHDU + k, s.fileBufferPos + k)
      decreases fileStopHDU + 1 - fileHDU
    {
      taken := taken + [(fileHDU, fileBufferPos)];
      fileHDU := fileHDU + 1;
      fileBufferPos := fileBufferPos + 1;
    }
    moreAvailable := fileHDU <= fileStopHDU;
  }

  // ------------------------------------------------------------ Read

  /** `size_t` arithmetic: the value modulo 2^64. */
  function Wrap(x: int): (w: nat)
    ensures w <= SizeMax
    ensures 0 <= x <= SizeMax ==> w == x
  {
    x % (SizeMax + 1)
  }

  /** The open file set: names (empty for a missing file), the HDU count
      of each file, the alignment offset of each file and whether the
      reader aligns at all. */
  datatype FileSet = FileSet(filenames: seq<string>, hduCounts: seq<nat>, offsets: seq<int>, doAlign: bool) {
    predicate Valid() {
      |hduCounts| == |filenames| && |offsets| == |filenames|
    }
  }

  /** Whether the files are open, the next HDU to read and the last one. */
  datatype ReaderState = ReaderState(isOpen: bool, currentHDU: nat, stopHDU: nat)

  function FileStart(fs: FileSet, i: nat, bufferPos: nat, currentHDU: nat): Start
    requires fs.Valid() && i < |fs.filenames|
  {
    AlignStart(fs.doAlign, fs.offsets[i], bufferPos, currentHDU)
  }

  /** The buffer position file i can fill up to: the shared position plus
      the HDUs the file still has, in `size_t` arithmetic. */
  function FileEnd(fs: FileSet, i: nat, bufferPos: nat, currentHDU: nat): nat
    requires fs.Valid() && i < |fs.filenames|
  {
    Wrap(bufferPos + Wrap(fs.hduCounts[i] - FileStart(fs, i, bufferPos, currentHDU).fileHDU + 1))
  }

  /** File i still has HDUs once its read loop ends. */
  predicate FileHasMore(fs: FileSet, i: nat, bufferPos: nat, currentHDU: nat, bufferLength: nat)
    requires fs.Valid() && i < |fs.filenames|
  {
    var s := FileStart(fs, i, bufferPos, currentHDU);
    s.fileHDU + HdusRead(s, fs.hduCounts[i], bufferLength) <= fs.hduCounts[i]
  }

  /** Some file among [0, k) that takes part has HDUs left. */
  function AnyMore(fs: FileSet, bufferPos: nat, currentHDU: nat, bufferLength: nat, k: nat): (b: bool)
    requires fs.Valid() && k <= |fs.filenames|
  {
    k > 0 &&
    (AnyMore(fs, bufferPos, currentHDU, bufferLength, k - 1) ||
     (Present(fs.filenames, k - 1) && FileHasMore(fs, k - 1, bufferPos, currentHDU, bufferLength)))
  }

  /** The buffer position the read ends at, over the files [0, k): the
      smallest file end among files that take part, capped at the buffer
      length. */
  function EndingPos(fs: FileSet, bufferPos: nat, currentHDU: nat, bufferLength: nat, k: nat): (e: nat)
    requires fs.Valid() && k <= |fs.filenames|
    ensures e <= bufferLength
  {
    if k == 0 then bufferLength
    else
      var e := EndingPos(fs, bufferPos, currentHDU, bufferLength, k - 1);
      if Present(fs.filenames, k - 1) && FileEnd(fs, k - 1, bufferPos, currentHDU) < e
      then FileEnd(fs, k - 1, bufferPos, currentHDU)
      else e
  }

  /** One file's part of `Read`: the buffer position it can fill up to,
      and whether HDUs remain once its read loop ends. */
  method ReadFile(fs: FileSet, i: nat, bufferPos: nat, currentHDU: nat, bufferLength: nat)
    returns (fileEnd: nat, fileMore: bool)
    requires fs.Valid() && i < |fs.filenames|
    ensures fileEnd == FileEnd(fs, i, bufferPos, currentHDU)
    ensures fileMore == FileHasMore(fs, i, bufferPos, currentHDU, bufferLength)
  {
    var start := AlignStart(fs.doAlign, fs.offsets[i], bufferPos, currentHDU);
    var fileStopHDU := fs.hduCounts[i];
    var hdusAvailable := Wrap(fileStopHDU - start.fileHDU + 1);
    fileEnd := Wrap(bufferPos + hdusAvailable);
    var taken;
    taken, fileMore := ReadLoop(start, fileStopHDU, bufferLength);
  }

  /** Without alignment a file has HDUs left after the read exactly when
      it holds every HDU the buffer asked for and at least one more. */
  lemma HasMoreWithoutAlignment(fs: FileSet, i: nat, bufferPos: nat, currentHDU: nat, bufferLength: nat)
    requires fs.Valid() && i < |fs.filenames| && !fs.doAlign && bufferPos < bufferLength
    ensures FileHasMore(fs, i, bufferPos, currentHDU, bufferLength) <==>
      currentHDU + (bufferLength - bufferPos) <= fs.hduCounts[i]
  {
    var s := FileStart(fs, i, bufferPos, currentHDU);
    assert s == Start(bufferPos, currentHDU);
  }

  /** The loop of `Read` over the files: the buffer position the read
      ends at and whether any file has HDUs left; without alignment, a
      file has HDUs left when it holds more than the buffer asked for. */
  method ReadFiles(fs: FileSet, bufferPos: nat, currentHDU: nat, bufferLength: nat)
    returns (endingBufferPos: nat, moreAvailable: bool)
    requires fs.Valid()
    ensures endingBufferPos == EndingPos(fs, bufferPos, currentHDU, bufferLength, |fs.filenames|)
    ensures moreAvailable == AnyMore(fs, bufferPos, currentHDU, bufferLength, |fs.filenames|)
  {
    endingBufferPos := bufferLength;
    moreAvailable := false;
    for iFile := 0 to |fs.filenames|
      invariant endingBufferPos == EndingPos(fs, bufferPos, currentHDU, bufferLength, iFile)
      invariant moreAvailable == AnyMore(fs, bufferPos, currentHDU, bufferLength, iFile)
    {
      if fs.filenames[iFile] != [] {
        var fileEnd, fileMore := ReadFile(fs, iFile, bufferPos, currentHDU, bufferLength);
        assert EndingPos(fs, bufferPos, currentHDU, bufferLength, iFile + 1) ==
          if fileEnd < endingBufferPos then fileEnd else endingBufferPos;
        if endingBufferPos > fileEnd {
          endingBufferPos := fileEnd;
        }
        if fileMore {
          moreAvailable := true;
        }
      }
    }
  }

  /** The current HDU moves on by as many positions as the buffer
      position did, in `size_t` arithmetic. */
  function Advance(currentHDU: nat, bufferPos: nat, endingBufferPos: nat): (h: nat)
    ensures bufferPos <= endingBufferPos && currentHDU + (endingBufferPos - bufferPos) <= SizeMax ==>
      h == currentHDU + (endingBufferPos - bufferPos)
  {
    Wrap(currentHDU + Wrap(endingBufferPos - bufferPos))
  }

  /** The ending position is the smallest file end, capped at the buffer
      length: no file that takes part ends before it, and it is the buffer
      length or the end of one such file. */
  lemma {:induction false} EndingPosIsMin(fs: FileSet, bufferPos: nat, currentHDU: nat, bufferLength: nat, k: nat)
    requires fs.Valid() && k <= |fs.filenames|
    ensures forall i :: 0 <= i < k && Present(fs.filenames, i) ==>
      EndingPos(fs, bufferPos, currentHDU, bufferLength, k) <= FileEnd(fs, i, bufferPos, currentHDU)
    ensures EndingPos(fs, bufferPos, currentHDU, bufferLength, k) == bufferLength ||
      exists i :: 0 <= i < k && Present(fs.filenames, i) &&
                  EndingPos(fs, bufferPos, currentHDU, bufferLength, k) == FileEnd(fs, i, bufferPos, currentHDU)
  {
    if k > 0 {
      EndingPosIsMin(fs, bufferPos, currentHDU, bufferLength, k - 1);
    }
  }

  /** AnyMore holds exactly when some file that takes part has HDUs left. */
  lemma {:induction false} AnyMoreIsExists(fs: FileSet, bufferPos: nat, currentHDU: nat, bufferLength: nat, k: nat)
    requires fs.Valid() && k <= |fs.filenames|
    ensures AnyMore(fs, bufferPos, currentHDU, bufferLength, k) <==>
      exists i :: 0 <= i < k && Present(fs.filenames, i) &&
                  FileHasMore(fs, i, bufferPos, currentHDU, bufferLength)
  {
    if k > 0 {
      AnyMoreIsExists(fs, bufferPos, currentHDU, bufferLength, k - 1);
    }
  }

  /** Without alignment the reader has more to read after filling the
      buffer exactly when some file that takes part holds every HDU the
      buffer asked for and at least one more. */
  lemma AnyMoreWithoutAlignment(fs: FileSet, bufferPos: nat, currentHDU: nat, bufferLength: nat)
    requires fs.Valid() && !fs.doAlign && bufferPos < bufferLength
    ensures AnyMore(fs, bufferPos, currentHDU, bufferLength, |fs.filenames|) <==>
      exists i :: 0 <= i < |fs.filenames| && Present(fs.filenames, i) &&
                  currentHDU + (bufferLength - bufferPos) <= fs.hduCounts[i]
  {
    AnyMoreIsExists(fs, bufferPos, currentHDU, bufferLength, |fs.filenames|);
    forall i | 0 <= i < |fs.filenames|
      ensures FileHasMore(fs, i, bufferPos, currentHDU, bufferLength) <==>
        currentHDU + (bufferLength - bufferPos) <= fs.hduCounts[i]
    {
      HasMoreWithoutAlignment(fs, i, bufferPos, currentHDU, bufferLength);
    }
  }

  /** Without alignment a file that takes part ends its read at the shared
      position plus the HDUs it has from the current one on. */
  lemma FileEndWithoutAlignment(fs: FileSet, i: nat, bufferPos: nat, currentHDU: nat, bufferLength: nat)
    requires fs.Valid() && i < |fs.filenames| && !fs.doAlign && bufferPos <= bufferLength
    requires currentHDU <= fs.hduCounts[i] + 1 && fs.hduCounts[i] + bufferLength < SizeMax
    ensures FileEnd(fs, i, bufferPos, currentHDU) == bufferPos + (fs.hduCounts[i] + 1 - currentHDU)
  {
    assert FileStart(fs, i, bufferPos, currentHDU).fileHDU == currentHDU;
  }

  /** Without alignment, and with every HDU count far from the `size_t`
      limit, the read ends where the file with the fewest HDUs runs out or
      where the buffer is full, whichever comes first. */
  lemma {:induction false} EndingPosWithoutAlignment(fs: FileSet, bufferPos: nat, currentHDU: nat,
                                                     bufferLength: nat, k: nat)
    requires fs.Valid() && k <= |fs.filenames| && !fs.doAlign && bufferPos <= bufferLength
    requires forall i :: 0 <= i < |fs.hduCounts| ==> fs.hduCounts[i] + bufferLength < SizeMax
    requires currentHDU <= MinCount(fs.filenames, fs.hduCounts, k) + 1
    ensures MinCount(fs.filenames, fs.hduCounts, k) == SizeMax ==>
      EndingPos(fs, bufferPos, currentHDU, bufferLength, k) == bufferLength
    ensures MinCount(fs.filenames, fs.hduCounts, k) < SizeMax ==>
      EndingPos(fs, bufferPos, currentHDU, bufferLength, k) ==
        var fewest := bufferPos + (MinCount(fs.filenames, fs.hduCounts, k) + 1 - currentHDU);
        if fewest < bufferLength then fewest else bufferLength
  {
    if k > 0 {
      var m := MinCount(fs.filenames, fs.hduCounts, k - 1);
      assert currentHDU <= m + 1;
      EndingPosWithoutAlignment(fs, bufferPos, currentHDU, bufferLength, k - 1);
      if Present(fs.filenames, k - 1) {
        FileEndWithoutAlignment(fs, k - 1, bufferPos, currentHDU, bufferLength);
      }
    }
  }

  /** Without alignment, once a read starts at or before the stop HDU the
      current HDU ends one past the stop HDU or as far on as the buffer had
      room for, whichever is smaller. */
  lemma ReadAdvanceWithoutAlignment(fs: FileSet, bufferPos: nat, currentHDU: nat, bufferLength: nat)
    requires fs.Valid() && !fs.doAlign && bufferPos <= bufferLength
    requires forall i :: 0 <= i < |fs.hduCounts| ==> fs.hduCounts[i] + bufferLength < SizeMax
    requires exists i :: 0 <= i < |fs.filenames| && Present(fs.filenames, i)
    requires currentHDU <= MinCount(fs.filenames, fs.hduCounts, |fs.filenames|)
    ensures var stop := MinCount(fs.filenames, fs.hduCounts, |fs.filenames|);
      Advance(currentHDU, bufferPos, EndingPos(fs, bufferPos, currentHDU, bufferLength, |fs.filenames|)) ==
        if stop + 1 < currentHDU + (bufferLength - bufferPos) then stop + 1
        else currentHDU + (bufferLength - bufferPos)
  {
    var i :| 0 <= i < |fs.filenames| && Present(fs.filenames, i);
    var stop := MinCount(fs.filenames, fs.hduCounts, |fs.filenames|);
    assert stop <= fs.hduCounts[i];
    EndingPosWithoutAlignment(fs, bufferPos, currentHDU, bufferLength, |fs.filenames|);
  }

  /** The HDU the reader starts from: the one it stopped at, or, when the
      files are still closed, the first data HDU of the format. */
  function FirstHDU(st: ReaderState, offlineFormat: bool): nat {
    if st.isOpen then st.currentHDU else if offlineFormat then 1 else 2
  }

  /** `Read`: past the stop HDU nothing happens. Otherwise the files are
      opened if need be, every file that takes part reads from its aligned
      start until its last HDU or the end of the buffer, the shared buffer
      position moves to the smallest file end, the current HDU moves by the
      same amount, and the reader reports more data when any file has HDUs
      left, closing the files when none has. */
  method Read(fs: FileSet, st: ReaderState, offlineFormat: bool, bufferPos: nat, bufferLength: nat)
    returns (moreAvailable: bool, next: ReaderState, nextBufferPos: nat)
    requires fs.Valid()
    requires forall i :: 0 <= i < |fs.hduCounts| ==> fs.hduCounts[i] <= SizeMax
    ensures st.currentHDU > st.stopHDU ==> !moreAvailable && next == st && nextBufferPos == bufferPos
    ensures st.currentHDU <= st.stopHDU ==>
      nextBufferPos == EndingPos(fs, bufferPos, FirstHDU(st, offlineFormat), bufferLength, |fs.filenames|)
    ensures st.currentHDU <= st.stopHDU ==>
      next.currentHDU == Advance(FirstHDU(st, offlineFormat), bufferPos, nextBufferPos)
    ensures st.currentHDU <= st.stopHDU ==>
      moreAvailable == AnyMore(fs, bufferPos, FirstHDU(st, offlineFormat), bufferLength, |fs.filenames|)
    ensures st.currentHDU <= st.stopHDU && !fs.doAlign && bufferPos < bufferLength ==>
      (moreAvailable <==> (exists i :: 0 <= i < |fs.filenames| && Present(fs.filenames, i) &&
                                       FirstHDU(st, offlineFormat) + (bufferLength - bufferPos) <= fs.hduCounts[i]))
    ensures st.currentHDU <= st.stopHDU ==> next.isOpen == moreAvailable
    ensures st.currentHDU <= st.stopHDU && st.isOpen ==> next.stopHDU == st.stopHDU
    ensures st.currentHDU <= st.stopHDU && !st.isOpen && |fs.filenames| > 0 ==>
      (next.stopHDU == 0 <==> MinCount(fs.filenames, fs.hduCounts, |fs.hduCounts|) in {0, SizeMax})
    ensures st.currentHDU <= st.stopHDU && !st.isOpen && next.stopHDU != 0 && |fs.filenames| > 0 ==>
      next.stopHDU == MinCount(fs.filenames, fs.hduCounts, |fs.hduCounts|)
  {
    if st.currentHDU > st.stopHDU {
      return false, st, bufferPos;
    }
    var currentHDU, stopHDU := st.currentHDU, st.stopHDU;
    if !st.isOpen {
      currentHDU := if offlineFormat then 1 else 2;
      stopHDU := FindStopHDU(fs.filenames, fs.hduCounts, stopHDU);
    }
    var endingBufferPos;
    endingBufferPos, moreAvailable := ReadFiles(fs, bufferPos, currentHDU, bufferLength);
    if !fs.doAlign && bufferPos < bufferLength {
      AnyMoreWithoutAlignment(fs, bufferPos, currentHDU, bufferLength);
    }
    currentHDU := Advance(currentHDU, bufferPos, endingBufferPos);
    nextBufferPos := endingBufferPos;
    next := ReaderState(moreAvailable, currentHDU, stopHDU);
  }

  // ------------------------------------------------------- PFB tables

  /** `single_pfb_output_to_input`: for one PFB, the correlator input of
      each of its 64 outputs. */
  const SinglePfbOutputToInput: seq<nat> :=
    [0, 16, 32, 48, 1, 17, 33, 49, 2, 18, 34, 50, 3, 19, 35, 51] +
    [4, 20, 36, 52, 5, 21, 37, 53, 6, 22, 38, 54, 7, 23, 39, 55] +
    [8, 24, 40, 56, 9, 25, 41, 57, 10, 26, 42, 58, 11, 27, 43, 59] +
    [12, 28, 44, 60, 13, 29, 45, 61, 14, 30, 46, 62, 15, 31, 47, 63]

  /** The rule behind the table: output i of a PFB comes from input
      (i % 4) * 16 + i / 4. */
  function PfbInputOf(i: nat): nat {
    (i % 4) * 16 + i / 4
  }

  /** Every entry of the table follows the rule, checked entry by entry. */
  lemma SinglePfbRule()
    ensures |SinglePfbOutputToInput| == 64
    ensures forall i :: 0 <= i < 64 ==> SinglePfbOutputToInput[i] == PfbInputOf(i)
  {
    forall i | 0 <= i < 64
      ensures SinglePfbOutputToInput[i] == PfbInputOf(i)
    {
      if i < 32 {
        if i < 16 {
          if i < 8 {
            if i < 4 {
              if i < 2 {
                if i < 1 {
                  assert i == 0;
                } else {
                  assert i == 1;
                }
              } else {
                if i < 3 {
                  assert i == 2;
                } else {
                  assert i == 3;
                }
              }
            } else {
              if i < 6 {
                if i < 5 {
                  assert i == 4;
                } else {
                  assert i == 5;
                }
              } else {
                if i < 7 {
                  assert i == 6;
                } else {
                  assert i == 7;
                }
              }
            }
          } else {
            if i < 12 {
              if i < 10 {
                if i < 9 {
                  assert i == 8;
                } else {
                  assert i == 9;
                }
              } else {
                if i < 11 {
                  assert i == 10;
                } else {
                  assert i == 11;
                }
              }
            } else {
              if i < 14 {
                if i < 13 {
                  assert i == 12;
                } else {
                  assert i == 13;
                }
              } else {
                if i < 15 {
                  assert i == 14;
                } else {
                  assert i == 15;
                }
              }
            }
          }
        } else {
          if i < 24 {
            if i < 20 {
              if i < 18 {
                if i < 17 {
                  assert i == 16;
                } else {
                  assert i == 17;
                }
              } else {
                if i < 19 {
                  assert i == 18;
                } else {
                  assert i == 19;
                }
              }
            } else {
              if i < 22 {
                if i < 21 {
                  assert i == 20;
                } else {
                  assert i == 21;
                }
              } else {
                if i < 23 {
                  assert i == 22;
                } else {
                  assert i == 23;
                }
              }
            }
          } else {
            if i < 28 {
              if i < 26 {
                if i < 25 {
                  assert i == 24;
                } else {
                  assert i == 25;
                }
              } else {
                if i < 27 {
                  assert i == 26;
                } else {
                  assert i == 27;
                }
              }
            } else {
              if i < 30 {
                if i < 29 {
                  assert i == 28;
                } else {
                  assert i == 29;
                }
              } else {
                if i < 31 {
                  assert i == 30;
                } else {
                  assert i == 31;
                }
              }
            }
          }
        }
      } else {
        if i < 48 {
          if i < 40 {
            if i < 36 {
              if i < 34 {
                if i < 33 {
                  assert i == 32;
                } else {
                  assert i == 33;
                }
              } else {
                if i < 35 {
                  assert i == 34;
                } else {
                  assert i == 35;
                }
              }
            } else {
              if i < 38 {
                if i < 37 {
                  assert i == 36;
                } else {
                  assert i == 37;
                }
              } else {
                if i < 39 {
                  assert i == 38;
                } else {
                  assert i == 39;
                }
              }
            }
          } else {
            if i < 44 {
              if i < 42 {
                if i < 41 {
                  assert i == 40;
                } else {
                  assert i == 41;
                }
              } else {
                if i < 43 {
                  assert i == 42;
                } else {
                  assert i == 43;
                }
              }
            } else {
              if i < 46 {
                if i < 45 {
                  assert i == 44;
                } else {
                  assert i == 45;
                }
              } else {
                if i < 47 {
                  assert i == 46;
                } else {
                  assert i == 47;
                }
              }
            }
          }
        } else {
          if i < 56 {
            if i < 52 {
              if i < 50 {
                if i < 49 {
                  assert i == 48;
                } else {
                  assert i == 49;
                }
              } else {
                if i < 51 {
                  assert i == 50;
                } else {
                  assert i == 51;
                }
              }
            } else {
              if i < 54 {
                if i < 53 {
                  assert i == 52;
                } else {
                  assert i == 53;
                }
              } else {
                if i < 55 {
                  assert i == 54;
                } else {
                  assert i == 55;
                }
              }
            }
          } else {
            if i < 60 {
              if i < 58 {
                if i < 57 {
                  assert i == 56;
                } else {
                  assert i == 57;
                }
              } else {
                if i < 59 {
                  assert i == 58;
                } else {
                  assert i == 59;
                }
              }
            } else {
              if i < 62 {
                if i < 61 {
                  assert i == 60;
                } else {
                  assert i == 61;
                }
              } else {
                if i < 63 {
                  assert i == 62;
                } else {
                  assert i == 63;
                }
              }
            }
          }
        }
      }
    }
  }

  /** The input-to-output direction of one PFB. */
  function SinglePfbInputToOutput(v: nat): nat {
    (v % 16) * 4 + v / 16
  }

  lemma RuleInverse(i: nat)
    requires i < 64
    ensures PfbInputOf(i) < 64 && SinglePfbInputToOutput(PfbInputOf(i)) == i
  {
    var r, q := i % 4, i / 4;
    assert i == q * 4 + r && q < 16;
    var v := r * 16 + q;
    assert v % 16 == q && v / 16 == r;
  }

  lemma RuleInverseBack(v: nat)
    requires v < 64
    ensures SinglePfbInputToOutput(v) < 64 && PfbInputOf(SinglePfbInputToOutput(v)) == v
  {
    var q, r := v % 16, v / 16;
    assert v == r * 16 + q && r < 4;
    var i := q * 4 + r;
    assert i % 4 == r && i / 4 == q;
  }

  /** The two directions are inverse, so the table is a permutation of
      0..63. */
  lemma SinglePfbPermutation()
    ensures forall i :: 0 <= i < 64 ==>
      SinglePfbOutputToInput[i] < 64 && SinglePfbInputToOutput(SinglePfbOutputToInput[i]) == i
    ensures forall v :: 0 <= v < 64 ==>
      SinglePfbInputToOutput(v) < 64 && SinglePfbOutputToInput[SinglePfbInputToOutput(v)] == v
  {
    SinglePfbRule();
    forall i | 0 <= i < 64
      ensures SinglePfbOutputToInput[i] < 64 && SinglePfbInputToOutput(SinglePfbOutputToInput[i]) == i
    {
      RuleInverse(i);
    }
    forall v | 0 <= v < 64
      ensures SinglePfbInputToOutput(v) < 64 && SinglePfbOutputToInput[SinglePfbInputToOutput(v)] == v
    {
      RuleInverseBack(v);
    }
  }

  const PfbCount: nat := 4

  /** Entry i of PFB p in the full table. */
  function PfbIndex(p: nat, i: nat): nat {
    p * 64 + i
  }

  /** `initializePFBMapping`: the four PFBs use the same table, each shifted
      to its own block of 64 inputs. */
  method InitializePfbMapping() returns (pfbOutputToInput: seq<nat>)
    ensures |pfbOutputToInput| == PfbCount * 64
    ensures forall p, i :: 0 <= p < PfbCount && 0 <= i < 64 ==>
      pfbOutputToInput[PfbIndex(p, i)] == SinglePfbOutputToInput[i] + p * 64
  {
    assert |SinglePfbOutputToInput| == 64;
    pfbOutputToInput := [];
    for p := 0 to PfbCount
      invariant |pfbOutputToInput| == p * 64
      invariant forall q, i :: 0 <= q < p && 0 <= i < 64 ==>
        pfbOutputToInput[PfbIndex(q, i)] == SinglePfbOutputToInput[i] + q * 64
    {
      var block := seq(64, i requires 0 <= i < 64 => SinglePfbOutputToInput[i] + p * 64);
      var next := pfbOutputToInput + block;
      forall q, i | 0 <= q < p + 1 && 0 <= i < 64
        ensures next[PfbIndex(q, i)] == SinglePfbOutputToInput[i] + q * 64
      {
        if q == p {
          assert next[PfbIndex(q, i)] == block[i];
        } else {
          assert PfbIndex(q, i) < p * 64;
        }
      }
      pfbOutputToInput := next;
    }
  }

  /** The full table is a permutation of 0..255: every output has an input
      in the same block of 64, and distinct outputs have distinct inputs. */
  lemma PfbMappingPermutation(t: seq<nat>)
    requires |t| == PfbCount * 64
    requires forall p, i :: 0 <= p < PfbCount && 0 <= i < 64 ==>
      t[PfbIndex(p, i)] == SinglePfbOutputToInput[i] + p * 64
    ensures forall k :: 0 <= k < |t| ==> t[k] < PfbCount * 64 && t[k] / 64 == k / 64
    ensures forall k, l :: 0 <= k < |t| && 0 <= l < |t| && t[k] == t[l] ==> k == l
  {
    SinglePfbPermutation();
    forall k | 0 <= k < |t|
      ensures t[k] == SinglePfbOutputToInput[k % 64] + k / 64 * 64
      ensures t[k] < PfbCount * 64 && t[k] / 64 == k / 64
    {
      assert PfbIndex(k / 64, k % 64) == k;
    }
    forall k, l | 0 <= k < |t| && 0 <= l < |t| && t[k] == t[l]
      ensures k == l
    {
      assert SinglePfbOutputToInput[k % 64] == SinglePfbOutputToInput[l % 64];
      assert k == k / 64 * 64 + k % 64 && l == l / 64 * 64 + l % 64;
    }
  }

  // ----------------------------------------------------- shuffle walk

  /** The correlation index `shuffleBuffer` has reached at (antenna1,
      antenna2): the pairs of all earlier rows come first. */
  function CorrelationIndex(antenna1: nat, antenna2: nat): nat {
    CotterRows.Tri(antenna1) + antenna2
  }

  /** The loop of `shuffleBuffer` over antenna1 < n and antenna2 <= antenna1,
      recording the pair it handles at each correlation index. */
  method ShuffleWalk(nAntenna: nat) returns (visited: seq<(nat, nat)>)
    ensures |visited| == CotterRows.Tri(nAntenna)
    ensures forall a1, a2 :: 0 <= a2 <= a1 < nAntenna ==>
      CorrelationIndex(a1, a2) < |visited| && visited[CorrelationIndex(a1, a2)] == (a1, a2)
    ensures forall k :: 0 <= k < |visited| ==> visited[k].1 <= visited[k].0 < nAntenna
  {
    visited := [];
    for antenna1 := 0 to nAntenna
      invariant |visited| == CotterRows.Tri(antenna1)
      invariant forall a1, a2 :: 0 <= a2 <= a1 < antenna1 ==>
        CorrelationIndex(a1, a2) < |visited| && visited[CorrelationIndex(a1, a2)] == (a1, a2)
      invariant forall k :: 0 <= k < |visited| ==> visited[k].1 <= visited[k].0 < antenna1
    {
      var row := seq(antenna1 + 1, a2 requires 0 <= a2 <= antenna1 => (antenna1, a2));
      visited := visited + row;
    }
  }

  lemma {:induction false} TriMonotone(a: nat, b: nat)
    requires a <= b
    ensures CotterRows.Tri(a) <= CotterRows.Tri(b)
    decreases b - a
  {
    if a < b {
      TriMonotone(a, b - 1);
    }
  }

  /** The pairs of row a1 take the indices from Tri(a1) up to Tri(a1 + 1). */
  lemma RowBounds(a1: nat, a2: nat)
    requires a2 <= a1
    ensures CotterRows.Tri(a1) <= CorrelationIndex(a1, a2) < CotterRows.Tri(a1 + 1)
  {
  }

  /** Distinct pairs have distinct correlation indices, so the walk visits
      every index below n(n+1)/2 exactly once. */
  lemma CorrelationIndexInjective(a1: nat, a2: nat, b1: nat, b2: nat)
    requires a2 <= a1 && b2 <= b1
    requires CorrelationIndex(a1, a2) == CorrelationIndex(b1, b2)
    ensures a1 == b1 && a2 == b2
  {
    RowBounds(a1, a2);
    RowBounds(b1, b2);
    if a1 < b1 {
      TriMonotone(a1 + 1, b1);
    } else if b1 < a1 {
      TriMonotone(b1 + 1, a1);
    }
  }

  /** The sample read for one correlation, channel and polarization lies
      inside the file's matrix of channels x baselines x 4 values. */
  lemma ShuffleReadInBounds(nBaselines: nat, channelsInFile: nat, corr: nat, ch: nat, pol: nat)
    requires corr < nBaselines && ch < channelsInFile && pol < 4
    ensures corr * 4 + pol + ch * (nBaselines * 4) < channelsInFile * (nBaselines * 4)
  {
    MulLe(ch + 1, channelsInFile, nBaselines * 4);
  }
}

=== FILE: metafits.dfy ===
/** The keyword value parsers of the metafits reader: quoted FITS strings,
    FITS dates, comma-separated integer lists, logicals, the band suffix
    of a file name, and the pointing check at the end of the header. */
module Metafits {

  import opened Results
  import opened Text

  // ----------------------------------------------------------- FITS strings

  function Spaces(n: nat): (s: string)
    ensures |s| == n && forall i :: 0 <= i < n ==> s[i] == ' '
  {
    seq(n, _ => ' ')
  }

  /** s without its trailing blanks. */
  function TrimEnd(s: string): (t: string)
    ensures |t| <= |s| && t == s[..|t|]
    ensures forall i :: |t| <= i < |s| ==> s[i] == ' '
    ensures |t| > 0 ==> t[|t| - 1] != ' '
  {
    if |s| > 0 && s[|s| - 1] == ' ' then TrimEnd(s[..|s| - 1]) else s
  }

  /** A FITS string value: it must start and end with a quote; the text in
      between is returned without its trailing blanks. A lone quote is
      refused. */
  function ParseFitsString(v: string): (r: Result<string>)
    ensures r.Ok? <==> |v| >= 2 && v[0] == '\'' && v[|v| - 1] == '\''
    ensures r.Ok? ==>
      |r.value| <= |v| - 2 && v[1..1 + |r.value|] == r.value &&
      (forall i :: 1 + |r.value| <= i < |v| - 1 ==> v[i] == ' ') &&
      (|r.value| > 0 ==> r.value[|r.value| - 1] != ' ')
  {
    if |v| == 0 || v[0] != '\'' then
      Throw("Error parsing fits string: " + v)
    else
      var value := v[1..];
      if |value| == 0 || value[|value| - 1] != '\'' then
        Throw("Error parsing fits string: " + v)
      else
        Ok(TrimEnd(value[..|value| - 1]))
  }

  /** Quoting text that does not end in a blank, with any padding before
      the closing quote, gives the text back. */
  lemma ParseFitsStringQuoted(x: string, pad: nat)
    requires |x| == 0 || x[|x| - 1] != ' '
    ensures ParseFitsString("'" + x + Spaces(pad) + "'") == Ok(x)
  {
    var v := "'" + x + Spaces(pad) + "'";
    var body := v[1..][..|v| - 2];
    assert body == x + Spaces(pad);
    TrimEndPadded(x, pad);
  }

  lemma {:induction false} TrimEndPadded(x: string, pad: nat)
    requires |x| == 0 || x[|x| - 1] != ' '
    ensures TrimEnd(x + Spaces(pad)) == x
  {
    if pad == 0 {
      assert x + Spaces(0) == x;
    } else {
      var s := x + Spaces(pad);
      assert s[..|s| - 1] == x + Spaces(pad - 1);
      TrimEndPadded(x, pad - 1);
    }
  }

  // ------------------------------------------------------------- FITS dates

  /** The fields of a "YYYY-MM-DDThh:mm:ss" value. The seconds are a double
      in the reader but only ever hold a two-digit whole number. */
  datatype FitsDate = FitsDate(year: int, month: int, day: int, hour: int, minute: int, second: int)

  function Num2(a: char, b: char): int {
    DigitValue(a) * 10 + DigitValue(b)
  }

  /** A FITS date: a quoted string of exactly 19 characters whose fields
      are read at fixed positions; neither the separators nor the digits
      are checked. */
  function ParseFitsDate(v: string): (r: Result<FitsDate>)
    ensures r.Ok? <==> ParseFitsString(v).Ok? && |ParseFitsString(v).value| == 19
  {
    var d :- ParseFitsString(v);
    if |d| != 19 then
      Throw("Error parsing fits date")
    else
      Ok(FitsDate(
        DigitValue(d[0]) * 1000 + DigitValue(d[1]) * 100 + DigitValue(d[2]) * 10 + DigitValue(d[3]),
        Num2(d[5], d[6]), Num2(d[8], d[9]),
        Num2(d[11], d[12]), Num2(d[14], d[15]), Num2(d[17], d[18])))
  }

  predicate DateInRange(d: FitsDate) {
    0 <= d.year < 10000 && 0 <= d.month < 100 && 0 <= d.day < 100 &&
    0 <= d.hour < 100 && 0 <= d.minute < 100 && 0 <= d.second < 100
  }

  /** The FITS spelling of a date, zero-padded. */
  function FormatFitsDate(d: FitsDate): (s: string)
    requires DateInRange(d)
    ensures |s| == 19
  {
    [DigitChar(d.year / 1000), DigitChar(d.year / 100 % 10), DigitChar(d.year / 10 % 10), DigitChar(d.year % 10),
     '-', DigitChar(d.month / 10), DigitChar(d.month % 10),
     '-', DigitChar(d.day / 10), DigitChar(d.day % 10),
     'T', DigitChar(d.hour / 10), DigitChar(d.hour % 10),
     ':', DigitChar(d.minute / 10), DigitChar(d.minute % 10),
     ':', DigitChar(d.second / 10), DigitChar(d.second % 10)]
  }

  /** A quoted 19-character value that does not end in a blank is read
      field by field. */
  lemma ParseFitsDateFields(s: string)
    requires |s| == 19 && s[18] != ' '
    ensures ParseFitsDate("'" + s + "'") == Ok(FitsDate(
      DigitValue(s[0]) * 1000 + DigitValue(s[1]) * 100 + DigitValue(s[2]) * 10 + DigitValue(s[3]),
      Num2(s[5], s[6]), Num2(s[8], s[9]), Num2(s[11], s[12]), Num2(s[14], s[15]), Num2(s[17], s[18])))
  {
    ParseFitsStringQuoted(s, 0);
    assert "'" + s + Spaces(0) + "'" == "'" + s + "'";
  }

  lemma FourDigits(y: int)
    requires 0 <= y < 10000
    ensures y / 1000 * 1000 + y / 100 % 10 * 100 + y / 10 % 10 * 10 + y % 10 == y
  {
    var q1, d0 := y / 10, y % 10;
    var q2, d1 := q1 / 10, q1 % 10;
    var q3, d2 := q2 / 10, q2 % 10;
    assert y == q1 * 10 + d0 && q1 == q2 * 10 + d1 && q2 == q3 * 10 + d2;
    DivModUnique(q2, d1 * 10 + d0, 100);
    DivModUnique(q3, d2 * 100 + d1 * 10 + d0, 1000);
  }

  /** Reading back the FITS spelling of a date gives the date. */
  lemma ParseFitsDateFormat(d: FitsDate)
    requires DateInRange(d)
    ensures ParseFitsDate("'" + FormatFitsDate(d) + "'") == Ok(d)
  {
    var s := FormatFitsDate(d);
    ParseFitsDateFields(s);
    FourDigits(d.year);
  }

  /** The five separator positions are never looked at. */
  lemma ParseFitsDateIgnoresSeparators(a: string, b: string)
    requires |a| == |b| == 19
    requires forall i :: 0 <= i < 19 && i != 4 && i != 7 && i != 10 && i != 13 && i != 16 ==> a[i] == b[i]
    requires (a[18] == ' ') == (b[18] == ' ')
    ensures ParseFitsDate("'" + a + "'") == ParseFitsDate("'" + b + "'")
  {
    if a[18] != ' ' {
      ParseFitsStringQuoted(a, 0);
      ParseFitsStringQuoted(b, 0);
      assert "'" + a + Spaces(0) + "'" == "'" + a + "'";
      assert "'" + b + Spaces(0) + "'" == "'" + b + "'";
    } else {
      var ra := ParseFitsString("'" + a + "'");
      var rb := ParseFitsString("'" + b + "'");
      assert |ra.value| < 19 && |rb.value| < 19;
    }
  }

  // ------------------------------------------------------ integer lists

  /** The comma-separated fields of s; a string without commas is one
      field. */
  function Split(s: string): (r: seq<string>)
    ensures |r| >= 1
  {
    if |s| == 0 then [""]
    else if s[0] == ',' then [""] + Split(s[1..])
    else
      var t := Split(s[1..]);
      [[s[0]] + t[0]] + t[1..]
  }

  predicate NoComma(s: string) {
    forall i :: 0 <= i < |s| ==> s[i] != ','
  }

  lemma {:induction false} SplitNoComma(s: string)
    requires NoComma(s)
    ensures Split(s) == [s]
  {
    if |s| > 0 {
      SplitNoComma(s[1..]);
      assert [s[0]] + s[1..] == s;
    }
  }

  /** At the first comma the string splits into the field before it and
      the fields after it. */
  lemma {:induction false} SplitFirstComma(s: string, n: nat)
    requires n < |s| && s[n] == ',' && NoComma(s[..n])
    ensures Split(s) == [s[..n]] + Split(s[n + 1..])
  {
    if n > 0 {
      assert s[1..][..n - 1] == s[1..n];
      assert s[1..][n - 1 + 1..] == s[n + 1..];
      SplitFirstComma(s[1..], n - 1);
      assert [s[0]] + s[1..n] == s[..n];
    }
  }

  function Join(fields: seq<string>): (s: string)
    requires |fields| >= 1
  {
    if |fields| == 1 then fields[0] else fields[0] + [','] + Join(fields[1..])
  }

  /** Splitting fields joined by commas gives the fields back. */
  lemma {:induction false} SplitJoin(fields: seq<string>)
    requires |fields| >= 1
    requires forall i :: 0 <= i < |fields| ==> NoComma(fields[i])
    ensures Split(Join(fields)) == fields
  {
    if |fields| == 1 {
      SplitNoComma(fields[0]);
    } else {
      var s := Join(fields);
      var n := |fields[0]|;
      assert s[..n] == fields[0];
      assert s[n + 1..] == Join(fields[1..]);
      SplitFirstComma(s, n);
      SplitJoin(fields[1..]);
      assert fields == [fields[0]] + fields[1..];
    }
  }

  /** The characters from pos up to a position end hold no comma. */
  lemma NoCommaBetween(s: string, pos: nat, end: nat)
    requires pos <= end <= |s| && forall i :: pos <= i < end ==> s[i] != ','
    ensures NoComma(s[pos..end])
  {
    assert forall i :: 0 <= i < end - pos ==> s[pos..end][i] == s[pos + i];
  }

  /** From position pos, where field i starts, the next comma ends field
      i; without one, field i is the last. */
  lemma FieldAt(str: string, pos: nat, i: nat, next: Option<nat>)
    requires pos <= |str| && |Split(str)| >= i + 1 && Split(str[pos..]) == Split(str)[i..]
    requires next == FindChar(str, ',', pos)
    ensures next.None? ==> |Split(str)| == i + 1 && Split(str)[i] == str[pos..]
    ensures next.Some? ==>
      |Split(str)| >= i + 2 && Split(str)[i] == str[pos..next.value] &&
      Split(str[next.value + 1..]) == Split(str)[i + 1..]
  {
    var rest := str[pos..];
    if next.None? {
      NoCommaBetween(str, pos, |str|);
      assert rest == str[pos..|str|];
      SplitNoComma(rest);
    } else {
      var n := next.value;
      NoCommaBetween(str, pos, n);
      assert rest[..n - pos] == str[pos..n];
      assert rest[n - pos + 1..] == str[n + 1..];
      SplitFirstComma(rest, n - pos);
      assert Split(str)[i..][1..] == Split(str)[i + 1..];
    }
  }

  /** From position pos, where field i starts, the rest of the text is
      field i, or field i, a comma and more. */
  lemma FieldShape(str: string, pos: nat, i: nat) returns (f: string)
    requires pos <= |str| && |Split(str)| >= i + 1 && Split(str[pos..]) == Split(str)[i..]
    ensures f == Split(str)[i]
    ensures str[pos..] == f || (|f| < |str[pos..]| && str[pos..] == f + [','] + str[pos..][|f| + 1..])
  {
    f := Split(str)[i];
    var rest := str[pos..];
    var next := FindChar(str, ',', pos);
    FieldAt(str, pos, i, next);
    if next.Some? {
      var n := next.value;
      assert rest == str[pos..n] + [','] + str[n + 1..];
    }
  }

  /** The last field read by `atoi` ignores whatever follows it. */
  lemma LastField(str: string, pos: nat, i: nat)
    requires pos <= |str| && |Split(str)| >= i + 1 && Split(str[pos..]) == Split(str)[i..]
    ensures Atoi(str[pos..]) == Atoi(Split(str)[i])
  {
    var f := FieldShape(str, pos, i);
    var rest := str[pos..];
    if rest != f {
      AtoiBeforeComma(f, rest[|f| + 1..]);
    }
  }

  /** The loop of the integer-list parser over the unquoted text: field i
      becomes `atoi` of it for the first count fields; fewer fields throw.
      A count of zero makes the loop bound wrap in the reader, which no
      caller does. */
  method ReadFields(str: string, count: nat) returns (r: Result<seq<int>>)
    requires count >= 1
    ensures r.Ok? <==> |Split(str)| >= count
    ensures r.Ok? ==> |r.value| == count
    ensures r.Ok? ==> forall i :: 0 <= i < count ==> r.value[i] == Atoi(Split(str)[i])
  {
    var pos: nat := 0;
    var values: seq<int> := [];
    for i := 0 to count - 1
      invariant FieldsRead(str, pos, i, values)
    {
      var next := FindChar(str, ',', pos);
      FieldAt(str, pos, i, next);
      if next.None? {
        return Throw("Error parsing integer list in metafits file");
      }
      ReadStep(str, pos, i, values, next.value);
      values := values + [Atoi(str[pos..next.value])];
      pos := next.value + 1;
    }
    LastField(str, pos, count - 1);
    ReadLast(str, pos, count - 1, values);
    values := values + [Atoi(str[pos..])];
    r := Ok(values);
  }

  /** `atoi` of each field. */
  function Atois(fields: seq<string>): (r: seq<int>)
    ensures |r| == |fields| && forall k :: 0 <= k < |fields| ==> r[k] == Atoi(fields[k])
  {
    seq(|fields|, k requires 0 <= k < |fields| => Atoi(fields[k]))
  }

  /** The state of the field loop: field i starts at pos and the i fields
      before it have been read. */
  ghost predicate FieldsRead(str: string, pos: nat, i: nat, values: seq<int>) {
    pos <= |str| && |Split(str)| >= i + 1 && Split(str[pos..]) == Split(str)[i..] &&
    values == Atois(Split(str)[..i])
  }

  /** Reading one more field extends the values read by its `atoi`. */
  lemma AtoisStep(fields: seq<string>, i: nat, values: seq<int>, v: int)
    requires i < |fields| && values == Atois(fields[..i]) && v == Atoi(fields[i])
    ensures values + [v] == Atois(fields[..i + 1])
  {
    assert fields[..i + 1] == fields[..i] + [fields[i]];
  }

  /** Reading field i up to the comma at n moves the loop on to field
      i + 1. */
  lemma ReadStep(str: string, pos: nat, i: nat, values: seq<int>, n: nat)
    requires FieldsRead(str, pos, i, values)
    requires FindChar(str, ',', pos) == Some(n)
    ensures pos <= n < |str|
    ensures FieldsRead(str, n + 1, i + 1, values + [Atoi(str[pos..n])])
  {
    FieldAt(str, pos, i, Some(n));
    AtoisStep(Split(str), i, values, Atoi(str[pos..n]));
  }

  /** Reading the last field completes the list. */
  lemma ReadLast(str: string, pos: nat, i: nat, values: seq<int>)
    requires FieldsRead(str, pos, i, values)
    requires Atoi(str[pos..]) == Atoi(Split(str)[i])
    ensures var all := values + [Atoi(str[pos..])];
      |all| == i + 1 && forall j :: 0 <= j < i + 1 ==> all[j] == Atoi(Split(str)[j])
  {
    AtoisStep(Split(str), i, values, Atoi(str[pos..]));
  }

  /** An integer-list keyword: a quoted string holding at least count
      comma-separated fields, of which the first count are read. */
  method ParseIntArray(v: string, count: nat) returns (r: Result<seq<int>>)
    requires count >= 1
    ensures r.Ok? <==> ParseFitsString(v).Ok? && |Split(ParseFitsString(v).value)| >= count
    ensures r.Ok? ==> |r.value| == count
    ensures r.Ok? ==> forall i :: 0 <= i < count ==> r.value[i] == Atoi(Split(ParseFitsString(v).value)[i])
  {
    var str :- ParseFitsString(v);
    r := ReadFields(str, count);
  }

  /** The decimal spelling of a list of numbers, joined by commas: every
      field reads back as its number, so the list parses back to itself. */
  lemma DecimalListReadsBack(xs: seq<nat>)
    requires |xs| >= 1
    ensures |Split(Join(seq(|xs|, i requires 0 <= i < |xs| => Decimal(xs[i]))))| == |xs|
    ensures forall i :: 0 <= i < |xs| ==>
      Atoi(Split(Join(seq(|xs|, i requires 0 <= i < |xs| => Decimal(xs[i]))))[i]) == xs[i]
  {
    var fields := seq(|xs|, i requires 0 <= i < |xs| => Decimal(xs[i]));
    forall i | 0 <= i < |xs|
      ensures NoComma(fields[i]) && Atoi(fields[i]) == xs[i]
    {
      AtoiOfDigits(fields[i]);
    }
    SplitJoin(fields);
  }

  // ------------------------------------------------------------- logicals

  /** A FITS logical: the first character must be 'T' or 'F'. */
  function ParseBool(v: string): (r: Result<bool>)
    ensures r.Ok? <==> |v| > 0 && (v[0] == 'T' || v[0] == 'F')
    ensures r.Ok? ==> (r.value <==> v[0] == 'T')
  {
    if |v| == 0 || (v[0] != 'T' && v[0] != 'F') then Throw("Error parsing boolean in fits file")
    else Ok(v[0] == 'T')
  }

  function FormatBool(b: bool): string {
    if b then "T" else "F"
  }

  lemma ParseBoolFormat(b: bool)
    ensures ParseBool(FormatBool(b)) == Ok(b)
  {
  }

  // ------------------------------------------------------------ band names

  /** Walk back from pos over digits, stopping at position 0. */
  function DigitRunStart(s: string, pos: nat): (p: nat)
    requires pos < |s|
    ensures p <= pos && (p == 0 || !IsDigit(s[p]))
    ensures forall i :: p < i <= pos ==> IsDigit(s[i])
  {
    if pos > 0 && IsDigit(s[pos]) then DigitRunStart(s, pos - 1) else pos
  }

  predicate AllDigits(s: string) {
    forall i :: 0 <= i < |s| ==> IsDigit(s[i])
  }

  /** The observation name without a trailing "_N" band number, where N is
      between 1 and 256 and the name before it is not empty; any other
      input comes back unchanged. */
  function StripBand(input: string): (r: string)
    ensures r != input ==>
      0 < |r| < |input| && r == input[..|r|] && input[|r|] == '_' &&
      AllDigits(input[|r| + 1..]) && 0 < DigitsValue(input[|r| + 1..]) <= 256
  {
    if |input| == 0 then input
    else
      var pos := DigitRunStart(input, |input| - 1);
      if pos > 0 && input[pos] == '_' then
        // `atoi` of a run of digits is its decimal value (Text.AtoiOfDigits)
        var band := DigitsValue(input[pos + 1..]);
        if band > 0 && band <= 256 then input[..pos] else input
      else input
  }

  /** A band number from 1 to 256 after an underscore is always dropped. */
  lemma StripBandOfBand(name: string, digits: string)
    requires |name| > 0 && |digits| > 0 && AllDigits(digits)
    requires 0 < DigitsValue(digits) <= 256
    ensures StripBand(name + "_" + digits) == name
  {
    var input := name + "_" + digits;
    var pos := DigitRunStart(input, |input| - 1);
    assert input[|name|] == '_';
    forall i | |name| < i < |input|
      ensures IsDigit(input[i])
    {
      assert input[i] == digits[i - |name| - 1];
    }
    assert input[pos + 1..] == digits;
  }

  // -------------------------------------------------------------- pointing

  /** The sentinel the reader puts in the four direction fields before the
      keywords are read. */
  const Unset: real := -99.0

  datatype Pointing = Pointing(tilePointingRARad: real, tilePointingDecRad: real, raHrs: real, decDegs: real)

  /** The check after the keyword loop: a tile pointing is required; a
      missing phase centre is taken from it, converted by the two factors
      (12/pi and 180/pi in the reader). */
  function CheckPointing(p: Pointing, hoursPerRadian: real, degreesPerRadian: real): (r: Result<Pointing>)
    ensures r.Ok? <==> p.tilePointingRARad != Unset && p.tilePointingDecRad != Unset
    ensures r.Ok? ==>
      r.value.tilePointingRARad == p.tilePointingRARad && r.value.tilePointingDecRad == p.tilePointingDecRad
    ensures r.Ok? && p.raHrs != Unset && p.decDegs != Unset ==> r.value == p
  {
    if p.tilePointingDecRad == Unset || p.tilePointingRARad == Unset then
      Throw("The metafits file does not specify a pointing direction (keywords RA and DEC)")
    else if p.raHrs == Unset || p.decDegs == Unset then
      Ok(p.(raHrs := p.tilePointingRARad * hoursPerRadian, decDegs := p.tilePointingDecRad * degreesPerRadian))
    else
      Ok(p)
  }

  /** Once a phase centre is in place, checking again changes nothing. */
  lemma CheckPointingIdempotent(p: Pointing, h: real, d: real)
    requires CheckPointing(p, h, d).Ok?
    requires CheckPointing(p, h, d).value.raHrs != Unset && CheckPointing(p, h, d).value.decDegs != Unset
    ensures CheckPointing(CheckPointing(p, h, d).value, h, d) == CheckPointing(p, h, d)
  {
  }
}

=== FILE: mwaconfig.dfy ===
/** The parts of the MWA configuration reader that work on values: the
    polarization letters of the instrument configuration, the DATE, TIME
    and CORRTYPE header values, the checks after the header is read, and
    the tile/input count check. */
module MwaConfig {

  import opened Results
  import opened Text

  // ---------------------------------------------------- polarization letters

  /** A linear or circular feed letter, or 'I', in either case: the first
      feed is index 0, the second index 1; anything else throws. */
  function PolCharToIndex(c: char): (r: Result<nat>)
    ensures r.Ok? <==> Upper(c) in {'X', 'R', 'I', 'Y', 'L'}
    ensures r.Ok? ==> (r.value == 0 <==> Upper(c) in {'X', 'R', 'I'})
    ensures r.Ok? ==> r.value < 2
  {
    match c
    case 'X' => Ok(0) case 'x' => Ok(0)
    case 'R' => Ok(0) case 'r' => Ok(0)
    case 'I' => Ok(0) case 'i' => Ok(0)
    case 'Y' => Ok(1) case 'y' => Ok(1)
    case 'L' => Ok(1) case 'l' => Ok(1)
    case _ => Throw("Unknown pol char: " + [c])
  }

  /** Lower and upper case letters select the same index. */
  lemma PolCharCaseInsensitive(c: char)
    ensures PolCharToIndex(c).Ok? == PolCharToIndex(Upper(c)).Ok?
    ensures PolCharToIndex(c).Ok? ==> PolCharToIndex(c).value == PolCharToIndex(Upper(c)).value
  {
  }

  // ------------------------------------------------------- DATE and TIME

  datatype Date = Date(year: int, month: int, day: int)

  /** DATE "YYYYMMDD": the day is `atoi` from position 6, then the string
      is cut at 6 and the month read from 4, then cut at 4 for the year.
      The value must have at least six characters; a shorter one makes the
      reader index past its end. */
  function ParseDate(s: string): (d: Date)
    requires |s| >= 6
    ensures d.day == Atoi(s[6..])
  {
    Date(Atoi(s[..4]), Atoi(s[4..6]), Atoi(s[6..]))
  }

  predicate DateFits(d: Date) {
    0 <= d.year < 10000 && 0 <= d.month < 100 && 0 <= d.day < 100
  }

  function FormatDate(d: Date): (s: string)
    requires DateFits(d)
    ensures |s| == 8
  {
    Padded(d.year, 4) + Padded(d.month, 2) + Padded(d.day, 2)
  }

  /** The zero-padded YYYYMMDD spelling of a date reads back as the date. */
  lemma ParseDateFormat(d: Date)
    requires DateFits(d)
    ensures ParseDate(FormatDate(d)) == d
  {
    var s := FormatDate(d);
    assert s[..4] == Padded(d.year, 4);
    assert s[4..6] == Padded(d.month, 2);
    assert s[6..] == Padded(d.day, 2);
    AtoiOfDigits(Padded(d.year, 4));
    AtoiOfDigits(Padded(d.month, 2));
    AtoiOfDigits(Padded(d.day, 2));
  }

  datatype Time = Time(hour: int, minute: int, second: real)

  /** TIME "HHMMSS[.fff]": seconds read with `atof` from position 4, so a
      fraction is kept; minutes with `atoi` from 2 to 4, hours from the
      first two characters. */
  function ParseTime(s: string): (t: Time)
    requires |s| >= 4
    ensures t.second == Atof(s[4..])
  {
    Time(Atoi(s[..2]), Atoi(s[2..4]), Atof(s[4..]))
  }

  /** The parts of a written time: hours, minutes and whole seconds, and
      the digits of a fraction of a second (none for whole seconds). */
  datatype TimeText = TimeText(hour: nat, minute: nat, wholeSecond: nat, fraction: string)

  predicate TimeFits(t: TimeText) {
    t.hour < 100 && t.minute < 100 && t.wholeSecond < 100 &&
    forall i :: 0 <= i < |t.fraction| ==> IsDigit(t.fraction[i])
  }

  /** HHMMSS, followed by '.' and the fraction digits if there are any. */
  function FormatTime(t: TimeText): (s: string)
    requires TimeFits(t)
    ensures |s| == if t.fraction == [] then 6 else 7 + |t.fraction|
  {
    Padded(t.hour, 2) + Padded(t.minute, 2) + Padded(t.wholeSecond, 2) +
      (if t.fraction == [] then [] else ['.'] + t.fraction)
  }

  /** The seconds field of a written time, from position 4 on. */
  lemma SecondsRead(t: TimeText)
    requires TimeFits(t)
    ensures Atof(FormatTime(t)[4..]) == t.wholeSecond as real + FractionValue(t.fraction)
  {
    var sec := Padded(t.wholeSecond, 2);
    var tail: string := if t.fraction == [] then [] else ['.'] + t.fraction;
    var s := FormatTime(t);
    assert s == (Padded(t.hour, 2) + Padded(t.minute, 2)) + (sec + tail);
    assert s[4..] == sec + tail;
    if t.fraction == [] {
      assert sec + tail == sec;
      AtofOfWhole(sec);
      assert FractionValue(t.fraction) == 0.0;
    } else {
      assert sec + tail == sec + ['.'] + t.fraction;
      AtofOfDecimal(sec, t.fraction);
    }
  }

  /** A written time reads back: hours and minutes as written, and the
      second as the whole seconds plus the fraction. */
  lemma ParseTimeFormat(t: TimeText)
    requires TimeFits(t)
    ensures ParseTime(FormatTime(t)) ==
      Time(t.hour, t.minute, t.wholeSecond as real + FractionValue(t.fraction))
  {
    var s := FormatTime(t);
    var tail: string := if t.fraction == [] then [] else ['.'] + t.fraction;
    assert s == Padded(t.hour, 2) + Padded(t.minute, 2) + (Padded(t.wholeSecond, 2) + tail);
    assert s[..2] == Padded(t.hour, 2);
    assert s[2..4] == Padded(t.minute, 2);
    AtoiOfDigits(Padded(t.hour, 2));
    AtoiOfDigits(Padded(t.minute, 2));
    SecondsRead(t);
  }

  /** The source keeps the fraction of a second: "123045.5" is 45.5
      seconds, where an integer read would give 45. */
  lemma ParseTimeKeepsFraction()
    ensures ParseTime("123045.5").second == 45.5
  {
    var s := "123045.5";
    assert s[4..] == ['4', '5', '.', '5'];
    FortyFiveAndAHalf();
  }

  lemma FortyFiveAndAHalf()
    ensures Atof(['4', '5', '.', '5']) == 45.5
  {
    var w: string, f: string := ['4', '5'], ['5'];
    assert w + ['.'] + f == ['4', '5', '.', '5'];
    assert IsDigit(w[0]) && IsDigit(w[1]) && IsDigit(f[0]);
    AtofOfDecimal(w, f);
    FortyFive();
    OneHalf();
  }

  lemma FortyFive()
    ensures DigitsValue(['4', '5']) == 45
  {
    DigitsValueAppend([], '4');
    assert [] + ['4'] == ['4'];
    DigitsValueAppend(['4'], '5');
    assert ['4'] + ['5'] == ['4', '5'];
  }

  lemma OneHalf()
    ensures FractionValue(['5']) == 0.5
  {
    DigitsValueAppend([], '5');
    assert [] + ['5'] == ['5'];
    assert Pow10(1) == 10;
  }

  // ------------------------------------------------------------- CORRTYPE

  datatype CorrelationType = NoCorrelation | CrossCorrelation | AutoCorrelation | BothCorrelations

  /** CORRTYPE: only the first character counts, in either case. The value
      is never empty, because the line reader fails on a missing value. */
  function ParseCorrType(s: string): (r: Result<CorrelationType>)
    requires |s| > 0
    ensures r.Ok? <==> Upper(s[0]) in {'C', 'A', 'B'}
    ensures r.Ok? ==> r.value != NoCorrelation
    ensures r.Ok? ==> (r.value == CrossCorrelation <==> Upper(s[0]) == 'C')
    ensures r.Ok? ==> (r.value == AutoCorrelation <==> Upper(s[0]) == 'A')
  {
    match s[0]
    case 'c' => Ok(CrossCorrelation) case 'C' => Ok(CrossCorrelation)
    case 'a' => Ok(AutoCorrelation) case 'A' => Ok(AutoCorrelation)
    case 'b' => Ok(BothCorrelations) case 'B' => Ok(BothCorrelations)
    case _ => Throw("Invalid correlation type specified in CORRTYPE: should be 'a', 'c' or 'b'.")
  }

  /** The letter each type is written with in a header file. */
  function CorrTypeLetter(t: CorrelationType): char
    requires t != NoCorrelation
  {
    match t
    case CrossCorrelation => 'c'
    case AutoCorrelation => 'a'
    case BothCorrelations => 'b'
  }

  lemma ParseCorrTypeLetter(t: CorrelationType, tail: string)
    requires t != NoCorrelation
    ensures ParseCorrType([CorrTypeLetter(t)] + tail) == Ok(t)
  {
  }

  // ------------------------------------------------------- header checks

  /** The header fields that the checks look at; the direction fields start
      at -99 and the rest at zero before the file is read. */
  datatype Header = Header(
    fieldName: string, nScans: int, nInputs: int, nChannels: int,
    correlationType: CorrelationType,
    integrationTime: real, bandwidthMHz: real, centralFrequencyMHz: real,
    raHrs: real, decDegs: real, haHrsStart: real,
    year: int, month: int, day: int)

  const Unset: real := -99.0

  /** Every value the checks demand is present. */
  predicate Complete(h: Header, lockPointing: bool) {
    h.nScans != 0 && h.nInputs != 0 && h.nChannels != 0 &&
    h.integrationTime != 0.0 && h.bandwidthMHz != 0.0 && h.centralFrequencyMHz != 0.0 &&
    h.raHrs != Unset && h.decDegs != Unset &&
    h.year != 0 && h.month != 0 && h.day != 0 &&
    !(h.haHrsStart == Unset && lockPointing)
  }

  /** The sanity checks and defaults after the header file: a missing
      required value throws, an empty field name becomes "TEST_32T" and a
      missing correlation type becomes both. */
  function CheckHeader(h: Header, lockPointing: bool): (r: Result<Header>)
    ensures r.Ok? <==> Complete(h, lockPointing)
    ensures r.Ok? ==> r.value.fieldName != [] && r.value.correlationType != NoCorrelation
    ensures r.Ok? && h.fieldName != [] ==> r.value.fieldName == h.fieldName
    ensures r.Ok? && h.correlationType != NoCorrelation ==> r.value.correlationType == h.correlationType
    ensures r.Ok? ==> r.value.(fieldName := h.fieldName, correlationType := h.correlationType) == h
  {
    if h.nScans == 0 then Throw("N_SCANS not specified in header")
    else
      var h1 := if h.fieldName == [] then h.(fieldName := "TEST_32T") else h;
      if h1.nInputs == 0 then Throw("N_INPUTS not specified in header")
      else if h1.nChannels == 0 then Throw("N_CHANNELS not specified in header")
      else
        var h2 := if h1.correlationType == NoCorrelation then h1.(correlationType := BothCorrelations) else h1;
        if h2.integrationTime == 0.0 then Throw("INT_TIME not specified in header")
        else if h2.bandwidthMHz == 0.0 then Throw("BANDWIDTH not specified in header")
        else if h2.centralFrequencyMHz == 0.0 then Throw("FREQCENT not specified in header")
        else if h2.raHrs == Unset then Throw("RA_HRS not specified in header")
        else if h2.decDegs == Unset then Throw("DEC_DEGS not specified in header")
        else if h2.year == 0 || h2.month == 0 || h2.day == 0 then Throw("DATE not specified in header")
        else if h2.haHrsStart == Unset && lockPointing then
          Throw("HA must be specified in header when locking pointing.")
        else Ok(h2)
  }

  /** A checked header passes the checks again unchanged. */
  lemma CheckHeaderIdempotent(h: Header, lockPointing: bool)
    requires CheckHeader(h, lockPointing).Ok?
    ensures CheckHeader(CheckHeader(h, lockPointing).value, lockPointing) == CheckHeader(h, lockPointing)
  {
  }

  /** Every tile needs one X and one Y input. */
  function CheckSetup(antennaXInputCount: nat, antennaYInputCount: nat, antennaCount: nat): (r: Result<()>)
    ensures r.Ok? <==> antennaXInputCount == antennaCount && antennaYInputCount == antennaCount
  {
    if antennaXInputCount != antennaCount || antennaYInputCount != antennaCount then
      Throw("Number of tiles does not match number of X or Y inputs")
    else
      Ok(())
  }
}

=== FILE: offringastman.dfy ===
/** The row and column bookkeeping of the compressing storage manager:
    where each column's bytes sit inside a row, how large the header is,
    which rows exist in the file, the rules for adding and removing rows
    and columns, and the specification record that carries the RMS table.
    File contents and the encoders themselves are not modelled: a column is
    its kind, its symbols per cell and bits per symbol (which give its
    stride), and the size of its extra header. */
module OffringaStMan {

  import opened Results
  import RmsTable
  import Text

  /** The two column types the manager creates: complex visibilities and
      float weights. */
  datatype ColumnKind = ComplexColumn | WeightColumn

  /** A column as the manager sees it: an identity, its kind, the symbols
      of one cell and the bits of one symbol, the bytes of its extra
      header, and its offset inside a row. */
  datatype Column = Column(
    id: nat,
    kind: ColumnKind,
    symbolsPerCell: nat,
    bitsPerSymbol: nat,
    extraHeaderSize: nat,
    rowOffset: nat)
  {
    /** `Stride()`: the bytes of one row of this column, the packed symbols
        plus, for a weight column, one float scale factor. */
    function Stride(): nat {
      SymbolBytes(symbolsPerCell, bitsPerSymbol) + (if kind.WeightColumn? then ScaleBytes else 0)
    }
  }

  /** The whole bytes that hold the given number of symbols of the given
      width: enough for every bit, and less than one byte to spare. */
  function SymbolBytes(symbols: nat, bits: nat): nat {
    (symbols * bits + 7) / 8
  }

  /** `SetBitsPerSymbol` as the manager calls it: a complex column takes
      the complex bit count, a weight column the weight bit count. */
  function WithBits(c: Column, complexBits: nat, weightBits: nat): Column {
    c.(bitsPerSymbol := if c.kind.ComplexColumn? then complexBits else weightBits)
  }

  /** The bytes of a weight column's float scale factor. */
  const ScaleBytes: nat := 4

  /** The stride of c, less a weight column's scale factor, holds exactly
      its symbols at the given width, to the byte. */
  predicate StrideFor(c: Column, bits: nat) {
    var packed := c.Stride() - (if c.kind.WeightColumn? then ScaleBytes else 0);
    c.symbolsPerCell * bits <= 8 * packed < c.symbolsPerCell * bits + 8
  }

  /** Every column with its bits per symbol set from the manager. */
  function AllWithBits(cols: seq<Column>, complexBits: nat, weightBits: nat): (r: seq<Column>)
    ensures |r| == |cols|
    ensures forall i :: 0 <= i < |cols| ==> r[i] == WithBits(cols[i], complexBits, weightBits)
  {
    seq(|cols|, i requires 0 <= i < |cols| => WithBits(cols[i], complexBits, weightBits))
  }

  /** Column k (when it is one of the manager's) with its bits per symbol
      set from the manager, the others as they are. */
  function OneWithBits(cols: seq<Column>, k: nat, complexBits: nat, weightBits: nat): seq<Column> {
    if k < |cols| then cols[k := WithBits(cols[k], complexBits, weightBits)] else cols
  }

  /** The C sizes of the fixed file header and of one generic column
      header. */
  datatype Sizes = Sizes(header: nat, columnHeader: nat)

  datatype Manager = Manager(
    nRow: nat,
    nRowInFile: nat,
    rowStride: nat,
    headerSize: nat,
    columns: seq<Column>,
    rmsTable: RmsTable.Table,
    complexBitCount: nat,
    weightBitCount: nat,
    ditherMethod: int)

  // ------------------------------------------------------ stride layout

  /** The strides of the columns, added in order. */
  function StrideSum(cols: seq<Column>): nat {
    if cols == [] then 0 else StrideSum(cols[..|cols| - 1]) + cols[|cols| - 1].Stride()
  }

  /** The bytes of the column headers, added in order. */
  function ColumnHeaderBytes(sizes: Sizes, cols: seq<Column>): nat {
    if cols == [] then 0
    else ColumnHeaderBytes(sizes, cols[..|cols| - 1]) + sizes.columnHeader + cols[|cols| - 1].extraHeaderSize
  }

  /** Each column starts where the columns before it end. */
  predicate PrefixOffsets(cols: seq<Column>) {
    forall i :: 0 <= i < |cols| ==> cols[i].rowOffset == StrideSum(cols[..i])
  }

  /** laid holds the columns of cols, in the same order, each possibly at
      a new offset. */
  predicate SameColumns(laid: seq<Column>, cols: seq<Column>) {
    |laid| == |cols| &&
    forall i :: 0 <= i < |cols| ==> laid[i] == cols[i].(rowOffset := laid[i].rowOffset)
  }

  /** `recalculateStride`: offsets become the running sum of the strides,
      the row stride is the total, and the header size is the fixed header
      plus the RMS table plus every column header. Only the offsets of the
      columns change. */
  method RecalculateStride(sizes: Sizes, cols: seq<Column>, rmsTable: RmsTable.Table)
    returns (laid: seq<Column>, rowStride: nat, headerSize: nat)
    ensures SameColumns(laid, cols)
    ensures PrefixOffsets(laid)
    ensures rowStride == StrideSum(cols)
    ensures headerSize == sizes.header + RmsTable.SizeInBytes(rmsTable) + ColumnHeaderBytes(sizes, cols)
  {
    var sizeOfColumnHeaders := 0;
    rowStride := 0;
    laid := [];
    for i := 0 to |cols|
      invariant LaidOut(cols, i, laid)
      invariant rowStride == StrideSum(cols[..i])
      invariant sizeOfColumnHeaders == ColumnHeaderBytes(sizes, cols[..i])
    {
      LaidStep(sizes, cols, i, laid);
      laid := laid + [cols[i].(rowOffset := rowStride)];
      rowStride := rowStride + cols[i].Stride();
      sizeOfColumnHeaders := sizeOfColumnHeaders + sizes.columnHeader + cols[i].extraHeaderSize;
    }
    assert cols[..|cols|] == cols;
    headerSize := sizes.header + RmsTable.SizeInBytes(rmsTable) + sizeOfColumnHeaders;
    StridesKept(cols, laid);
  }

  /** The first i columns have been laid out at the running sum of the
      strides before them. */
  ghost predicate LaidOut(cols: seq<Column>, i: nat, laid: seq<Column>)
    requires i <= |cols|
  {
    |laid| == i && forall j :: 0 <= j < i ==> laid[j] == cols[j].(rowOffset := StrideSum(cols[..j]))
  }

  /** One pass of the stride loop lays out column i and adds its stride and
      header. */
  lemma LaidStep(sizes: Sizes, cols: seq<Column>, i: nat, laid: seq<Column>)
    requires i < |cols| && LaidOut(cols, i, laid)
    ensures LaidOut(cols, i + 1, laid + [cols[i].(rowOffset := StrideSum(cols[..i]))])
    ensures StrideSum(cols[..i + 1]) == StrideSum(cols[..i]) + cols[i].Stride()
    ensures ColumnHeaderBytes(sizes, cols[..i + 1]) ==
      ColumnHeaderBytes(sizes, cols[..i]) + sizes.columnHeader + cols[i].extraHeaderSize
  {
    assert cols[..i + 1][..i] == cols[..i];
  }

  lemma {:induction false} StridesKept(cols: seq<Column>, laid: seq<Column>)
    requires |laid| == |cols|
    requires forall i :: 0 <= i < |cols| ==> laid[i].Stride() == cols[i].Stride()
    ensures forall i :: 0 <= i <= |cols| ==> StrideSum(laid[..i]) == StrideSum(cols[..i])
  {
    forall i | 0 <= i <= |cols|
      ensures StrideSum(laid[..i]) == StrideSum(cols[..i])
    {
      StridePrefix(cols, laid, i);
    }
  }

  lemma {:induction false} StridePrefix(cols: seq<Column>, laid: seq<Column>, i: nat)
    requires |laid| == |cols| && i <= |cols|
    requires forall j :: 0 <= j < |cols| ==> laid[j].Stride() == cols[j].Stride()
    ensures StrideSum(laid[..i]) == StrideSum(cols[..i])
  {
    if i > 0 {
      StridePrefix(cols, laid, i - 1);
      assert laid[..i][..i - 1] == laid[..i - 1];
      assert cols[..i][..i - 1] == cols[..i - 1];
    }
  }

  lemma {:induction false} StrideSumMonotone(cols: seq<Column>, i: nat, j: nat)
    requires i <= j <= |cols|
    ensures StrideSum(cols[..i]) <= StrideSum(cols[..j])
    decreases j - i
  {
    if i < j {
      StrideSumMonotone(cols, i, j - 1);
      assert cols[..j][..j - 1] == cols[..j - 1];
    }
  }

  /** With prefix offsets the columns occupy disjoint byte ranges of a row,
      in order, and all within the row stride. */
  lemma {:induction false} ColumnsDisjoint(cols: seq<Column>, i: nat, j: nat)
    requires PrefixOffsets(cols) && i < j < |cols|
    ensures cols[i].rowOffset + cols[i].Stride() <= cols[j].rowOffset
    ensures cols[j].rowOffset + cols[j].Stride() <= StrideSum(cols)
  {
    StridesInOrder(cols, i, j);
    assert cols[i].rowOffset == StrideSum(cols[..i]);
    assert cols[j].rowOffset == StrideSum(cols[..j]);
  }

  /** The strides of columns i < j, at their running sums, follow one
      another within the total. */
  lemma StridesInOrder(cols: seq<Column>, i: nat, j: nat)
    requires i < j < |cols|
    ensures StrideSum(cols[..i]) + cols[i].Stride() <= StrideSum(cols[..j])
    ensures StrideSum(cols[..j]) + cols[j].Stride() <= StrideSum(cols)
  {
    StrideBeforeLater(cols, i, j);
    StrideWithinTotal(cols, j);
  }

  lemma StrideBeforeLater(cols: seq<Column>, i: nat, j: nat)
    requires i < j <= |cols|
    ensures StrideSum(cols[..i]) + cols[i].Stride() <= StrideSum(cols[..j])
  {
    StrideSumNext(cols, i);
    StrideSumMonotone(cols, i + 1, j);
  }

  lemma StrideWithinTotal(cols: seq<Column>, j: nat)
    requires j < |cols|
    ensures StrideSum(cols[..j]) + cols[j].Stride() <= StrideSum(cols)
  {
    StrideBeforeLater(cols, j, |cols|);
    StrideSumWhole(cols);
  }

  /** The running sum grows by one stride per column. */
  lemma StrideSumNext(cols: seq<Column>, k: nat)
    requires k < |cols|
    ensures StrideSum(cols[..k + 1]) == StrideSum(cols[..k]) + cols[k].Stride()
  {
    assert cols[..k + 1][..k] == cols[..k];
  }

  lemma StrideSumWhole(cols: seq<Column>)
    ensures StrideSum(cols[..|cols|]) == StrideSum(cols)
  {
    assert cols[..|cols|] == cols;
  }

  /** Recomputing the layout of the manager's own columns: the same
      columns in the same order, each at the sum of the strides before it. */
  method Relayout(sizes: Sizes, m: Manager) returns (r: Manager)
    ensures r == m.(columns := r.columns, rowStride := StrideSum(m.columns), headerSize := r.headerSize)
    ensures SameColumns(r.columns, m.columns) && PrefixOffsets(r.columns)
    ensures r.headerSize == sizes.header + RmsTable.SizeInBytes(m.rmsTable) + ColumnHeaderBytes(sizes, m.columns)
  {
    var laid, rowStride, headerSize := RecalculateStride(sizes, m.columns, m.rmsTable);
    r := m.(columns := laid, rowStride := rowStride, headerSize := headerSize);
  }

  // ---------------------------------------------------------------- rows

  /** `addRow`: the row count grows by nrrow (the 64-bit counter is not
      modelled as wrapping). */
  function AddRow(m: Manager, nrrow: nat): (r: Manager)
    ensures r.nRow == m.nRow + nrrow
    ensures r == m.(nRow := r.nRow)
  {
    m.(nRow := m.nRow + nrrow)
  }

  /** `removeRow`: only the last row may go. With no rows, nRow - 1 wraps
      to the largest 64-bit value, which no 32-bit row number equals, so
      the call throws. */
  function RemoveRow(m: Manager, rowNr: nat): (r: Result<Manager>)
    ensures r.Ok? <==> m.nRow > 0 && rowNr == m.nRow - 1
    ensures r.Ok? ==> r.value == m.(nRow := rowNr)
  {
    if m.nRow == 0 || rowNr != m.nRow - 1 then Throw("Trying to remove a row in the middle of the file")
    else Ok(m.(nRow := m.nRow - 1))
  }

  /** Adding rows and removing the last of them again restores the
      manager. */
  lemma AddThenRemoveRow(m: Manager)
    ensures RemoveRow(AddRow(m, 1), m.nRow) == Ok(m)
  {
  }

  // ------------------------------------------------------------- columns

  /** `addColumn`: refused once rows are committed to the file; otherwise
      the new column, at position k of the manager's list (it was appended
      when it was made), takes its bits per symbol from the manager and the
      layout is recomputed with its new stride. */
  method AddColumn(sizes: Sizes, m: Manager, k: nat) returns (r: Result<Manager>)
    ensures r.Ok? <==> m.nRowInFile == 0
    ensures r.Ok? ==>
      var cols := OneWithBits(m.columns, k, m.complexBitCount, m.weightBitCount);
      r.value == m.(columns := r.value.columns, rowStride := StrideSum(cols), headerSize := r.value.headerSize) &&
      SameColumns(r.value.columns, cols) && PrefixOffsets(r.value.columns) &&
      r.value.headerSize == sizes.header + RmsTable.SizeInBytes(m.rmsTable) + ColumnHeaderBytes(sizes, cols)
    ensures r.Ok? && k < |m.columns| ==>
      var bits := if m.columns[k].kind.ComplexColumn? then m.complexBitCount else m.weightBitCount;
      r.value.columns[k].bitsPerSymbol == bits && StrideFor(r.value.columns[k], bits)
    ensures r.Ok? ==> forall i :: 0 <= i < |m.columns| && i != k ==> r.value.columns[i].Stride() == m.columns[i].Stride()
  {
    if m.nRowInFile != 0 {
      return Throw("Can't add columns while data has been committed to table");
    }
    var cols := OneWithBits(m.columns, k, m.complexBitCount, m.weightBitCount);
    var laid := Relayout(sizes, m.(columns := cols));
    r := Ok(laid);
  }

  /** The position of the first column with the given identity. */
  function FindColumn(cols: seq<Column>, id: nat): (i: Option<nat>)
    ensures i.Some? ==> i.value < |cols| && cols[i.value].id == id &&
                        forall j :: 0 <= j < i.value ==> cols[j].id != id
    ensures i.None? ==> forall j :: 0 <= j < |cols| ==> cols[j].id != id
  {
    if cols == [] then None
    else if cols[0].id == id then Some(0)
    else match FindColumn(cols[1..], id)
      case None => None
      case Some(k) => Some(k + 1)
  }

  /** `removeColumn`: an unknown column throws; otherwise it is erased and,
      when no row is in the file yet, the layout is recomputed (with rows in
      the file the old offsets stay). */
  method RemoveColumn(sizes: Sizes, m: Manager, id: nat) returns (r: Result<Manager>)
    ensures r.Ok? <==> exists j :: 0 <= j < |m.columns| && m.columns[j].id == id
    ensures r.Ok? ==> FindColumn(m.columns, id).Some?
    ensures r.Ok? ==>
      var j := FindColumn(m.columns, id).value;
      var kept := m.columns[..j] + m.columns[j + 1..];
      SameColumns(r.value.columns, kept) &&
      (m.nRowInFile == 0 ==> PrefixOffsets(r.value.columns) && r.value.rowStride == StrideSum(kept)) &&
      (m.nRowInFile != 0 ==> r.value == m.(columns := kept))
    ensures r.Ok? ==> r.value.nRow == m.nRow && r.value.nRowInFile == m.nRowInFile && r.value.rmsTable == m.rmsTable
  {
    var found := FindColumn(m.columns, id);
    if found.None? {
      return Throw("Trying to remove column that was not part of the storage manager");
    }
    var j := found.value;
    var rest := m.(columns := m.columns[..j] + m.columns[j + 1..]);
    assert SameColumns(rest.columns, rest.columns);
    if m.nRowInFile == 0 {
      rest := Relayout(sizes, rest);
    }
    r := Ok(rest);
  }

  // --------------------------------------------------------- data access

  /** The file position of a column's data in a row. */
  function DataPosition(m: Manager, rowIndex: nat, column: Column): (p: nat)
    ensures p >= m.headerSize + rowIndex * m.rowStride
    ensures column.rowOffset + column.Stride() <= m.rowStride ==>
      p + column.Stride() <= m.headerSize + (rowIndex + 1) * m.rowStride
  {
    assert (rowIndex + 1) * m.rowStride == rowIndex * m.rowStride + m.rowStride;
    rowIndex * m.rowStride + column.rowOffset + m.headerSize
  }

  /** `readCompressedData`: only rows already in the file can be read. */
  function ReadPosition(m: Manager, rowIndex: nat, column: Column): (r: Result<nat>)
    ensures r.Ok? <==> rowIndex < m.nRowInFile
    ensures r.Ok? ==> r.value >= m.headerSize
  {
    if m.nRowInFile <= rowIndex then Throw("Reading past end of file")
    else Ok(DataPosition(m, rowIndex, column))
  }

  /** `writeCompressedData`: writing a row takes the file at least up to
      that row; the position is the same one a read would use. */
  function WritePosition(m: Manager, rowIndex: nat, column: Column): (r: (Manager, nat))
    ensures r.0.nRowInFile == if rowIndex < m.nRowInFile then m.nRowInFile else rowIndex + 1
    ensures r.0 == m.(nRowInFile := r.0.nRowInFile)
  {
    var grown := if m.nRowInFile <= rowIndex then m.(nRowInFile := rowIndex + 1) else m;
    (grown, DataPosition(grown, rowIndex, column))
  }

  /** Once a row is written it can be read back, at the same position, and
      every row before it can be read too. */
  lemma ReadAfterWrite(m: Manager, rowIndex: nat, column: Column, other: nat)
    requires other <= rowIndex
    ensures ReadPosition(WritePosition(m, rowIndex, column).0, other, column).Ok?
    ensures ReadPosition(WritePosition(m, rowIndex, column).0, rowIndex, column) ==
      Ok(WritePosition(m, rowIndex, column).1)
  {
  }

  // ------------------------------------------------------ create and open

  /** `create`: a fresh file holds no row. */
  function Create(m: Manager, nRow: nat): (r: Manager)
    ensures r.nRow == nRow && r.nRowInFile == 0
  {
    m.(nRow := nRow, nRowInFile := 0)
  }

  /** The fixed part of the file header and the column headers after it,
      reduced to what the manager reads back: one row offset per column
      header. */
  datatype FileHeader = FileHeader(
    headerSize: nat,
    rowStride: nat,
    complexBitCount: nat,
    weightBitCount: nat,
    ditherMethod: int,
    rmsTable: RmsTable.Table,
    columnCount: nat,
    columnOffsets: seq<nat>)
  {
    /** A header as `writeHeader` lays it out: one column header per
        counted column. */
    predicate WellFormed() {
      |columnOffsets| == columnCount
    }
  }

  /** `writeHeader`: the layout, the encoder settings, the RMS table and
      one column header per column with its row offset. */
  function WriteHeader(m: Manager): (h: FileHeader)
    ensures h.WellFormed() && h.columnCount == |m.columns|
    ensures forall i :: 0 <= i < |m.columns| ==> h.columnOffsets[i] == m.columns[i].rowOffset
  {
    FileHeader(m.headerSize, m.rowStride, m.complexBitCount, m.weightBitCount, m.ditherMethod,
               m.rmsTable, |m.columns|, seq(|m.columns|, i requires 0 <= i < |m.columns| => m.columns[i].rowOffset))
  }

  /** `readHeader`: the layout, the settings and the RMS table come from
      the file, and each column takes its row offset from its column
      header; a column count other than the manager's throws. */
  function ReadHeader(m: Manager, h: FileHeader): (r: Result<Manager>)
    requires h.WellFormed()
    ensures r.Ok? <==> h.columnCount == |m.columns|
    ensures r.Ok? ==> r.value.headerSize == h.headerSize && r.value.rowStride == h.rowStride
    ensures r.Ok? ==> r.value.complexBitCount == h.complexBitCount && r.value.weightBitCount == h.weightBitCount
    ensures r.Ok? ==> r.value.ditherMethod == h.ditherMethod && r.value.rmsTable == h.rmsTable
    ensures r.Ok? ==> SameColumns(r.value.columns, m.columns)
    ensures r.Ok? ==> forall i :: 0 <= i < |m.columns| ==> r.value.columns[i].rowOffset == h.columnOffsets[i]
    ensures r.Ok? ==> r.value.nRow == m.nRow && r.value.nRowInFile == m.nRowInFile
  {
    if h.columnCount != |m.columns| then
      Throw("The column count in the OffringaStMan file does not match with the measurement set")
    else
      var cols := seq(|m.columns|, i requires 0 <= i < |m.columns| => m.columns[i].(rowOffset := h.columnOffsets[i]));
      Ok(m.(headerSize := h.headerSize, rowStride := h.rowStride,
            complexBitCount := h.complexBitCount, weightBitCount := h.weightBitCount,
            ditherMethod := h.ditherMethod, rmsTable := h.rmsTable, columns := cols))
  }

  /** Reading back the header a manager wrote restores its layout, its
      settings and its table into a manager with the same columns. */
  lemma HeaderRoundTrip(m: Manager, other: Manager)
    requires SameColumns(other.columns, m.columns)
    ensures ReadHeader(other, WriteHeader(m)) ==
      Ok(m.(nRow := other.nRow, nRowInFile := other.nRowInFile))
  {
    var r := ReadHeader(other, WriteHeader(m)).value;
    assert r.columns == m.columns;
  }

  /** `open`: the header is read from the file, then the rows in a file of
      the given size are counted with the header's layout. A header whose
      row stride is zero must come with an empty file. */
  function Open(m: Manager, nRow: nat, h: FileHeader, size: nat): (r: Result<Manager>)
    requires h.WellFormed()
    ensures r.Ok? <==> h.columnCount == |m.columns| && (h.rowStride != 0 || size == 0)
    ensures r.Ok? ==> ReadHeader(m, h).Ok?
    ensures r.Ok? ==> r.value == ReadHeader(m, h).value.(nRow := nRow, nRowInFile := r.value.nRowInFile)
    ensures r.Ok? && size <= h.headerSize ==> r.value.nRowInFile == 0
  {
    match ReadHeader(m, h)
    case Throw(e) => Throw(e)
    case Ok(read) =>
      if read.rowStride == 0 then
        if size > 0 then Throw("File is non-empty, but casa thinks it is empty")
        else Ok(read.(nRow := nRow, nRowInFile := 0))
      else if size > read.headerSize then
        Ok(read.(nRow := nRow, nRowInFile := (size - read.headerSize) / read.rowStride))
      else Ok(read.(nRow := nRow, nRowInFile := 0))
  }

  /** The rows `open` counts are whole rows inside the file, and one more
      would not fit: every byte of every counted row lies in the file. */
  lemma OpenRowsFit(m: Manager, nRow: nat, h: FileHeader, size: nat)
    requires h.WellFormed() && h.columnCount == |m.columns|
    requires h.rowStride != 0 && size > h.headerSize
    ensures Open(m, nRow, h, size).Ok?
    ensures h.headerSize + Open(m, nRow, h, size).value.nRowInFile * h.rowStride <= size
    ensures size < h.headerSize + (Open(m, nRow, h, size).value.nRowInFile + 1) * h.rowStride
  {
    var d := size - h.headerSize;
    var q := d / h.rowStride;
    assert d == q * h.rowStride + d % h.rowStride;
  }

  /** `prepare`: refused while the RMS table is empty or a bit count is
      unset; otherwise every column takes its bits per symbol from the
      manager, and the layout is recomputed with the new strides when the
      file holds no row yet (with rows in the file the old offsets and row
      stride stay). */
  method Prepare(sizes: Sizes, m: Manager) returns (r: Result<Manager>)
    ensures r.Ok? <==> !RmsTable.Empty(m.rmsTable) && m.complexBitCount != 0 && m.weightBitCount != 0
    ensures r.Ok? ==> |r.value.columns| == |m.columns| && forall i :: 0 <= i < |m.columns| ==>
      var bits := if m.columns[i].kind.ComplexColumn? then m.complexBitCount else m.weightBitCount;
      r.value.columns[i].bitsPerSymbol == bits && StrideFor(r.value.columns[i], bits)
    ensures r.Ok? && m.nRowInFile == 0 ==>
      var cols := AllWithBits(m.columns, m.complexBitCount, m.weightBitCount);
      r.value == m.(columns := r.value.columns, rowStride := StrideSum(cols), headerSize := r.value.headerSize) &&
      SameColumns(r.value.columns, cols) && PrefixOffsets(r.value.columns)
    ensures r.Ok? && m.nRowInFile != 0 ==>
      r.value == m.(columns := AllWithBits(m.columns, m.complexBitCount, m.weightBitCount))
  {
    if RmsTable.Empty(m.rmsTable) {
      return Throw("The RMS table of the OffringaStMan was not set!");
    }
    if m.complexBitCount == 0 || m.weightBitCount == 0 {
      return Throw("One of the required parameters of the OffringaStMan was not set!");
    }
    var prepared := m.(columns := AllWithBits(m.columns, m.complexBitCount, m.weightBitCount));
    if m.nRowInFile == 0 {
      prepared := Relayout(sizes, prepared);
    }
    r := Ok(prepared);
  }

  // --------------------------------------------------------------- spec

  /** The specification record: the RMS table as a flat array of shape
      (antennas, antennas, fields), when present, and the encoder settings. */
  datatype Spec = Spec(rms: Option<RmsArray>, complexBitCount: nat, weightBitCount: nat, ditherMethod: int)
  datatype RmsArray = RmsArray(antennaCount: nat, fieldCount: nat, data: seq<real>)

  predicate WellShaped(a: RmsArray) {
    |a.data| == a.fieldCount * (a.antennaCount * a.antennaCount)
  }

  /** Where entry (antenna1, antenna2) sits inside one field: antenna1
      outermost, antenna2 running fastest. */
  function PlaneIndex(antennaCount: nat, antenna1: nat, antenna2: nat): nat {
    antenna1 * antennaCount + antenna2
  }

  /** Where entry (antenna1, antenna2) of field f sits in the flat array:
      the fields one after the other. */
  function FlatIndex(antennaCount: nat, f: nat, antenna1: nat, antenna2: nat): nat {
    f * (antennaCount * antennaCount) + PlaneIndex(antennaCount, antenna1, antenna2)
  }

  lemma PlaneIndexBound(antennaCount: nat, rows: nat, antenna1: nat, antenna2: nat)
    requires antenna1 < rows && antenna2 < antennaCount
    ensures PlaneIndex(antennaCount, antenna1, antenna2) < rows * antennaCount
  {
    Text.MulLe(antenna1 + 1, rows, antennaCount);
  }

  lemma FlatIndexBound(antennaCount: nat, fieldCount: nat, f: nat, antenna1: nat, antenna2: nat)
    requires f < fieldCount && antenna1 < antennaCount && antenna2 < antennaCount
    ensures PlaneIndex(antennaCount, antenna1, antenna2) < antennaCount * antennaCount
    ensures FlatIndex(antennaCount, f, antenna1, antenna2) < fieldCount * (antennaCount * antennaCount)
  {
    PlaneIndexBound(antennaCount, antennaCount, antenna1, antenna2);
    Text.MulLe(f + 1, fieldCount, antennaCount * antennaCount);
  }

  /** The flat array holds the table's values at their flat indices. */
  ghost predicate Flattens(t: RmsTable.Table, data: seq<real>)
    requires RmsTable.Valid(t)
  {
    |data| == t.fieldCount * (t.antennaCount * t.antennaCount) &&
    forall f: nat, a1: nat, a2: nat :: RmsTable.IsInTable(t, a1, a2, f) ==>
      FlatIndex(t.antennaCount, f, a1, a2) < |data| &&
      data[FlatIndex(t.antennaCount, f, a1, a2)] == RmsTable.Value(t, a1, a2, f)
  }

  /** One field of the table, antenna1 outermost. */
  method FlattenField(t: RmsTable.Table, f: nat) returns (plane: seq<real>)
    requires RmsTable.Valid(t) && f < t.fieldCount
    ensures |plane| == t.antennaCount * t.antennaCount
    ensures forall a1: nat, a2: nat :: a1 < t.antennaCount && a2 < t.antennaCount ==>
      PlaneIndex(t.antennaCount, a1, a2) < |plane| &&
      plane[PlaneIndex(t.antennaCount, a1, a2)] == RmsTable.Value(t, a1, a2, f)
  {
    var n := t.antennaCount;
    plane := [];
    for a1 := 0 to n
      invariant |plane| == a1 * n
      invariant forall b1: nat, b2: nat :: b1 < a1 && b2 < n ==>
        PlaneIndex(n, b1, b2) < |plane| && plane[PlaneIndex(n, b1, b2)] == RmsTable.Value(t, b1, b2, f)
    {
      var row := seq(n, a2 requires 0 <= a2 < n => RmsTable.Value(t, a1, a2, f));
      var next := plane + row;
      forall b1: nat, b2: nat | b1 < a1 + 1 && b2 < n
        ensures PlaneIndex(n, b1, b2) < |next|
        ensures next[PlaneIndex(n, b1, b2)] == RmsTable.Value(t, b1, b2, f)
      {
        if b1 < a1 {
          PlaneIndexBound(n, a1, b1, b2);
        }
      }
      plane := next;
    }
  }

  /** `initializeSpec`: the table flattened field by field, with the
      encoder settings. */
  method InitializeSpec(m: Manager) returns (spec: Spec)
    requires RmsTable.Valid(m.rmsTable)
    ensures spec.rms.Some?
    ensures spec.rms.value.antennaCount == m.rmsTable.antennaCount
    ensures spec.rms.value.fieldCount == m.rmsTable.fieldCount
    ensures Flattens(m.rmsTable, spec.rms.value.data)
    ensures spec.complexBitCount == m.complexBitCount && spec.weightBitCount == m.weightBitCount
    ensures spec.ditherMethod == m.ditherMethod
  {
    var t := m.rmsTable;
    var n := t.antennaCount;
    var data := [];
    for f := 0 to t.fieldCount
      invariant |data| == f * (n * n)
      invariant forall g: nat, a1: nat, a2: nat :: g < f && a1 < n && a2 < n ==>
        FlatIndex(n, g, a1, a2) < |data| && data[FlatIndex(n, g, a1, a2)] == RmsTable.Value(t, a1, a2, g)
    {
      var plane := FlattenField(t, f);
      var next := data + plane;
      forall g: nat, a1: nat, a2: nat | g < f + 1 && a1 < n && a2 < n
        ensures FlatIndex(n, g, a1, a2) < |next|
        ensures next[FlatIndex(n, g, a1, a2)] == RmsTable.Value(t, a1, a2, g)
      {
        FlatIndexBound(n, f + 1, g, a1, a2);
        if g < f {
          FlatIndexBound(n, f, g, a1, a2);
        }
      }
      data := next;
    }
    spec := Spec(Some(RmsArray(n, t.fieldCount, data)), m.complexBitCount, m.weightBitCount, m.ditherMethod);
  }

  /** Entry (antenna1, antenna2) of field f of a flat array. */
  function FlatEntry(a: RmsArray, f: nat, antenna1: nat, antenna2: nat): real
    requires WellShaped(a) && f < a.fieldCount && antenna1 < a.antennaCount && antenna2 < a.antennaCount
  {
    FlatIndexBound(a.antennaCount, a.fieldCount, f, antenna1, antenna2);
    a.data[FlatIndex(a.antennaCount, f, antenna1, antenna2)]
  }

  /** The table a flat array describes. */
  function Unflatten(a: RmsArray): (t: RmsTable.Table)
    requires WellShaped(a)
    ensures RmsTable.Valid(t) && t.antennaCount == a.antennaCount && t.fieldCount == a.fieldCount
    ensures forall f: nat, a1: nat, a2: nat :: RmsTable.IsInTable(t, a1, a2, f) ==>
      RmsTable.Value(t, a1, a2, f) == FlatEntry(a, f, a1, a2)
  {
    var n := a.antennaCount;
    RmsTable.Table(n, a.fieldCount,
      seq(a.fieldCount, f requires 0 <= f < a.fieldCount =>
        seq(n, a2 requires 0 <= a2 < n =>
          seq(n, a1 requires 0 <= a1 < n => FlatEntry(a, f, a1, a2)))))
  }

  /** `setFromSpec`: a specification with an RMS table replaces the table
      and the encoder settings; one without leaves the manager as it is. */
  function SetFromSpec(m: Manager, spec: Spec): (r: Manager)
    requires spec.rms.Some? ==> WellShaped(spec.rms.value)
    ensures spec.rms.None? ==> r == m
    ensures spec.rms.Some? ==>
      r.complexBitCount == spec.complexBitCount && r.weightBitCount == spec.weightBitCount &&
      r.ditherMethod == spec.ditherMethod &&
      RmsTable.Valid(r.rmsTable) && r.rmsTable.antennaCount == spec.rms.value.antennaCount &&
      r.rmsTable.fieldCount == spec.rms.value.fieldCount
    ensures spec.rms.Some? ==> forall f: nat, a1: nat, a2: nat :: RmsTable.IsInTable(r.rmsTable, a1, a2, f) ==>
      RmsTable.Value(r.rmsTable, a1, a2, f) == FlatEntry(spec.rms.value, f, a1, a2)
    ensures spec.rms.Some? ==> r == m.(rmsTable := r.rmsTable, complexBitCount := r.complexBitCount,
                                       weightBitCount := r.weightBitCount, ditherMethod := r.ditherMethod)
  {
    match spec.rms
    case None => m
    case Some(a) =>
      m.(rmsTable := Unflatten(a), complexBitCount := spec.complexBitCount,
         weightBitCount := spec.weightBitCount, ditherMethod := spec.ditherMethod)
  }

  /** Two valid tables of the same shape with the same values are equal. */
  lemma {:induction false} TableExtensional(s: RmsTable.Table, t: RmsTable.Table)
    requires RmsTable.Valid(s) && RmsTable.Valid(t)
    requires s.antennaCount == t.antennaCount && s.fieldCount == t.fieldCount
    requires forall f: nat, a1: nat, a2: nat :: RmsTable.IsInTable(t, a1, a2, f) ==>
      RmsTable.Value(s, a1, a2, f) == RmsTable.Value(t, a1, a2, f)
    ensures s == t
  {
    var n := t.antennaCount;
    forall f | 0 <= f < t.fieldCount
      ensures s.cells[f] == t.cells[f]
    {
      forall a2 | 0 <= a2 < n
        ensures s.cells[f][a2] == t.cells[f][a2]
      {
        forall a1 | 0 <= a1 < n
          ensures s.cells[f][a2][a1] == t.cells[f][a2][a1]
        {
          assert RmsTable.Value(s, a1, a2, f) == RmsTable.Value(t, a1, a2, f);
        }
      }
    }
  }

  /** Reading back the specification a manager wrote gives it back its RMS
      table and encoder settings unchanged, whatever manager reads it: the
      requires are what `InitializeSpec` ensures of the specification it
      writes. */
  lemma {:induction false} SpecRoundTrip(m: Manager, other: Manager, spec: Spec)
    requires RmsTable.Valid(m.rmsTable)
    requires spec.rms.Some?
    requires spec.rms.value.antennaCount == m.rmsTable.antennaCount
    requires spec.rms.value.fieldCount == m.rmsTable.fieldCount
    requires Flattens(m.rmsTable, spec.rms.value.data)
    requires spec.complexBitCount == m.complexBitCount && spec.weightBitCount == m.weightBitCount
    requires spec.ditherMethod == m.ditherMethod
    ensures SetFromSpec(other, spec).rmsTable == m.rmsTable
    ensures SetFromSpec(other, spec).complexBitCount == m.complexBitCount
    ensures SetFromSpec(other, spec).weightBitCount == m.weightBitCount
    ensures SetFromSpec(other, spec).ditherMethod == m.ditherMethod
  {
    var r := SetFromSpec(other, spec);
    var a := spec.rms.value;
    forall f: nat, a1: nat, a2: nat | RmsTable.IsInTable(m.rmsTable, a1, a2, f)
      ensures RmsTable.Value(r.rmsTable, a1, a2, f) == RmsTable.Value(m.rmsTable, a1, a2, f)
    {
      assert RmsTable.IsInTable(r.rmsTable, a1, a2, f);
      assert RmsTable.Value(r.rmsTable, a1, a2, f) == FlatEntry(a, f, a1, a2);
    }
    TableExtensional(r.rmsTable, m.rmsTable);
  }
}

=== FILE: polarization.dfy ===
/** The polarization enumeration: index conversions, short names and the
    parser for polarization lists such as "xx,yy" or "I/Q/U/V". */
module Polarization {

  import opened Results
  import Text

  datatype Pol = XX | XY | YX | YY | StokesI | StokesQ | StokesU | StokesV | RR | RL | LR | LL

  const AllPols: seq<Pol> := [XX, XY, YX, YY, StokesI, StokesQ, StokesU, StokesV, RR, RL, LR, LL]

  lemma AllPolsComplete(p: Pol)
    ensures p in AllPols
  {
  }

  predicate IsLinear(p: Pol) {
    p == XX || p == XY || p == YX || p == YY
  }

  /** Index of a polarization inside a set of polCountInSet polarizations:
      a single polarization must be Stokes I, two must be XX/YY and four the
      linear ones. */
  function TypeToIndex(p: Pol, polCountInSet: nat): (r: Result<nat>)
    ensures r.Ok? <==>
      (polCountInSet == 1 && p == StokesI) ||
      (polCountInSet == 2 && (p == XX || p == YY)) ||
      (polCountInSet == 4 && IsLinear(p))
    ensures r.Ok? ==> r.value < polCountInSet
  {
    match polCountInSet
    case 1 => if p != StokesI then Throw("can't convert given polarization to index") else Ok(0)
    case 2 =>
      (match p
       case XX => Ok(0)
       case YY => Ok(1)
       case _ => Throw("can't convert given polarization to index"))
    case 4 =>
      (match p
       case XX => Ok(0)
       case XY => Ok(1)
       case YX => Ok(2)
       case YY => Ok(3)
       case _ => Throw("can't convert given polarization to index"))
    case _ => Throw("can't convert given polarization to index")
  }

  /** Within one set size, different polarizations get different indices,
      and with four polarizations the index is the four-pol index. */
  lemma TypeToIndexInjective(p: Pol, q: Pol, n: nat)
    requires TypeToIndex(p, n).Ok? && TypeToIndex(q, n).Ok? && p != q
    ensures TypeToIndex(p, n).value != TypeToIndex(q, n).value
  {
  }

  lemma TypeToIndexFourIsFourPol(p: Pol)
    ensures TypeToIndex(p, 4) == TypeTo4PolIndex(p)
  {
  }

  function StokesToIndex(p: Pol): (r: nat)
    ensures r < 4
    ensures !IsStokes(p) ==> r == 0
  {
    match p
    case StokesQ => 1
    case StokesU => 2
    case StokesV => 3
    case _ => 0
  }

  function IndexToStokes(i: nat): (r: Pol)
    requires i < 4
    ensures IsStokes(r) && StokesToIndex(r) == i
  {
    [StokesI, StokesQ, StokesU, StokesV][i]
  }

  lemma StokesIndexRoundTrip(p: Pol)
    requires IsStokes(p)
    ensures IndexToStokes(StokesToIndex(p)) == p
  {
  }

  predicate IsStokes(p: Pol) {
    p == StokesI || p == StokesQ || p == StokesU || p == StokesV
  }

  /** Only the linear polarizations have a four-pol index, 0..3 in the
      order XX, XY, YX, YY. */
  function TypeTo4PolIndex(p: Pol): (r: Result<nat>)
    ensures r.Ok? <==> IsLinear(p)
    ensures r.Ok? ==> r.value < 4 && [XX, XY, YX, YY][r.value] == p
  {
    match p
    case XX => Ok(0)
    case XY => Ok(1)
    case YX => Ok(2)
    case YY => Ok(3)
    case _ => Throw("can't convert given polarization to index")
  }

  function TypeToShortString(p: Pol): (r: string)
    ensures 1 <= |r| <= 2
    ensures |r| == 1 <==> IsStokes(p)
  {
    match p
    case XX => "XX"
    case XY => "XY"
    case YX => "YX"
    case YY => "YY"
    case StokesI => "I"
    case StokesQ => "Q"
    case StokesU => "U"
    case StokesV => "V"
    case RR => "RR"
    case RL => "RL"
    case LR => "LR"
    case LL => "LL"
  }

  /** True iff one of the three complete four-polarization bases is present. */
  function Has4Polarizations(ps: set<Pol>): (r: bool)
    ensures r ==> |ps| >= 4
  {
    var linear := {XX, XY, YX, YY};
    var stokes := {StokesI, StokesQ, StokesU, StokesV};
    var circular := {RR, RL, LR, LL};
    var r := linear <= ps || stokes <= ps || circular <= ps;
    if linear <= ps then SubsetCard(linear, ps); r
    else if stokes <= ps then SubsetCard(stokes, ps); r
    else if circular <= ps then SubsetCard(circular, ps); r
    else r
  }

  lemma SubsetCard(a: set<Pol>, b: set<Pol>)
    requires a <= b
    ensures |a| <= |b|
  {
    assert b == a + (b - a);
  }

  predicate IsComplex(p: Pol) {
    p == XY || p == YX
  }

  function ParseString(s: string): (r: Result<Pol>)
    ensures r.Ok? ==> TypeToShortString(r.value) == s
  {
    if s == "XX" then Ok(XX)
    else if s == "XY" then Ok(XY)
    else if s == "YX" then Ok(YX)
    else if s == "YY" then Ok(YY)
    else if s == "I" then Ok(StokesI)
    else if s == "Q" then Ok(StokesQ)
    else if s == "U" then Ok(StokesU)
    else if s == "V" then Ok(StokesV)
    else if s == "RR" then Ok(RR)
    else if s == "RL" then Ok(RL)
    else if s == "LR" then Ok(LR)
    else if s == "LL" then Ok(LL)
    else Throw("Could not parse polarization string: " + s)
  }

  /** Short names parse back to their polarization ... */
  lemma ParseShortString(p: Pol)
    ensures ParseString(TypeToShortString(p)) == Ok(p)
  {
  }

  /** ... and every other string throws. */
  lemma ParseStringThrows(s: string)
    requires forall p :: TypeToShortString(p) != s
    ensures ParseString(s).Throw?
  {
  }

  // ------------------------------------------------------------ ParseList

  datatype State = Start | GotX | GotY | GotL | GotR | GotSeparator

  datatype Parse = Parse(state: State, list: set<Pol>)

  function Pair(first: State, second: char): Option<Pol> {
    match (first, second)
    case (GotX, 'X') => Some(XX)
    case (GotY, 'X') => Some(YX)
    case (GotX, 'Y') => Some(XY)
    case (GotY, 'Y') => Some(YY)
    case (GotR, 'R') => Some(RR)
    case (GotL, 'R') => Some(LR)
    case (GotR, 'L') => Some(RL)
    case (GotL, 'L') => Some(LL)
    case _ => None
  }

  function Stokes(c: char): Option<Pol> {
    match c
    case 'I' => Some(StokesI)
    case 'Q' => Some(StokesQ)
    case 'U' => Some(StokesU)
    case 'V' => Some(StokesV)
    case _ => None
  }

  function FirstOfPair(c: char): Option<State> {
    match c
    case 'X' => Some(GotX)
    case 'Y' => Some(GotY)
    case 'R' => Some(GotR)
    case 'L' => Some(GotL)
    case _ => None
  }

  predicate Ready(st: State) {
    st == Start || st == GotSeparator
  }

  /** One character of the list parser; lower case letters count as upper
      case and characters it does not know are skipped. */
  function Step(p: Parse, ch: char): (r: Result<Parse>)
    ensures r.Ok? ==> p.list <= r.value.list
  {
    var c := Text.Upper(ch);
    if FirstOfPair(c).Some? then
      if Ready(p.state) then Ok(Parse(FirstOfPair(c).value, p.list))
      else if Pair(p.state, c).Some? then Ok(Parse(Start, p.list + {Pair(p.state, c).value}))
      else Throw("Invalid polarization list: parse error near letter")
    else if Stokes(c).Some? then
      if Ready(p.state) then Ok(Parse(Start, p.list + {Stokes(c).value}))
      else Throw("Invalid polarization list: parse error near Stokes letter")
    else if c == ',' || c == ' ' || c == '/' then
      if p.state == Start then Ok(Parse(GotSeparator, p.list))
      else Throw("Invalid polarization list: parse error near seperator")
    else
      Ok(p)
  }

  /** The parser over a whole string: it stops at the first character
      that throws, and never drops a polarization it has gathered. */
  function Run(p: Parse, s: string): (r: Result<Parse>)
    ensures r.Ok? ==> p.list <= r.value.list
    decreases |s|
  {
    if |s| == 0 then Ok(p)
    else
      var q :- Step(p, s[0]);
      Run(q, s[1..])
  }

  /** `ParseList`: the polarizations of a list whose run ends ready for a
      new name. The empty list is the empty set, and a list that ends in a
      separator is refused. */
  function ParseList(s: string): (r: Result<set<Pol>>)
    ensures s == [] ==> r == Ok({})
    ensures r.Ok? ==> Run(Parse(Start, {}), s) == Ok(Parse(Start, r.value))
    ensures |s| > 0 && (s[|s| - 1] == ',' || s[|s| - 1] == ' ' || s[|s| - 1] == '/') ==> r.Throw?
  {
    RunEndsAfterSeparator(Parse(Start, {}), s);
    var p :- Run(Parse(Start, {}), s);
    if p.state != Start then Throw("Invalid polarization list: parse error near string end")
    else Ok(p.list)
  }

  /** A run whose last character is a separator ends, when it does not
      throw, just after a separator. */
  lemma RunEndsAfterSeparator(p: Parse, s: string)
    ensures |s| > 0 && (s[|s| - 1] == ',' || s[|s| - 1] == ' ' || s[|s| - 1] == '/') && Run(p, s).Ok? ==>
      Run(p, s).value.state == GotSeparator
  {
    if |s| > 0 && (s[|s| - 1] == ',' || s[|s| - 1] == ' ' || s[|s| - 1] == '/') {
      var n := |s| - 1;
      assert s == s[..n] + [s[n]];
      RunAppend(p, s[..n], [s[n]]);
      match Run(p, s[..n])
      case Throw(m) =>
      case Ok(q) =>
        RunSingle(q, s[n]);
        StepSeparator(q, s[n]);
    }
  }

  /** A separator, when it does not throw, leaves the parser waiting for
      the next name. */
  lemma StepSeparator(q: Parse, sep: char)
    requires sep == ',' || sep == ' ' || sep == '/'
    ensures Step(q, sep).Ok? ==> Step(q, sep).value.state == GotSeparator
  {
    assert Text.Upper(sep) == sep;
  }

  lemma {:induction false} RunAppend(p: Parse, a: string, b: string)
    ensures Run(p, a + b) == (match Run(p, a) case Throw(m) => Throw(m) case Ok(q) => Run(q, b))
    decreases |a|
  {
    if |a| > 0 {
      assert (a + b)[0] == a[0] && (a + b)[1..] == a[1..] + b;
      match Step(p, a[0])
      case Throw(m) =>
      case Ok(q) => RunAppend(q, a[1..], b);
    } else {
      assert a + b == b;
    }
  }

  lemma RunSingle(p: Parse, c: char)
    ensures Run(p, [c]) == Step(p, c)
  {
    assert [c][1..] == [];
  }

  /** Upper and lower case letters parse alike. */
  lemma {:induction false} RunCaseInsensitive(p: Parse, s: string)
    ensures Run(p, s) == Run(p, Text.UpperString(s))
    decreases |s|
  {
    if |s| > 0 {
      var u := Text.UpperString(s);
      assert Text.Upper(Text.Upper(s[0])) == Text.Upper(s[0]);
      assert Step(p, s[0]) == Step(p, u[0]);
      assert u[1..] == Text.UpperString(s[1..]);
      match Step(p, s[0])
      case Throw(m) =>
      case Ok(q) => RunCaseInsensitive(q, s[1..]);
    }
  }

  lemma ParseListCaseInsensitive(s: string)
    ensures ParseList(s) == ParseList(Text.UpperString(s))
  {
    RunCaseInsensitive(Parse(Start, {}), s);
  }

  /** A list whose last entry is followed by a separator is refused. */
  lemma ParseListTrailingSeparator(s: string, sep: char)
    requires sep == ',' || sep == ' ' || sep == '/'
    ensures ParseList(s + [sep]).Throw?
  {
    RunAppend(Parse(Start, {}), s, [sep]);
    match Run(Parse(Start, {}), s)
    case Throw(m) =>
    case Ok(q) => RunSingle(q, sep);
  }

  /** Two separators in a row are refused, whatever surrounds them. */
  lemma ParseListDoubledSeparator(a: string, sep1: char, sep2: char, b: string)
    requires sep1 == ',' || sep1 == ' ' || sep1 == '/'
    requires sep2 == ',' || sep2 == ' ' || sep2 == '/'
    ensures ParseList(a + [sep1, sep2] + b).Throw?
  {
    var p := Parse(Start, {});
    RunAppend(p, a + [sep1, sep2], b);
    RunAppend(p, a, [sep1, sep2]);
    match Run(p, a)
    case Throw(m) =>
    case Ok(q) => RunTwoSeparators(q, sep1, sep2);
  }

  /** From any state, two separators in a row throw. */
  lemma RunTwoSeparators(q: Parse, sep1: char, sep2: char)
    requires sep1 == ',' || sep1 == ' ' || sep1 == '/'
    requires sep2 == ',' || sep2 == ' ' || sep2 == '/'
    ensures Run(q, [sep1, sep2]).Throw?
  {
    assert [sep1, sep2] == [sep1] + [sep2];
    RunAppend(q, [sep1], [sep2]);
    RunSingle(q, sep1);
    match Step(q, sep1)
    case Throw(m) =>
    case Ok(q2) => RunSingle(q2, sep2);
  }

  /** A list that stops after the first letter of a pair is refused. */
  lemma ParseListUnfinishedPair(s: string, c: char)
    requires ParseList(s).Ok?
    requires FirstOfPair(Text.Upper(c)).Some?
    ensures ParseList(s + [c]).Throw?
  {
    RunAppend(Parse(Start, {}), s, [c]);
    match Run(Parse(Start, {}), s)
    case Throw(m) =>
    case Ok(q) => RunSingle(q, c);
  }

  /** The list written with a separator after every entry but the last. */
  function Format(ps: seq<Pol>, sep: char): string {
    if |ps| == 0 then ""
    else if |ps| == 1 then TypeToShortString(ps[0])
    else TypeToShortString(ps[0]) + [sep] + Format(ps[1..], sep)
  }

  function Elements(ps: seq<Pol>): set<Pol> {
    set i | 0 <= i < |ps| :: ps[i]
  }

  lemma RunShortString(p: Parse, q: Pol)
    requires Ready(p.state)
    ensures Run(p, TypeToShortString(q)) == Ok(Parse(Start, p.list + {q}))
  {
    match q
    case XX => RunPairName(p, 'X', 'X', q);
    case XY => RunPairName(p, 'X', 'Y', q);
    case YX => RunPairName(p, 'Y', 'X', q);
    case YY => RunPairName(p, 'Y', 'Y', q);
    case StokesI => RunStokesName(p, 'I', q);
    case StokesQ => RunStokesName(p, 'Q', q);
    case StokesU => RunStokesName(p, 'U', q);
    case StokesV => RunStokesName(p, 'V', q);
    case RR => RunPairName(p, 'R', 'R', q);
    case RL => RunPairName(p, 'R', 'L', q);
    case LR => RunPairName(p, 'L', 'R', q);
    case LL => RunPairName(p, 'L', 'L', q);
  }

  /** A one-letter Stokes name adds its polarization. */
  lemma RunStokesName(p: Parse, c: char, q: Pol)
    requires Ready(p.state) && Text.Upper(c) == c
    requires FirstOfPair(c).None? && Stokes(c) == Some(q)
    ensures Run(p, [c]) == Ok(Parse(Start, p.list + {q}))
  {
    RunSingle(p, c);
  }

  /** A two-letter name adds the polarization its letters pair up to. */
  lemma RunPairName(p: Parse, c0: char, c1: char, q: Pol)
    requires Ready(p.state) && Text.Upper(c0) == c0 && Text.Upper(c1) == c1
    requires FirstOfPair(c0).Some? && FirstOfPair(c1).Some?
    requires Pair(FirstOfPair(c0).value, c1) == Some(q)
    ensures Run(p, [c0, c1]) == Ok(Parse(Start, p.list + {q}))
  {
    assert [c0, c1] == [c0] + [c1];
    RunAppend(p, [c0], [c1]);
    RunSingle(p, c0);
    RunSingle(Parse(FirstOfPair(c0).value, p.list), c1);
  }

  lemma ElementsCons(ps: seq<Pol>)
    requires |ps| > 0
    ensures Elements(ps) == {ps[0]} + Elements(ps[1..])
  {
    forall x | x in Elements(ps) ensures x in {ps[0]} + Elements(ps[1..]) {
      var i :| 0 <= i < |ps| && ps[i] == x;
      if i > 0 { assert ps[1..][i - 1] == x; }
    }
    forall x | x in Elements(ps[1..]) ensures x in Elements(ps) {
      var i :| 0 <= i < |ps[1..]| && ps[1..][i] == x;
      assert ps[i + 1] == x;
    }
  }

  lemma RunEntryAndSeparator(p: Parse, q: Pol, sep: char)
    requires Ready(p.state)
    requires sep == ',' || sep == ' ' || sep == '/'
    ensures Run(p, TypeToShortString(q) + [sep]) == Ok(Parse(GotSeparator, p.list + {q}))
  {
    RunAppend(p, TypeToShortString(q), [sep]);
    RunShortString(p, q);
    RunSingle(Parse(Start, p.list + {q}), sep);
  }

  lemma {:induction false} RunFormat(p: Parse, ps: seq<Pol>, sep: char)
    requires Ready(p.state)
    requires sep == ',' || sep == ' ' || sep == '/'
    ensures Run(p, Format(ps, sep)) == Ok(Parse(if |ps| == 0 then p.state else Start, p.list + Elements(ps)))
    decreases |ps|
  {
    if |ps| == 1 {
      assert Format(ps, sep) == TypeToShortString(ps[0]);
      RunShortString(p, ps[0]);
      ElementsCons(ps);
      assert ps[1..] == [];
      assert Elements(ps[1..]) == {};
      assert Elements(ps) == {ps[0]};
      assert Run(p, Format(ps, sep)) == Ok(Parse(Start, p.list + {ps[0]}));
    } else if |ps| > 1 {
      var name := TypeToShortString(ps[0]);
      var rest := Format(ps[1..], sep);
      assert Format(ps, sep) == (name + [sep]) + rest;
      var q := Parse(GotSeparator, p.list + {ps[0]});
      RunEntryAndSeparator(p, ps[0], sep);
      RunAppend(p, name + [sep], rest);
      RunFormat(q, ps[1..], sep);
      ElementsCons(ps);
      assert q.list + Elements(ps[1..]) == p.list + Elements(ps);
    } else {
      assert Elements(ps) == {};
      assert Format(ps, sep) == "";
      assert p.list + Elements(ps) == p.list;
    }
  }

  /** Any polarizations written as a separated list parse back to the set of
      them; "xx,YY" thus gives {XX, YY}. */
  lemma ParseListFormat(ps: seq<Pol>, sep: char)
    requires sep == ',' || sep == ' ' || sep == '/'
    ensures ParseList(Format(ps, sep)) == Ok(Elements(ps))
  {
    RunFormat(Parse(Start, {}), ps, sep);
    var p := Run(Parse(Start, {}), Format(ps, sep)).value;
    assert p.state == Start && p.list == Elements(ps);
  }

  lemma ParseListExample()
    ensures ParseList("xx,YY") == Ok({XX, YY})
  {
    ParseListCaseInsensitive("xx,YY");
    UpperExample();
    ParseListFormat([XX, YY], ',');
    FormatExample();
  }

  lemma UpperExample()
    ensures Text.UpperString("xx,YY") == "XX,YY"
  {
  }

  lemma FormatExample()
    ensures Format([XX, YY], ',') == "XX,YY"
    ensures Elements([XX, YY]) == {XX, YY}
  {
    assert [XX, YY][0] == XX && [XX, YY][1] == YY;
  }
}

=== FILE: results.dfy ===
/** Failure-compatible results used wherever the original code throws.
    A `Throw` carries the gist of the exception message. */
module Results {

  datatype Result<+T> = Ok(value: T) | Throw(message: string) {

    predicate IsFailure() {
      Throw?
    }

    function PropagateFailure<U>(): Result<U>
      requires Throw?
    {
      Throw(message)
    }

    function Extract(): T
      requires Ok?
    {
      value
    }
  }

  datatype Option<+T> = None | Some(value: T)
}

=== FILE: rmstable.dfy ===
/** The table of RMS values per field and baseline that the compressing
    storage manager keeps: a cube indexed [field][antenna2][antenna1]. The
    float values are modelled as reals; only their storage matters here. */
module RmsTable {

  type Cube = seq<seq<seq<real>>>

  datatype Table = Table(antennaCount: nat, fieldCount: nat, cells: Cube)

  /** fieldCount planes of antennaCount x antennaCount values. */
  predicate Valid(t: Table) {
    |t.cells| == t.fieldCount &&
    forall f :: 0 <= f < t.fieldCount ==>
      |t.cells[f]| == t.antennaCount &&
      forall a :: 0 <= a < t.antennaCount ==> |t.cells[f][a]| == t.antennaCount
  }

  /** `IsInTable`: all three indices are in range. */
  predicate IsInTable(t: Table, antenna1: nat, antenna2: nat, fieldId: nat) {
    fieldId < t.fieldCount && antenna1 < t.antennaCount && antenna2 < t.antennaCount
  }

  /** `Value`: the entry of a baseline in a field, stored with the second
      antenna before the first. */
  function Value(t: Table, antenna1: nat, antenna2: nat, fieldId: nat): real
    requires Valid(t) && IsInTable(t, antenna1, antenna2, fieldId)
  {
    t.cells[fieldId][antenna2][antenna1]
  }

  /** Assigning through `Value`: that entry takes x and every other entry
      keeps its value. */
  function SetValue(t: Table, antenna1: nat, antenna2: nat, fieldId: nat, x: real): (r: Table)
    requires Valid(t) && IsInTable(t, antenna1, antenna2, fieldId)
    ensures Valid(r) && r.antennaCount == t.antennaCount && r.fieldCount == t.fieldCount
    ensures Value(r, antenna1, antenna2, fieldId) == x
    ensures forall b1: nat, b2: nat, g: nat :: IsInTable(t, b1, b2, g) && (b1, b2, g) != (antenna1, antenna2, fieldId) ==>
      Value(r, b1, b2, g) == Value(t, b1, b2, g)
  {
    var plane := t.cells[fieldId];
    var row := plane[antenna2];
    t.(cells := t.cells[fieldId := plane[antenna2 := row[antenna1 := x]]])
  }

  /** `SetAll`: every entry takes rms; the shape is kept. */
  method SetAll(t: Table, rms: real) returns (r: Table)
    requires Valid(t)
    ensures Valid(r) && r.antennaCount == t.antennaCount && r.fieldCount == t.fieldCount
    ensures forall a1: nat, a2: nat, f: nat :: IsInTable(r, a1, a2, f) ==> Value(r, a1, a2, f) == rms
  {
    var n := t.antennaCount;
    var cells := t.cells;
    for f := 0 to t.fieldCount
      invariant |cells| == t.fieldCount
      invariant forall g :: 0 <= g < t.fieldCount ==>
        |cells[g]| == n && forall a :: 0 <= a < n ==> |cells[g][a]| == n
      invariant forall g, a, b :: 0 <= g < f && 0 <= a < n && 0 <= b < n ==> cells[g][a][b] == rms
    {
      var plane := cells[f];
      for a1 := 0 to n
        invariant |plane| == n
        invariant forall a :: 0 <= a < n ==> |plane[a]| == n
        invariant forall a, b :: 0 <= a < a1 && 0 <= b < n ==> plane[a][b] == rms
      {
        plane := plane[a1 := seq(n, _ => rms)];
      }
      cells := cells[f := plane];
    }
    r := Table(n, t.fieldCount, cells);
  }

  /** The constructor: a table of the given size with every entry set to
      the initial value. */
  method Create(antennaCount: nat, fieldCount: nat, initialValue: real) returns (r: Table)
    ensures Valid(r) && r.antennaCount == antennaCount && r.fieldCount == fieldCount
    ensures forall a1: nat, a2: nat, f: nat :: IsInTable(r, a1, a2, f) ==> Value(r, a1, a2, f) == initialValue
  {
    var blank := seq(fieldCount, _ => seq(antennaCount, _ => seq(antennaCount, _ => 0.0)));
    r := SetAll(Table(antennaCount, fieldCount, blank), initialValue);
  }

  /** `Empty`: no antenna or no field. */
  predicate Empty(t: Table) {
    t.antennaCount == 0 || t.fieldCount == 0
  }

  /** `SizeInBytes`: four bytes per entry of the cube, so a table stores
      no byte exactly when it is empty. */
  function SizeInBytes(t: Table): (n: nat)
    ensures n % 4 == 0
    ensures n == 0 <==> Empty(t)
  {
    CubeEmpty(t.antennaCount, t.fieldCount);
    t.antennaCount * t.antennaCount * t.fieldCount * 4
  }

  lemma CubeEmpty(antennaCount: nat, fieldCount: nat)
    ensures antennaCount * antennaCount * fieldCount == 0 <==> antennaCount == 0 || fieldCount == 0
  {
    if antennaCount > 0 && fieldCount > 0 {
      MulPositive(antennaCount, antennaCount);
      MulPositive(antennaCount * antennaCount, fieldCount);
    }
  }

  lemma MulPositive(x: nat, y: nat)
    requires x > 0 && y > 0
    ensures x * y > 0
  {
  }

  /** The copy constructor and assignment: a table of the source's size
      with `copyValuesFrom` copying every entry. The copy equals the
      source. */
  method Copy(source: Table) returns (r: Table)
    requires Valid(source)
    ensures Valid(r) && r.antennaCount == source.antennaCount && r.fieldCount == source.fieldCount
    ensures forall a1: nat, a2: nat, f: nat :: IsInTable(r, a1, a2, f) ==> Value(r, a1, a2, f) == Value(source, a1, a2, f)
    ensures r == source
  {
    var n := source.antennaCount;
    var cells := seq(source.fieldCount, _ => seq(n, _ => seq(n, _ => 0.0)));
    for f := 0 to source.fieldCount
      invariant |cells| == source.fieldCount
      invariant forall g :: 0 <= g < source.fieldCount ==>
        |cells[g]| == n && forall a :: 0 <= a < n ==> |cells[g][a]| == n
      invariant forall g :: 0 <= g < f ==> cells[g] == source.cells[g]
    {
      var plane := cells[f];
      for a1 := 0 to n
        invariant |plane| == n
        invariant forall a :: 0 <= a < n ==> |plane[a]| == n
        invariant forall a :: 0 <= a < a1 ==> plane[a] == source.cells[f][a]
      {
        var row := plane[a1];
        for a2 := 0 to n
          invariant |row| == n
          invariant forall b :: 0 <= b < a2 ==> row[b] == source.cells[f][a1][b]
        {
          row := row[a2 := source.cells[f][a1][a2]];
        }
        assert row == source.cells[f][a1];
        plane := plane[a1 := row];
      }
      assert plane == source.cells[f];
      cells := cells[f := plane];
    }
    assert cells == source.cells;
    r := Table(n, source.fieldCount, cells);
  }
}

=== FILE: solutionfile.dfy ===
/** The calibration solution file: a 32-byte header, two 8-byte times,
    then one complex value per (interval, antenna, channel, polarization),
    stored interval-major with the polarization running fastest. The
    in-memory variant keeps the values in a vector read back in order.
    Complex values are modelled as pairs of reals. */
module SolutionFile {

  import opened Text

  datatype Complex = Complex(re: real, im: real)

  /** The header fields; intro holds eight bytes. */
  datatype Header = Header(
    intro: string,
    fileType: nat,
    structureType: nat,
    intervalCount: nat,
    antennaCount: nat,
    channelCount: nat,
    polarizationCount: nat)

  /** The bytes of the header struct: eight intro bytes and six 32-bit
      integers. */
  const HeaderBytes: nat := 8 + 6 * 4

  /** The two 8-byte times that follow the header. */
  const TimesBytes: nat := 2 * 8

  /** The bytes of one complex double. */
  const SolutionBytes: nat := 16

  /** The constructor sets the intro, the file and structure types and a
      single interval; the other counts are left as they were (C leaves
      them indeterminate), so they come in as parameters. */
  function NewHeader(antennaCount: nat, channelCount: nat, polarizationCount: nat): (h: Header)
    ensures h.intro == "MWAOCAL" + ['\0'] && |h.intro| == 8
    ensures h.fileType == 0 && h.structureType == 0 && h.intervalCount == 1
    ensures h.antennaCount == antennaCount && h.channelCount == channelCount &&
            h.polarizationCount == polarizationCount
  {
    Header("MWAOCAL" + ['\0'], 0, 0, 1, antennaCount, channelCount, polarizationCount)
  }

  /** The number of solutions the header describes. */
  function SolutionCount(h: Header): nat {
    h.intervalCount * h.antennaCount * h.channelCount * h.polarizationCount
  }

  /** A (interval, antenna, channel, polarization) tuple inside the
      header's counts. */
  predicate InRange(h: Header, interval: nat, antenna: nat, channel: nat, polarization: nat) {
    interval < h.intervalCount && antenna < h.antennaCount &&
    channel < h.channelCount && polarization < h.polarizationCount
  }

  /** `WriteSolution`'s index. */
  function SolutionIndex(h: Header, interval: nat, antenna: nat, channel: nat, polarization: nat): nat {
    ((interval * h.antennaCount + antenna) * h.channelCount + channel) * h.polarizationCount + polarization
  }

  /** The tuple stored at an index: the mixed-radix digits of the index. */
  function Decompose(h: Header, index: nat): (nat, nat, nat, nat)
    requires h.antennaCount > 0 && h.channelCount > 0 && h.polarizationCount > 0
  {
    var q1 := index / h.polarizationCount;
    var q2 := q1 / h.channelCount;
    (q2 / h.antennaCount, q2 % h.antennaCount, q1 % h.channelCount, index % h.polarizationCount)
  }

  /** One mixed-radix step keeps an index inside its range. */
  lemma DigitStep(q: nat, x: nat, count: nat, m: nat)
    requires q < count && x < m
    ensures q * m + x < count * m
  {
    MulLe(q + 1, count, m);
  }

  /** Every in-range tuple has its own index below the solution count, and
      the index gives the tuple back: the layout is a bijection between the
      tuples and 0 .. count - 1. */
  lemma {:induction false} IndexRoundTrip(h: Header, interval: nat, antenna: nat, channel: nat, polarization: nat)
    requires InRange(h, interval, antenna, channel, polarization)
    ensures SolutionIndex(h, interval, antenna, channel, polarization) < SolutionCount(h)
    ensures Decompose(h, SolutionIndex(h, interval, antenna, channel, polarization)) ==
      (interval, antenna, channel, polarization)
  {
    var i1 := interval * h.antennaCount + antenna;
    var i2 := i1 * h.channelCount + channel;
    var i3 := i2 * h.polarizationCount + polarization;
    DigitStep(interval, antenna, h.intervalCount, h.antennaCount);
    DigitStep(i1, channel, h.intervalCount * h.antennaCount, h.channelCount);
    DigitStep(i2, polarization, h.intervalCount * h.antennaCount * h.channelCount, h.polarizationCount);
    DivModUnique(i2, polarization, h.polarizationCount);
    DivModUnique(i1, channel, h.channelCount);
    DivModUnique(interval, antenna, h.antennaCount);
  }

  lemma IndexBelowCount(h: Header, interval: nat, antenna: nat, channel: nat, polarization: nat, n: nat)
    requires InRange(h, interval, antenna, channel, polarization) && n == SolutionCount(h)
    ensures SolutionIndex(h, interval, antenna, channel, polarization) < n
  {
    IndexRoundTrip(h, interval, antenna, channel, polarization);
  }

  /** Distinct tuples are written to distinct places. */
  lemma IndexInjective(h: Header, t1: (nat, nat, nat, nat), t2: (nat, nat, nat, nat))
    requires InRange(h, t1.0, t1.1, t1.2, t1.3) && InRange(h, t2.0, t2.1, t2.2, t2.3)
    requires SolutionIndex(h, t1.0, t1.1, t1.2, t1.3) == SolutionIndex(h, t2.0, t2.1, t2.2, t2.3)
    ensures t1 == t2
  {
    IndexRoundTrip(h, t1.0, t1.1, t1.2, t1.3);
    IndexRoundTrip(h, t2.0, t2.1, t2.2, t2.3);
  }

  /** The byte offset in the file at which a solution is written: past the
      header and the two times, 16 bytes per earlier index. */
  function FilePosition(h: Header, interval: nat, antenna: nat, channel: nat, polarization: nat): (pos: nat)
    ensures pos >= HeaderBytes + TimesBytes
    ensures (pos - HeaderBytes - TimesBytes) % SolutionBytes == 0
    ensures (pos - HeaderBytes - TimesBytes) / SolutionBytes == SolutionIndex(h, interval, antenna, channel, polarization)
  {
    var index := SolutionIndex(h, interval, antenna, channel, polarization);
    DivModUnique(index, 0, SolutionBytes);
    HeaderBytes + TimesBytes + SolutionBytes * index
  }

  // ------------------------------------------------------------ in memory

  /** The in-memory state: the solution vector and the read pointer. */
  datatype Memory = Memory(data: seq<Complex>, readPointer: nat)

  /** `std::vector::resize`: existing values are kept, new ones are zero. */
  function Resize(data: seq<Complex>, n: nat): (r: seq<Complex>)
    ensures |r| == n
    ensures forall i :: 0 <= i < n ==> r[i] == (if i < |data| then data[i] else Complex(0.0, 0.0))
  {
    if n <= |data| then data[..n] else data + seq(n - |data|, _ => Complex(0.0, 0.0))
  }

  /** `OpenInMemory`: room for every solution, reading from the first. */
  function OpenInMemory(h: Header, data: seq<Complex>): (m: Memory)
    ensures |m.data| == SolutionCount(h) && m.readPointer == 0
  {
    Memory(Resize(data, SolutionCount(h)), 0)
  }

  /** `WriteSolution` into memory: the value lands at its index and
      nothing else changes. */
  function WriteSolution(h: Header, m: Memory, val: Complex, interval: nat, antenna: nat, channel: nat, polarization: nat): (r: Memory)
    requires |m.data| == SolutionCount(h) && InRange(h, interval, antenna, channel, polarization)
    ensures |r.data| == |m.data| && r.readPointer == m.readPointer
    ensures SolutionIndex(h, interval, antenna, channel, polarization) < |r.data| &&
            r.data[SolutionIndex(h, interval, antenna, channel, polarization)] == val
    ensures forall i :: 0 <= i < |m.data| && i != SolutionIndex(h, interval, antenna, channel, polarization) ==>
      r.data[i] == m.data[i]
  {
    var index := SolutionIndex(h, interval, antenna, channel, polarization);
    IndexBelowCount(h, interval, antenna, channel, polarization, |m.data|);
    m.(data := m.data[index := val])
  }

  /** `ReadNextSolution` from memory: the value under the pointer, which
      then moves on. */
  function ReadNextSolution(m: Memory): (r: (Complex, Memory))
    requires m.readPointer < |m.data|
    ensures r.1.data == m.data && r.1.readPointer == m.readPointer + 1
  {
    (m.data[m.readPointer], m.(readPointer := m.readPointer + 1))
  }

  /** k successive reads. */
  function ReadMany(m: Memory, k: nat): (r: seq<Complex>)
    requires m.readPointer + k <= |m.data|
    ensures |r| == k
    decreases k
  {
    if k == 0 then [] else
      var (v, next) := ReadNextSolution(m);
      [v] + ReadMany(next, k - 1)
  }

  /** Successive reads return the stored solutions in index order. */
  lemma {:induction false} ReadsInIndexOrder(m: Memory, k: nat)
    requires m.readPointer + k <= |m.data|
    ensures ReadMany(m, k) == m.data[m.readPointer..m.readPointer + k]
    decreases k
  {
    if k > 0 {
      ReadsInIndexOrder(ReadNextSolution(m).1, k - 1);
    }
  }

  /** Reading back a freshly opened buffer: the n-th read returns the value
      written at the tuple whose index is n. */
  lemma ReadBackWritten(h: Header, m: Memory, val: Complex, interval: nat, antenna: nat, channel: nat, polarization: nat)
    requires |m.data| == SolutionCount(h) && m.readPointer == 0
    requires InRange(h, interval, antenna, channel, polarization)
    ensures SolutionIndex(h, interval, antenna, channel, polarization) < SolutionCount(h)
    ensures ReadMany(WriteSolution(h, m, val, interval, antenna, channel, polarization), SolutionCount(h))
      [SolutionIndex(h, interval, antenna, channel, polarization)] == val
  {
    var w := WriteSolution(h, m, val, interval, antenna, channel, polarization);
    var n := SolutionCount(h);
    var index := SolutionIndex(h, interval, antenna, channel, polarization);
    IndexBelowCount(h, interval, antenna, channel, polarization, n);
    ReadsInIndexOrder(w, n);
    assert w.data[0..n] == w.data;
  }
}

=== FILE: text.dfy ===
/** Character and number helpers shared by the parsers: ASCII digits,
    ASCII upper-casing and the C library's `atoi`. */
module Text {

  import opened Results

  predicate IsDigit(c: char) {
    '0' <= c <= '9'
  }

  /** The value `c - '0'` that C code computes for a character. */
  function DigitValue(c: char): (v: int)
    ensures IsDigit(c) ==> 0 <= v <= 9
  {
    c as int - '0' as int
  }

  /** The character `'0' + d` for a single decimal digit d. */
  function DigitChar(d: nat): (c: char)
    requires d < 10
    ensures IsDigit(c) && DigitValue(c) == d
  {
    ('0' as int + d) as char
  }

  /** The character a C `(char)` cast of an int stores: its low eight
      bits. */
  function CharOf(v: int): (c: char)
    ensures 0 <= c as int < 256
    ensures 0 <= v < 256 ==> c as int == v
  {
    (v % 256) as char
  }

  /** C's integer division, which truncates toward zero. */
  function CDiv(a: int, b: nat): (q: int)
    requires b > 0
    ensures a >= 0 ==> q == a / b
  {
    if a >= 0 then a / b else 0 - (0 - a) / b
  }

  /** C's `%`, whose result takes the sign of the dividend. */
  function CMod(a: int, b: nat): (r: int)
    requires b > 0
    ensures a == CDiv(a, b) * b + r
    ensures a >= 0 ==> r == a % b
  {
    a - CDiv(a, b) * b
  }

  /** `(char)('0' + v)`: the digit character of v when v is a digit. */
  function DigitOf(v: int): (c: char)
    ensures 0 <= v < 10 ==> c == DigitChar(v)
  {
    CharOf('0' as int + v)
  }

  /** Multiplication by a positive number can be cancelled in `<`. */
  lemma MulCancel(x: int, y: int, p: int)
    requires p > 0 && x * p < y * p
    ensures x < y
  {
  }

  /** Multiplying both sides of `<=` by a natural number keeps it. */
  lemma MulLe(x: int, y: int, p: nat)
    requires x <= y
    ensures x * p <= y * p
  {
  }

  /** Division by m undoes q * m + x for a remainder x below m. */
  lemma DivModUnique(q: nat, x: nat, m: nat)
    requires x < m
    ensures (q * m + x) / m == q && (q * m + x) % m == x
  {
    var n := q * m + x;
    MulCancel(n / m, q + 1, m);
    MulCancel(q, n / m + 1, m);
  }

  /** ASCII `toupper`: only 'a'..'z' change. */
  function Upper(c: char): (u: char)
    ensures 'a' <= c <= 'z' ==> 'A' <= u <= 'Z' && u as int + 32 == c as int
    ensures !('a' <= c <= 'z') ==> u == c
  {
    if 'a' <= c <= 'z' then (c as int - 32) as char else c
  }

  function UpperString(s: string): (u: string)
    ensures |u| == |s|
    ensures forall i :: 0 <= i < |s| ==> u[i] == Upper(s[i])
  {
    if |s| == 0 then [] else [Upper(s[0])] + UpperString(s[1..])
  }

  predicate EndsWith(s: string, suffix: string) {
    |suffix| <= |s| && s[|s| - |suffix|..] == suffix
  }

  /** Characters that C's `isspace` accepts in the "C" locale. */
  predicate IsSpace(c: char) {
    c == ' ' || c == '\t' || c == '\n' || c == '\r' || c == '\U{B}' || c == '\U{C}'
  }

  function SkipSpaces(s: string): (t: string)
    ensures |t| <= |s| && t == s[|s| - |t|..]
    ensures |t| > 0 ==> !IsSpace(t[0])
  {
    if |s| > 0 && IsSpace(s[0]) then SkipSpaces(s[1..]) else s
  }

  /** The longest prefix of s made of digits. */
  function LeadingDigits(s: string): (d: string)
    ensures |d| <= |s| && d == s[..|d|]
    ensures forall i :: 0 <= i < |d| ==> IsDigit(d[i])
    ensures |d| < |s| ==> !IsDigit(s[|d|])
  {
    if |s| > 0 && IsDigit(s[0]) then [s[0]] + LeadingDigits(s[1..]) else []
  }

  /** The decimal value of a string of digits, most significant first. */
  function DigitsValue(d: string): (v: nat)
    requires forall i :: 0 <= i < |d| ==> IsDigit(d[i])
  {
    if |d| == 0 then 0 else DigitsValue(d[..|d| - 1]) * 10 + DigitValue(d[|d| - 1])
  }

  /** C's `atoi`: leading white space, an optional sign, then as many
      digits as follow; no digits gives 0. The int range is not modelled. */
  function Atoi(s: string): int {
    SignedValue(SkipSpaces(s))
  }

  /** The optional sign and the digits after it, as `atoi` reads them once
      the white space is skipped. */
  function SignedValue(t: string): int {
    if |t| > 0 && t[0] == '-' then 0 - DigitsValue(LeadingDigits(t[1..]))
    else if |t| > 0 && t[0] == '+' then DigitsValue(LeadingDigits(t[1..]))
    else DigitsValue(LeadingDigits(t))
  }

  /** The value of the digits after a decimal point: d / 10^|d|. */
  function FractionValue(d: string): (v: real)
    requires forall i :: 0 <= i < |d| ==> IsDigit(d[i])
    ensures 0.0 <= v
  {
    DigitsValue(d) as real / Pow10(|d|) as real
  }

  /** C's `atof` on plain decimal notation: leading white space, an
      optional sign, the integer digits, then an optional '.' and the
      fraction digits; no digits gives 0. */
  function Atof(s: string): real {
    SignedDecimal(SkipSpaces(s))
  }

  function SignedDecimal(t: string): real {
    if |t| > 0 && t[0] == '-' then 0.0 - UnsignedDecimal(t[1..])
    else if |t| > 0 && t[0] == '+' then UnsignedDecimal(t[1..])
    else UnsignedDecimal(t)
  }

  /** Integer digits, then the fraction digits after an optional '.'. */
  function UnsignedDecimal(t: string): (v: real)
    ensures 0.0 <= v
  {
    var whole := LeadingDigits(t);
    var rest := t[|whole|..];
    if |rest| > 0 && rest[0] == '.' then
      DigitsValue(whole) as real + FractionValue(LeadingDigits(rest[1..]))
    else
      DigitsValue(whole) as real
  }

  /** A string that starts with a digit is read by `atof` without sign
      or white space. */
  lemma AtofFromDigit(t: string)
    requires |t| > 0 && IsDigit(t[0])
    ensures Atof(t) == UnsignedDecimal(t)
  {
    assert !IsSpace(t[0]);
    assert SkipSpaces(t) == t;
  }

  /** Digits, a point and digits read as whole part plus fraction. */
  lemma AtofOfDecimal(whole: string, fraction: string)
    requires |whole| > 0
    requires forall i :: 0 <= i < |whole| ==> IsDigit(whole[i])
    requires forall i :: 0 <= i < |fraction| ==> IsDigit(fraction[i])
    ensures Atof(whole + ['.'] + fraction) == DigitsValue(whole) as real + FractionValue(fraction)
  {
    var rest := ['.'] + fraction;
    var t := whole + rest;
    assert whole + ['.'] + fraction == t;
    AtofFromDigit(t);
    LeadingDigitsAppend(whole, rest);
    LeadingDigitsOfDigits(whole);
    LeadingDigitsOfDigits(fraction);
    assert t[|whole|..] == rest;
    assert rest[1..] == fraction;
  }

  /** Digits alone read as their value. */
  lemma AtofOfWhole(whole: string)
    requires |whole| > 0
    requires forall i :: 0 <= i < |whole| ==> IsDigit(whole[i])
    ensures Atof(whole) == DigitsValue(whole) as real
  {
    AtofFromDigit(whole);
    LeadingDigitsOfDigits(whole);
    assert whole[|whole|..] == [];
  }

  /** On a string of digits `atof` and `atoi` agree. */
  lemma AtofOfDigits(d: string)
    requires forall i :: 0 <= i < |d| ==> IsDigit(d[i])
    ensures Atof(d) == Atoi(d) as real
  {
    AtoiOfDigits(d);
    if |d| > 0 {
      AtofOfWhole(d);
    }
  }

  /** On a string of digits only, `atoi` is the decimal value of all of it. */
  lemma AtoiOfDigits(d: string)
    requires forall i :: 0 <= i < |d| ==> IsDigit(d[i])
    ensures Atoi(d) == DigitsValue(d)
  {
    if |d| == 0 {
      assert SkipSpaces(d) == d;
    } else {
      var c := d[0];
      assert IsDigit(c);
      assert !IsSpace(c) && c != '-' && c != '+';
      assert SkipSpaces(d) == d;
      LeadingDigitsOfDigits(d);
    }
  }

  /** `atoi` skips a leading white-space character. */
  lemma AtoiLeadingSpace(s: string)
    requires |s| > 0 && IsSpace(s[0])
    ensures Atoi(s) == Atoi(s[1..])
  {
  }

  /** A minus sign before digits negates their value, and a plus sign
      leaves it. */
  lemma AtoiSigned(d: string)
    requires forall i :: 0 <= i < |d| ==> IsDigit(d[i])
    ensures Atoi(['-'] + d) == 0 - Atoi(d)
    ensures Atoi(['+'] + d) == Atoi(d)
  {
    AtoiOfDigits(d);
    LeadingDigitsOfDigits(d);
    assert (['-'] + d)[1..] == d && (['+'] + d)[1..] == d;
    assert SkipSpaces(['-'] + d) == ['-'] + d;
    assert SkipSpaces(['+'] + d) == ['+'] + d;
  }

  /** Something other than white space, a sign or a digit first reads as
      zero. */
  lemma AtoiNoNumber(s: string)
    requires |s| > 0 && !IsSpace(s[0]) && !IsDigit(s[0]) && s[0] != '-' && s[0] != '+'
    ensures Atoi(s) == 0
  {
    assert SkipSpaces(s) == s;
  }

  lemma {:induction false} LeadingDigitsOfDigits(d: string)
    requires forall i :: 0 <= i < |d| ==> IsDigit(d[i])
    ensures LeadingDigits(d) == d
  {
    if |d| > 0 {
      LeadingDigitsOfDigits(d[1..]);
      assert [d[0]] + d[1..] == d;
    }
  }

  lemma DigitsValueAppend(d: string, c: char)
    requires forall i :: 0 <= i < |d| ==> IsDigit(d[i])
    requires IsDigit(c)
    ensures DigitsValue(d + [c]) == DigitsValue(d) * 10 + DigitValue(c)
  {
    assert (d + [c])[..|d|] == d;
  }

  /** Two digits read as a two-character decimal number. */
  lemma AtoiOfTwoDigits(a: char, b: char)
    requires IsDigit(a) && IsDigit(b)
    ensures Atoi([a, b]) == DigitValue(a) * 10 + DigitValue(b)
  {
    AtoiOfDigits([a, b]);
    DigitsValueTwo(a, b);
  }

  lemma DigitsValueTwo(a: char, b: char)
    requires IsDigit(a) && IsDigit(b)
    ensures DigitsValue([a, b]) == DigitValue(a) * 10 + DigitValue(b)
  {
    DigitsValueStep([a], b);
    assert [a] + [b] == [a, b];
  }

  lemma AtoiOfFourDigits(a: char, b: char, c: char, d: char)
    requires IsDigit(a) && IsDigit(b) && IsDigit(c) && IsDigit(d)
    ensures Atoi([a, b, c, d]) == ((DigitValue(a) * 10 + DigitValue(b)) * 10 + DigitValue(c)) * 10 + DigitValue(d)
  {
    AtoiOfDigits([a, b, c, d]);
    DigitsValueFour(a, b, c, d);
  }

  lemma DigitsValueFour(a: char, b: char, c: char, d: char)
    requires IsDigit(a) && IsDigit(b) && IsDigit(c) && IsDigit(d)
    ensures DigitsValue([a, b, c, d]) == ((DigitValue(a) * 10 + DigitValue(b)) * 10 + DigitValue(c)) * 10 + DigitValue(d)
  {
    DigitsValueTwo(a, b);
    DigitsValueStep([a, b], c);
    assert [a, b] + [c] == [a, b, c];
    DigitsValueStep([a, b, c], d);
    assert [a, b, c] + [d] == [a, b, c, d];
  }

  /** One more digit on a literal string of digits, with the one-digit
      string as the base case. */
  lemma DigitsValueStep(d: seq<char>, c: char)
    requires |d| > 0 && (forall i :: 0 <= i < |d| ==> IsDigit(d[i])) && IsDigit(c)
    ensures DigitsValue(d + [c]) == DigitsValue(d) * 10 + DigitValue(c)
    ensures |d| == 1 ==> DigitsValue(d) == DigitValue(d[0])
  {
    DigitsValueAppend(d, c);
    if |d| == 1 {
      assert d[..0] == [];
    }
  }

  /** The decimal digits of n, most significant first, without leading zeros. */
  function Decimal(n: nat): (d: string)
    ensures 0 < |d|
    ensures forall i :: 0 <= i < |d| ==> IsDigit(d[i])
    ensures DigitsValue(d) == n
  {
    if n < 10 then
      DigitsValueAppend([], DigitChar(n));
      assert [] + [DigitChar(n)] == [DigitChar(n)];
      [DigitChar(n)]
    else
      var d := Decimal(n / 10);
      DigitsValueAppend(d, DigitChar(n % 10));
      d + [DigitChar(n % 10)]
  }

  /** n written with exactly `width` digits, padded with leading zeros. */
  function Padded(n: nat, width: nat): (d: string)
    requires n < Pow10(width)
    ensures |d| == width
    ensures forall i :: 0 <= i < |d| ==> IsDigit(d[i])
    ensures DigitsValue(d) == n
  {
    if width == 0 then []
    else
      var d := Padded(n / 10, width - 1);
      DigitsValueAppend(d, DigitChar(n % 10));
      d + [DigitChar(n % 10)]
  }

  function Pow10(k: nat): (p: nat)
    ensures p >= 1
  {
    if k == 0 then 1 else 10 * Pow10(k - 1)
  }

  lemma {:induction false} SkipSpacesAppend(a: string, x: string)
    requires |x| > 0 && !IsSpace(x[0])
    ensures SkipSpaces(a + x) == SkipSpaces(a) + x
  {
    if |a| == 0 {
      assert a + x == x;
    } else {
      assert (a + x)[0] == a[0];
      if IsSpace(a[0]) {
        assert (a + x)[1..] == a[1..] + x;
        SkipSpacesAppend(a[1..], x);
      }
    }
  }

  lemma {:induction false} LeadingDigitsAppend(a: string, x: string)
    requires |x| > 0 && !IsDigit(x[0])
    ensures LeadingDigits(a + x) == LeadingDigits(a)
  {
    if |a| == 0 {
      assert a + x == x;
    } else {
      assert (a + x)[0] == a[0];
      if IsDigit(a[0]) {
        assert (a + x)[1..] == a[1..] + x;
        LeadingDigitsAppend(a[1..], x);
      }
    }
  }

  /** `atoi` stops at a comma: what follows it does not matter. */
  lemma AtoiBeforeComma(a: string, b: string)
    ensures Atoi(a + [','] + b) == Atoi(a)
  {
    var x := [','] + b;
    assert a + [','] + b == a + x;
    SkipSpacesAppend(a, x);
    SignedValueAppend(SkipSpaces(a), x);
  }

  lemma SignedValueAppend(t: string, x: string)
    requires |x| > 0 && !IsDigit(x[0]) && x[0] != '-' && x[0] != '+'
    ensures SignedValue(t + x) == SignedValue(t)
  {
    var u := t + x;
    if |t| > 0 {
      assert u[0] == t[0];
      assert u[1..] == t[1..] + x;
      LeadingDigitsAppend(t[1..], x);
      LeadingDigitsAppend(t, x);
    } else {
      assert u == x;
    }
  }

  predicate OccursAt(s: string, t: string, p: int) {
    0 <= p && p + |t| <= |s| && s[p..p + |t|] == t
  }

  /** `std::string::find` for a single character: the first position at
      or after `from` that holds c, or None (`npos`). */
  function FindChar(s: string, c: char, from: nat): (r: Option<nat>)
    ensures r.Some? ==> from <= r.value < |s| && s[r.value] == c
    ensures r.Some? ==> forall i :: from <= i < r.value ==> s[i] != c
    ensures r.None? ==> forall i :: from <= i < |s| ==> s[i] != c
    decreases |s| - from
  {
    if from >= |s| then None
    else if s[from] == c then Some(from)
    else FindChar(s, c, from + 1)
  }

  lemma OccursAtChar(s: string, c: char, p: int)
    ensures OccursAt(s, [c], p) <==> 0 <= p < |s| && s[p] == c
  {
    if 0 <= p < |s| {
      assert s[p..p + 1] == [s[p]];
    }
  }

  /** `std::string::find`: the first position at or after `from` where t
      occurs in s, or None (`npos`). */
  function FindFrom(s: string, t: string, from: nat): (r: Option<nat>)
    ensures r.Some? ==> from <= r.value && OccursAt(s, t, r.value)
    ensures r.Some? ==> forall q :: from <= q < r.value ==> !OccursAt(s, t, q)
    ensures r.None? ==> forall q :: from <= q ==> !OccursAt(s, t, q)
    decreases |s| - from
  {
    if from + |t| > |s| then None
    else if s[from..from + |t|] == t then Some(from)
    else FindFrom(s, t, from + 1)
  }

  function Find(s: string, t: string): (r: Option<nat>)
    ensures r.Some? ==> OccursAt(s, t, r.value) && forall q :: 0 <= q < r.value ==> !OccursAt(s, t, q)
    ensures r.None? ==> forall q :: !OccursAt(s, t, q)
  {
    FindFrom(s, t, 0)
  }
}

=== FILE: tickset.dfy ===
/** The integer side of the plot axes' tick sets: the label ticks of a
    text axis, the size caps of the numeric and time axes, and
    `DecreaseTicks`. Where numeric and time positions come from (nice
    rounding of floating-point widths) is not modelled: those sets take
    their candidate positions as given. */
module TickSet {

  import Text

  // --------------------------------------------------------------- text

  /** A text axis: how many labels, the size asked for at construction,
      and the label indices that carry a tick. */
  datatype TextTicks = TextTicks(labelCount: nat, sizeRequest: nat, ticks: seq<nat>)

  /** The request after clamping to the number of labels. */
  function Clamped(labelCount: nat, sizeRequest: nat): nat {
    if sizeRequest > labelCount then labelCount else sizeRequest
  }

  /** ceil(a / b) for b > 0, as `ceil` of the double quotient gives for
      these sizes. */
  function CeilDiv(a: nat, b: nat): (q: nat)
    requires b > 0
    ensures q * b >= a && (q == 0 || (q - 1) * b < a)
  {
    var q := (a + b - 1) / b;
    assert (a + b - 1) == q * b + (a + b - 1) % b;
    q
  }

  /** The step between ticks of a text axis. */
  function TextStep(labelCount: nat, sizeRequest: nat): (step: nat)
    requires labelCount > 0 && sizeRequest > 0
    ensures step >= 1
  {
    CeilDiv(labelCount, Clamped(labelCount, sizeRequest))
  }

  /** The ticks so far are 0, step, 2 * step, ..., all below the label
      count. */
  predicate Stepped(ticks: seq<nat>, step: nat, labelCount: nat) {
    forall i :: 0 <= i < |ticks| ==> ticks[i] == i * step && ticks[i] < labelCount
  }

  /** The ticks are 0, step, 2 * step, ... while below the label count. */
  predicate EveryStep(ticks: seq<nat>, step: nat, labelCount: nat) {
    Stepped(ticks, step, labelCount) && |ticks| * step >= labelCount
  }

  /** Appending the next multiple of the step, while it is below the label
      count, keeps the ticks stepped. */
  lemma StepAppended(ticks: seq<nat>, step: nat, labelCount: nat)
    requires Stepped(ticks, step, labelCount) && |ticks| * step < labelCount
    ensures Stepped(ticks + [|ticks| * step], step, labelCount)
    ensures |ticks + [|ticks| * step]| * step == |ticks| * step + step
  {
    var next := ticks + [|ticks| * step];
    assert (|ticks| + 1) * step == |ticks| * step + step;
    forall i | 0 <= i < |next|
      ensures next[i] == i * step && next[i] < labelCount
    {
      if i < |ticks| {
        assert next[i] == ticks[i];
      }
    }
  }

  /** `TextTickSet::set`: the request is clamped to the labels, the step
      is ceil(labels / request), and a tick goes on every step-th label.
      With labels present a request of zero divides by zero in the
      original, so it is excluded here. */
  method TextSet(labelCount: nat, sizeRequest: nat) returns (ticks: seq<nat>)
    requires labelCount == 0 || sizeRequest > 0
    ensures labelCount == 0 ==> ticks == []
    ensures labelCount > 0 ==> EveryStep(ticks, TextStep(labelCount, sizeRequest), labelCount)
    ensures |ticks| <= Clamped(labelCount, sizeRequest)
    ensures labelCount > 0 ==> |ticks| >= 1
  {
    if labelCount == 0 {
      return [];
    }
    var request := Clamped(labelCount, sizeRequest);
    var step := TextStep(labelCount, sizeRequest);
    ticks := [];
    var tick := 0;
    while tick < labelCount
      invariant tick == |ticks| * step
      invariant Stepped(ticks, step, labelCount)
      invariant |ticks| <= request
      decreases labelCount - tick
    {
      TicksBelowRequest(labelCount, request, step, |ticks|);
      StepAppended(ticks, step, labelCount);
      ticks := ticks + [tick];
      tick := tick + step;
    }
  }

  /** One more tick still fits the request: since request * step covers
      every label, a tick below the label count has index below the
      request. */
  lemma TicksBelowRequest(labelCount: nat, request: nat, step: nat, k: nat)
    requires request > 0 && step == CeilDiv(labelCount, request) && k * step < labelCount
    ensures k + 1 <= request
  {
    Text.MulCancel(k, request, step);
  }

  /** `Set` on a text axis. */
  method SetText(t: TextTicks, maxSize: nat) returns (r: TextTicks)
    requires t.labelCount == 0 || maxSize > 0
    ensures r.labelCount == t.labelCount && r.sizeRequest == t.sizeRequest
    ensures |r.ticks| <= maxSize
    ensures t.labelCount > 0 ==> EveryStep(r.ticks, TextStep(t.labelCount, maxSize), t.labelCount)
  {
    var ticks := TextSet(t.labelCount, maxSize);
    r := t.(ticks := ticks);
  }

  /** `DecreaseTicks` on a text axis: a set of more than one tick is
      rebuilt with a request one below its size, so it shrinks; a smaller
      set is left alone. */
  method DecreaseText(t: TextTicks) returns (r: TextTicks)
    ensures |t.ticks| > 1 ==> |r.ticks| < |t.ticks|
    ensures |t.ticks| <= 1 ==> r == t
    ensures r.labelCount == t.labelCount
  {
    if |t.ticks| > 1 {
      r := SetText(t, |t.ticks| - 1);
    } else {
      r := t;
    }
  }

  // ------------------------------------------------ numeric and time axes

  /** The tick list after `while(size > request) pop_back()`. */
  function Truncate(ticks: seq<real>, sizeRequest: nat): (r: seq<real>)
    ensures |r| <= sizeRequest && |r| <= |ticks|
    ensures r == ticks[..|r|]
    ensures |ticks| <= sizeRequest ==> r == ticks
    ensures |ticks| > sizeRequest ==> |r| == sizeRequest
  {
    if |ticks| > sizeRequest then ticks[..sizeRequest] else ticks
  }

  /** `NumericTickSet::set`: nothing for a non-finite range; the single
      value of an empty range; nothing for a zero request; otherwise the
      candidate positions cut to the request. */
  function NumericSet(finite: bool, min: real, max: real, sizeRequest: nat, candidates: seq<real>): (r: seq<real>)
    ensures !finite ==> r == []
    ensures finite && max == min ==> r == [min]
    ensures finite && max != min ==> |r| <= sizeRequest && |r| <= |candidates| && r == candidates[..|r|]
    ensures finite && max != min && sizeRequest > 0 ==> |r| == if |candidates| < sizeRequest then |candidates| else sizeRequest
  {
    if !finite then []
    else if max == min then [min]
    else if sizeRequest == 0 then []
    else Truncate(candidates, sizeRequest)
  }

  /** `TimeTickSet::set` (the range is finite, the constructor throws
      otherwise): the single value of an empty range, nothing for a zero
      request, otherwise the candidates cut to the request. */
  function TimeSet(min: real, max: real, sizeRequest: nat, candidates: seq<real>): (r: seq<real>)
    ensures max == min ==> r == [min]
    ensures max != min ==> |r| <= sizeRequest && |r| <= |candidates| && r == candidates[..|r|]
    ensures max != min && sizeRequest > 0 ==> |r| == if |candidates| < sizeRequest then |candidates| else sizeRequest
  {
    if max == min then [min]
    else if sizeRequest == 0 then []
    else Truncate(candidates, sizeRequest)
  }

  /** `DecreaseTicks` on a numeric axis: with more than one tick, the set
      rebuilt with a request one below its size is smaller, whatever
      candidate positions the new request's tick width yields (c2). */
  lemma DecreaseNumeric(finite: bool, min: real, max: real, sizeRequest: nat, candidates: seq<real>, c2: seq<real>)
    requires |NumericSet(finite, min, max, sizeRequest, candidates)| > 1
    ensures var size := |NumericSet(finite, min, max, sizeRequest, candidates)|;
      |NumericSet(finite, min, max, size - 1, c2)| < size
  {
  }

  /** The same for a time axis. */
  lemma DecreaseTime(min: real, max: real, sizeRequest: nat, candidates: seq<real>, c2: seq<real>)
    requires |TimeSet(min, max, sizeRequest, candidates)| > 1
    ensures var size := |TimeSet(min, max, sizeRequest, candidates)|;
      |TimeSet(min, max, size - 1, c2)| < size
  {
  }
}

=== FILE: uvector.dfy ===
/** `uvector`, a std::vector look-alike whose fresh elements are left
    uninitialized. A vector is its elements plus the capacity of its
    storage. Whatever freshly allocated storage happens to hold is a
    parameter (`garbage`): the model promises nothing about it. */
module UVector {

  import opened Results

  datatype UVec<T> = UVec(elems: seq<T>, capacity: nat) {
    predicate Valid() {
      |elems| <= capacity
    }

    function Size(): nat {
      |elems|
    }

    predicate Empty() {
      |elems| == 0
    }
  }

  /** The default constructor: no elements and no storage. */
  function Default<T>(): (v: UVec<T>)
    ensures v.Valid() && v.Empty() && v.capacity == 0
  {
    UVec([], 0)
  }

  /** `uvector(n)`: n uninitialized elements, capacity n. */
  function WithSize<T>(n: nat, garbage: seq<T>): (v: UVec<T>)
    requires |garbage| >= n
    ensures v.Valid() && v.Size() == n && v.capacity == n
  {
    UVec(garbage[..n], n)
  }

  /** `uvector(n, val)` as intended: n copies of val. */
  function Filled<T>(n: nat, val: T): (v: UVec<T>)
    ensures v.Valid() && v.Size() == n && v.capacity == n
    ensures forall i :: 0 <= i < n ==> v.elems[i] == val
  {
    UVec(seq(n, _ => val), n)
  }

  /** The copy constructor and the range and initializer-list constructors:
      the elements are copied and the capacity is exactly the size. */
  function FromSeq<T>(s: seq<T>): (v: UVec<T>)
    ensures v.Valid() && v.elems == s && v.capacity == |s|
  {
    UVec(s, |s|)
  }

  function Copy<T>(other: UVec<T>): (v: UVec<T>)
    ensures v.Valid() && v.elems == other.elems && v.capacity == other.Size()
  {
    FromSeq(other.elems)
  }

  /** `enlarge()`: new storage of 2*size+16 holding the same elements. */
  function Enlarge<T>(v: UVec<T>): (r: UVec<T>)
    ensures r.elems == v.elems
    ensures r.capacity == 2 * v.Size() + 16 && r.capacity > r.Size()
  {
    UVec(v.elems, 2 * v.Size() + 16)
  }

  function PushBack<T>(v: UVec<T>, item: T): (r: UVec<T>)
    requires v.Valid()
    ensures r.Valid()
    ensures r.Size() == v.Size() + 1 && r.elems[v.Size()] == item
    ensures r.elems[..v.Size()] == v.elems
    ensures r.capacity == if v.Size() == v.capacity then 2 * v.Size() + 16 else v.capacity
  {
    var w := if v.Size() == v.capacity then Enlarge(v) else v;
    UVec(w.elems + [item], w.capacity)
  }

  /** `pop_back` on an empty vector is undefined behaviour. */
  function PopBack<T>(v: UVec<T>): (r: UVec<T>)
    requires v.Valid() && !v.Empty()
    ensures r.Valid()
    ensures r.Size() + 1 == v.Size() && r.elems == v.elems[..r.Size()]
    ensures r.capacity == v.capacity
  {
    UVec(v.elems[..v.Size() - 1], v.capacity)
  }

  /** `operator[]` used for writing one element. */
  function Set<T>(v: UVec<T>, index: nat, item: T): (r: UVec<T>)
    requires v.Valid() && index < v.Size()
    ensures r.Valid() && r.Size() == v.Size() && r.capacity == v.capacity
    ensures r.elems[index] == item
    ensures forall i :: 0 <= i < v.Size() && i != index ==> r.elems[i] == v.elems[i]
  {
    UVec(v.elems[index := item], v.capacity)
  }

  /** `insert(position, item)`: returns the (possibly moved) position as an
      index. */
  function Insert<T>(v: UVec<T>, pos: nat, item: T): (r: (UVec<T>, nat))
    requires v.Valid() && pos <= v.Size()
    ensures r.0.Valid() && r.1 == pos
    ensures r.0.Size() == v.Size() + 1
    ensures r.0.elems[..pos] == v.elems[..pos]
    ensures r.0.elems[pos] == item
    ensures r.0.elems[pos + 1..] == v.elems[pos..]
  {
    var w := if v.Size() == v.capacity then Enlarge(v) else v;
    (UVec(w.elems[..pos] + [item] + w.elems[pos..], w.capacity), pos)
  }

  /** `resize(n)`: fresh storage of exactly n elements; the first
      min(n, size) are kept and the rest is whatever the storage held. */
  function Resize<T>(v: UVec<T>, n: nat, garbage: seq<T>): (r: UVec<T>)
    requires v.Valid() && |garbage| >= n
    ensures r.Valid() && r.Size() == n && r.capacity == n
    ensures n <= v.Size() ==> r.elems == v.elems[..n]
    ensures n > v.Size() ==> r.elems[..v.Size()] == v.elems
  {
    var keep := if n < v.Size() then n else v.Size();
    UVec(v.elems[..keep] + garbage[keep..n], n)
  }

  /** `reserve(n)`: capacity becomes n, even when that is below the size,
      in which case the vector is cut to n elements. */
  function Reserve<T>(v: UVec<T>, n: nat): (r: UVec<T>)
    requires v.Valid()
    ensures r.Valid() && r.capacity == n
    ensures r.Size() == if n < v.Size() then n else v.Size()
    ensures r.elems == v.elems[..r.Size()]
  {
    var keep := if n < v.Size() then n else v.Size();
    UVec(v.elems[..keep], n)
  }

  /** pop_back undoes push_back. */
  lemma PopBackPushBack<T>(v: UVec<T>, item: T)
    requires v.Valid()
    ensures PopBack(PushBack(v, item)).elems == v.elems
  {
  }

  /** Inserting at the end is pushing back. */
  lemma InsertAtEnd<T>(v: UVec<T>, item: T)
    requires v.Valid()
    ensures Insert(v, v.Size(), item).0 == PushBack(v, item)
  {
    assert v.elems[v.Size()..] == [];
  }

  /** Pushing the items of s one by one onto a vector appends s. */
  function PushAll<T>(v: UVec<T>, s: seq<T>): (r: UVec<T>)
    requires v.Valid()
    ensures r.Valid()
    decreases |s|
  {
    if |s| == 0 then v else PushAll(PushBack(v, s[0]), s[1..])
  }

  lemma {:induction false} PushAllAppends<T>(v: UVec<T>, s: seq<T>)
    requires v.Valid()
    ensures PushAll(v, s).elems == v.elems + s
    ensures PushAll(v, s).capacity >= v.capacity
    decreases |s|
  {
    if |s| > 0 {
      PushAllAppends(PushBack(v, s[0]), s[1..]);
      assert v.elems + s == (v.elems + [s[0]]) + s[1..];
    }
  }

  /** Resizing to a smaller size and back keeps the common prefix. */
  lemma ResizeKeepsPrefix<T>(v: UVec<T>, m: nat, n: nat, g1: seq<T>, g2: seq<T>)
    requires v.Valid() && |g1| >= m && |g2| >= n && m <= n && m <= v.Size()
    ensures Resize(Resize(v, m, g1), n, g2).elems[..m] == v.elems[..m]
  {
  }

  // -------------------------------------------------- fill for byte types

  type Byte = x: int | 0 <= x < 256

  /** The byte-sized branch of `fill` as written: memset(begin, n, val)
      passes the length as the fill value and the value as the length, so
      it writes `val` bytes of value n mod 256; more than n bytes run past
      the allocation (None). */
  function FillBytesAsWritten(n: nat, val: Byte, garbage: seq<Byte>): (r: Option<seq<Byte>>)
    requires |garbage| >= n
    ensures r.Some? <==> val <= n
    ensures r.Some? ==> |r.value| == n
    ensures r.Some? ==> forall i :: 0 <= i < val ==> r.value[i] == (n % 256) as Byte
    ensures r.Some? ==> forall i :: val <= i < n ==> r.value[i] == garbage[i]
  {
    if val > n then None
    else Some(seq(val, _ => (n % 256) as Byte) + garbage[val..n])
  }

  /** uvector<unsigned char>(3, 1) as written starts with 3, not 1. */
  lemma FillBytesAsWrittenWrong(garbage: seq<Byte>)
    requires |garbage| >= 3
    ensures FillBytesAsWritten(3, 1, garbage).Some?
    ensures FillBytesAsWritten(3, 1, garbage).value[0] == 3
    ensures FillBytesAsWritten(3, 1, garbage).value != Filled(3, 1 as Byte).elems
  {
    var r := FillBytesAsWritten(3, 1, garbage).value;
    assert r[0] == 3;
    assert Filled(3, 1 as Byte).elems[0] == 1;
  }

  /** uvector<unsigned char>(2, 5) as written writes five bytes into a
      two-byte allocation. */
  lemma FillBytesAsWrittenOverflows(garbage: seq<Byte>)
    requires |garbage| >= 2
    ensures FillBytesAsWritten(2, 5, garbage).None?
  {
  }

  /** memset(begin, val, n), the evidently intended call, fills every byte
      with val, which is what `Filled` gives for every element type. */
  function FillBytes(n: nat, val: Byte): (r: seq<Byte>)
    ensures |r| == n && forall i :: 0 <= i < n ==> r[i] == val
    ensures r == Filled(n, val).elems
  {
    seq(n, _ => val)
  }
}
